=== FILE: README.md ===
# insite-subscriptions-client, modelled in Dafny

The library keeps client-side replicas of server publications up to date.
A publication sends batches of small tagged operations, and three containers
apply them in place:

- `SubscriptionObject` is a single record. A payload replaces all of its fields, and a shadow of the last payload says which fields to delete next time.
- `SubscriptionArray` is an ordered list of scalars. Its operations are `i` (replace), `a` (add if absent), `d` (remove the first occurrence) and anything else (clear). It can keep an ascending or descending order.
- `SubscriptionMap` is a keyed collection of item objects indexed by `_id`. Its operations are `i`, `c`/`u` (atomic or replacing patches) and `d`, and anything else clears it. It keeps a shadow of the last payload per `_id`, a `sorted` view, and a comparator built from a sort list.

Each `update` returns a changeset (the touched elements plus `added` and
`deleted`) and calls the container's handler once.

`SubscriptionGroup` combines several such containers, its items. Each item
reports its container's batches to the group. The group is loaded once every
item has data, initialised once every item has reported, and unloaded once no
item has data. On load it binds the item values to a target object, and it
debounces the update notifications of its items.

Each source file becomes one part of the model:

- `values.dfy` holds the shared values, such as records, the handler argument and `removeOne`.
- `sorting.dfy` holds the stable sort the containers use.
- `subscription_object.dfy`, `subscription_array.dfy` and `subscription_map*.dfy` hold the three containers. Each has a reference semantics (a state datatype, one step per operation and the batch as a fold), a class whose methods update the object in place and are proved equal to that semantics, and lemmas stating what the source promises.
- The group is split across seven files:
  - `group_definition.dfy`: the definition parser;
  - `group_changes.dfy`: the debounced changeset accumulator;
  - `group_items.dfy`: the items and the per-item steps;
  - `group_spec.dfy`: the reference semantics of the group;
  - `group_props.dfy` and `group_laws.dfy`: the promises about it, including the invariant every operation keeps;
  - `group_class.dfy`: the `SubscriptionGroup` class, whose methods run the source's loops over the member array.

The repository ships the TypeScript sources (`src/`) and a JavaScript build
of the same classes (`lib/`), whose behaviour differs in places. Every
operation takes a `Variant` (`Src` or `Lib`). A `Lib` difference is modelled
where the build throws or behaves differently, and the table names the lines
of the build.

Emitted events, handler calls and promise resolutions are recorded in a ghost
event log or as "settled" flags.

## Model

| member | source | states |
|---|---|---|
| Values.HandlerArg | src/SubscriptionArray.ts:138 | the handler's third argument is the batch exactly when the batch has a truthy first entry; otherwise `null` in the sources, and in the JavaScript build (lib/SubscriptionArray.js:111) `undefined` for a missing or empty batch and `null` for a `null` first entry |
| Values.ReplaceFields | src/SubscriptionObject.ts:48-51 | after deleting the previous payload's keys and assigning the new payload, the keys are the old ones minus the previous payload's plus the new payload's, and every new key holds the new value |
| Values.ReplaceFieldsIdempotent | src/SubscriptionObject.ts:46-52 | replacing a second time with the same payload changes nothing |
| Values.ReplaceFieldsOfShadowed | src/SubscriptionObject.ts:46-52 | when every field came from the previous payload, the object ends up holding exactly the new payload |
| Values.RemoveOne | src/SubscriptionGroup/SubscriptionGroupItem.ts:259-261 | `removeOne` drops exactly one occurrence (length one less, multiset minus that element) when the element is present and leaves the sequence unchanged otherwise |
| SubscriptionObjects.PayloadKeys | src/SubscriptionObject.ts:48-49 | `for (key in prev)` visits no key of `null` and exactly the keys of a payload |
| SubscriptionObjects.UpdatesOf | src/SubscriptionObject.ts:61-63 | `getAsUpdates()` is `null` exactly when no payload arrived, and otherwise equals the object's fields when the object mirrors its payload |
| SubscriptionObjects.ApplyReplacesWholesale | src/SubscriptionObject.ts:46-54 | `update` keeps the object mirroring its last payload: a payload becomes the whole field set, `null` clears the object |
| SubscriptionObjects.ForeignFieldSurvives | src/SubscriptionObject.ts:48-51 | a field the previous payload did not bring and the new one does not mention keeps its value: only the previous payload's keys are deleted |
| SubscriptionObjects.ApplyIdempotent | src/SubscriptionObject.ts:46-59 | applying the same payload (or `null`) twice is the same as applying it once |
| SubscriptionObjects.ReplayRestores | src/SubscriptionObject.ts:61-63 | feeding `getAsUpdates()` to a new object rebuilds the same object |
| SubscriptionObjects.EmptyPayloadStaysLoaded | src/SubscriptionObject.ts:46-54 | an empty payload is truthy (line 47): it empties the fields but the payload stays `{}`, so `valueOf()` is the object and not `null` (lines 77-79) |
| SubscriptionObjects.SubscriptionObject.constructor | src/SubscriptionObject.ts:25-32 | a new object mirrors its payload; the initial payload is applied (and the handler called once) only when it is given |
| SubscriptionObjects.SubscriptionObject.WithSubscription | src/SubscriptionObject.ts:100-109 | the subscribing object starts empty with its publication name and parameters, and holds one subscription exactly when `immediately` |
| SubscriptionObjects.SubscriptionObject.Clear | src/SubscriptionObject.ts:69-75 | `clear()` removes every own field and forgets the payload; the handler, subscription and parameters are untouched |
| SubscriptionObjects.SubscriptionObject.DeleteKeys | src/SubscriptionObject.ts:48-49 | the delete loop removes exactly the previous payload's keys and nothing else |
| SubscriptionObjects.SubscriptionObject.AssignFields | src/SubscriptionObject.ts:50-51 | the assign loop leaves the old fields overridden by the payload's |
| SubscriptionObjects.SubscriptionObject.Update | src/SubscriptionObject.ts:46-59 | `update` leaves the state `Apply` computes, keeps a mirroring object mirroring, and calls the handler once with the new fields and payload when there is a handler |
| SubscriptionObjects.SubscriptionObject.GetAsUpdates | src/SubscriptionObject.ts:61-63 | `null` exactly when no payload arrived; otherwise the object's fields when it mirrors its payload |
| SubscriptionObjects.SubscriptionObject.ValueOf | src/SubscriptionObject.ts:77-79 | `valueOf()` (what `getAsInitialUpdated()` at lines 65-67 returns) is `null` exactly before the first payload and the object itself after |
| SubscriptionObjects.SubscriptionObject.Subscribe | src/SubscriptionObject.ts:115-120 | `subscribe()` creates a subscription only when there is none, and the object is subscribed afterwards |
| SubscriptionObjects.SubscriptionObject.Unsubscribe | src/SubscriptionObject.ts:122-129 | `unsubscribe()` leaves the object without a subscription and creates none |
| SubscriptionObjects.SubscriptionObject.Renew | src/SubscriptionObject.ts:131-148 | `renew` acts only while subscribed: then it resubscribes once, taking an array first argument as the parameters and ignoring an empty name; the fields are untouched |
| Sorting.Insert | src/SubscriptionArray.ts:132-133 | one insertion step of the engine's stable sort: the result holds the same elements plus the inserted one |
| Sorting.Sort | src/SubscriptionArray.ts:132-133 | `array.sort(compare)` returns a permutation of its input (same multiset, same length) |
| Sorting.InsertSorted | src/SubscriptionArray.ts:132-133 | inserting into an adjacent-sorted sequence keeps it adjacent-sorted, for any antisymmetric comparator |
| Sorting.SortSorted | src/SubscriptionArray.ts:132-133 | after the model's `sort(compare)` every adjacent pair is in comparator order, for any antisymmetric comparator (the engine promises this only for a consistent one) |
| Sorting.SortOfSorted | src/SubscriptionArray.ts:132-133 | the model's stable sort leaves a sequence already in comparator order unchanged |
| Sorting.RemoveKeepsSorted | src/SubscriptionMap.ts:268 | removing one element from a sorted sequence keeps the others in order when its neighbours compare in order |
| SubscriptionArrays.ComparatorsOrder | src/SubscriptionArray.ts:38-39 | `ascSort` says "not after" exactly for `<=` and `descSort` exactly for `>=`; both are antisymmetric and return 0 only for equal items |
| SubscriptionArrays.UpdatesOf | src/SubscriptionArray.ts:145-151 | `getAsUpdates()` is `null` exactly for an empty list with no sort direction, and otherwise one `i` operation carrying the items and the direction |
| SubscriptionArrays.SortEstablishesOrder | src/SubscriptionArray.ts:132-133 | the end-of-batch sort puts every pair of items in the order of the installed comparator and is a permutation |
| SubscriptionArrays.RemoveOneKeepsOrder | src/SubscriptionArray.ts:119-126 | a `d` operation on a sorted list keeps it sorted |
| SubscriptionArrays.StepKeepsLoopInvariant | src/SubscriptionArray.ts:80-130 | each operation keeps direction and comparator in agreement, keeps the list in comparator order unless a sort is already requested, and keeps `updated` equal to `updated.added` |
| SubscriptionArrays.RunOpsKeepsLoopInvariant | src/SubscriptionArray.ts:80-130 | the whole `for` loop over a batch keeps that invariant |
| SubscriptionArrays.ApplyKeepsSortInvariant | src/SubscriptionArray.ts:70-141 | after any batch a list with a non-zero `sortDirection` is in the order of its comparator, and the changeset's items are exactly its `added` items |
| SubscriptionArrays.ThrowsOnlyInLib | lib/SubscriptionArray.js:104-106 | `update` throws exactly in the JavaScript build, when a sort was requested and a later operation dropped the comparator (`sort(null)`); the sources guard the call |
| SubscriptionArrays.AddNeverDuplicates | src/SubscriptionArray.ts:105-117 | `a` never creates a duplicate, the item is present afterwards, and it is reported as added exactly when it was appended |
| SubscriptionArrays.DeleteRemovesFirst | src/SubscriptionArray.ts:119-126 | `d` removes exactly the first occurrence when present (multiset minus the item) and nothing otherwise, and reports the item as deleted exactly when it was present |
| SubscriptionArrays.UnrecognizedClearsThenContinues | src/SubscriptionArray.ts:128-129 | an entry with another tag (or `null`) empties the list and resets the sort without reporting deletions; the operations after it still apply |
| SubscriptionArrays.NullBatchClears | src/SubscriptionArray.ts:135-138 | a `null` batch empties the list, reports no change and passes `null` (the JavaScript build: `undefined`) to the handler |
| SubscriptionArrays.EmptyBatchLooksLikeNull | src/SubscriptionArray.ts:138 | an empty batch changes nothing, yet the handler receives the same third argument as for a `null` batch |
| SubscriptionArrays.ReplayRestores | src/SubscriptionArray.ts:145-151 | replaying `getAsUpdates()` into a new list reproduces its items, direction and comparator |
| SubscriptionArrays.InitialAscendingScenario | src/SubscriptionArray.ts:82-103 | `[["i", [3, 1, 2], 1]]` on a new list leaves `[1, 2, 3]` ascending, while the changeset lists `[3, 1, 2]` in arrival order |
| SubscriptionArrays.SubscriptionArray.constructor | src/SubscriptionArray.ts:43-52 | a new list is sort-consistent; without a batch it is empty and the handler is not called; with one (even empty) it holds what `update` gives and the handler is called once, unless the JavaScript build's sort throws |
| SubscriptionArrays.SubscriptionArray.WithSubscription | src/SubscriptionArray.ts:195-204 | the subscribing list starts empty with its publication name and parameters and holds one subscription exactly when `immediately` |
| SubscriptionArrays.SubscriptionArray.Clear | src/SubscriptionArray.ts:164-170 | `clear()` empties the list and resets direction and comparator; nothing else changes |
| SubscriptionArrays.SubscriptionArray.ApplyOp | src/SubscriptionArray.ts:81-130 | one pass of the `switch`, run in place, ends in the state, `shouldSort` flag and changeset `Step` describes, and touches nothing else |
| SubscriptionArrays.SubscriptionArray.Update | src/SubscriptionArray.ts:70-141 | `update` ends in the state `Apply` describes, throws exactly when `Apply` does, calls the handler once with the changeset and marker when it returns, and keeps the sort invariant |
| SubscriptionArrays.SubscriptionArray.GetAsUpdates | src/SubscriptionArray.ts:145-151 | `null` exactly for an empty list with no direction, otherwise one `i` operation rebuilding the list |
| SubscriptionArrays.SubscriptionArray.GetAsInitialUpdated | src/SubscriptionArray.ts:155-160 | in the sources the changeset is always empty, since `sorted` is never filled; the JavaScript build (lib/SubscriptionArray.js:128-133) has no `sorted` and throws |
| SubscriptionArrays.SubscriptionArray.Subscribe | src/SubscriptionArray.ts:210-215 | creates a subscription only when there is none; subscribed afterwards |
| SubscriptionArrays.SubscriptionArray.Unsubscribe | src/SubscriptionArray.ts:221-228 | leaves the list without a subscription |
| SubscriptionArrays.SubscriptionArray.Renew | src/SubscriptionArray.ts:234-251 | acts only while subscribed: resubscribes once with the new name (an empty one ignored) or, for an array first argument, the new parameters |
| SubscriptionMaps.CompareBy | src/SubscriptionMap.ts:44-63 | the generated comparator on two item objects returns -1, 0 or 1, and 0 exactly when every listed key ties: `_id` compares the ids as strings, any other key the field values, and a field missing on a side ties |
| SubscriptionMaps.IdDecides | src/SubscriptionMap.ts:48-52 | with `_id` first in the sort list, the item with the smaller id comes first for a positive direction and last otherwise |
| SubscriptionMaps.CompareByTransitive | src/SubscriptionMap.ts:48-52 | among items holding every sort field the comparator is consistent: "not above" is transitive |
| SubscriptionMaps.MissingFieldInconsistent | src/SubscriptionMap.ts:48-52 | an item lacking a sort field ties with two items that the comparator orders, so the comparator is then inconsistent |
| SubscriptionMaps.CompareByFirstDifference | src/SubscriptionMap.ts:48-52 | the first listed field that does not tie decides: ascending for a positive direction, descending otherwise |
| SubscriptionMaps.CompareByAntisymmetric | src/SubscriptionMap.ts:48-52 | swapping the two items negates the comparison |
| SubscriptionMaps.CutAtDot | src/SubscriptionMap.ts:154 | `key.replace(/\..+/, "")` removes the first dot followed by a character other than a line terminator, with the rest of its line; a key with no such dot stays whole, and a one-line key is cut to the prefix before that dot |
| SubscriptionMaps.CutAtDotStopsAtLineBreak | src/SubscriptionMap.ts:154 | a dot before a line break starts no match, and a match ends at the next line break |
| SubscriptionMaps.FieldsToSort | src/SubscriptionMap.ts:154 | `fieldsToSort` has no repetitions and holds exactly the cut keys of the sort list |
| SubscriptionMaps.UpdatesOf | src/SubscriptionMap.ts:292-298 | `getAsUpdates()` is `null` exactly for an empty map without a sort list, and otherwise one `i` operation carrying the stored payloads and the sort list |
| SubscriptionMaps.ReconcileKeepsSorted | src/SubscriptionMap.ts:162-200 | the two loops of an `i` on a non-empty map leave `sorted`, the sort settings, the item class and `shouldSort` alone |
| SubscriptionMaps.StepKeepsValid | src/SubscriptionMap.ts:146-277 | every operation keeps the map and the stored payloads over the same `_id`s in the same order, each entry's item and payload carrying its `_id`, and `sorted` referring only to existing items |
| SubscriptionMaps.ApplyKeepsValid | src/SubscriptionMap.ts:133-288 | after any `update`, including a `null` batch and the final sort, the invariant above still holds and the map and the stored payloads list the same `_id`s |
| SubscriptionMapProperties.UpsertExisting | src/SubscriptionMap.ts:223-242 | `c`/`u` on a present `_id` patches that same item object and no other: a plain item given a non-atomic payload loses the previous payload's fields first, an atomic patch or a `SubscriptionMapItem` only assigns; the stored payload is merged for an atomic patch and replaced otherwise; the item is reported as affected |
| SubscriptionMapProperties.NonAtomicPatchReplaces | src/SubscriptionMap.ts:230-236 | when plain items mirror their payloads, a non-atomic `c`/`u` leaves the item holding exactly the new payload's fields |
| SubscriptionMapProperties.UpsertNew | src/SubscriptionMap.ts:243-253 | `c`/`u` on an absent `_id` creates a fresh item object, appends it to the map, the stored payloads and `sorted`, lists it in the changeset and as added, and asks for a sort exactly when a sort list is set |
| SubscriptionMapProperties.RemoveEffect | src/SubscriptionMap.ts:258-273 | `d` on a present `_id` drops it from the map and the stored payloads, removes one occurrence of its item from `sorted` and reports the `_id` as deleted; on an absent `_id` nothing changes |
| SubscriptionMapProperties.NullBatchClears | src/SubscriptionMap.ts:275-285 | a `null` batch empties the map, the stored payloads, `sorted` and the sort settings, reports nothing and passes `null` (JavaScript build: `undefined`) to the handler; an unrecognised entry clears the same way |
| SubscriptionMapProperties.ApplyKeepsMirrors | src/SubscriptionMap.ts:172-181 | while no item class is set, every item object holds exactly the fields of its last payload after any batch |
| SubscriptionMapProperties.SetItemClassEffect | src/SubscriptionMap.ts:120-127 | setting `Item` keeps the `_id`s, their order and every item's fields, and gives every entry a new item object; `sorted` is not rebuilt and afterwards refers to none of the map's objects |
| SubscriptionMapProperties.PushAllContents | src/SubscriptionMap.ts:205-213 | `i` on an empty map, with payloads of distinct `_id`s, appends exactly those payloads to what the map holds, in their order |
| SubscriptionMapProperties.ShadowIsContents | src/SubscriptionMap.ts:292-298 | with plain items, the stored payloads list exactly the map's `_id`s with their fields, in map order, without repeated `_id`s |
| SubscriptionMapProperties.InitialOnEmpty | src/SubscriptionMap.ts:148-213 | an `i` on a new collection installs the sort list and then pushes every payload as a new item |
| SubscriptionMapProperties.InitialIntoEmpty | src/SubscriptionMap.ts:148-216 | an `i` with distinct `_id`s applied to a new collection returns normally and leaves exactly those payloads and that sort list |
| SubscriptionMapProperties.ReplayRestores | src/SubscriptionMap.ts:292-298 | with plain items, `getAsUpdates()` lists what the map holds, and replaying it into a new collection rebuilds the same `_id`s in the same order with the same fields and the same sort list |
| SubscriptionMapProperties.SortRequested | src/SubscriptionMap.ts:151-155 | `shouldSort` is never lowered and is raised exactly by an `i` with a sort list, or (lines 241-248), while a sort list is set, by a `c`/`u` that creates an item or touches a sorted field |
| SubscriptionMapProperties.BatchRequestsSort | src/SubscriptionMap.ts:141-277 | a batch asks for the final sort exactly when one of its operations does, judged on the state that operation meets |
| SubscriptionMapProperties.ApplySortsAtEnd | src/SubscriptionMap.ts:279-280 | the sort happens once, after the last operation, only if asked; with a sort list `sorted` ends in comparator order (by the model's sort) and holds the same items; without one the sources leave `sorted` as it is and the JavaScript build (lib/SubscriptionMap.js:56-58) throws |
| SubscriptionMapProperties.LibThrowsAfterSortListDropped | lib/SubscriptionMap.js:56-58 | in the JavaScript build an `i` with a sort list followed in the same batch by one without makes `update` throw, while the sources return |
| SubscriptionMapProperties.StaleSortedScenario | src/SubscriptionMap.ts:162-203 | on a non-empty map an `i` without a sort list does not rebuild `sorted`: with `a` in the map, `i` with just `b` leaves `b` in the map and `sorted` referring only to `a`'s old item |
| SubscriptionMapProperties.Unmatched | src/SubscriptionMap.ts:184-191 | the `_id`s an `i` deletes are exactly the map's keys without a payload, in map order |
| SubscriptionMapProperties.CollectKeys | src/SubscriptionMap.ts:163-165 | `updatesMap` holds exactly the `_id`s of the payloads |
| SubscriptionMapProperties.ReconcileEffect | src/SubscriptionMap.ts:167-192 | the first loop keeps every matched `_id` with its item object and removes it from `pending`, and deletes every unmatched one, listing it in `deleted` in map order |
| SubscriptionMapProperties.AddPendingEffect | src/SubscriptionMap.ts:194-200 | the second loop gives every `_id` left in `pending` a fresh item object listed as added, and keeps the existing entries' items |
| SubscriptionMapProperties.IdSortScenario | src/SubscriptionMap.ts:48-52 | sorting by `{_id: 1}` puts an item created for "b" and then one for "a" in the order "a", "b" |
| SubscriptionMapProperties.ReconcileElems | src/SubscriptionMap.ts:166-182 | the first loop of an `i` lists each matched item object in the changeset, in map order |
| SubscriptionMapProperties.AddPendingElems | src/SubscriptionMap.ts:194-200 | the second loop lists each new item object in the changeset and as added, in the same order, all of them fresh |
| SubscriptionMapProperties.InitialElems | src/SubscriptionMap.ts:162-200 | the changeset of an `i` on a non-empty map is the matched item objects in map order followed by the new ones, which are exactly the ones added |
| SubscriptionMapProperties.InitialMatches | src/SubscriptionMap.ts:163-192 | after the first loop the map holds the old `_id`s that have a payload, `pending` holds exactly the new ones without repetition, and `deleted` lists the rest in map order |
| SubscriptionMapProperties.InitialPasses | src/SubscriptionMap.ts:162-200 | after both loops the map holds exactly the payloads' `_id`s: matched ones keep their item object, new ones get fresh objects listed as added, unmatched ones are listed as deleted; the changeset lists the matched items in map order, then the new ones |
| SubscriptionMapProperties.InitialNonEmpty | src/SubscriptionMap.ts:148-204 | an `i` on a non-empty map: the above, changeset included, plus `sorted` rebuilt in payload order only when the operation carries a sort list, and that sort list installed |
| SubscriptionMapProperties.InitialContents | src/SubscriptionMap.ts:161-200 | an `i` on a non-empty map, item by item: the keys end as the matched ones in their old order followed by the new ones in `updatesMap` order; every payload's `_id` stores its payload; a matched plain item object has lost the previous payload's fields and taken the new ones, a matched `SubscriptionMapItem` has only assigned them, and a new item object holds exactly its payload |
| SubscriptionMapProperties.PassesOrder | src/SubscriptionMap.ts:166-199 | after both loops the keys are the matched old keys in map order, then the unmatched payload `_id`s in `updatesMap` order |
| SubscriptionMapProperties.PassesPayload | src/SubscriptionMap.ts:166-199 | after both loops one payload's `_id` is in the map with its payload stored; its item object took the payload if it was matched and holds exactly the payload if it is new |
| SubscriptionMapProperties.CollectLastWins | src/SubscriptionMap.ts:162-164 | in `updatesMap` an `_id` maps to the last payload carrying it |
| SubscriptionMapProperties.CollectKeepsOthers | src/SubscriptionMap.ts:162-164 | collecting payloads leaves a key that none of them carries as it was |
| SubscriptionMapProperties.DeleteKeepsOrder | src/SubscriptionMap.ts:182-186 | `Map.delete` removes one key and keeps the others in their insertion order |
| SubscriptionMapProperties.ReconcileOneMaps | src/SubscriptionMap.ts:167-190 | one step of the first loop: a matched key leaves `updatesMap` and stays in the map, an unmatched key leaves the map |
| SubscriptionMapProperties.PassesEntries | src/SubscriptionMap.ts:162-200 | after both loops the keys are exactly the payloads' `_id`s; a kept key keeps its item object, a new key gets a fresh object listed as added, and the keys no payload names are listed as deleted in map order |
| SubscriptionMapProperties.ReconcileOneLeftover | src/SubscriptionMap.ts:166-190 | one step of the first loop removes only the visited key from `updatesMap`, keeping the order and payloads of the rest, and drops no other key of the map |
| SubscriptionMapProperties.ReconcileOrder | src/SubscriptionMap.ts:166-190 | the first loop keeps the matched keys in their order and closes the gaps of the deleted ones |
| SubscriptionMapProperties.ReconcileLeftover | src/SubscriptionMap.ts:166-190 | the first loop leaves in `updatesMap` exactly the payloads whose `_id` is not a key of the map, in their order and unchanged |
| SubscriptionMapProperties.OwnedReconcileOne | src/SubscriptionMap.ts:167-190 | one step of the first loop keeps every entry's item object carrying the entry's `_id` |
| SubscriptionMapProperties.ReconcileOneKeeps | src/SubscriptionMap.ts:167-190 | one step of the first loop leaves every other key's item object, fields and stored payload untouched |
| SubscriptionMapProperties.ReconcileOneTakes | src/SubscriptionMap.ts:168-182 | a matched key keeps its item object, which takes the payload (a plain object after losing the stored payload's fields), and the payload is stored |
| SubscriptionMapProperties.ReconcileFrame | src/SubscriptionMap.ts:166-190 | the first loop leaves a key it does not visit untouched |
| SubscriptionMapProperties.ReconcileFields | src/SubscriptionMap.ts:166-183 | after the first loop a matched key keeps its item object, which has taken its payload, and the payload is stored |
| SubscriptionMapProperties.AddPendingOrder | src/SubscriptionMap.ts:193-199 | the second loop appends the new `_id`s in `updatesMap` order |
| SubscriptionMapProperties.AddOneKeeps | src/SubscriptionMap.ts:194-197 | a new item object gets a fresh handle and holds exactly its payload, which is stored; the entries already there are untouched |
| SubscriptionMapProperties.AddPendingFields | src/SubscriptionMap.ts:193-199 | after the second loop every new `_id` has an item object holding exactly its payload, and the payload is stored |
| SubscriptionMapProperties.AddPendingFrame | src/SubscriptionMap.ts:193-199 | the second loop leaves the entries already in the map untouched |
| SubscriptionMapContainer.SubscriptionMap.constructor | src/SubscriptionMap.ts:80-89 | a new collection is valid; without a batch it is empty and the handler is not called; with one it holds what `update` gives on an empty collection and the handler is called once, unless the JavaScript build's sort throws |
| SubscriptionMapContainer.SubscriptionMap.WithSubscription | src/SubscriptionMap.ts:346-355 | a collection with a subscription starts empty with a handler and its publication name and parameters, subscribed exactly when `immediately` |
| SubscriptionMapContainer.SubscriptionMap.Clear | src/SubscriptionMap.ts:311-320 | `clear()` empties the map, the stored payloads, `sorted` and the sort settings and touches nothing else |
| SubscriptionMapContainer.SubscriptionMap.Sort | src/SubscriptionMap.ts:103-108 | with a comparator, `sorted` becomes the model's stably sorted permutation of itself; without one the sources do nothing and the JavaScript build (lib/SubscriptionMap.js:56-58) throws a TypeError |
| SubscriptionMapContainer.SubscriptionMap.SetItemClass | src/SubscriptionMap.ts:120-127 | the `Item` setter's loop leaves the state the reference rewrap computes |
| SubscriptionMapContainer.SubscriptionMap.RewrapItem | src/SubscriptionMap.ts:124-125 | one entry gets a new item object with a copy of the old one's fields |
| SubscriptionMapContainer.SubscriptionMap.ReviseItem | src/SubscriptionMap.ts:228-236 | an existing item takes a payload exactly as the reference semantics say, deleting the previous payload's fields first only when asked |
| SubscriptionMapContainer.SubscriptionMap.NewItem | src/SubscriptionMap.ts:244 | a fresh item object holding the payload, under the next handle, and nothing else changes |
| SubscriptionMapContainer.SubscriptionMap.UpsertItem | src/SubscriptionMap.ts:218-256 | `c`/`u` in place leaves the state, `shouldSort` and the changeset the reference step computes |
| SubscriptionMapContainer.SubscriptionMap.PatchItem | src/SubscriptionMap.ts:223-242 | `c`/`u` on a present `_id`, in place, agrees with the reference step |
| SubscriptionMapContainer.SubscriptionMap.InsertItem | src/SubscriptionMap.ts:243-253 | `c`/`u` on an absent `_id`, in place, agrees with the reference step |
| SubscriptionMapContainer.SubscriptionMap.RemoveItem | src/SubscriptionMap.ts:258-273 | `d` in place agrees with the reference step |
| SubscriptionMapContainer.SubscriptionMap.CollectPayloads | src/SubscriptionMap.ts:163-165 | the loop building `updatesMap` computes the reference collection of payloads |
| SubscriptionMapContainer.SubscriptionMap.ReconcileItems | src/SubscriptionMap.ts:167-192 | the first loop of an `i`, in place, agrees with the reference reconciliation |
| SubscriptionMapContainer.SubscriptionMap.ReconcileItem | src/SubscriptionMap.ts:168-191 | one pass of that loop agrees with the reference pass |
| SubscriptionMapContainer.SubscriptionMap.AddItem | src/SubscriptionMap.ts:195-199 | one leftover payload becomes a new entry under the next handle, as the reference says |
| SubscriptionMapContainer.SubscriptionMap.AddPendingItems | src/SubscriptionMap.ts:194-200 | the second loop of an `i`, in place, agrees with the reference |
| SubscriptionMapContainer.SubscriptionMap.PushItems | src/SubscriptionMap.ts:206-213 | the loop of an `i` on an empty map, in place, agrees with the reference |
| SubscriptionMapContainer.SubscriptionMap.ItemsOf | src/SubscriptionMap.ts:203 | the rebuilt `sorted` is the payloads' items looked up in the map, in payload order |
| SubscriptionMapContainer.SubscriptionMap.InitialItems | src/SubscriptionMap.ts:148-216 | `i` in place agrees with the reference step |
| SubscriptionMapContainer.SubscriptionMap.ApplyOp | src/SubscriptionMap.ts:147-277 | one pass of the `switch`, in place, agrees with the reference step |
| SubscriptionMapContainer.SubscriptionMap.ApplyOps | src/SubscriptionMap.ts:141-278 | the loop of `update` over one batch leaves the state, the sort flag and the changeset that folding the reference step over the batch computes, and leaves the handler, its calls and the subscription alone |
| SubscriptionMapContainer.SubscriptionMap.Update | src/SubscriptionMap.ts:133-288 | `update` leaves the state the reference semantics compute, throws exactly when they do (JavaScript build only), calls the handler once with the changeset and the batch-or-`null` when it returns, keeps the invariant and leaves the subscription alone |
| SubscriptionMapContainer.SubscriptionMap.GetAsUpdates | src/SubscriptionMap.ts:292-298 | `null` exactly for an empty map without a sort list; otherwise one `i` with the stored payloads and the sort list |
| SubscriptionMapContainer.SubscriptionMap.GetAsInitialUpdated | src/SubscriptionMap.ts:302-307 | a changeset listing every item of `sorted` as affected and as added, with nothing deleted |
| SubscriptionMapContainer.SubscriptionMap.Subscribe | src/SubscriptionMap.ts:362-367 | afterwards subscribed; a subscription is created only when there was none; the collection is untouched |
| SubscriptionMapContainer.SubscriptionMap.Unsubscribe | src/SubscriptionMap.ts:373-380 | afterwards not subscribed, nothing created, the collection untouched |
| SubscriptionMapContainer.SubscriptionMap.Renew | src/SubscriptionMap.ts:386-403 | only while subscribed: one new subscription, an array first argument taken as the parameters, an empty name ignored; otherwise nothing changes |
| GroupDefinitions.ParseTuple | src/SubscriptionGroup/SubscriptionGroup.ts:32-62 | a parsed tuple keeps its name, and holds a value exactly when the element after the name is a non-null object that is not an array (so never a `SubscriptionArray`) |
| GroupDefinitions.Parse | src/SubscriptionGroup/SubscriptionGroup.ts:64-67 | an object-form definition always parses and keeps its name; the sources give it type `"object"` when it has none, while the JavaScript build (lib/SubscriptionGroup/SubscriptionGroup.js:41) returns it unchanged |
| GroupDefinitions.ParseRender | src/SubscriptionGroup/SubscriptionGroup.ts:32-62 | round trip: for every definition a tuple can express (a value other than a `SubscriptionArray`), parsing the tuple written from it gives the definition back, in both builds (the number goes to `debounce` in the sources and to `debounceLimit` in the JavaScript build) |
| GroupDefinitions.ParseRenderValue | src/SubscriptionGroup/SubscriptionGroup.ts:39-43 | the round trip for a definition holding a `SubscriptionObject` or `SubscriptionMap` value: the value and its derived type are read back, followed by the trailing elements |
| GroupDefinitions.ArrayContainerIsParams | src/SubscriptionGroup/SubscriptionGroup.ts:39-51 | a `SubscriptionArray` after the name passes `Array.isArray`, so it becomes the parameters, with no value, type or publication name |
| GroupDefinitions.ParseRenderFields | src/SubscriptionGroup/SubscriptionGroup.ts:44-51 | the round trip for a definition without a value: type, publication name and parameters are read back, followed by the trailing elements |
| GroupDefinitions.ParseHeadRender | src/SubscriptionGroup/SubscriptionGroup.ts:45-50 | the optional type string, publication name and parameter array are taken back in that order, each only when present |
| GroupDefinitions.ParseTailRender | src/SubscriptionGroup/SubscriptionGroup.ts:53-60 | the trailing handle, `onBeforeInit`, debounce number and `preventBind` are taken back in that order, each only when present |
| GroupDefinitions.TakeStringRender | src/SubscriptionGroup/SubscriptionGroup.ts:45-46 | a present string is shifted off; an absent one takes nothing when no string follows |
| GroupDefinitions.TakeArrayRender | src/SubscriptionGroup/SubscriptionGroup.ts:49-50 | a present array is shifted off; an absent one takes nothing when no array follows |
| GroupDefinitions.TakeFunctionRender | src/SubscriptionGroup/SubscriptionGroup.ts:53-56 | a present function is shifted off; an absent one takes nothing when no function follows |
| GroupDefinitions.PositionsDecide | src/SubscriptionGroup/SubscriptionGroup.ts:45-56 | positions decide: a lone string after the name is the type and never the publication name, and a lone function is the handle and never `onBeforeInit` |
| GroupDefinitions.UnknownValueRefused | src/SubscriptionGroup/SubscriptionGroup.ts:39-43 | a value whose `toString()` names no subscription class throws `Error("Unknown value type")` in the sources and a `TypeError` in the JavaScript build (lib/SubscriptionGroup/SubscriptionGroup.js:16-20); a `null` value throws a `TypeError` in both |
| GroupDefinitions.LibTupleDebounceIgnored | lib/SubscriptionGroup/SubscriptionGroup.js:33-34 | in the JavaScript build a tuple's debounce number never reaches `debounce`, so every tuple-defined item gets the default delay |
| GroupChangesets.Accumulate | src/SubscriptionGroup/SubscriptionGroupItem.ts:159-181 | an `undefined` changeset leaves the window as it is; a list changeset is appended after the pending elements (the sources keep the `added`/`deleted` of a window's first changeset, while the JavaScript build at lib/SubscriptionGroup/SubscriptionGroupItem.js:120-139 keeps a plain array); object fields are merged in, each key taking the new value |
| GroupChangesets.FoldLists | src/SubscriptionGroup/SubscriptionGroupItem.ts:161-169 | within one window, list changesets concatenate in arrival order; the sources keep only the first changeset's `added` and `deleted`, and the JavaScript build keeps neither |
| GroupChangesets.FoldListsFrom | src/SubscriptionGroup/SubscriptionGroupItem.ts:162-164 | list changesets arriving on a pending list only append their elements |
| GroupChangesets.FoldRecords | src/SubscriptionGroup/SubscriptionGroupItem.ts:170-174 | within one window, object changesets merge field by field: each field holds the value of the last changeset that has it |
| GroupChangesets.FoldRecordsFrom | src/SubscriptionGroup/SubscriptionGroupItem.ts:171-172 | object changesets arriving on pending fields are merged over them in order |
| GroupChangesets.MergedLastWins | src/SubscriptionGroup/SubscriptionGroupItem.ts:172 | `Object.assign` in sequence: the last changeset holding a field decides its value |
| GroupChangesets.MergedLacks | src/SubscriptionGroup/SubscriptionGroupItem.ts:170-174 | a field no changeset holds is not among the merged fields |
| GroupChangesets.FoldSkipsNothing | src/SubscriptionGroup/SubscriptionGroupItem.ts:160 | calls that pass nothing, such as the group's own `item.emitUpdate()`, leave the pending changeset as it was |
| GroupItems.EmitUpdate | src/SubscriptionGroup/SubscriptionGroupItem.ts:132-183 | a debounced item adds the changeset to its window and restarts its timer; any other item emits `update` with it and asks the group to emit; neither touches the item's identity, flags, stash, binding or value |
| GroupItems.Flush | src/SubscriptionGroup/SubscriptionGroupItem.ts:143-157 | a running timer emits the collected changeset, then the group's update, and starts an empty window; without a running timer nothing happens |
| GroupItems.LoadStep | src/SubscriptionGroup/SubscriptionGroupItem.ts:302-327 | `#load` acts only with a stashed changeset: the handle gets it, the item emits `load`, `loaded()` resolves and `unloaded()` is renewed; afterwards no changeset is stashed, and without one nothing happens |
| GroupItems.InitStep | src/SubscriptionGroup/SubscriptionGroupItem.ts:329-335 | `#init` emits `init` and resolves `inited()` and changes nothing else |
| GroupItems.UnloadStep | src/SubscriptionGroup/SubscriptionGroupItem.ts:337-358 | `#unload` calls the handle with `null`, emits `unload`, resolves `unloaded()` and renews `loaded()`, and changes nothing else |
| GroupItems.DebounceOf | src/SubscriptionGroup/SubscriptionGroupItem.ts:93 | a missing debounce means the class default of 4 (line 412), a number is the delay itself, and anything else turns debouncing off (line 139) |
| GroupItems.ApplyOptions | src/SubscriptionGroup/SubscriptionGroupItem.ts:130-190 | `#applyOptions` installs an `emitUpdate` with the definition's delay and an empty window; a window whose timer is still running is not cancelled but kept among the item's orphaned windows, to be emitted when that timer fires; it stores `preventBind` only over a value the item already has, so an item without one never gets one; everything else is kept |
| GroupItems.FlushOrphan | src/SubscriptionGroup/SubscriptionGroupItem.ts:143-157 | the timer of a replaced `emitUpdate` firing emits that window (the item's `update`, then the group's) and drops it, leaving the current window and everything else alone |
| GroupItems.Each | src/SubscriptionGroup/SubscriptionGroup.ts:213-214 | a `for…of` pass steps every member in place and keeps the member count |
| GroupItems.BindKeys | src/SubscriptionGroup/SubscriptionGroup.ts:206-209 | writing the members to a target adds exactly the binding members' names and leaves every other field as it was |
| GroupItems.BindLast | src/SubscriptionGroup/SubscriptionGroup.ts:207-209 | when several binding members share a name, the target field holds the value of the last of them |
| GroupItems.UnbindKeys | src/SubscriptionGroup/SubscriptionGroup.ts:260-263 | removing the members from a target deletes exactly the binding members' names and leaves every other field as it was |
| GroupItems.LoadStepEvents | src/SubscriptionGroup/SubscriptionGroupItem.ts:304-319 | a member emits `load` exactly when it has a stashed changeset |
| GroupItems.LoadEachEvents | src/SubscriptionGroup/SubscriptionGroup.ts:213-214 | after every member's `#load` no member has a stash, and exactly the members that had one emitted `load`, so each stash loads once |
| SubscriptionGroups.EmptyGroup | src/SubscriptionGroup/SubscriptionGroup.ts:89-96 | a new group starts with no members, neither loaded nor initialised, holding the target it was given |
| SubscriptionGroups.FlushAt | src/SubscriptionGroup/SubscriptionGroupItem.ts:143-157 | a member's timer firing changes only that member, as the item's flush does |
| SubscriptionGroups.FlushOrphanAt | src/SubscriptionGroup/SubscriptionGroupItem.ts:143-157 | the timer of a member's replaced `emitUpdate` firing changes only that member, as `FlushOrphan` does |
| SubscriptionGroups.Detached | src/SubscriptionGroup/SubscriptionGroupItem.ts:255-256 | a detached member keeps its identity, name and binding, is not loaded, and its `unloaded()` is resolved and `loaded()` renewed |
| SubscriptionGroups.DetachAt | src/SubscriptionGroup/SubscriptionGroupItem.ts:250-266 | `detach` throws (before changing anything) exactly when the value cannot be unsubscribed; otherwise the member leaves the member array, its name leaves the named view, and its value leaves the value array (one occurrence) and the named value view; the group's loading and initialisation do not change |
| SubscriptionGroups.DetachAgain | src/SubscriptionGroup/SubscriptionGroupItem.ts:250-252 | a second `detach` does nothing in the sources; the JavaScript build (lib/SubscriptionGroup/SubscriptionGroupItem.js:177-191) has no guard and throws a `TypeError` |
| SubscriptionGroups.AttachTo | src/SubscriptionGroup/SubscriptionGroupItem.ts:192-248 | the item joins once, as the last member, under its name in the named view, keeping its identity, binding and flags; a given value is kept, otherwise a new subscribing container of its type is created; the JavaScript build throws for a type it does not know |
| SubscriptionGroups.Configure | src/SubscriptionGroup/SubscriptionGroupItem.ts:114-124 | `define` stores the type (`"object"` by default) and the handle; a value replaces the value, otherwise the publication name defaults to the item's name and the parameters to `[]`; the options set the delay with an empty window, keeping a running window as an orphan, and `preventBind` is never introduced |
| SubscriptionGroups.Store | src/SubscriptionGroup/SubscriptionGroupItem.ts:114-122 | the fields `define` stores before the options, with the same defaults, and the binding left alone |
| SubscriptionGroups.NewItem | src/SubscriptionGroup/SubscriptionGroupItem.ts:54-61 | a new item gets the next id and the definition's name, joins as the last member and under its name, is neither loaded nor initialised, holds no `preventBind`, and in the sources never throws |
| SubscriptionGroups.Reconfigured | src/SubscriptionGroup/SubscriptionGroupItem.ts:108-124 | a changed definition leaves the member with its id and name, not loaded, with the definition's type and value, and without `preventBind` if it had none |
| SubscriptionGroups.CreateCount | src/SubscriptionGroup/SubscriptionGroup.ts:141-142 | an `attach` that does not throw creates exactly one member per definition |
| SubscriptionGroups.ParseAll | src/SubscriptionGroup/SubscriptionGroup.ts:170-171 | either every definition parses, giving one parsed definition each in order, or the failure is that of some definition |
| SubscriptionGroups.Names | src/SubscriptionGroup/SubscriptionGroup.ts:166 | the keys of `new Map(items.map(...))`: no name twice, and exactly the members' names |
| SubscriptionGroups.Split | src/SubscriptionGroup/SubscriptionGroup.ts:166-176 | every definition becomes a redefinition or a new member, and the names left to detach are current names |
| SubscriptionGroupProperties.NotifyFrame | src/SubscriptionGroup/SubscriptionGroup.ts:219-223 | asking for updates keeps every member's identity, name, value, binding, flags and stash |
| SubscriptionGroupProperties.NotifyEvents | src/SubscriptionGroup/SubscriptionGroup.ts:219-223 | asking for updates asks every member, or the group itself when it has none, and emits nothing but update requests |
| SubscriptionGroupProperties.LoadActsFrame | src/SubscriptionGroup/SubscriptionGroup.ts:203-232 | a `#load` that acts keeps every member's identity, name, value and binding and the group's other state, and clears every member's stashed changeset |
| SubscriptionGroupProperties.LoadFrame | src/SubscriptionGroup/SubscriptionGroup.ts:203-232 | `#load` keeps the members, the initialisation, the named view, the values and the target; an acting `#load` clears every member's stash, and one that does not act keeps them |
| SubscriptionGroupProperties.InitFrame | src/SubscriptionGroup/SubscriptionGroup.ts:234-255 | `#init` keeps the members, their stashes, the loading, the named view, the values and every target |
| SubscriptionGroupProperties.InitActsFrame | src/SubscriptionGroup/SubscriptionGroup.ts:237-252 | an acting `#init` changes only the initialisation, the `inited()` promise and the members' windows |
| SubscriptionGroupProperties.UnloadFrame | src/SubscriptionGroup/SubscriptionGroup.ts:257-284 | `#unload` keeps the members, their stashes, the initialisation, the named view, the values and the target |
| SubscriptionGroupProperties.LoadEffect | src/SubscriptionGroup/SubscriptionGroup.ts:205-229 | once every member is loaded, `#load` loads the group, resolves `loaded()` and renews `unloaded()`, emits `load`, lets exactly the members with a stash emit theirs, and asks for updates exactly when the group is initialised |
| SubscriptionGroupProperties.LoadEvents | src/SubscriptionGroup/SubscriptionGroup.ts:213-223 | the order of an acting `#load`: the members' loads, then the group's `load`, then the update requests when initialised |
| SubscriptionGroupProperties.LoadNotifies | src/SubscriptionGroup/SubscriptionGroup.ts:218-221 | the update requests of `#load` come from the loaded members and reach every one of them |
| SubscriptionGroupProperties.LoadBinds | src/SubscriptionGroup/SubscriptionGroup.ts:206-209 | an acting `#load` writes exactly the binding members' names into the current target, keeps its other fields, and leaves every other target alone |
| SubscriptionGroupProperties.LoadBindsLast | src/SubscriptionGroup/SubscriptionGroup.ts:206-209 | after `#load`, the target field of a name holds the value of the last binding member of that name |
| SubscriptionGroupProperties.InitEffect | src/SubscriptionGroup/SubscriptionGroup.ts:236-252 | once every member is initialised, `#init` initialises the group, resolves `inited()`, lets every member emit `init`, ends with the group's `init`, and asks for updates exactly when the group is loaded |
| SubscriptionGroupProperties.UnloadEffect | src/SubscriptionGroup/SubscriptionGroup.ts:259-281 | once no member is loaded, `#unload` unloads the loaded group, resolves `unloaded()` and renews `loaded()`, lets every member emit `unload`, emits the group's `unload` and always asks for updates |
| SubscriptionGroupProperties.UnloadUnbinds | src/SubscriptionGroup/SubscriptionGroup.ts:260-263 | an acting `#unload` deletes exactly the binding members' names from the current target, keeps its other fields, and leaves every other target alone |
| SubscriptionGroupProperties.DeliverMember | src/SubscriptionGroup/SubscriptionGroupItem.ts:271-293 | with updates, a member of an unloaded group becomes loaded and one of a loaded group keeps its loading; without updates the member ends unloaded; every other member and the group's initialisation are kept |
| SubscriptionGroupProperties.DeliverLoading | src/SubscriptionGroup/SubscriptionGroupItem.ts:285-289 | updates reaching an unloaded group change only the receiving member's loading, which becomes true, beyond what the barriers leave alone |
| SubscriptionGroupProperties.DeliverUnloading | src/SubscriptionGroup/SubscriptionGroupItem.ts:290-293 | a missing batch reaching a loaded member changes only its loading, which becomes false |
| SubscriptionGroupProperties.DeliverPlain | src/SubscriptionGroup/SubscriptionGroupItem.ts:271-284 | updates reaching a loaded group call the member's handle (when it has one) and then its `emitUpdate`, which alone changes the member, and run no barrier; a missing batch reaching an unloaded member does nothing |
| SubscriptionGroupProperties.FirstCallMember | src/SubscriptionGroup/SubscriptionGroupItem.ts:295-298 | after the callback the member is initialised; its loading, every other member and the group's loading are kept |
| SubscriptionGroupProperties.HandleMember | src/SubscriptionGroup/SubscriptionGroupItem.ts:270-300 | the whole callback leaves its member initialised; with updates a member of an unloaded group is loaded, without updates it is not; no other member's state changes |
| SubscriptionGroupProperties.HandleLoadsGroup | src/SubscriptionGroup/SubscriptionGroupItem.ts:285-289 | the last member to report updates to an unloaded group loads the group, which emits `load` |
| SubscriptionGroupProperties.HandleUnloadsGroup | src/SubscriptionGroup/SubscriptionGroupItem.ts:290-293 | the last loaded member of a loaded group to lose its updates unloads the group, which emits `unload` |
| SubscriptionGroupProperties.HandleInitsGroup | src/SubscriptionGroup/SubscriptionGroupItem.ts:295-298 | the first call of the last uninitialised member initialises the group, which emits `init` |
| SubscriptionGroupProperties.ValidLoad | src/SubscriptionGroup/SubscriptionGroup.ts:203-232 | `#load` keeps the group invariant: distinct member ids, every named entry finding a member of that name, and no member holding `preventBind` |
| SubscriptionGroupProperties.ValidInit | src/SubscriptionGroup/SubscriptionGroup.ts:234-255 | `#init` keeps the group invariant |
| SubscriptionGroupProperties.ValidUnload | src/SubscriptionGroup/SubscriptionGroup.ts:257-284 | `#unload` keeps the group invariant |
| SubscriptionGroupProperties.ValidHandle | src/SubscriptionGroup/SubscriptionGroupItem.ts:270-300 | the member callback keeps the group invariant |
| SubscriptionGroupProperties.ValidDeliver | src/SubscriptionGroup/SubscriptionGroupItem.ts:271-293 | the changeset half of the callback keeps the group invariant |
| SubscriptionGroupProperties.ValidFirstCall | src/SubscriptionGroup/SubscriptionGroupItem.ts:295-298 | the initialising half of the callback keeps the group invariant |
| SubscriptionGroupProperties.ValidFlush | src/SubscriptionGroup/SubscriptionGroupItem.ts:143-157 | a timer firing keeps the group invariant |
| SubscriptionGroupProperties.ValidFlushOrphan | src/SubscriptionGroup/SubscriptionGroupItem.ts:143-157 | the timer of a replaced `emitUpdate` firing keeps the group invariant |
| SubscriptionGroupProperties.ValidDetachAt | src/SubscriptionGroup/SubscriptionGroupItem.ts:250-266 | a member leaving keeps the group invariant: every remaining named entry still finds its member |
| SubscriptionGroupProperties.DetachAtRemovesId | src/SubscriptionGroup/SubscriptionGroupItem.ts:261 | once a member has left, no member carries its id, and ids are never reused |
| SubscriptionGroupProperties.ValidDetachName | src/SubscriptionGroup/SubscriptionGroup.ts:155 | `items[name]?.detach()` keeps the group invariant |
| SubscriptionGroupProperties.ValidDetachFrom | src/SubscriptionGroup/SubscriptionGroup.ts:154-155 | detaching a list of names keeps the group invariant |
| SubscriptionGroupProperties.ValidDetach | src/SubscriptionGroup/SubscriptionGroup.ts:152-162 | the group's `detach` keeps the group invariant |
| SubscriptionGroupProperties.ValidAttachTo | src/SubscriptionGroup/SubscriptionGroupItem.ts:192-248 | an item that is not a member, with a fresh id and no `preventBind`, joining keeps the group invariant |
| SubscriptionGroupProperties.ValidNewItem | src/SubscriptionGroup/SubscriptionGroupItem.ts:54-61 | creating a member keeps the group invariant |
| SubscriptionGroupProperties.ValidDefineAt | src/SubscriptionGroup/SubscriptionGroupItem.ts:82-128 | `define` keeps the group invariant, whether it only re-applies options or detaches and re-attaches |
| SubscriptionGroupProperties.ValidSubscribeAt | src/SubscriptionGroup/SubscriptionGroupItem.ts:372-397 | a member's `subscribe` keeps the group invariant |
| SubscriptionGroupProperties.SubscribeAtEffect | src/SubscriptionGroup/SubscriptionGroupItem.ts:372-396 | a member's `subscribe`: without a value nothing happens (the JavaScript build throws a TypeError); a subscribing value subscribes and nothing else changes; a plain `SubscriptionArray` in the JavaScript build throws a TypeError; any other plain container hands its initial changeset to the callback of the subscribing member (the one value holder assumed under "## Left out"), which inits the member, loads it only when there are updates, loads a group that was not loaded, and leaves the other members alone; in the sources a plain array in a loaded group emits its empty initial changeset |
| SubscriptionGroups.InitialOf | src/SubscriptionGroup/SubscriptionGroupItem.ts:382-383 | the initial changeset a plain container hands over: always empty for a `SubscriptionArray`, whose `sorted` is never filled in the sources, and the container's own for the others |
| SubscriptionGroups.SubscribeAt | src/SubscriptionGroup/SubscriptionGroupItem.ts:372-396 | the item's `subscribe`, keeping the members in place; its cases are stated by `SubscribeAtEffect` and its invariant by `ValidSubscribeAt` |
| SubscriptionGroupProperties.ValidSubscribeFrom | src/SubscriptionGroup/SubscriptionGroup.ts:143-149 | subscribing the new members in turn keeps the group invariant |
| SubscriptionGroupProperties.ValidCreateFrom | src/SubscriptionGroup/SubscriptionGroup.ts:141-142 | creating a member per definition keeps the group invariant |
| SubscriptionGroupProperties.ValidAttach | src/SubscriptionGroup/SubscriptionGroup.ts:131-150 | the group's `attach` keeps the group invariant |
| SubscriptionGroupProperties.ValidConstruct | src/SubscriptionGroup/SubscriptionGroup.ts:71-87 | every group the constructor builds satisfies the invariant, whatever its definitions |
| SubscriptionGroupProperties.ValidRedefineFrom | src/SubscriptionGroup/SubscriptionGroup.ts:183-190 | redefining the mentioned members in turn keeps the group invariant |
| SubscriptionGroupProperties.ValidRedefineOne | src/SubscriptionGroup/SubscriptionGroup.ts:184-189 | one redefinition with its resubscription keeps the group invariant |
| SubscriptionGroupProperties.ValidRedefine | src/SubscriptionGroup/SubscriptionGroup.ts:164-193 | the group's `redefine` keeps the group invariant |
| SubscriptionGroupProperties.ValidApplyTarget | src/SubscriptionGroup/SubscriptionGroup.ts:106-118 | changing the target keeps the group invariant |
| SubscriptionGroupLaws.DetachNameEffect | src/SubscriptionGroup/SubscriptionGroup.ts:155 | a name not in the named view detaches nothing; otherwise the member of that name leaves unless its value makes `detach` throw, it emits `unload`, its name leaves the named view, its value leaves the value array and the named value view, and no member keeps its id |
| SubscriptionGroupLaws.DetachNameTwice | src/SubscriptionGroup/SubscriptionGroupItem.ts:252 | detaching a name twice is detaching it once |
| SubscriptionGroupLaws.DetachFromFrame | src/SubscriptionGroup/SubscriptionGroup.ts:154-155 | detaching members never changes the group's loading or initialisation and never adds a name to the named view |
| SubscriptionGroupLaws.DetachFromRemoves | src/SubscriptionGroup/SubscriptionGroup.ts:154-155 | every name of a detach pass that does not throw has left the named view |
| SubscriptionGroupLaws.DetachLoadsRest | src/SubscriptionGroup/SubscriptionGroup.ts:157-160 | with `shouldUpdate`, an unloaded group whose remaining members are all loaded ends loaded |
| SubscriptionGroupLaws.DetachEverything | src/SubscriptionGroup/SubscriptionGroup.ts:152-162 | with `shouldUpdate`, detaching every member of a loaded group emits `unload` and then `load`, since an empty group has every member loaded, and the group ends loaded |
| SubscriptionGroupLaws.OptionsKeepWindow | src/SubscriptionGroup/SubscriptionGroupItem.ts:97-157 | re-applying options to a member whose timer runs emits nothing and starts an empty window, but the old window survives as an orphan whose timer, firing, emits it for that member and the group |
| SubscriptionGroupLaws.DefineUnchanged | src/SubscriptionGroup/SubscriptionGroupItem.ts:97-106 | a definition that changes only options re-applies them in place: nothing is emitted, the member keeps its place, identity, value and state, and no other member changes |
| SubscriptionGroupLaws.DefineChanged | src/SubscriptionGroup/SubscriptionGroupItem.ts:97-127 | any other definition detaches the member (emitting its `unload`) and re-attaches it as the last member with the same id and name, not loaded, the others keeping their order; without a value it gets a new subscribing container of its type; a window whose timer was running survives as an orphan |
| SubscriptionGroupLaws.DefaultedNeverUnchanged | src/SubscriptionGroup/SubscriptionGroupItem.ts:99-121 | a definition without a value that omits the publication name or the parameters never counts as unchanged for a member configured from it, because the member stored its own name and `[]`; redefining such a member with the same definition re-attaches it |
| SubscriptionGroupLaws.ArrayContainerDefinesParams | src/SubscriptionGroup/SubscriptionGroupItem.ts:114-121 | a `SubscriptionArray` handed over in a tuple is stored as the parameters, with type `"object"` and the member's name as the publication name, not as the member's value |
| SubscriptionGroupLaws.OptionsOnlyUnchanged | src/SubscriptionGroup/SubscriptionGroupItem.ts:97-106 | for a member defined by a value, a later definition that differs only in debounce or `preventBind` counts as unchanged |
| SubscriptionGroupLaws.CreateKeeps | src/SubscriptionGroup/SubscriptionGroup.ts:141-142 | creating members keeps the existing members in front, unchanged |
| SubscriptionGroupLaws.CreateAppends | src/SubscriptionGroup/SubscriptionGroup.ts:141-142 | an `attach` that does not throw appends one member per definition, in order, each under its definition's name, neither loaded nor initialised |
| SubscriptionGroupLaws.CreateThrowsOnParse | src/SubscriptionGroup/SubscriptionGroupItem.ts:208-229 | in the sources creating members throws only when a definition fails to parse, since every type name yields a container |
| SubscriptionGroupLaws.SplitSpec | src/SubscriptionGroup/SubscriptionGroup.ts:166-176 | the names `redefine` detaches are exactly the current names no definition mentions, each once, and every redefinition names a current member |
| SubscriptionGroupLaws.RedefineDetachesUnmentioned | src/SubscriptionGroup/SubscriptionGroup.ts:178-180 | `redefine` marks the group unloaded, and when its detach pass does not throw no unmentioned name is left in the named view |
| SubscriptionGroupLaws.ApplyTargetSame | src/SubscriptionGroup/SubscriptionGroup.ts:106 | a target that is not new changes nothing; otherwise the group takes the new one |
| SubscriptionGroupLaws.ApplyTargetOld | src/SubscriptionGroup/SubscriptionGroup.ts:107-110 | on a new target, exactly the loaded binding members' names leave the old target object, whose other fields stay |
| SubscriptionGroupLaws.ApplyTargetNew | src/SubscriptionGroup/SubscriptionGroup.ts:114-117 | on a new target, the new target object gains exactly the loaded binding members' names, next to the fields it had |
| SubscriptionGroupLaws.ApplyTargetOthers | src/SubscriptionGroup/SubscriptionGroup.ts:104-118 | every target other than the old and the new one is left alone |
| SubscriptionGroupObjects.SubscriptionGroup.EveryMember | src/SubscriptionGroup/SubscriptionGroup.ts:205 | `items.every(p)` holds exactly when every member satisfies `p` |
| SubscriptionGroupObjects.SubscriptionGroup.StepAll | src/SubscriptionGroup/SubscriptionGroup.ts:213-214 | the loop steps every member in order and gives what the member-by-member pass gives |
| SubscriptionGroupObjects.SubscriptionGroup.NotifyAll | src/SubscriptionGroup/SubscriptionGroup.ts:219-223 | every member's `emitUpdate()` in turn, or the group's own `emitUpdate()` when it has no members |
| SubscriptionGroupObjects.SubscriptionGroup.BindFields | src/SubscriptionGroup/SubscriptionGroup.ts:207-209 | the loop writes the binding members to the target fields as `Bind` does, whose effect `BindKeys` and `BindLast` state |
| SubscriptionGroupObjects.SubscriptionGroup.UnbindFields | src/SubscriptionGroup/SubscriptionGroup.ts:261-263 | the loop deletes the binding members' names as `Unbind` does, whose effect `UnbindKeys` states |
| SubscriptionGroupObjects.SubscriptionGroup.BoundTargets | src/SubscriptionGroup/SubscriptionGroup.ts:206-209 | the binding step is applied to the current target only, when there is one |
| SubscriptionGroupObjects.SubscriptionGroup.UnboundTargets | src/SubscriptionGroup/SubscriptionGroup.ts:260-263 | the unbinding step is applied to the current target only, when there is one |
| SubscriptionGroupObjects.SubscriptionGroup.Load | src/SubscriptionGroup/SubscriptionGroup.ts:203-232 | `#load` leaves the group and appends the events that the reference `Load` gives, whose effects `LoadEffect`, `LoadBinds` and `ValidLoad` state; it keeps the group invariant |
| SubscriptionGroupObjects.SubscriptionGroup.LoadMembers | src/SubscriptionGroup/SubscriptionGroup.ts:206-229 | the acting part of `#load`, equal to the reference `LoadActs` |
| SubscriptionGroupObjects.SubscriptionGroup.Loading | src/SubscriptionGroup/SubscriptionGroup.ts:206-223 | the bound target, the members after their `#load` and update requests, and the events, as the reference `LoadActs` gives them |
| SubscriptionGroupObjects.SubscriptionGroup.Init | src/SubscriptionGroup/SubscriptionGroup.ts:234-255 | `#init` leaves the group and appends the events that the reference `Init` gives, whose effects `InitEffect` and `ValidInit` state; it keeps the group invariant |
| SubscriptionGroupObjects.SubscriptionGroup.InitMembers | src/SubscriptionGroup/SubscriptionGroup.ts:237-252 | the acting part of `#init`, equal to the reference `InitActs` |
| SubscriptionGroupObjects.SubscriptionGroup.Initing | src/SubscriptionGroup/SubscriptionGroup.ts:239-250 | the members after the update requests and their `#init`, and the events, as the reference `InitActs` gives them |
| SubscriptionGroupObjects.SubscriptionGroup.Unload | src/SubscriptionGroup/SubscriptionGroup.ts:257-284 | `#unload` leaves the group and appends the events that the reference `Unload` gives, whose effects `UnloadEffect`, `UnloadUnbinds` and `ValidUnload` state; it keeps the group invariant |
| SubscriptionGroupObjects.SubscriptionGroup.UnloadMembers | src/SubscriptionGroup/SubscriptionGroup.ts:260-281 | the acting part of `#unload`, equal to the reference `UnloadActs` |
| SubscriptionGroupObjects.SubscriptionGroup.Unloading | src/SubscriptionGroup/SubscriptionGroup.ts:260-276 | the unbound target, the members after their `#unload` and update requests, and the events, as the reference `UnloadActs` gives them |
| SubscriptionGroupObjects.SubscriptionGroup.SetLoaded | src/SubscriptionGroup/SubscriptionGroup.ts:211 | the loading flag set together with the promises: `loaded()` resolved and `unloaded()` renewed, or the reverse |
| SubscriptionGroupObjects.SubscriptionGroup.HandleSubscription | src/SubscriptionGroup/SubscriptionGroupItem.ts:270-300 | the callback leaves the group and events the reference `HandleSubscription` gives, whose effects `HandleMember`, `HandleLoadsGroup`, `HandleUnloadsGroup` and `HandleInitsGroup` state; it keeps the group invariant |
| SubscriptionGroupObjects.SubscriptionGroup.Deliver | src/SubscriptionGroup/SubscriptionGroupItem.ts:271-293 | the changeset half of the callback, equal to the reference `Deliver`; it keeps the group invariant |
| SubscriptionGroupObjects.SubscriptionGroup.FirstCall | src/SubscriptionGroup/SubscriptionGroupItem.ts:295-298 | the initialising half of the callback, equal to the reference `FirstCall`; it keeps the group invariant |
| SubscriptionGroupObjects.SubscriptionGroup.FlushMember | src/SubscriptionGroup/SubscriptionGroupItem.ts:143-157 | a member's timer firing, equal to the reference `FlushAt`; it keeps the group invariant |
| SubscriptionGroupObjects.SubscriptionGroup.FlushOrphanMember | src/SubscriptionGroup/SubscriptionGroupItem.ts:143-157 | the timer of a member's replaced `emitUpdate` firing, equal to the reference `FlushOrphanAt`; it keeps the group invariant |
| SubscriptionGroupObjects.SubscriptionGroup.IndexOf | src/SubscriptionGroup/SubscriptionGroupItem.ts:261 | the position of the member with an id, or -1, as `indexOf` inside `removeOne` finds it |
| SubscriptionGroupObjects.SubscriptionGroup.DetachMember | src/SubscriptionGroup/SubscriptionGroupItem.ts:250-266 | the item's `detach` leaves the group, events and outcome of the reference `DetachAt`; it keeps the group invariant |
| SubscriptionGroupObjects.SubscriptionGroup.Leave | src/SubscriptionGroup/SubscriptionGroupItem.ts:258-263 | the member leaves the member array, the value array and both named views, and nothing else changes |
| SubscriptionGroupObjects.SubscriptionGroup.DetachNamed | src/SubscriptionGroup/SubscriptionGroup.ts:155 | `items[name]?.detach()`, equal to the reference `DetachName`, whose effect `DetachNameEffect` states; it keeps the group invariant |
| SubscriptionGroupObjects.SubscriptionGroup.DetachNames | src/SubscriptionGroup/SubscriptionGroup.ts:154-155 | the loop over the names, equal to the reference `DetachFrom` |
| SubscriptionGroupObjects.SubscriptionGroup.Detach | src/SubscriptionGroup/SubscriptionGroup.ts:152-162 | the group's `detach` leaves the group, events and outcome of the reference `Detach`, whose effects `DetachLoadsRest`, `DetachEverything` and `ValidDetach` state; it keeps the group invariant |
| SubscriptionGroupObjects.SubscriptionGroup.Reload | src/SubscriptionGroup/SubscriptionGroup.ts:157-160 | `#unload()` then `#load()`, equal to the reference `Reload` |
| SubscriptionGroupObjects.SubscriptionGroup.AttachItem | src/SubscriptionGroup/SubscriptionGroupItem.ts:192-248 | `#attachTo` leaves the group, events and outcome of the reference `AttachTo` |
| SubscriptionGroupObjects.SubscriptionGroup.Enter | src/SubscriptionGroup/SubscriptionGroupItem.ts:196-197 | the member is pushed onto the member array and stored under its name, nothing else changes |
| SubscriptionGroupObjects.SubscriptionGroup.Publish | src/SubscriptionGroup/SubscriptionGroupItem.ts:232-233 | the member's value is pushed onto the value array and stored under its name |
| SubscriptionGroupObjects.SubscriptionGroup.CreateItem | src/SubscriptionGroup/SubscriptionGroupItem.ts:54-61 | `new SubscriptionGroupItem(definition, group)`, equal to the reference `NewItem` |
| SubscriptionGroupObjects.SubscriptionGroup.DefineMember | src/SubscriptionGroup/SubscriptionGroupItem.ts:82-128 | the item's `define`, equal to the reference `DefineAt`, whose effects `DefineUnchanged` and `DefineChanged` state |
| SubscriptionGroupObjects.SubscriptionGroup.SubscribeMember | src/SubscriptionGroup/SubscriptionGroupItem.ts:372-397 | the item's `subscribe`: a subscribing value subscribes, a plain container's contents go straight to the subscribing member's callback (a plain value is assumed to belong to one member, see "## Left out"), and in the JavaScript build a plain `SubscriptionArray` throws a TypeError, as the reference `SubscribeAt` gives and `SubscribeAtEffect` states |
| SubscriptionGroupObjects.SubscriptionGroup.CreateItems | src/SubscriptionGroup/SubscriptionGroup.ts:141-142 | a member for each definition in turn, equal to the reference `CreateFrom`, whose effect `CreateAppends` states |
| SubscriptionGroupObjects.SubscriptionGroup.SubscribeMembers | src/SubscriptionGroup/SubscriptionGroup.ts:143-149 | each new member subscribes in turn, equal to the reference `SubscribeFrom`; a member's `subscribe` that throws (the JavaScript build's TypeError for a plain `SubscriptionArray`) stops the rest |
| SubscriptionGroupObjects.SubscriptionGroup.Attach | src/SubscriptionGroup/SubscriptionGroup.ts:131-150 | the group's `attach`, equal to the reference `Attach`; it keeps the group invariant; a member's `subscribe` that throws (the JavaScript build's TypeError for a plain `SubscriptionArray`) stops the rest |
| SubscriptionGroupObjects.SubscriptionGroup.Reopen | src/SubscriptionGroup/SubscriptionGroup.ts:132-139 | the loading flag set and `loaded()` and `unloaded()` renewed, nothing else changes |
| SubscriptionGroupObjects.SubscriptionGroup.AttachDefinitions | src/SubscriptionGroup/SubscriptionGroup.ts:141-149 | creating the members and then, if asked, subscribing them, equal to the reference `CreateAndSubscribe`; a member's `subscribe` that throws (the JavaScript build's TypeError for a plain `SubscriptionArray`) stops the rest |
| SubscriptionGroupObjects.SubscriptionGroup.constructor | src/SubscriptionGroup/SubscriptionGroup.ts:71-87 | the new group is the reference `Construct` of its definitions and target, and satisfies the group invariant |
| SubscriptionGroupObjects.SubscriptionGroup.RedefineMembers | src/SubscriptionGroup/SubscriptionGroup.ts:183-190 | each mentioned member is redefined and subscribes in turn, equal to the reference `RedefineFrom`; a member's `subscribe` that throws (the JavaScript build's TypeError for a plain `SubscriptionArray`) stops the rest |
| SubscriptionGroupObjects.SubscriptionGroup.RedefineMember | src/SubscriptionGroup/SubscriptionGroup.ts:184-189 | the member of a definition's name is defined and subscribes, equal to the reference `RedefineOne`; a member's `subscribe` that throws (the JavaScript build's TypeError for a plain `SubscriptionArray`) stops the rest |
| SubscriptionGroupObjects.SubscriptionGroup.DefineAndResubscribe | src/SubscriptionGroup/SubscriptionGroup.ts:185-187 | `item.define(definition)` followed by `item.subscribe()`, equal to the reference `DefineResubscribe`; a member's `subscribe` that throws (the JavaScript build's TypeError for a plain `SubscriptionArray`) stops the rest |
| SubscriptionGroupObjects.SubscriptionGroup.SubscribeAgain | src/SubscriptionGroup/SubscriptionGroup.ts:187 | the redefined member subscribes, equal to the reference `Resubscribe`; a member's `subscribe` that throws (the JavaScript build's TypeError for a plain `SubscriptionArray`) stops the rest |
| SubscriptionGroupObjects.SubscriptionGroup.Redefine | src/SubscriptionGroup/SubscriptionGroup.ts:164-193 | the group's `redefine`, equal to the reference `Redefine`, whose effects `SplitSpec`, `RedefineDetachesUnmentioned` and `ValidRedefine` state; it keeps the group invariant; a member's `subscribe` that throws (the JavaScript build's TypeError for a plain `SubscriptionArray`) stops the rest |
| SubscriptionGroupObjects.SubscriptionGroup.RedefineAndAttachMembers | src/SubscriptionGroup/SubscriptionGroup.ts:182-192 | the redefinitions followed by the `attach` of the new definitions, equal to the reference `RedefineAndAttach`; a member's `subscribe` that throws (the JavaScript build's TypeError for a plain `SubscriptionArray`) stops the rest |
| SubscriptionGroupObjects.SubscriptionGroup.ApplyTarget | src/SubscriptionGroup/SubscriptionGroup.ts:104-118 | the target part of `applyOptions`, equal to the reference `ApplyTarget`, whose effects the `ApplyTarget…` laws state; it keeps the group invariant |

## Left out

- The websocket transport (`src/Subscription.ts`, `lib/Subscription.js`) is not part of this model: its registry, `sendMessage`, listeners, `window.__initials` and the server-rendering block. A `*WithSubscription` container holds only a "subscribed" flag, its publication name and parameters, and a ghost count of the subscriptions it created.
- Timers are not modelled. A debounced item has a pending changeset and a "scheduled" flag, and the timer firing is a separate operation (`FlushAt`, and `FlushOrphanAt` for a window whose `emitUpdate` has since been replaced). The group's own debounced `emitUpdate` (delay 8 by default) appears only as a `GroupUpdate` event. The debounce part of the group's `applyOptions`, and the group `debounce` option, are not modelled.
- Promises (`loaded()`, `inited()`, `unloaded()`, `StatefulPromise`) are modelled as "settled" flags. Awaiting them, and the values `attach`/`redefine` return as `Promise.all`, are not modelled.
- EventEmitter listeners are not modelled: every `emit` is an entry in the ghost event log. User `handle` and `onBeforeInit` callbacks are opaque, and only the fact that they were called is recorded. They cannot change the group.
- `createSortFunction`/`makeSort` build their comparator by injecting a `<script>` element. The model uses the comparator that script computes, as a function of the sort list (`SubscriptionMaps.CompareBy`).
- SubscriptionMaps.CompareBy: a dotted sort key such as `author.name` is a property path in the generated comparator, but the model's fields are flat integers, so the key is looked up as one field name, is missing on every item and ties. Ids are compared by code point, where JavaScript compares UTF-16 code units; the two differ only between characters above U+FFFF and those from U+E000 to U+FFFF.
- Sorting.Sort: the engine's order is implementation-defined for a comparator that is not consistent, and the model fixes a stable insertion sort. `CompareBy` is consistent when every item holds every sort field (`CompareByTransitive`), and not when an item lacks one (`MissingFieldInconsistent`).
- Sorting.SortSorted: states the order the model's sort gives; the engine promises it only for a consistent comparator (see `Sorting.Sort`).
- Sorting.SortOfSorted: a fact about the model's insertion sort; an engine need not keep an ordered sequence unchanged under an inconsistent comparator.
- SubscriptionMapProperties.ApplySortsAtEnd: the comparator order of `sorted` is the model's; with items missing a sort field the engine's order may differ (see `Sorting.Sort`).
- SubscriptionMapContainer.SubscriptionMap.Sort: pins the model's insertion-sort order, which an engine need not give for an inconsistent comparator (see `Sorting.Sort`).
- Field values and array elements are modelled as integers. JavaScript loose equality, `JSON.stringify` comparison of parameters, and the `toString().match` test of a value's class become equality, a total order and a `Kind` tag.
- Map item objects are handles into a heap of items. The `map` back-reference of `SubscriptionMapItem` and the `Item` class getter are not modelled.
- `valueOf` of a group, of a group item and of a map, and the group's `[Symbol.iterator]`, are not modelled, because they only return a stored field.
- The group's `subscribe()` and `unsubscribe()`, and an item's `unsubscribe()` and `renew()`, are not modelled as separate operations. They only forward to the containers, whose `Subscribe`, `Unsubscribe` and `Renew` are modelled. Subscribing the members of an `attach` or `redefine` is modelled (`SubscribeMembers`, `SubscribeAgain`).
- SubscriptionArrays.SubscriptionArray.constructor: in the JavaScript build an initial batch that makes `update` throw (lib/SubscriptionArray.js:104-106) makes `new` throw; the model's constructor cannot throw and ends in the state `update` reached, without a handler call.
- SubscriptionMapContainer.SubscriptionMap.constructor: in the JavaScript build an initial batch that makes `update` throw (lib/SubscriptionMap.js:56-58) makes `new` throw; the model's constructor cannot throw and ends in the state `update` reached, without a handler call.
- GroupDefinitions.ParseTuple: a `SubscriptionArray` given as parameters is modelled by its elements at the time it is parsed. JavaScript keeps the container itself, so its later changes would show in the `JSON.stringify` comparison and in what `subscribe` sends.
- GroupDefinitions.ParseRender: the round trip leaves out definitions whose value is a `SubscriptionArray`, since a tuple reads one as parameters (`ArrayContainerIsParams`); only the object form can give it as a value.
- GroupDefinitions.ParseRenderValue: covers `SubscriptionObject` and `SubscriptionMap` values only, for the reason given for `ParseRender`.
- SubscriptionGroupObjects.SubscriptionGroup.constructor cannot express a throw. When `attach` throws inside the constructor, the model keeps the group in the state it had reached, whereas JavaScript would leave no group.
- The group's `#init`/`#load`/`#unload` are invoked directly, where the source calls them through the late-bound function table in `src/SubscriptionGroup/common.ts`.
- A member's own `detach` while its debounce timer is pending is not modelled: the flush that then briefly re-attaches the item to its old group (`isDetached`).
- SubscriptionGroups.SubscribeAt: a plain container value is assumed to belong to one member. A plain value has a single handler slot, which every `#attachTo` overwrites (src/SubscriptionGroup/SubscriptionGroupItem.ts:212-226), so when two members share one plain `SubscriptionMap`, `SubscriptionObject` or `SubscriptionArray`, `subscribe` runs the callback of the member that attached last, for both members. The model runs each subscribing member's own callback; this also holds for `SubscriptionGroupProperties.SubscribeAtEffect` and `SubscriptionGroupObjects.SubscriptionGroup.SubscribeMember`.
- SubscriptionGroups.ApplyTarget: in the JavaScript build the group's `applyOptions` is private and runs only from the constructor (lib/SubscriptionGroup/SubscriptionGroup.js:54, :77), so a later target change exists only in the sources; the model offers it in both builds.
- The timers of orphaned windows (`FlushOrphanAt`) fire in any order the caller chooses; their relative timing against the current window's timer is not modelled.
- Member names are assumed not to be array indices or `length`. The sources store each named view as a property of the same arrays that hold the members and values, so a member named `0` would overwrite the first element and one named `length` would throw a RangeError; the model keeps the named views in separate maps.
- The initial changeset and the updates of a plain `SubscriptionMap` or `SubscriptionObject` value (`getAsInitialUpdated`, `getAsUpdates`) are not tied to the container models: `subscribe` takes them from a `feed` parameter. A plain `SubscriptionArray`'s initial changeset is fixed by the model, empty in the sources and a TypeError in the JavaScript build, whose `sorted` field is never set.
- A definition's `preventBind` is never stored, because `#applyOptions` tests the item's existing field. The group invariant therefore states that no member holds one, and the binding loops still test the field.
- `src/SubscriptionGroup/types.ts`, `src/index.ts`, `lib/index.js` and `src/SubscriptionGroup/index.ts` are not part of this model. They hold only types and re-exports.
- In `SubscriptionArray.update` the changeset lists elements in the order the batch brought them, even when the array is sorted afterwards. The model follows the code.
- The JavaScript build's `#attachTo` lacks the "already a member" guard. The model attaches only items that are not members, the only case either build reaches, since `define` detaches an item before attaching it again.

=== FILE: group_changes.dfy ===
/** What a debounced group item collects between two emissions of its
    `update` event. */
module GroupChangesets {
  import opened Values

  /** What an item passes to its `emitUpdate`: nothing (the calls the group
      makes on load, init and unload), the changeset of an array or map
      container (its elements with its `added` and `deleted` lists), or the
      updated fields of an object container. */
  datatype Updated =
    | NoUpdated
    | ListUpdated(elems: seq<int>, added: seq<int>, deleted: seq<string>)
    | RecordUpdated(fields: Record)

  /** `debouncedUpdated`: nothing yet, a copied changeset with its `added`
      and `deleted` lists, a plain copied array (the JavaScript build drops
      both lists), or merged object fields. */
  datatype Pending =
    | Nothing
    | PendingList(elems: seq<int>, added: seq<int>, deleted: seq<string>)
    | PendingPlain(elems: seq<int>)
    | PendingRecord(fields: Record)

  /** The debounced `emitUpdate(updated)`, apart from restarting the timer.
      A list changeset is appended to a pending list; otherwise it is
      copied, in the sources with its `added` and `deleted` lists (so the
      first changeset of a window supplies both), in the JavaScript build as
      a plain array. Object fields are merged into pending fields, later
      values winning. A changeset of the other shape than the pending one
      leaves the elements pending. */
  function Accumulate(p: Pending, u: Updated, v: Variant): (r: Pending)
    ensures u.NoUpdated? ==> r == p
    ensures u.ListUpdated? && v == Src ==> r.PendingList? && r.elems == (if p.PendingList? then p.elems else []) + u.elems
    ensures u.ListUpdated? && v == Lib && (p.Nothing? || p.PendingPlain?) ==>
      r.PendingPlain? && r.elems == (if p.PendingPlain? then p.elems else []) + u.elems
    ensures u.RecordUpdated? && (p.Nothing? || p.PendingRecord?) ==>
      r.PendingRecord? && r.fields.Keys == (if p.PendingRecord? then p.fields.Keys else {}) + u.fields.Keys &&
      forall k :: k in u.fields ==> r.fields[k] == u.fields[k]
  {
    match u
    case NoUpdated => p
    case ListUpdated(e, a, d) =>
      if v == Src then
        if p.PendingList? then p.(elems := p.elems + e) else PendingList(e, a, d)
      else if p.PendingPlain? then PendingPlain(p.elems + e)
      else if p.Nothing? then PendingPlain(e)
      else p
    case RecordUpdated(f) =>
      if p.Nothing? then PendingRecord(f)
      else if p.PendingRecord? then PendingRecord(p.fields + f)
      else p
  }

  /** A window's `emitUpdate` calls, one after another. */
  function Fold(p: Pending, us: seq<Updated>, v: Variant): Pending
    decreases |us|
  {
    if us == [] then p else Fold(Accumulate(p, us[0], v), us[1..], v)
  }

  /** The elements of the list changesets among `us`, in order. */
  function Elems(us: seq<Updated>): seq<int> {
    if us == [] then [] else (if us[0].ListUpdated? then us[0].elems else []) + Elems(us[1..])
  }

  predicate AllLists(us: seq<Updated>) {
    forall i :: 0 <= i < |us| ==> us[i].ListUpdated?
  }

  predicate AllRecords(us: seq<Updated>) {
    forall i :: 0 <= i < |us| ==> us[i].RecordUpdated?
  }

  /** The fields of the object changesets among `us`, later ones winning. */
  function Merged(us: seq<Updated>): Record {
    if us == [] then map[] else (if us[0].RecordUpdated? then us[0].fields else map[]) + Merged(us[1..])
  }

  lemma {:induction false} FoldListsFrom(p: Pending, us: seq<Updated>, v: Variant)
    requires AllLists(us)
    requires if v == Src then p.PendingList? else p.PendingPlain?
    ensures Fold(p, us, v) == (if v == Src then p.(elems := p.elems + Elems(us)) else PendingPlain(p.elems + Elems(us)))
    decreases |us|
  {
    if us != [] {
      var p1 := Accumulate(p, us[0], v);
      FoldListsFrom(p1, us[1..], v);
      assert p.elems + Elems(us) == p1.elems + Elems(us[1..]);
    }
  }

  /** Within one window the list changesets are concatenated: in the
      sources the result keeps the first changeset's `added` and `deleted`,
      in the JavaScript build it is a plain array of the elements. */
  lemma FoldLists(us: seq<Updated>, v: Variant)
    requires |us| > 0 && AllLists(us)
    ensures v == Src ==> Fold(Nothing, us, v) == PendingList(Elems(us), us[0].added, us[0].deleted)
    ensures v == Lib ==> Fold(Nothing, us, v) == PendingPlain(Elems(us))
  {
    var p1 := Accumulate(Nothing, us[0], v);
    FoldListsFrom(p1, us[1..], v);
  }

  lemma MergeAssoc(a: Record, b: Record, c: Record)
    ensures (a + b) + c == a + (b + c)
  {
  }

  lemma {:induction false} FoldRecordsFrom(m: Record, us: seq<Updated>, v: Variant)
    requires AllRecords(us)
    ensures Fold(PendingRecord(m), us, v) == PendingRecord(m + Merged(us))
    decreases |us|
  {
    if us != [] {
      FoldRecordsFrom(m + us[0].fields, us[1..], v);
      MergeAssoc(m, us[0].fields, Merged(us[1..]));
    }
  }

  /** The field values `Merged` holds: those of the last changeset that has
      the field. */
  lemma {:induction false} MergedLastWins(us: seq<Updated>, k: string, i: int)
    requires AllRecords(us)
    requires 0 <= i < |us| && k in us[i].fields
    requires forall j :: i < j < |us| ==> k !in us[j].fields
    ensures k in Merged(us) && Merged(us)[k] == us[i].fields[k]
    decreases |us|
  {
    if i > 0 {
      MergedLastWins(us[1..], k, i - 1);
    } else {
      MergedLacks(us[1..], k);
    }
  }

  lemma {:induction false} MergedLacks(us: seq<Updated>, k: string)
    requires forall j :: 0 <= j < |us| ==> us[j].RecordUpdated? ==> k !in us[j].fields
    ensures k !in Merged(us)
    decreases |us|
  {
    if us != [] {
      MergedLacks(us[1..], k);
    }
  }

  /** Within one window object changesets are merged field by field: the
      pending fields are those of some changeset, each with the value of the
      last changeset that has it. */
  lemma FoldRecords(us: seq<Updated>, v: Variant, k: string, i: int)
    requires |us| > 0 && AllRecords(us)
    requires 0 <= i < |us| && k in us[i].fields
    requires forall j :: i < j < |us| ==> k !in us[j].fields
    ensures Fold(Nothing, us, v).PendingRecord?
    ensures k in Fold(Nothing, us, v).fields && Fold(Nothing, us, v).fields[k] == us[i].fields[k]
  {
    FoldRecordsFrom(us[0].fields, us[1..], v);
    assert Fold(Nothing, us, v) == Fold(PendingRecord(us[0].fields), us[1..], v);
    MergedLastWins(us, k, i);
    assert Merged(us) == us[0].fields + Merged(us[1..]);
  }

  /** The group's own `emitUpdate()` calls, which pass nothing, leave what
      is pending as it was. */
  lemma {:induction false} FoldSkipsNothing(p: Pending, us: seq<Updated>, v: Variant)
    requires forall i :: 0 <= i < |us| ==> us[i].NoUpdated?
    ensures Fold(p, us, v) == p
    decreases |us|
  {
    if us != [] {
      FoldSkipsNothing(p, us[1..], v);
    }
  }
}

=== FILE: group_class.dfy ===
/** The `SubscriptionGroup` object and the members it holds, updated in
    place. Each method runs the loops of the sources over the member array
    and is proved to leave exactly the group, events and outcome that the
    reference semantics of `SubscriptionGroups` gives for the state before
    it, and every method that changes the group keeps its invariant
    `Valid()`. Members are `Item` values held in the group's `items` array;
    an item's own methods are the group's methods on the member's
    position. */
module SubscriptionGroupObjects {
  import opened Values
  import opened GroupDefinitions
  import opened GroupChangesets
  import opened GroupItems
  import opened SubscriptionGroups
  import SubscriptionGroupProperties

  class SubscriptionGroup {
    var items: seq<Item>
    var named: map<string, nat>
    var values: seq<Option<Value>>
    var namedValues: map<string, Option<Value>>
    var target: Option<nat>
    var targets: map<nat, Fields>
    var isLoaded: bool
    var isInited: bool
    var loadSettled: bool
    var initSettled: bool
    var unloadSettled: bool
    var nextId: nat
    var nextValue: nat
    const variant: Variant
    /** Everything the group and its members have emitted or called. */
    ghost var events: seq<Event>

    function Snapshot(): Group reads this {
      Group(items, named, values, namedValues, target, targets, isLoaded, isInited,
            loadSettled, initSettled, unloadSettled, nextId, nextValue)
    }

    ghost predicate Valid() reads this {
      SubscriptionGroups.Valid(Snapshot())
    }

    // -------------------------------------------------------------------
    // Loops over the members

    /** `this.items.every(p)`. */
    method EveryMember(p: Item -> bool) returns (b: bool)
      ensures b <==> forall j :: 0 <= j < |items| ==> p(items[j])
    {
      var j := 0;
      while j < |items|
        invariant 0 <= j <= |items|
        invariant forall k :: 0 <= k < j ==> p(items[k])
      {
        if !p(items[j]) {
          return false;
        }
        j := j + 1;
      }
      return true;
    }

    /** `for (const item of items) step(item)`, giving the members after
        the step and what they emit. */
    static method StepAll(xs: seq<Item>, step: Item -> (Item, seq<Event>)) returns (ys: seq<Item>, ghost es: seq<Event>)
      ensures |ys| == |xs| && forall j :: 0 <= j < |xs| ==> ys[j] == step(xs[j]).0
      ensures (ys, es) == Each(xs, step)
    {
      ys, es := [], [];
      var j := 0;
      while j < |xs|
        invariant 0 <= j <= |xs|
        invariant (ys, es) == Each(xs[..j], step)
      {
        assert xs[..j + 1][..j] == xs[..j];
        var r := step(xs[j]);
        ys, es := ys + [r.0], es + r.1;
        j := j + 1;
      }
      assert xs[..j] == xs;
    }

    /** The group asking for updates: `item.emitUpdate()` for every
        member, or its own `emitUpdate()` when it has none. */
    static method NotifyAll(xs: seq<Item>, v: Variant) returns (ys: seq<Item>, ghost es: seq<Event>)
      ensures (ys, es) == Notify(xs, v)
      ensures |xs| == 0 ==> ys == xs && es == [GroupUpdate]
      ensures |xs| > 0 ==> forall j :: 0 <= j < |xs| ==> ys[j] == EmitUpdate(xs[j], NoUpdated, v).0
    {
      if |xs| > 0 {
        ys, es := StepAll(xs, Asking(v));
      } else {
        ys, es := xs, [GroupUpdate];
      }
    }

    /** `target[item.name] = item.value` for the binding members. */
    static method BindFields(fields: Fields, xs: seq<Item>, loadedOnly: bool) returns (f: Fields)
      ensures f == Bind(fields, xs, loadedOnly)
    {
      f := fields;
      var j := 0;
      while j < |xs|
        invariant 0 <= j <= |xs|
        invariant f == Bind(fields, xs[..j], loadedOnly)
      {
        assert xs[..j + 1][..j] == xs[..j];
        if Binds(xs[j], loadedOnly) {
          f := f[xs[j].name := xs[j].value];
        }
        j := j + 1;
      }
      assert xs[..j] == xs;
    }

    /** `delete target[item.name]` for the binding members. */
    static method UnbindFields(fields: Fields, xs: seq<Item>, loadedOnly: bool) returns (f: Fields)
      ensures f == Unbind(fields, xs, loadedOnly)
    {
      f := fields;
      var j := 0;
      while j < |xs|
        invariant 0 <= j <= |xs|
        invariant f == Unbind(fields, xs[..j], loadedOnly)
      {
        assert xs[..j + 1][..j] == xs[..j];
        if Binds(xs[j], loadedOnly) {
          f := f - {xs[j].name};
        }
        j := j + 1;
      }
      assert xs[..j] == xs;
    }

    /** The targets with the binding members written to the current one,
        if any. */
    static method BoundTargets(g: Group, loadedOnly: bool) returns (t: map<nat, Fields>)
      ensures t == BindTarget(g, loadedOnly).targets
    {
      t := g.targets;
      if g.target.Some? {
        var f := BindFields(TargetFields(g), g.items, loadedOnly);
        t := g.targets[g.target.value := f];
      }
    }

    /** The targets with the binding members removed from the current one,
        if any. */
    static method UnboundTargets(g: Group, loadedOnly: bool) returns (t: map<nat, Fields>)
      ensures t == UnbindTarget(g, loadedOnly).targets
    {
      t := g.targets;
      if g.target.Some? {
        var f := UnbindFields(TargetFields(g), g.items, loadedOnly);
        t := g.targets[g.target.value := f];
      }
    }

    // -------------------------------------------------------------------
    // The three barriers

    /** `#load`. */
    method Load()
      modifies this
      ensures Snapshot() == SubscriptionGroups.Load(old(Snapshot()), variant).0
      ensures events == old(events) + SubscriptionGroups.Load(old(Snapshot()), variant).1
      ensures old(Valid()) ==> Valid()
    {
      if Valid() {
        SubscriptionGroupProperties.ValidLoad(Snapshot(), variant);
      }
      var all := EveryMember((it: Item) => it.isLoaded);
      if !isLoaded && all {
        LoadMembers();
      }
    }

    /** The body of `#load` once its test has passed: the members are
        bound, the group is loaded, the members run their `#load`, the
        group emits `load` and, when initialised, asks for updates. */
    method LoadMembers()
      modifies this
      ensures Snapshot() == LoadActs(old(Snapshot()), variant).0
      ensures events == old(events) + LoadActs(old(Snapshot()), variant).1
    {
      var bound, loaded;
      ghost var es;
      bound, loaded, es := Loading(Snapshot(), variant);
      SetLoaded(bound, true, loaded);
      events := events + es;
    }

    /** What `#load` computes: the target with the members bound, the
        members after their `#load` and, when the group is initialised,
        after being asked for updates, and the events in order. */
    static method Loading(g: Group, v: Variant) returns (bound: map<nat, Fields>, ys: seq<Item>, ghost es: seq<Event>)
      ensures bound == BindTarget(g, false).targets
      ensures ys == LoadActs(g, v).0.items && es == LoadActs(g, v).1
    {
      bound := BoundTargets(g, false);
      var loaded;
      ghost var e1, e2 := [], [];
      loaded, e1 := StepAll(g.items, LoadStep);
      ys := loaded;
      if g.isInited {
        ys, e2 := NotifyAll(loaded, v);
      }
      es := e1 + [GroupLoad] + e2;
    }

    /** `#init`. */
    method Init()
      modifies this
      ensures Snapshot() == SubscriptionGroups.Init(old(Snapshot()), variant).0
      ensures events == old(events) + SubscriptionGroups.Init(old(Snapshot()), variant).1
      ensures old(Valid()) ==> Valid()
    {
      if Valid() {
        SubscriptionGroupProperties.ValidInit(Snapshot(), variant);
      }
      var all := EveryMember((it: Item) => it.isInited);
      if !isInited && all {
        InitMembers();
      }
    }

    /** The body of `#init` once its test has passed: the group is
        initialised, asks for updates when loaded, the members run their
        `#init` and the group emits `init`. */
    method InitMembers()
      modifies this
      ensures Snapshot() == InitActs(old(Snapshot()), variant).0
      ensures events == old(events) + InitActs(old(Snapshot()), variant).1
    {
      var inited;
      ghost var es;
      inited, es := Initing(Snapshot(), variant);
      isInited, items, initSettled := true, inited, true;
      events := events + es;
    }

    /** What `#init` computes: the members after being asked for updates
        when the group is loaded and after their `#init`, and the events in
        order. */
    static method Initing(g: Group, v: Variant) returns (ys: seq<Item>, ghost es: seq<Event>)
      ensures ys == InitActs(g, v).0.items && es == InitActs(g, v).1
    {
      var notified := g.items;
      ghost var e1, e2 := [], [];
      if g.isLoaded {
        notified, e1 := NotifyAll(g.items, v);
      }
      ys, e2 := StepAll(notified, InitStep);
      es := e1 + e2 + [GroupInit];
    }

    /** `#unload`. */
    method Unload()
      modifies this
      ensures Snapshot() == SubscriptionGroups.Unload(old(Snapshot()), variant).0
      ensures events == old(events) + SubscriptionGroups.Unload(old(Snapshot()), variant).1
      ensures old(Valid()) ==> Valid()
    {
      if Valid() {
        SubscriptionGroupProperties.ValidUnload(Snapshot(), variant);
      }
      var none := EveryMember((it: Item) => !it.isLoaded);
      if isLoaded && none {
        UnloadMembers();
      }
    }

    /** The body of `#unload` once its test has passed: the members are
        unbound, the group is unloaded, the members run their `#unload`,
        the group emits `unload` and asks for updates. */
    method UnloadMembers()
      modifies this
      ensures Snapshot() == UnloadActs(old(Snapshot()), variant).0
      ensures events == old(events) + UnloadActs(old(Snapshot()), variant).1
    {
      var unbound, unloaded;
      ghost var es;
      unbound, unloaded, es := Unloading(Snapshot(), variant);
      SetLoaded(unbound, false, unloaded);
      events := events + es;
    }

    /** What `#unload` computes: the target with the members unbound, the
        members after their `#unload` and after being asked for updates,
        and the events in order. */
    static method Unloading(g: Group, v: Variant) returns (unbound: map<nat, Fields>, ys: seq<Item>, ghost es: seq<Event>)
      ensures unbound == UnbindTarget(g, false).targets
      ensures ys == UnloadActs(g, v).0.items && es == UnloadActs(g, v).1
    {
      unbound := UnboundTargets(g, false);
      var unloaded;
      ghost var e1, e2;
      unloaded, e1 := StepAll(g.items, UnloadStep);
      ys, e2 := NotifyAll(unloaded, v);
      es := e1 + [GroupUnload] + e2;
    }

    /** The group's state once `#load` or `#unload` has run: the new
        targets and members, the flag, and `loaded()` resolved and
        `unloaded()` renewed, or the other way round. */
    method SetLoaded(t: map<nat, Fields>, loaded: bool, xs: seq<Item>)
      modifies this
      ensures Snapshot() == old(Snapshot()).(targets := t, isLoaded := loaded, items := xs,
                                             loadSettled := loaded, unloadSettled := !loaded)
      ensures events == old(events)
    {
      targets, isLoaded, items, loadSettled, unloadSettled := t, loaded, xs, loaded, !loaded;
    }

    // -------------------------------------------------------------------
    // A member's subscription callback

    /** The item's `#handleSubscription(_, updated, updates)` for the
        member at position `i`. */
    method HandleSubscription(i: nat, u: Updated, updates: bool)
      requires i < |items|
      modifies this
      ensures var r := SubscriptionGroups.HandleSubscription(old(Snapshot()), i, u, updates, variant);
        Snapshot() == r.0 && events == old(events) + r.1
      ensures old(Valid()) ==> Valid()
    {
      if Valid() {
        SubscriptionGroupProperties.ValidHandle(Snapshot(), i, u, updates, variant);
      }
      ghost var d := SubscriptionGroups.Deliver(Snapshot(), i, u, updates, variant);
      SeqAssoc(old(events), d.1, SubscriptionGroups.FirstCall(d.0, i, variant).1);
      Deliver(i, u, updates);
      FirstCall(i);
    }

    /** What the callback does with the changeset. */
    method Deliver(i: nat, u: Updated, updates: bool)
      requires i < |items|
      modifies this
      ensures var r := SubscriptionGroups.Deliver(old(Snapshot()), i, u, updates, variant);
        Snapshot() == r.0 && events == old(events) + r.1
      ensures old(Valid()) ==> Valid()
    {
      if Valid() {
        SubscriptionGroupProperties.ValidDeliver(Snapshot(), i, u, updates, variant);
      }
      var it := items[i];
      if updates {
        if isLoaded {
          var emitted := EmitUpdate(it, u, variant);
          items, events := items[i := emitted.0], events + HandleCall(it, Some(u)) + emitted.1;
        } else {
          var stash := if u.NoUpdated? then None else Some(u);
          items := items[i := it.(loadUpdated := stash, isLoaded := true)];
          Load();
        }
      } else if it.isLoaded {
        items := items[i := it.(isLoaded := false)];
        Unload();
      }
    }

    /** The callback's first call initialises the member. */
    method FirstCall(i: nat)
      requires i < |items|
      modifies this
      ensures var r := SubscriptionGroups.FirstCall(old(Snapshot()), i, variant);
        Snapshot() == r.0 && events == old(events) + r.1
      ensures old(Valid()) ==> Valid()
    {
      if Valid() {
        SubscriptionGroupProperties.ValidFirstCall(Snapshot(), i, variant);
      }
      if !items[i].isInited {
        items := items[i := items[i].(isInited := true)];
        Init();
      }
    }

    /** The debounce timer of the member at position `i` firing. */
    method FlushMember(i: nat)
      requires i < |items|
      modifies this
      ensures Snapshot() == FlushAt(old(Snapshot()), i).0 && events == old(events) + FlushAt(old(Snapshot()), i).1
      ensures old(Valid()) ==> Valid()
    {
      if Valid() {
        SubscriptionGroupProperties.ValidFlush(Snapshot(), i);
      }
      var flushed := Flush(items[i]);
      items, events := items[i := flushed.0], events + flushed.1;
    }

    /** The timer of the `k`-th earlier debounce window of the member at
        position `i` firing. */
    method FlushOrphanMember(i: nat, k: nat)
      requires i < |items| && k < |items[i].orphans|
      modifies this
      ensures Snapshot() == FlushOrphanAt(old(Snapshot()), i, k).0 && events == old(events) + FlushOrphanAt(old(Snapshot()), i, k).1
      ensures old(Valid()) ==> Valid()
    {
      if Valid() {
        SubscriptionGroupProperties.ValidFlushOrphan(Snapshot(), i, k);
      }
      var flushed := FlushOrphan(items[i], k);
      items, events := items[i := flushed.0], events + flushed.1;
    }

    // -------------------------------------------------------------------
    // Leaving the group

    /** `this.items.indexOf(item)` for the member with an id. */
    static method IndexOf(xs: seq<Item>, id: nat) returns (r: int)
      ensures r == Position(xs, id)
    {
      var j := 0;
      while j < |xs|
        invariant 0 <= j <= |xs|
        invariant forall k :: 0 <= k < j ==> xs[k].id != id
      {
        if xs[j].id == id {
          SubscriptionGroupProperties.PositionFirst(xs, id, j);
          return j;
        }
        j := j + 1;
      }
      return -1;
    }

    /** The item's `detach()` for the member at position `i`. */
    method DetachMember(i: nat) returns (status: Status)
      requires i < |items|
      modifies this
      ensures var o := DetachAt(old(Snapshot()), i, variant);
        Snapshot() == o.g && events == old(events) + o.events && status == o.status
      ensures old(Valid()) ==> Valid()
    {
      if Valid() {
        SubscriptionGroupProperties.ValidDetachAt(Snapshot(), i, variant);
      }
      var it := items[i];
      if DetachThrows(it, variant) {
        return Threw(TypeError);
      }
      ghost var unsubscribed := if it.value.Some? && it.value.value.withSubscription then [Unsubscribed(it.id)] else [];
      Leave(i, unsubscribed + UnloadStep(it.(isLoaded := false)).1);
      status := Ok;
    }

    /** The member at position `i` leaves the group and both value views. */
    method Leave(i: nat, ghost called: seq<Event>)
      requires i < |items|
      modifies this
      ensures var it := old(items[i]);
        Snapshot() == old(Snapshot()).(values := RemoveOne(old(values), it.value), namedValues := old(namedValues) - {it.name},
                                       items := old(items[..i] + items[i + 1..]), named := old(named) - {it.name})
      ensures events == old(events) + called
    {
      var it := items[i];
      values, namedValues, items, named, events :=
        RemoveOne(values, it.value), namedValues - {it.name}, items[..i] + items[i + 1..], named - {it.name},
        events + called;
    }

    /** `this.items[name]?.detach()`. */
    method DetachNamed(name: string) returns (status: Status)
      modifies this
      ensures var o := DetachName(old(Snapshot()), name, variant);
        Snapshot() == o.g && events == old(events) + o.events && status == o.status
      ensures old(Valid()) ==> Valid()
    {
      if Valid() {
        SubscriptionGroupProperties.ValidDetachName(Snapshot(), name, variant);
      }
      status := Ok;
      if name in named {
        var i := IndexOf(items, named[name]);
        if i >= 0 {
          status := DetachMember(i);
        }
      }
    }

    /** Detaching the named members in turn, stopping at a throw. */
    method DetachNames(names: seq<string>) returns (status: Status)
      modifies this
      ensures var o := DetachFrom(Outcome(old(Snapshot()), [], Ok), names, variant);
        Snapshot() == o.g && events == old(events) + o.events && status == o.status
    {
      ghost var start := Outcome(Snapshot(), [], Ok);
      ghost var cur := start;
      status := Ok;
      var j := 0;
      while j < |names| && status.Ok?
        invariant 0 <= j <= |names|
        invariant Snapshot() == cur.g && events == old(events) + cur.events && status == cur.status
        invariant DetachFrom(cur, names[j..], variant) == DetachFrom(start, names, variant)
      {
        ghost var r := DetachName(cur.g, names[j], variant);
        ghost var next := Outcome(r.g, cur.events + r.events, r.status);
        assert names[j..][1..] == names[j + 1..];
        SeqAssoc(old(events), cur.events, r.events);
        status := DetachNamed(names[j]);
        cur := next;
        j := j + 1;
      }
    }

    /** The group's `detach(names, shouldUpdate)`. */
    method Detach(names: seq<string>, shouldUpdate: bool) returns (status: Status)
      modifies this
      ensures var o := SubscriptionGroups.Detach(old(Snapshot()), names, shouldUpdate, variant);
        Snapshot() == o.g && events == old(events) + o.events && status == o.status
      ensures old(Valid()) ==> Valid()
    {
      if Valid() {
        SubscriptionGroupProperties.ValidDetach(Snapshot(), names, shouldUpdate, variant);
      }
      ghost var o := DetachFrom(Outcome(Snapshot(), [], Ok), names, variant);
      status := DetachNames(names);
      if status.Ok? && shouldUpdate {
        SeqAssoc(old(events), o.events, SubscriptionGroups.Reload(o.g, variant).1);
        Reload();
      }
    }

    /** `#unload()` followed by `#load()`. */
    method Reload()
      modifies this
      ensures var r := SubscriptionGroups.Reload(old(Snapshot()), variant);
        Snapshot() == r.0 && events == old(events) + r.1
    {
      ghost var u := SubscriptionGroups.Unload(Snapshot(), variant);
      SeqAssoc(old(events), u.1, SubscriptionGroups.Load(u.0, variant).1);
      Unload();
      Load();
    }

    // -------------------------------------------------------------------
    // Joining the group

    /** `#attachTo(group)` for an item that is not a member. */
    method AttachItem(it: Item) returns (status: Status)
      modifies this
      ensures var o := AttachTo(old(Snapshot()), it, variant);
        Snapshot() == o.g && events == old(events) + o.events && status == o.status
    {
      var it1 := it.(loadSettled := false, initSettled := false, unloadSettled := false);
      if it.value.None? && CreatedKind(it.typ, variant).None? {
        Enter(it1);
        return Threw(TypeError);
      }
      var it2, next := it1, nextValue;
      if it.value.None? {
        it2, next := it1.(value := Some(Value(nextValue, CreatedKind(it.typ, variant), true))), nextValue + 1;
      }
      Enter(it2);
      Publish(it2, next, if it.onBeforeInit.Some? then [BeforeInit(it.id)] else []);
      status := Ok;
    }

    /** A member joins the list and the name index. */
    method Enter(it: Item)
      modifies this
      ensures Snapshot() == old(Snapshot()).(items := old(items) + [it], named := old(named)[it.name := it.id])
      ensures events == old(events)
    {
      items, named := items + [it], named[it.name := it.id];
    }

    /** A member's value joins both value views, and the value counter
        moves on to `next`. */
    method Publish(it: Item, next: nat, called: seq<Event>)
      modifies this
      ensures Snapshot() == old(Snapshot()).(values := old(values) + [it.value],
                                             namedValues := old(namedValues)[it.name := it.value], nextValue := next)
      ensures events == old(events) + called
    {
      values, namedValues, nextValue, events := values + [it.value], namedValues[it.name := it.value], next, events + called;
    }

    /** `new SubscriptionGroupItem(definition, group)`. */
    method CreateItem(def: Definition) returns (status: Status)
      modifies this
      ensures var o := NewItem(old(Snapshot()), def, variant);
        Snapshot() == o.g && events == old(events) + o.events && status == o.status
    {
      var id := nextId;
      nextId := nextId + 1;
      status := AttachItem(Configure(Fresh(id, def.name), def));
    }

    /** The item's `define(definition)` for the member at position `i`. */
    method DefineMember(i: nat, def: Definition) returns (status: Status)
      requires i < |items|
      modifies this
      ensures var o := DefineAt(old(Snapshot()), i, def, variant);
        Snapshot() == o.g && events == old(events) + o.events && status == o.status
    {
      var it := items[i];
      if Unchanged(it, def) {
        items := items[i := ApplyOptions(it, def.debounce, def.preventBind)];
        return Ok;
      }
      var again := Reconfigured(Snapshot(), i, def);
      status := DetachMember(i);
      if status.Ok? {
        status := AttachItem(again);
      }
    }

    /** The item's `subscribe()` for the member at position `i`. */
    method SubscribeMember(i: nat, feed: Value -> Feed) returns (status: Status)
      requires i < |items|
      modifies this
      ensures var o := SubscribeAt(old(Snapshot()), i, feed, variant);
        Snapshot() == o.g && events == old(events) + o.events && status == o.status
    {
      var it := items[i];
      match it.value
      case None =>
        status := if variant == Src then Ok else Threw(TypeError);
      case Some(val) =>
        if val.withSubscription {
          events := events + [Subscribed(it.id)];
        } else if val.kind == Some(ArrayKind) && variant == Lib {
          return Threw(TypeError);
        } else {
          HandleSubscription(i, InitialOf(val, feed), feed(val).hasUpdates);
        }
        status := Ok;
    }

    /** Creating a member for each definition in turn, stopping at a
        throw. */
    method CreateItems(defs: seq<Unparsed>) returns (status: Status)
      modifies this
      ensures var o := CreateFrom(Outcome(old(Snapshot()), [], Ok), defs, variant);
        Snapshot() == o.g && events == old(events) + o.events && status == o.status
    {
      ghost var start := Outcome(Snapshot(), [], Ok);
      ghost var cur := start;
      status := Ok;
      var j := 0;
      while j < |defs| && status.Ok?
        invariant 0 <= j <= |defs|
        invariant Snapshot() == cur.g && events == old(events) + cur.events && status == cur.status
        invariant CreateFrom(cur, defs[j..], variant) == CreateFrom(start, defs, variant)
      {
        assert defs[j..][1..] == defs[j + 1..];
        match Parse(defs[j], variant) {
          case Failed(e) =>
            status := Threw(e);
            cur := Outcome(cur.g, cur.events, Threw(e));
          case Parsed(def) =>
            ghost var r := NewItem(cur.g, def, variant);
            SeqAssoc(old(events), cur.events, r.events);
            status := CreateItem(def);
            cur := Outcome(r.g, cur.events + r.events, r.status);
        }
        j := j + 1;
      }
    }

    /** Subscribing the members at positions `from` to `to` in turn,
        stopping at a throw. */
    method SubscribeMembers(from: nat, to: nat, feed: Value -> Feed) returns (status: Status)
      requires to <= |items|
      modifies this
      ensures var o := SubscribeFrom(Outcome(old(Snapshot()), [], Ok), from, to, feed, variant);
        Snapshot() == o.g && events == old(events) + o.events && status == o.status
    {
      ghost var start := Outcome(Snapshot(), [], Ok);
      ghost var cur := start;
      status := Ok;
      var j := from;
      while j < to && status.Ok?
        invariant to <= |items|
        invariant Snapshot() == cur.g && events == old(events) + cur.events && status == cur.status
        invariant SubscribeFrom(cur, j, to, feed, variant) == SubscribeFrom(start, from, to, feed, variant)
        decreases if j < to then to - j else 0
      {
        ghost var r := SubscribeAt(cur.g, j, feed, variant);
        SeqAssoc(old(events), cur.events, r.events);
        status := SubscribeMember(j, feed);
        cur := Outcome(r.g, cur.events + r.events, r.status);
        j := j + 1;
      }
    }

    /** The group's `attach(definitions, shouldReload, immediately)`. */
    method Attach(defs: seq<Unparsed>, shouldReload: bool, immediately: bool, feed: Value -> Feed) returns (status: Status)
      modifies this
      ensures var o := SubscriptionGroups.Attach(old(Snapshot()), defs, shouldReload, immediately, feed, variant);
        Snapshot() == o.g && events == old(events) + o.events && status == o.status
      ensures old(Valid()) ==> Valid()
    {
      if Valid() {
        SubscriptionGroupProperties.ValidAttach(Snapshot(), defs, shouldReload, immediately, feed, variant);
      }
      Reopen(isLoaded && !shouldReload);
      status := AttachDefinitions(defs, immediately, feed);
    }

    /** The flag set, with `loaded()` and `unloaded()` renewed. */
    method Reopen(loaded: bool)
      modifies this
      ensures Snapshot() == old(Snapshot()).(isLoaded := loaded, loadSettled := false, unloadSettled := false)
      ensures events == old(events)
    {
      isLoaded, loadSettled, unloadSettled := loaded, false, false;
    }

    /** `attach` once the flags are set. */
    method AttachDefinitions(defs: seq<Unparsed>, immediately: bool, feed: Value -> Feed) returns (status: Status)
      modifies this
      ensures var o := CreateAndSubscribe(old(Snapshot()), defs, immediately, feed, variant);
        Snapshot() == o.g && events == old(events) + o.events && status == o.status
    {
      var count := |items|;
      ghost var c := CreateFrom(Outcome(Snapshot(), [], Ok), defs, variant);
      status := CreateItems(defs);
      if status.Ok? && immediately {
        ghost var s0 := SubscribeFrom(Outcome(c.g, [], Ok), count, |items|, feed, variant);
        SubscriptionGroupProperties.SubscribeFromLog(Outcome(c.g, [], Ok), c.events, count, |items|, feed, variant);
        assert c.events + [] == c.events;
        SeqAssoc(old(events), c.events, s0.events);
        status := SubscribeMembers(count, |items|, feed);
      }
    }

    /** The group's constructor: an empty group with its target, then
        `attach` without reload. A throw leaves no group; the state is then
        as far as the constructor got. */
    constructor (defs: seq<Unparsed>, t: Option<nat>, immediately: bool, feed: Value -> Feed, v: Variant)
      ensures var o := Construct(defs, t, immediately, feed, v);
        Snapshot() == o.g && events == o.events
      ensures Valid()
    {
      items, named, values, namedValues, target, targets := [], map[], [], map[], t, map[];
      isLoaded, isInited, loadSettled, initSettled, unloadSettled := false, false, false, false, false;
      nextId, nextValue, variant, events := 0, 0, v, [];
      new;
      assert Snapshot() == EmptyGroup(t);
      SubscriptionGroupProperties.ValidConstruct(defs, t, immediately, feed, v);
      var status := Attach(defs, false, immediately, feed);
    }

    // -------------------------------------------------------------------
    // Redefining

    /** Redefining and resubscribing the member of each definition in
        turn, stopping at a throw. */
    method RedefineMembers(defs: seq<Definition>, feed: Value -> Feed) returns (status: Status)
      modifies this
      ensures var o := RedefineFrom(Outcome(old(Snapshot()), [], Ok), defs, feed, variant);
        Snapshot() == o.g && events == old(events) + o.events && status == o.status
    {
      ghost var start := Outcome(Snapshot(), [], Ok);
      ghost var cur := start;
      status := Ok;
      var j := 0;
      while j < |defs| && status.Ok?
        invariant 0 <= j <= |defs|
        invariant Snapshot() == cur.g && events == old(events) + cur.events && status == cur.status
        invariant RedefineFrom(cur, defs[j..], feed, variant) == RedefineFrom(start, defs, feed, variant)
      {
        ghost var r := RedefineOne(cur.g, defs[j], feed, variant);
        ghost var next := Outcome(r.g, cur.events + r.events, r.status);
        assert defs[j..][1..] == defs[j + 1..];
        SeqAssoc(old(events), cur.events, r.events);
        status := RedefineMember(defs[j], feed);
        cur := next;
        j := j + 1;
      }
    }

    /** One step of `redefine`: the member with the definition's name is
        defined and subscribes again. */
    method RedefineMember(d: Definition, feed: Value -> Feed) returns (status: Status)
      modifies this
      ensures var o := RedefineOne(old(Snapshot()), d, feed, variant);
        Snapshot() == o.g && events == old(events) + o.events && status == o.status
    {
      if d.name !in named {
        return Threw(TypeError);
      }
      var id := named[d.name];
      var i := IndexOf(items, id);
      if i < 0 {
        return Threw(TypeError);
      }
      status := DefineAndResubscribe(i, id, d, feed);
    }

    /** The member at position `i` is defined, looked up again by its id
        and subscribes. */
    method DefineAndResubscribe(i: nat, id: nat, d: Definition, feed: Value -> Feed) returns (status: Status)
      requires i < |items|
      modifies this
      ensures var o := DefineResubscribe(old(Snapshot()), i, id, d, feed, variant);
        Snapshot() == o.g && events == old(events) + o.events && status == o.status
    {
      ghost var e0 := events;
      ghost var f := DefineAt(Snapshot(), i, d, variant);
      status := DefineMember(i, d);
      if status.Ok? {
        ghost var r := Resubscribe(f.g, id, feed, variant);
        SeqAssoc(e0, f.events, r.events);
        status := SubscribeAgain(id, feed);
      }
    }

    /** The second half of a redefinition: the member with the id, looked
        up again, subscribes; a member that has left throws. */
    method SubscribeAgain(id: nat, feed: Value -> Feed) returns (status: Status)
      modifies this
      ensures var o := Resubscribe(old(Snapshot()), id, feed, variant);
        Snapshot() == o.g && events == old(events) + o.events && status == o.status
    {
      var i := IndexOf(items, id);
      if i < 0 {
        return Threw(TypeError);
      }
      status := SubscribeMember(i, feed);
    }

    /** The group's `redefine(definitions)`. */
    method Redefine(defs: seq<Unparsed>, feed: Value -> Feed) returns (status: Status)
      modifies this
      ensures var o := SubscriptionGroups.Redefine(old(Snapshot()), defs, feed, variant);
        Snapshot() == o.g && events == old(events) + o.events && status == o.status
      ensures old(Valid()) ==> Valid()
    {
      if Valid() {
        SubscriptionGroupProperties.ValidRedefine(Snapshot(), defs, feed, variant);
      }
      match ParseAll(defs, variant)
      case ParseFailed(e) =>
        return Threw(e);
      case AllParsed(parsed) =>
        var (re, at, left) := Split(Names(items), parsed);
        isLoaded := false;
        ghost var d := DetachFrom(Outcome(Snapshot(), [], Ok), left, variant);
        status := DetachNames(left);
        if status.Ok? {
          ghost var r := RedefineAndAttach(d.g, re, at, feed, variant);
          SeqAssoc(old(events), d.events, r.events);
          status := RedefineAndAttachMembers(re, at, feed);
        }
    }

    /** The second half of `redefine`. */
    method RedefineAndAttachMembers(re: seq<Definition>, at: seq<Definition>, feed: Value -> Feed) returns (status: Status)
      modifies this
      ensures var o := RedefineAndAttach(old(Snapshot()), re, at, feed, variant);
        Snapshot() == o.g && events == old(events) + o.events && status == o.status
    {
      ghost var r := RedefineFrom(Outcome(Snapshot(), [], Ok), re, feed, variant);
      status := RedefineMembers(re, feed);
      if status.Ok? && at != [] {
        ghost var a := SubscriptionGroups.Attach(r.g, AsObjects(at), false, true, feed, variant);
        SeqAssoc(old(events), r.events, a.events);
        status := Attach(AsObjects(at), false, true, feed);
      }
    }

    // -------------------------------------------------------------------
    // Changing the target

    /** The target part of the group's `applyOptions`. */
    method ApplyTarget(t: Option<nat>)
      modifies this
      ensures Snapshot() == SubscriptionGroups.ApplyTarget(old(Snapshot()), t) && events == old(events)
      ensures old(Valid()) ==> Valid()
    {
      if Valid() {
        SubscriptionGroupProperties.ValidApplyTarget(Snapshot(), t);
      }
      if t != target {
        var unbound := targets;
        if target.Some? {
          var f := UnbindFields(TargetFields(Snapshot()), items, true);
          unbound := targets[target.value := f];
        }
        var bound := unbound;
        if t.Some? {
          var f := BindFields(if t.value in unbound then unbound[t.value] else map[], items, true);
          bound := unbound[t.value := f];
        }
        target, targets := t, bound;
      }
    }
  }
}

=== FILE: group_definition.dfy ===
/** `parseDefinition`: a group member is defined either by an object with
    named fields or by a tuple whose elements are recognised by their
    JavaScript type, in a fixed order. */
module GroupDefinitions {
  import opened Values

  /** The container class a value's `toString()` names after
      `Subscription`: `Object`, `Array` or `Map`. */
  datatype Kind = ObjectKind | ArrayKind | MapKind

  /** The `type` string `parseDefinition` derives from a kind. */
  function TypeName(k: Kind): string {
    match k
    case ObjectKind => "object"
    case ArrayKind => "array"
    case MapKind => "map"
  }

  /** A container object handed over as a value: its identity, the kind its
      `toString()` reveals (none when the text does not match), and whether
      it is a `*WithSubscription` container, that is, has `subscribe` and
      `unsubscribe`. */
  datatype Value = Value(id: nat, kind: Option<Kind>, withSubscription: bool)

  /** The `debounce` of a definition: absent (the item's default of 4 ms
      applies), a number, or some other value (no debouncing). */
  datatype Debounce = DefaultDebounce | Limit(ms: int) | NoDebounce

  /** A parsed definition. `debounceLimit` is the key the JavaScript build's
      parser stores a tuple's number under; nothing reads it. */
  datatype Definition = Definition(
    name: string,
    value: Option<Value>,
    typ: Option<string>,
    publicationName: Option<string>,
    params: Option<seq<int>>,
    handle: Option<nat>,
    onBeforeInit: Option<nat>,
    debounce: Debounce,
    debounceLimit: Option<int>,
    preventBind: Option<bool>)

  /** One element of a tuple definition, by its JavaScript type; functions
      are given by identity. `AArray` is anything `Array.isArray` accepts,
      a `SubscriptionArray` container included (it extends `Array`), given
      by its elements: parameters are only ever compared and sent as JSON,
      which sees nothing else of them. `AObject` is an object that is not
      an array. */
  datatype Arg =
    | AString(s: string)
    | AArray(items: seq<int>)
    | AObject(value: Value)
    | ANull
    | AFunction(f: nat)
    | ANumber(n: int)
    | ABoolean(b: bool)
    | AUndefined

  /** What a group is given: `[name, ...args]` or an object. */
  datatype Unparsed = Tuple(name: string, args: seq<Arg>) | Object(def: Definition)

  /** Why parsing throws: `Error("Unknown value type")` or a `TypeError`. */
  datatype ParseError = UnknownValueType | TypeError

  datatype Parsed = Parsed(def: Definition) | Failed(error: ParseError)

  /** A definition with only a name. */
  function Bare(name: string): Definition {
    Definition(name, None, None, None, None, None, None, DefaultDebounce, None, None)
  }

  /** `typeof x == "object" && !Array.isArray(x)`. */
  predicate IsObjectLike(a: Arg) {
    a.AObject? || a.ANull?
  }

  /** `if (typeof args[0] == <t>) x = args.shift()`, one helper per type. */
  function TakeString(args: seq<Arg>): (Option<string>, seq<Arg>) {
    if |args| > 0 && args[0].AString? then (Some(args[0].s), args[1..]) else (None, args)
  }

  function TakeArray(args: seq<Arg>): (Option<seq<int>>, seq<Arg>) {
    if |args| > 0 && args[0].AArray? then (Some(args[0].items), args[1..]) else (None, args)
  }

  function TakeFunction(args: seq<Arg>): (Option<nat>, seq<Arg>) {
    if |args| > 0 && args[0].AFunction? then (Some(args[0].f), args[1..]) else (None, args)
  }

  function TakeNumber(args: seq<Arg>): (Option<int>, seq<Arg>) {
    if |args| > 0 && args[0].ANumber? then (Some(args[0].n), args[1..]) else (None, args)
  }

  function TakeBoolean(args: seq<Arg>): Option<bool> {
    if |args| > 0 && args[0].ABoolean? then Some(args[0].b) else None
  }

  /** The trailing elements every tuple may carry, in this order: a handle
      function, an `onBeforeInit` function, a debounce number and a
      `preventBind` boolean; each is taken only if the next element has its
      type. */
  function ParseTail(d: Definition, args: seq<Arg>, v: Variant): Definition {
    var (handle, a1) := TakeFunction(args);
    var (before, a2) := TakeFunction(a1);
    var (num, a3) := TakeNumber(a2);
    var d1 := d.(handle := handle, onBeforeInit := before, preventBind := TakeBoolean(a3));
    if num.None? then d1
    else if v == Src then d1.(debounce := Limit(num.value))
    else d1.(debounceLimit := num)
  }

  /** The tuple form: after the name, either a value object (its type read
      from `toString()`) or an optional type string, publication name and
      parameter array; then the trailing elements. A `SubscriptionArray`
      is an array and so never a value here (`ArrayContainerIsParams`);
      only an object that is not an array and whose `toString()` names
      `SubscriptionArray` is read as a value of type `"array"`. */
  function ParseTuple(name: string, args: seq<Arg>, v: Variant): (r: Parsed)
    ensures r.Parsed? ==> r.def.name == name && r.def.value.Some? == (|args| > 0 && args[0].AObject?)
  {
    var d0 := Bare(name);
    if |args| > 0 && IsObjectLike(args[0]) then
      match args[0]
      case ANull => Failed(TypeError)
      case AObject(value) =>
        match value.kind
        case None => if v == Src then Failed(UnknownValueType) else Failed(TypeError)
        case Some(k) => Parsed(ParseTail(d0.(value := Some(value), typ := Some(TypeName(k))), args[1..], v))
    else
      var (typ, a1) := TakeString(args);
      var (pub, a2) := TakeString(a1);
      var (params, a3) := TakeArray(a2);
      Parsed(ParseTail(d0.(typ := typ, publicationName := pub, params := params), a3, v))
  }

  /** `parseDefinition(definition)`. The object form gets type `"object"`
      when it has none; the JavaScript build returns it unchanged. */
  function Parse(u: Unparsed, v: Variant): (r: Parsed)
    ensures u.Object? ==> r.Parsed? && r.def.name == u.def.name
    ensures u.Object? && v == Src ==> r.def.typ == (if u.def.typ.None? then Some("object") else u.def.typ)
    ensures u.Object? && v == Lib ==> r.def == u.def
  {
    match u
    case Tuple(name, args) => ParseTuple(name, args, v)
    case Object(def) => Parsed(if v == Src && def.typ.None? then def.(typ := Some("object")) else def)
  }

  // ---------------------------------------------------------------------
  // Writing a definition as a tuple

  /** The tuple that spells out a definition, each present field in the
      order the parser reads them. */
  function Render(d: Definition): seq<Arg> {
    var head :=
      if d.value.Some? then [AObject(d.value.value)]
      else OptString(d.typ) + OptString(d.publicationName) + OptArray(d.params);
    head + TailPart(d)
  }

  /** The definitions a tuple can express: a value fixes the type and
      excludes publication and parameters, and it cannot be a
      `SubscriptionArray`, which a tuple reads as parameters
      (`ArrayContainerIsParams`); a publication name needs a type
      before it and an `onBeforeInit` a handle; the number lands in
      `debounce` in the sources and in `debounceLimit` in the JavaScript
      build. */
  predicate Expressible(d: Definition, v: Variant) {
    (d.value.Some? ==>
       d.value.value.kind.Some? && d.value.value.kind != Some(ArrayKind) &&
       d.typ == Some(TypeName(d.value.value.kind.value)) &&
       d.publicationName.None? && d.params.None?) &&
    (d.publicationName.Some? ==> d.typ.Some?) &&
    (d.onBeforeInit.Some? ==> d.handle.Some?) &&
    d.debounce != NoDebounce &&
    (v == Src ==> d.debounceLimit.None?) &&
    (v == Lib ==> d.debounce == DefaultDebounce)
  }

  /** Optional parts of a rendered tuple. */
  function OptString(o: Option<string>): seq<Arg> {
    if o.Some? then [AString(o.value)] else []
  }

  function OptArray(o: Option<seq<int>>): seq<Arg> {
    if o.Some? then [AArray(o.value)] else []
  }

  function OptFunction(o: Option<nat>): seq<Arg> {
    if o.Some? then [AFunction(o.value)] else []
  }

  function OptNumber(o: Option<int>): seq<Arg> {
    if o.Some? then [ANumber(o.value)] else []
  }

  function OptBoolean(o: Option<bool>): seq<Arg> {
    if o.Some? then [ABoolean(o.value)] else []
  }

  function NumberPart(d: Definition): seq<Arg> {
    (match d.debounce case Limit(n) => [ANumber(n)] case _ => []) +
    OptNumber(d.debounceLimit)
  }

  function TailPart(d: Definition): seq<Arg> {
    OptFunction(d.handle) + OptFunction(d.onBeforeInit) +
    NumberPart(d) + OptBoolean(d.preventBind)
  }

  lemma ParseTailRender(d: Definition, v: Variant)
    requires Expressible(d, v)
    ensures ParseTail(Stripped(d), TailPart(d), v) == d
  {
    var b := OptFunction(d.onBeforeInit);
    var n := NumberPart(d);
    var p := OptBoolean(d.preventBind);
    assert TailPart(d) == OptFunction(d.handle) + (b + (n + p));
    assert |n| > 0 ==> n[0].ANumber?;
    assert |p| > 0 ==> p[0].ABoolean?;
    TakeFunctionRender(d.handle, b + (n + p));
    TakeFunctionRender(d.onBeforeInit, n + p);
    var num := match d.debounce case Limit(k) => Some(k) case _ => d.debounceLimit;
    if num.Some? {
      assert (n + p)[0] == ANumber(num.value) && (n + p)[1..] == p;
    } else {
      assert n == [] && n + p == p;
    }
    assert TakeNumber(n + p) == (num, p);
  }

  lemma TakeStringRender(o: Option<string>, rest: seq<Arg>)
    requires o.None? ==> |rest| == 0 || !rest[0].AString?
    ensures TakeString(OptString(o) + rest) == (o, rest)
  {
    var args := OptString(o) + rest;
    if o.Some? {
      assert args[0] == AString(o.value) && args[1..] == rest;
    } else {
      assert args == rest;
    }
  }

  lemma TakeArrayRender(o: Option<seq<int>>, rest: seq<Arg>)
    requires o.None? ==> |rest| == 0 || !rest[0].AArray?
    ensures TakeArray(OptArray(o) + rest) == (o, rest)
  {
    var args := OptArray(o) + rest;
    if o.Some? {
      assert args[0] == AArray(o.value) && args[1..] == rest;
    } else {
      assert args == rest;
    }
  }

  lemma TakeFunctionRender(o: Option<nat>, rest: seq<Arg>)
    requires o.None? ==> |rest| == 0 || !rest[0].AFunction?
    ensures TakeFunction(OptFunction(o) + rest) == (o, rest)
  {
    var args := OptFunction(o) + rest;
    if o.Some? {
      assert args[0] == AFunction(o.value) && args[1..] == rest;
    } else {
      assert args == rest;
    }
  }

  lemma ParseHeadRender(d: Definition, tail: seq<Arg>)
    requires d.publicationName.Some? ==> d.typ.Some?
    requires |tail| > 0 ==> !tail[0].AString? && !tail[0].AArray?
    ensures var args := OptString(d.typ) + OptString(d.publicationName) +
                        OptArray(d.params) + tail;
      TakeString(args) == (d.typ, OptString(d.publicationName) + OptArray(d.params) + tail) &&
      TakeString(TakeString(args).1) == (d.publicationName, OptArray(d.params) + tail) &&
      TakeArray(OptArray(d.params) + tail) == (d.params, tail)
  {
    var t := OptString(d.typ);
    var p := OptString(d.publicationName);
    var ps := OptArray(d.params);
    assert t + p + ps + tail == t + (p + ps + tail);
    assert p + ps + tail == p + (ps + tail);
    TakeArrayRender(d.params, tail);
    TakeStringRender(d.publicationName, ps + tail);
    TakeStringRender(d.typ, p + ps + tail);
  }

  /** Parsing the tuple a definition is written as gives that definition
      back: the parser reads the elements in the order `Render` writes
      them. */
  lemma ParseRender(d: Definition, v: Variant)
    requires Expressible(d, v)
    ensures Parse(Tuple(d.name, Render(d)), v) == Parsed(d)
  {
    ParseTailRender(d, v);
    if d.value.Some? {
      ParseRenderValue(d, v);
    } else {
      ParseRenderFields(d, v);
    }
  }

  lemma ParseRenderValue(d: Definition, v: Variant)
    requires Expressible(d, v) && d.value.Some?
    requires ParseTail(Stripped(d), TailPart(d), v) == d
    ensures ParseTuple(d.name, Render(d), v) == Parsed(d)
  {
    var args := Render(d);
    assert args[0] == AObject(d.value.value);
    assert args[1..] == TailPart(d);
    assert Bare(d.name).(value := d.value, typ := d.typ) == Stripped(d);
  }

  lemma ParseRenderFields(d: Definition, v: Variant)
    requires Expressible(d, v) && d.value.None?
    requires ParseTail(Stripped(d), TailPart(d), v) == d
    ensures ParseTuple(d.name, Render(d), v) == Parsed(d)
  {
    ParseHeadRender(d, TailPart(d));
    assert Bare(d.name).(typ := d.typ, publicationName := d.publicationName, params := d.params) == Stripped(d);
  }

  /** A definition without the parts the trailing elements carry. */
  function Stripped(d: Definition): Definition {
    d.(handle := None, onBeforeInit := None, debounce := DefaultDebounce, debounceLimit := None, preventBind := None)
  }

  /** Positions decide: a lone string after the name is the type, never
      the publication name, and a lone function is the handle. */
  lemma PositionsDecide(name: string, s: string, f: nat, v: Variant)
    ensures var r := Parse(Tuple(name, [AString(s)]), v);
      r.Parsed? && r.def.typ == Some(s) && r.def.publicationName.None?
    ensures var r := Parse(Tuple(name, [AFunction(f)]), v);
      r.Parsed? && r.def.handle == Some(f) && r.def.onBeforeInit.None?
  {
    assert [AString(s)][1..] == [];
    assert [AFunction(f)][1..] == [];
  }

  /** A `SubscriptionArray` container right after the name is an array to
      the parser, so it becomes the parameters, with no type and no
      publication name. */
  lemma ArrayContainerIsParams(name: string, items: seq<int>, tail: seq<Arg>, v: Variant)
    requires |tail| > 0 ==> !tail[0].AFunction? && !tail[0].ANumber? && !tail[0].ABoolean?
    ensures Parse(Tuple(name, [AArray(items)] + tail), v) == Parsed(Bare(name).(params := Some(items)))
  {
    var args := [AArray(items)] + tail;
    assert args[0] == AArray(items) && args[1..] == tail;
  }

  /** A value whose `toString()` names no subscription class is refused:
      with `Error("Unknown value type")` in the sources, and in the
      JavaScript build with a `TypeError`, since it indexes the failed match
      before its own check. A `null` in the value position throws a
      `TypeError` in both. */
  lemma UnknownValueRefused(name: string, value: Value, args: seq<Arg>, v: Variant)
    requires value.kind.None?
    ensures Parse(Tuple(name, [AObject(value)] + args), v) == Failed(if v == Src then UnknownValueType else TypeError)
    ensures Parse(Tuple(name, [ANull] + args), v) == Failed(TypeError)
  {
  }

  /** In the JavaScript build a tuple's debounce number never reaches the
      `debounce` field: whatever the tuple, the item gets the default. */
  lemma LibTupleDebounceIgnored(name: string, args: seq<Arg>)
    ensures var r := Parse(Tuple(name, args), Lib); r.Parsed? ==> r.def.debounce == DefaultDebounce
  {
  }
}

=== FILE: group_items.dfy ===
/** The members of a subscription group: what each holds, the events they
    and the group emit, and the steps the group applies to one member at a
    time. */
module GroupItems {
  import opened Values
  import opened GroupDefinitions
  import opened GroupChangesets

  /** A `SubscriptionGroupItem`. `debounce` is the delay of the
      `emitUpdate` its options installed (none: updates are emitted at
      once); `pending` and `scheduled` are that debounced function's
      collected changeset and running timer; `orphans` are the collected
      changesets of earlier debounced functions, replaced while their
      timers ran, which still fire; the `...Settled` flags say whether its
      `loaded()`, `inited()` and `unloaded()` promises are resolved. */
  datatype Item = Item(
    id: nat,
    name: string,
    value: Option<Value>,
    typ: string,
    publicationName: Option<string>,
    params: Option<seq<int>>,
    handle: Option<nat>,
    onBeforeInit: Option<nat>,
    debounce: Option<int>,
    preventBind: Option<bool>,
    isLoaded: bool,
    isInited: bool,
    loadUpdated: Option<Updated>,
    pending: Pending,
    scheduled: bool,
    orphans: seq<Pending>,
    loadSettled: bool,
    initSettled: bool,
    unloadSettled: bool)

  /** What the group and its members make observable, in order. */
  datatype Event =
    | GroupLoad                          // the group's `load`
    | GroupInit                          // the group's `init`
    | GroupUnload                        // the group's `unload`
    | GroupUpdate                        // the group's `emitUpdate()`
    | ItemLoad(id: nat)                  // an item's `load`
    | ItemInit(id: nat)                  // an item's `init`
    | ItemUnload(id: nat)                // an item's `unload`
    | ItemUpdate(id: nat, updated: Pending)  // an item's `update` and the group's `update.<name>`
    | UpdateScheduled(id: nat)           // a debounced item's timer (re)started
    | Handled(id: nat, arg: Option<Updated>)  // the definition's handle called (with `null` for none)
    | BeforeInit(id: nat)                // the definition's `onBeforeInit` called
    | Subscribed(id: nat)                // the value's `subscribe` called
    | Unsubscribed(id: nat)              // the value's `unsubscribe` called

  /** An `emitUpdate` argument as the payload of an `update` event. */
  function AsPending(u: Updated): (p: Pending)
    ensures u.NoUpdated? <==> p.Nothing?
  {
    match u
    case NoUpdated => Nothing
    case ListUpdated(e, a, d) => PendingList(e, a, d)
    case RecordUpdated(f) => PendingRecord(f)
  }

  /** The definition's handle, when there is one, called with `arg`. */
  function HandleCall(it: Item, arg: Option<Updated>): seq<Event> {
    if it.handle.Some? then [Handled(it.id, arg)] else []
  }

  /** `item.emitUpdate(updated)`: a debounced item adds the changeset to
      its window and restarts its timer; otherwise the item emits `update`
      and asks the group to emit its own. */
  function EmitUpdate(it: Item, u: Updated, v: Variant): (r: (Item, seq<Event>))
    ensures r.0.id == it.id && r.0.name == it.name && r.0.isLoaded == it.isLoaded && r.0.isInited == it.isInited
    ensures r.0.loadUpdated == it.loadUpdated && r.0.preventBind == it.preventBind && r.0.value == it.value
    ensures it.debounce.Some? ==>
      r.0 == it.(pending := Accumulate(it.pending, u, v), scheduled := true) && r.1 == [UpdateScheduled(it.id)]
    ensures it.debounce.None? ==> r.0 == it && r.1 == [ItemUpdate(it.id, AsPending(u)), GroupUpdate]
  {
    if it.debounce.Some? then (it.(pending := Accumulate(it.pending, u, v), scheduled := true), [UpdateScheduled(it.id)])
    else (it, [ItemUpdate(it.id, AsPending(u)), GroupUpdate])
  }

  /** A debounced item's timer firing: the collected changeset is emitted
      and the window starts afresh. */
  function Flush(it: Item): (r: (Item, seq<Event>))
    ensures it.scheduled ==> r.0.pending.Nothing? && !r.0.scheduled && r.1 == [ItemUpdate(it.id, it.pending), GroupUpdate]
    ensures !it.scheduled ==> r == (it, [])
  {
    if it.scheduled then (it.(pending := Nothing, scheduled := false), [ItemUpdate(it.id, it.pending), GroupUpdate])
    else (it, [])
  }

  /** The timer of the `k`-th earlier window firing: the closure that
      collected it emits it as `Flush` would, and it is gone. */
  function FlushOrphan(it: Item, k: nat): (r: (Item, seq<Event>))
    requires k < |it.orphans|
    ensures |r.0.orphans| == |it.orphans| - 1 && r.0 == it.(orphans := r.0.orphans)
    ensures multiset(r.0.orphans) + multiset{it.orphans[k]} == multiset(it.orphans)
    ensures r.1 == [ItemUpdate(it.id, it.orphans[k]), GroupUpdate]
  {
    assert it.orphans == it.orphans[..k] + [it.orphans[k]] + it.orphans[k + 1..];
    (it.(orphans := it.orphans[..k] + it.orphans[k + 1..]), [ItemUpdate(it.id, it.orphans[k]), GroupUpdate])
  }

  /** The item's `#load`: only with a stashed changeset, which goes to the
      handle and is then dropped; the item emits `load`, its `loaded()`
      resolves and a resolved `unloaded()` is renewed. */
  function LoadStep(it: Item): (r: (Item, seq<Event>))
    ensures r.0.loadUpdated.None?
    ensures r.0.id == it.id && r.0.name == it.name && r.0.isLoaded == it.isLoaded && r.0.isInited == it.isInited
    ensures r.0.preventBind == it.preventBind && r.0.value == it.value
    ensures it.loadUpdated.Some? ==>
      r.0.loadSettled && !r.0.unloadSettled && r.1 == HandleCall(it, it.loadUpdated) + [ItemLoad(it.id)]
    ensures it.loadUpdated.None? ==> r == (it, [])
  {
    if it.loadUpdated.Some? then
      (it.(loadUpdated := None, loadSettled := true, unloadSettled := false),
       HandleCall(it, it.loadUpdated) + [ItemLoad(it.id)])
    else (it, [])
  }

  /** The item's `#init`: it emits `init` and its `inited()` resolves. */
  function InitStep(it: Item): (r: (Item, seq<Event>))
    ensures r.0 == it.(initSettled := true) && r.1 == [ItemInit(it.id)]
  {
    (it.(initSettled := true), [ItemInit(it.id)])
  }

  /** The item's `#unload`: the handle gets `null`, the item emits
      `unload`, its `unloaded()` resolves and a resolved `loaded()` is
      renewed. */
  function UnloadStep(it: Item): (r: (Item, seq<Event>))
    ensures r.0 == it.(unloadSettled := true, loadSettled := false)
    ensures r.1 == HandleCall(it, None) + [ItemUnload(it.id)]
  {
    (it.(unloadSettled := true, loadSettled := false), HandleCall(it, None) + [ItemUnload(it.id)])
  }

  /** The delay a definition's debounce gives: 4 ms by default, none when
      it is not a number. */
  function DebounceOf(d: Debounce): (r: Option<int>)
    ensures d.DefaultDebounce? ==> r == Some(4)
    ensures d.Limit? ==> r == Some(d.ms)
    ensures d.NoDebounce? ==> r.None?
  {
    match d
    case DefaultDebounce => Some(4)
    case Limit(n) => Some(n)
    case NoDebounce => None
  }

  /** The item's `#applyOptions`: a new `emitUpdate` with an empty window,
      debounced or not; a window whose timer still runs is not cancelled
      and joins the earlier ones; `preventBind` is only stored over a value
      the item already holds, so an item that never had one never gets
      one. */
  function ApplyOptions(it: Item, d: Debounce, preventBind: Option<bool>): (r: Item)
    ensures r.debounce == DebounceOf(d) && r.pending.Nothing? && !r.scheduled
    ensures r.orphans == it.orphans + (if it.scheduled then [it.pending] else [])
    ensures it.preventBind.None? ==> r.preventBind.None?
    ensures r.(debounce := it.debounce, pending := it.pending, scheduled := it.scheduled,
               orphans := it.orphans, preventBind := it.preventBind) == it
    ensures SameSetup(r, it)
  {
    it.(debounce := DebounceOf(d), pending := Nothing, scheduled := false,
        orphans := if it.scheduled then it.orphans + [it.pending] else it.orphans,
        preventBind := if it.preventBind.None? then None else preventBind)
  }

  /** Two items agree on everything but their options. */
  predicate SameSetup(a: Item, b: Item) {
    a.id == b.id && a.name == b.name && a.value == b.value && a.typ == b.typ &&
    a.publicationName == b.publicationName && a.params == b.params && a.handle == b.handle &&
    a.onBeforeInit == b.onBeforeInit && a.isLoaded == b.isLoaded && a.isInited == b.isInited &&
    a.loadUpdated == b.loadUpdated
  }

  // ---------------------------------------------------------------------
  // Every member in turn

  /** `for (const item of this.items) step(item)`: the members after the
      step and the events in member order. */
  function Each(items: seq<Item>, step: Item -> (Item, seq<Event>)): (r: (seq<Item>, seq<Event>))
    ensures |r.0| == |items|
    ensures forall i :: 0 <= i < |items| ==> r.0[i] == step(items[i]).0
    decreases |items|
  {
    if items == [] then ([], [])
    else
      var r := Each(items[..|items| - 1], step);
      var x := step(items[|items| - 1]);
      (r.0 + [x.0], r.1 + x.1)
  }

  predicate AllLoaded(items: seq<Item>) {
    forall i :: 0 <= i < |items| ==> items[i].isLoaded
  }

  predicate NoneLoaded(items: seq<Item>) {
    forall i :: 0 <= i < |items| ==> !items[i].isLoaded
  }

  predicate AllInited(items: seq<Item>) {
    forall i :: 0 <= i < |items| ==> items[i].isInited
  }

  /** `!item.preventBind`, and for a group changing its target, also
      `item.isLoaded`. */
  predicate Binds(it: Item, loadedOnly: bool) {
    it.preventBind != Some(true) && (loadedOnly ==> it.isLoaded)
  }

  /** The fields a group writes to its target object: name to value. */
  type Fields = map<string, Option<Value>>

  /** `target[item.name] = item.value` for the binding members, in order. */
  function Bind(fields: Fields, items: seq<Item>, loadedOnly: bool): Fields
    decreases |items|
  {
    if items == [] then fields
    else
      var f := Bind(fields, items[..|items| - 1], loadedOnly);
      var it := items[|items| - 1];
      if Binds(it, loadedOnly) then f[it.name := it.value] else f
  }

  /** `delete target[item.name]` for the binding members. */
  function Unbind(fields: Fields, items: seq<Item>, loadedOnly: bool): Fields
    decreases |items|
  {
    if items == [] then fields
    else
      var f := Unbind(fields, items[..|items| - 1], loadedOnly);
      var it := items[|items| - 1];
      if Binds(it, loadedOnly) then f - {it.name} else f
  }

  /** Whether some binding member has the name. */
  predicate Named(items: seq<Item>, loadedOnly: bool, k: string) {
    exists i :: 0 <= i < |items| && Binds(items[i], loadedOnly) && items[i].name == k
  }

  /** Member `i` binds and no later binding member has its name. */
  predicate LastBinding(items: seq<Item>, loadedOnly: bool, i: int)
    requires 0 <= i < |items|
  {
    Binds(items[i], loadedOnly) &&
    forall j :: i < j < |items| && Binds(items[j], loadedOnly) ==> items[j].name != items[i].name
  }

  lemma NamedSnoc(items: seq<Item>, loadedOnly: bool, k: string)
    requires |items| > 0
    ensures Named(items, loadedOnly, k) <==>
      Named(items[..|items| - 1], loadedOnly, k) || (Binds(items[|items| - 1], loadedOnly) && items[|items| - 1].name == k)
  {
    var n := |items| - 1;
    var init := items[..n];
    if Named(items, loadedOnly, k) {
      var i :| 0 <= i < |items| && Binds(items[i], loadedOnly) && items[i].name == k;
      if i < n {
        assert init[i] == items[i];
      }
    }
    if Named(init, loadedOnly, k) {
      var i :| 0 <= i < |init| && Binds(init[i], loadedOnly) && init[i].name == k;
      assert items[i] == init[i];
    }
  }

  /** Binding writes every binding member's name and leaves the other
      fields as they were. */
  lemma {:induction false} BindKeys(fields: Fields, items: seq<Item>, loadedOnly: bool, k: string)
    ensures k in Bind(fields, items, loadedOnly) <==> k in fields || Named(items, loadedOnly, k)
    ensures !Named(items, loadedOnly, k) && k in fields ==> Bind(fields, items, loadedOnly)[k] == fields[k]
    decreases |items|
  {
    if items != [] {
      BindKeys(fields, items[..|items| - 1], loadedOnly, k);
      NamedSnoc(items, loadedOnly, k);
    }
  }

  /** Each name gets the value of the last binding member of that name. */
  lemma {:induction false} BindLast(fields: Fields, items: seq<Item>, loadedOnly: bool, i: int)
    requires 0 <= i < |items| && LastBinding(items, loadedOnly, i)
    ensures items[i].name in Bind(fields, items, loadedOnly)
    ensures Bind(fields, items, loadedOnly)[items[i].name] == items[i].value
    decreases |items|
  {
    var n := |items| - 1;
    var init := items[..n];
    if i < n {
      assert init[i] == items[i];
      assert LastBinding(init, loadedOnly, i) by {
        forall j | i < j < |init| && Binds(init[j], loadedOnly) ensures init[j].name != init[i].name {
          assert init[j] == items[j];
        }
      }
      BindLast(fields, init, loadedOnly, i);
    }
  }

  /** Unbinding removes exactly the binding members' names. */
  lemma {:induction false} UnbindKeys(fields: Fields, items: seq<Item>, loadedOnly: bool, k: string)
    ensures k in Unbind(fields, items, loadedOnly) <==> k in fields && !Named(items, loadedOnly, k)
    ensures k in Unbind(fields, items, loadedOnly) ==> Unbind(fields, items, loadedOnly)[k] == fields[k]
    decreases |items|
  {
    if items != [] {
      UnbindKeys(fields, items[..|items| - 1], loadedOnly, k);
      NamedSnoc(items, loadedOnly, k);
    }
  }

  /** The events of stepping every member are those of each member in
      turn. */
  lemma {:induction false} EachEvents(items: seq<Item>, step: Item -> (Item, seq<Event>), i: int)
    requires 0 <= i < |items|
    ensures Each(items[..i + 1], step).1 == Each(items[..i], step).1 + step(items[i]).1
  {
    assert items[..i + 1][..i] == items[..i];
  }

  /** Every event of a member's step is among the events of the whole
      pass. */
  lemma {:induction false} EachContains(items: seq<Item>, step: Item -> (Item, seq<Event>), j: int, e: Event)
    requires 0 <= j < |items| && e in step(items[j]).1
    ensures e in Each(items, step).1
    decreases |items|
  {
    var n := |items| - 1;
    if j < n {
      assert items[..n][j] == items[j];
      EachContains(items[..n], step, j, e);
    }
  }

  /** A pass emits nothing its members' steps do not. */
  lemma {:induction false} EachOnly(items: seq<Item>, step: Item -> (Item, seq<Event>), ok: Event -> bool)
    requires forall j :: 0 <= j < |items| ==> forall e :: e in step(items[j]).1 ==> ok(e)
    ensures forall e :: e in Each(items, step).1 ==> ok(e)
    decreases |items|
  {
    if items != [] {
      var n := |items| - 1;
      forall j | 0 <= j < n ensures forall e :: e in step(items[..n][j]).1 ==> ok(e) {
        assert items[..n][j] == items[j];
      }
      EachOnly(items[..n], step, ok);
    }
  }

  /** The events that ask for updates. */
  predicate IsUpdate(e: Event) {
    e.ItemUpdate? || e.UpdateScheduled? || e.GroupUpdate?
  }

  /** Some member with the id has a stashed changeset. */
  predicate Stashed(items: seq<Item>, id: nat) {
    exists i :: 0 <= i < |items| && items[i].id == id && items[i].loadUpdated.Some?
  }

  lemma StashedSnoc(items: seq<Item>, id: nat)
    requires |items| > 0
    ensures var n := |items| - 1;
      Stashed(items, id) <==> Stashed(items[..n], id) || (items[n].id == id && items[n].loadUpdated.Some?)
  {
    var n := |items| - 1;
    if Stashed(items, id) {
      var i :| 0 <= i < |items| && items[i].id == id && items[i].loadUpdated.Some?;
      if i < n {
        assert items[..n][i] == items[i];
      }
    }
    if Stashed(items[..n], id) {
      var i :| 0 <= i < n && items[..n][i].id == id && items[..n][i].loadUpdated.Some?;
      assert items[i] == items[..n][i];
    }
  }

  /** A member's `#load` emits `load` exactly when it has a stash. */
  lemma LoadStepEvents(it: Item, id: nat)
    ensures ItemLoad(id) in LoadStep(it).1 <==> it.id == id && it.loadUpdated.Some?
  {
    if it.loadUpdated.Some? {
      assert LoadStep(it).1 == HandleCall(it, it.loadUpdated) + [ItemLoad(it.id)];
    }
  }

  /** Loading every member clears every stash; only members that had one
      emit `load`. */
  lemma {:induction false} LoadEachEvents(items: seq<Item>)
    ensures forall i :: 0 <= i < |items| ==> Each(items, LoadStep).0[i].loadUpdated.None?
    ensures forall id :: ItemLoad(id) in Each(items, LoadStep).1 <==> Stashed(items, id)
    decreases |items|
  {
    if items != [] {
      var n := |items| - 1;
      LoadEachEvents(items[..n]);
      assert Each(items, LoadStep).1 == Each(items[..n], LoadStep).1 + LoadStep(items[n]).1;
      forall id ensures ItemLoad(id) in Each(items, LoadStep).1 <==> Stashed(items, id) {
        StashedSnoc(items, id);
        LoadStepEvents(items[n], id);
      }
    }
  }
}

=== FILE: group_laws.dfy ===
/** What the group's structural operations promise: detaching members by
    name, redefining one member, attaching definitions, redefining the
    whole group and changing its target. */
module SubscriptionGroupLaws {
  import opened Values
  import opened GroupDefinitions
  import opened GroupItems
  import opened SubscriptionGroups
  import opened SubscriptionGroupProperties

  // ---------------------------------------------------------------------
  // Detaching

  /** `items[name]?.detach()` on a valid group: a name that is not in the
      named view does nothing; otherwise the member of that name leaves
      (unless its value makes `detach` throw), it is unloaded with its
      handle called, its name leaves the named view, and its value leaves
      the value array (one occurrence) and the named value view. */
  lemma DetachNameEffect(g: Group, name: string, v: Variant)
    requires Valid(g)
    ensures name !in g.named ==> DetachName(g, name, v) == Outcome(g, [], Ok)
    ensures name in g.named ==>
      var it := g.items[Position(g.items, g.named[name])];
      var o := DetachName(g, name, v);
      it.name == name &&
      (o.status.Ok? <==> !DetachThrows(it, v)) &&
      (o.status.Ok? ==>
        name !in o.g.named && |o.g.items| == |g.items| - 1 && ItemUnload(it.id) in o.events &&
        (forall j :: 0 <= j < |o.g.items| ==> o.g.items[j].id != it.id) &&
        o.g.values == RemoveOne(g.values, it.value) && name !in o.g.namedValues &&
        multiset(o.g.values) == multiset(g.values) - multiset{it.value})
  {
    if name in g.named {
      var i := Position(g.items, g.named[name]);
      var it := g.items[i];
      var o := DetachAt(g, i, v);
      assert it.name == name && o == DetachName(g, name, v);
      if o.status.Ok? {
        assert ItemUnload(it.id) in o.events by {
          assert ItemUnload(it.id) in UnloadStep(it.(isLoaded := false)).1;
        }
        assert forall j :: 0 <= j < |o.g.items| ==> o.g.items[j].id != it.id by {
          forall j | 0 <= j < |o.g.items| ensures o.g.items[j].id != it.id {
            var k := if j < i then j else j + 1;
            assert o.g.items[j] == g.items[k];
          }
        }
        assert multiset(o.g.values) == multiset(g.values) - multiset{it.value} by {
          assert o.g.values == RemoveOne(g.values, it.value);
        }
      }
    }
  }

  /** Detaching a name twice is detaching it once: the second call finds
      nothing under the name. */
  lemma DetachNameTwice(g: Group, name: string, v: Variant)
    requires Valid(g)
    ensures var o := DetachName(g, name, v);
      o.status.Ok? ==> DetachName(o.g, name, v) == Outcome(o.g, [], Ok)
  {
    DetachNameEffect(g, name, v);
  }

  /** Detaching members never changes whether the group is loaded or
      initialised, and never adds a name to the named view. */
  lemma {:induction false} DetachFromFrame(o: Outcome, names: seq<string>, v: Variant)
    ensures var r := DetachFrom(o, names, v);
      r.g.isLoaded == o.g.isLoaded && r.g.isInited == o.g.isInited && r.g.named.Keys <= o.g.named.Keys
    decreases |names|
  {
    if names != [] && o.status.Ok? {
      var r := DetachName(o.g, names[0], v);
      DetachFromFrame(Outcome(r.g, o.events + r.events, r.status), names[1..], v);
    }
  }

  /** Every name a detach pass that does not throw goes through leaves the
      named view. */
  lemma {:induction false} DetachFromRemoves(o: Outcome, names: seq<string>, v: Variant, n: string)
    requires Valid(o.g) && o.status.Ok? && n in names
    ensures var r := DetachFrom(o, names, v); r.status.Ok? ==> n !in r.g.named
    decreases |names|
  {
    var r := DetachName(o.g, names[0], v);
    var o1 := Outcome(r.g, o.events + r.events, r.status);
    DetachNameEffect(o.g, names[0], v);
    ValidDetachName(o.g, names[0], v);
    if names[0] == n {
      DetachFromFrame(o1, names[1..], v);
    } else if r.status.Ok? {
      DetachFromRemoves(o1, names[1..], v, n);
    }
  }

  /** With `shouldUpdate`, a group that was not loaded and whose remaining
      members are all loaded ends loaded. */
  lemma DetachLoadsRest(g: Group, names: seq<string>, v: Variant)
    requires !g.isLoaded
    ensures var o := DetachFrom(Outcome(g, [], Ok), names, v);
      o.status.Ok? && AllLoaded(o.g.items) ==> Detach(g, names, true, v).g.isLoaded
  {
    var o := DetachFrom(Outcome(g, [], Ok), names, v);
    DetachFromFrame(Outcome(g, [], Ok), names, v);
    if o.status.Ok? && AllLoaded(o.g.items) {
      LoadEffect(o.g, v);
    }
  }

  /** With `shouldUpdate`, detaching every member of a loaded group
      unloads it and, since an empty group has every member loaded, loads
      it again: it emits `unload` and then `load`. */
  lemma DetachEverything(g: Group, names: seq<string>, v: Variant)
    requires g.isLoaded
    ensures var o := DetachFrom(Outcome(g, [], Ok), names, v);
      o.status.Ok? && o.g.items == [] ==>
        var r := Detach(g, names, true, v);
        r.g.isLoaded && GroupUnload in r.events && GroupLoad in r.events
  {
    var o := DetachFrom(Outcome(g, [], Ok), names, v);
    DetachFromFrame(Outcome(g, [], Ok), names, v);
    if o.status.Ok? && o.g.items == [] {
      UnloadEffect(o.g, v);
      var g1 := Unload(o.g, v).0;
      assert g1.items == [];
      LoadEffect(g1, v);
    }
  }

  // ---------------------------------------------------------------------
  // Redefining one member

  /** A definition that changes only options re-applies them in place:
      nothing is emitted, the member keeps its place, identity and state,
      and no other member changes. */
  lemma DefineUnchanged(g: Group, i: nat, def: Definition, v: Variant)
    requires i < |g.items| && Unchanged(g.items[i], def)
    ensures var o := DefineAt(g, i, def, v);
      o.status.Ok? && o.events == [] && o.g.named == g.named &&
      o.g.items[i].id == g.items[i].id && o.g.items[i].name == g.items[i].name && o.g.items[i].value == g.items[i].value &&
      o.g.items[i].isLoaded == g.items[i].isLoaded && o.g.items[i].isInited == g.items[i].isInited &&
      o.g.items[i].debounce == DebounceOf(def.debounce) &&
      o.g.items[i].pending.Nothing? &&
      forall j :: 0 <= j < |g.items| && j != i ==> o.g.items[j] == g.items[j]
  {
  }

  /** Re-applying options does not cancel a running debounce timer: the
      window it collected outlives the redefinition and, when that timer
      fires, is emitted like any flush, while the new `emitUpdate` starts
      with an empty window. */
  lemma OptionsKeepWindow(g: Group, i: nat, def: Definition, v: Variant)
    requires i < |g.items| && Unchanged(g.items[i], def) && g.items[i].scheduled
    ensures var o := DefineAt(g, i, def, v); var it := g.items[i]; var k := |it.orphans|;
      o.status.Ok? && o.events == [] && !o.g.items[i].scheduled && o.g.items[i].pending.Nothing? &&
      k < |o.g.items[i].orphans| && o.g.items[i].orphans[k] == it.pending &&
      FlushOrphanAt(o.g, i, k).1 == [ItemUpdate(it.id, it.pending), GroupUpdate]
  {
  }

  /** Any other definition detaches the member and attaches it again, with
      the same id and name, as the last member, not loaded; the members
      before and after it keep their order. A definition without a value
      gives it a new subscribing value of its type (the JavaScript build
      throws for a type it does not know). */
  lemma DefineChanged(g: Group, i: nat, def: Definition, v: Variant)
    requires i < |g.items| && !Unchanged(g.items[i], def) && !DetachThrows(g.items[i], v)
    ensures var o := DefineAt(g, i, def, v); var n := |o.g.items|;
      n == |g.items| &&
      o.g.items[..n - 1] == g.items[..i] + g.items[i + 1..] &&
      o.g.items[n - 1].id == g.items[i].id && o.g.items[n - 1].name == g.items[i].name &&
      !o.g.items[n - 1].isLoaded && ItemUnload(g.items[i].id) in o.events &&
      o.g.named == (g.named - {g.items[i].name})[g.items[i].name := g.items[i].id] &&
      o.g.items[n - 1].orphans == g.items[i].orphans + (if g.items[i].scheduled then [g.items[i].pending] else [])
    ensures var o := DefineAt(g, i, def, v); var typ := if def.typ.Some? then def.typ.value else "object";
      def.value.None? && CreatedKind(typ, v).Some? ==>
        o.status.Ok? && o.g.items[|o.g.items| - 1].value == Some(Value(g.nextValue, CreatedKind(typ, v), true))
  {
    var it := g.items[i];
    var d := DetachAt(g, i, v);
    assert ItemUnload(it.id) in UnloadStep(it.(isLoaded := false)).1;
    assert d.g.nextValue == g.nextValue;
    var a := AttachTo(d.g, Reconfigured(g, i, def), v);
    assert DefineAt(g, i, def, v) == Outcome(a.g, d.events + a.events, a.status);
  }

  /** A definition with neither a value nor a publication name never
      counts as unchanged for a member configured from it, because the
      member stored its own name as the publication name; the same holds
      for missing parameters, stored as an empty list. Redefining such a
      member with its own definition detaches and re-attaches it. */
  lemma DefaultedNeverUnchanged(it: Item, def: Definition)
    requires def.value.None? && (def.publicationName.None? || def.params.None?)
    ensures !Unchanged(Configure(it, def), def)
  {
  }

  /** A `SubscriptionArray` handed over in a tuple is not the member's
      value: `define` stores it as the parameters, with type `"object"`
      and the member's name as the publication name. */
  lemma ArrayContainerDefinesParams(it: Item, name: string, items: seq<int>, v: Variant)
    ensures var r := Parse(Tuple(name, [AArray(items)]), v);
      r.Parsed? && r.def.value.None? &&
      var s := Configure(it, r.def);
      s.typ == "object" && s.value == it.value && s.publicationName == Some(it.name) && s.params == Some(items)
  {
    assert [AArray(items)] == [AArray(items)] + [];
    ArrayContainerIsParams(name, items, [], v);
  }

  /** A definition with a value and without publication name or
      parameters, applied to an item that has neither, is unchanged by
      any later definition that differs in its options alone. */
  lemma OptionsOnlyUnchanged(it: Item, def: Definition, d: Debounce, preventBind: Option<bool>)
    requires def.value.Some? && def.publicationName.None? && def.params.None?
    requires it.publicationName.None? && it.params.None?
    ensures Unchanged(Configure(it, def), def.(debounce := d, preventBind := preventBind))
  {
  }

  // ---------------------------------------------------------------------
  // Attaching

  /** Creating members keeps the existing ones in front. */
  lemma {:induction false} CreateKeeps(o: Outcome, defs: seq<Unparsed>, v: Variant)
    ensures var r := CreateFrom(o, defs, v); |o.g.items| <= |r.g.items| && r.g.items[..|o.g.items|] == o.g.items
    decreases |defs|
  {
    if defs != [] && o.status.Ok? {
      match Parse(defs[0], v)
      case Failed(e) =>
      case Parsed(def) =>
        var n := NewItem(o.g, def, v);
        var o1 := Outcome(n.g, o.events + n.events, n.status);
        CreateKeeps(o1, defs[1..], v);
        var r := CreateFrom(o1, defs[1..], v);
        assert r.g.items[..|o.g.items|] == r.g.items[..|o1.g.items|][..|o.g.items|];
    }
  }

  /** `r` is `base` followed by one new member per definition, in order,
      each under its definition's name and neither loaded nor
      initialised. */
  predicate Appended(base: seq<Item>, r: seq<Item>, defs: seq<Unparsed>, v: Variant) {
    |r| == |base| + |defs| &&
    forall j :: 0 <= j < |defs| ==>
      Parse(defs[j], v).Parsed? && r[|base| + j].name == Parse(defs[j], v).def.name &&
      !r[|base| + j].isLoaded && !r[|base| + j].isInited
  }

  lemma AppendedCons(base: seq<Item>, x: Item, r: seq<Item>, defs: seq<Unparsed>, v: Variant)
    requires |defs| > 0 && Parse(defs[0], v).Parsed?
    requires x.name == Parse(defs[0], v).def.name && !x.isLoaded && !x.isInited
    requires |base| < |r| && r[|base|] == x
    requires Appended(base + [x], r, defs[1..], v)
    ensures Appended(base, r, defs, v)
  {
    forall j | 0 < j < |defs|
      ensures Parse(defs[j], v).Parsed? && r[|base| + j].name == Parse(defs[j], v).def.name &&
        !r[|base| + j].isLoaded && !r[|base| + j].isInited
    {
      assert defs[j] == defs[1..][j - 1];
      assert |base + [x]| + (j - 1) == |base| + j;
    }
  }

  /** Creating members appends one per definition, after the existing
      members and in order, each under its definition's name and neither
      loaded nor initialised, until a definition fails to parse. */
  lemma {:induction false} CreateAppends(o: Outcome, defs: seq<Unparsed>, v: Variant)
    requires o.status.Ok?
    ensures var r := CreateFrom(o, defs, v); r.status.Ok? ==> Appended(o.g.items, r.g.items, defs, v)
    decreases |defs|
  {
    if defs != [] {
      match Parse(defs[0], v)
      case Failed(e) =>
      case Parsed(def) =>
        var n := NewItem(o.g, def, v);
        var o1 := Outcome(n.g, o.events + n.events, n.status);
        if n.status.Ok? {
          var x := n.g.items[|o.g.items|];
          assert n.g.items == o.g.items + [x];
          CreateAppends(o1, defs[1..], v);
          CreateKeeps(o1, defs[1..], v);
          var r := CreateFrom(o1, defs[1..], v);
          if r.status.Ok? {
            assert r.g.items[|o.g.items|] == r.g.items[..|o1.g.items|][|o.g.items|];
            AppendedCons(o.g.items, x, r.g.items, defs, v);
          }
        }
    }
  }

  /** In the sources `attach` throws only when a definition fails to
      parse: the value type of every member it creates is known. */
  lemma {:induction false} CreateThrowsOnParse(o: Outcome, defs: seq<Unparsed>)
    requires o.status.Ok?
    requires forall j :: 0 <= j < |defs| ==> Parse(defs[j], Src).Parsed?
    ensures CreateFrom(o, defs, Src).status.Ok?
    decreases |defs|
  {
    if defs != [] {
      var def := Parse(defs[0], Src).def;
      var n := NewItem(o.g, def, Src);
      assert n.status.Ok?;
      forall j | 0 <= j < |defs| - 1 ensures Parse(defs[1..][j], Src).Parsed? {
        assert defs[1..][j] == defs[j + 1];
      }
      CreateThrowsOnParse(Outcome(n.g, o.events + n.events, n.status), defs[1..]);
    }
  }

  // ---------------------------------------------------------------------
  // Redefining the group

  lemma RemoveOneMembers<T>(s: seq<T>, x: T)
    requires NoDuplicates(s)
    ensures NoDuplicates(RemoveOne(s, x))
    ensures forall y :: y in RemoveOne(s, x) <==> y in s && y != x
  {
    if x in s {
      var i := IndexOf(s, x);
      var r := s[..i] + s[i + 1..];
      assert RemoveOne(s, x) == r;
      assert forall j :: 0 <= j < |r| ==> r[j] == s[if j < i then j else j + 1];
      forall y ensures y in r <==> y in s && y != x {
        if y in s && y != x {
          var k :| 0 <= k < |s| && s[k] == y;
          assert k != i;
          assert r[if k < i then k else k - 1] == y;
        }
      }
    }
  }

  /** Some definition has the name. */
  predicate Mentions(defs: seq<Definition>, n: string) {
    exists k :: 0 <= k < |defs| && defs[k].name == n
  }

  lemma MentionsSnoc(defs: seq<Definition>, n: string)
    requires |defs| > 0
    ensures Mentions(defs, n) <==> Mentions(defs[..|defs| - 1], n) || defs[|defs| - 1].name == n
  {
    var init := defs[..|defs| - 1];
    if Mentions(defs, n) {
      var k :| 0 <= k < |defs| && defs[k].name == n;
      if k < |init| {
        assert init[k] == defs[k];
      }
    }
    if Mentions(init, n) {
      var k :| 0 <= k < |init| && init[k].name == n;
      assert defs[k] == init[k];
    }
  }

  /** `redefine`'s split: the names left to detach are exactly the current
      names no definition mentions, each once; every redefinition names a
      current member. */
  lemma {:induction false} SplitSpec(names: seq<string>, defs: seq<Definition>)
    requires NoDuplicates(names)
    ensures var (re, at, left) := Split(names, defs);
      NoDuplicates(left) &&
      (forall n :: n in left <==> n in names && !Mentions(defs, n)) &&
      (forall k :: 0 <= k < |re| ==> re[k].name in names)
    decreases |defs|
  {
    if defs != [] {
      var init := defs[..|defs| - 1];
      SplitSpec(names, init);
      var (re, at, left) := Split(names, init);
      var d := defs[|defs| - 1];
      RemoveOneMembers(left, d.name);
      forall n ensures n in Split(names, defs).2 <==> n in names && !Mentions(defs, n) {
        MentionsSnoc(defs, n);
      }
    }
  }

  /** `redefine` first marks the group unloaded and detaches every member
      whose name no definition mentions: when that pass does not throw,
      none of those names is left in the named view. */
  lemma RedefineDetachesUnmentioned(g: Group, parsed: seq<Definition>, v: Variant, n: string)
    requires Valid(g)
    requires n in Names(g.items) && !Mentions(parsed, n)
    ensures var d := DetachFrom(Outcome(g.(isLoaded := false), [], Ok), Split(Names(g.items), parsed).2, v);
      !d.g.isLoaded && (d.status.Ok? ==> n !in d.g.named)
  {
    var left := Split(Names(g.items), parsed).2;
    SplitSpec(Names(g.items), parsed);
    assert n in left;
    var o := Outcome(g.(isLoaded := false), [], Ok);
    assert Valid(o.g);
    DetachFromFrame(o, left, v);
    DetachFromRemoves(o, left, v, n);
  }

  // ---------------------------------------------------------------------
  // Changing the target

  /** A target that is not new changes nothing; otherwise the group
      takes the new one. */
  lemma ApplyTargetSame(g: Group, target: Option<nat>)
    ensures target == g.target ==> ApplyTarget(g, target) == g
    ensures ApplyTarget(g, target).target == target
  {
  }

  /** On a new target, the loaded binding members' names leave the old
      target object, whose other fields stay. */
  lemma ApplyTargetOld(g: Group, target: Option<nat>, k: string)
    requires target != g.target && g.target.Some?
    ensures var r := ApplyTarget(g, target);
      g.target.value in r.targets &&
      (k in r.targets[g.target.value] <==> k in TargetFields(g) && !Named(g.items, true, k))
  {
    UnbindKeys(TargetFields(g), g.items, true, k);
  }

  /** On a new target, the loaded binding members are written to the new
      target object, next to the fields it already had. */
  lemma ApplyTargetNew(g: Group, target: Option<nat>, k: string)
    requires target != g.target && target.Some?
    ensures var r := ApplyTarget(g, target);
      var before := if target.value in g.targets then g.targets[target.value] else map[];
      target.value in r.targets &&
      (k in r.targets[target.value] <==> k in before || Named(g.items, true, k))
  {
    var before := if target.value in g.targets then g.targets[target.value] else map[];
    BindKeys(before, g.items, true, k);
  }

  /** Targets other than the old and the new one are left alone. */
  lemma ApplyTargetOthers(g: Group, target: Option<nat>, t: nat)
    requires Some(t) != g.target && Some(t) != target
    ensures t in ApplyTarget(g, target).targets <==> t in g.targets
    ensures t in g.targets ==> ApplyTarget(g, target).targets[t] == g.targets[t]
  {
  }
}

=== FILE: group_props.dfy ===
/** What the group's operations promise: the barriers, the member
    callback, detaching, defining, attaching and redefining, and the
    invariants every operation keeps. */
module SubscriptionGroupProperties {
  import opened Values
  import opened GroupDefinitions
  import opened GroupChangesets
  import opened GroupItems
  import opened SubscriptionGroups

  // ---------------------------------------------------------------------
  // Frames: what the barriers leave alone

  lemma NotifyFrame(items: seq<Item>, v: Variant)
    ensures SameMembers(Notify(items, v).0, items)
    ensures forall j :: 0 <= j < |items| ==> Notify(items, v).0[j].loadUpdated == items[j].loadUpdated
  {
  }

  /** `#load` keeps every member's identity, name, value, binding and
      flags, and the group's initialisation and named view; a `#load` that
      acts leaves no member with a stashed changeset. */
  lemma LoadFrame(g: Group, v: Variant)
    ensures var r := Load(g, v).0;
      SameMembers(r.items, g.items) && r.isInited == g.isInited && r.named == g.named &&
      r.nextId == g.nextId && r.values == g.values && r.target == g.target
    ensures var r := Load(g, v).0; forall j :: 0 <= j < |g.items| ==>
      r.items[j].loadUpdated == (if !g.isLoaded && AllLoaded(g.items) then None else g.items[j].loadUpdated)
  {
    if !g.isLoaded && AllLoaded(g.items) {
      LoadActsFrame(g, v);
    }
  }

  /** The acting branch of `#load`: members keep what `LoadFrame` names
      and every stash is cleared. */
  lemma LoadActsFrame(g: Group, v: Variant)
    ensures var r := LoadActs(g, v).0;
      SameMembers(r.items, g.items) && r.isInited == g.isInited && r.named == g.named &&
      r.nextId == g.nextId && r.values == g.values && r.target == g.target
    ensures var r := LoadActs(g, v).0; forall j :: 0 <= j < |g.items| ==> r.items[j].loadUpdated.None?
  {
    var loaded := Each(g.items, LoadStep).0;
    var items := LoadActs(g, v).0.items;
    assert items == (if g.isInited then Notify(loaded, v).0 else loaded);
    assert SameMembers(items, loaded) && forall j :: 0 <= j < |g.items| ==> items[j].loadUpdated == loaded[j].loadUpdated by {
      NotifyFrame(loaded, v);
    }
    forall j | 0 <= j < |g.items| ensures Kept(items[j], g.items[j]) && items[j].loadUpdated.None? {
      assert loaded[j] == LoadStep(g.items[j]).0;
      assert Kept(items[j], loaded[j]);
    }
  }

  /** `#init` keeps the members, their stashes, the group's loaded state
      and its targets. */
  lemma InitFrame(g: Group, v: Variant)
    ensures var r := Init(g, v).0;
      SameMembers(r.items, g.items) && r.isLoaded == g.isLoaded && r.named == g.named &&
      r.nextId == g.nextId && r.values == g.values && r.target == g.target && r.targets == g.targets
    ensures var r := Init(g, v).0; forall j :: 0 <= j < |g.items| ==> r.items[j].loadUpdated == g.items[j].loadUpdated
  {
    if !g.isInited && AllInited(g.items) {
      InitActsFrame(g, v);
    }
  }

  /** `#unload` keeps the members, their stashes and the group's
      initialisation. */
  lemma UnloadFrame(g: Group, v: Variant)
    ensures var r := Unload(g, v).0;
      SameMembers(r.items, g.items) && r.isInited == g.isInited && r.named == g.named &&
      r.nextId == g.nextId && r.values == g.values && r.target == g.target
    ensures var r := Unload(g, v).0; forall j :: 0 <= j < |g.items| ==> r.items[j].loadUpdated == g.items[j].loadUpdated
  {
    if g.isLoaded && NoneLoaded(g.items) {
      var unloaded := Each(g.items, UnloadStep).0;
      NotifyFrame(unloaded, v);
      assert UnloadActs(g, v).0.items == Notify(unloaded, v).0;
      assert SameMembers(unloaded, g.items);
    }
  }

  lemma InitActsFrame(g: Group, v: Variant)
    ensures var r := InitActs(g, v).0;
      SameMembers(r.items, g.items) && r == g.(isInited := true, items := r.items, initSettled := true)
    ensures forall j :: 0 <= j < |g.items| ==> InitActs(g, v).0.items[j].loadUpdated == g.items[j].loadUpdated
  {
    NotifyFrame(g.items, v);
    var items1 := if g.isLoaded then Notify(g.items, v).0 else g.items;
    var items2 := Each(items1, InitStep).0;
    assert InitActs(g, v).0 == g.(isInited := true, items := items2, initSettled := true);
    forall j | 0 <= j < |g.items| ensures Kept(items2[j], g.items[j]) && items2[j].loadUpdated == g.items[j].loadUpdated {
      assert items2[j] == items1[j].(initSettled := true);
    }
  }

  // ---------------------------------------------------------------------
  // Effects: what the barriers do

  /** Every member was asked for updates: it emitted `update` or
      restarted its timer; a group without members emitted its own. */
  predicate Asked(items: seq<Item>, events: seq<Event>) {
    (forall j :: 0 <= j < |items| ==> UpdateScheduled(items[j].id) in events || ItemUpdate(items[j].id, Nothing) in events) &&
    (items == [] ==> GroupUpdate in events)
  }

  /** Asking for updates asks every member and does nothing else. */
  lemma NotifyEvents(items: seq<Item>, v: Variant)
    ensures Asked(items, Notify(items, v).1)
    ensures forall e :: e in Notify(items, v).1 ==> IsUpdate(e)
  {
    if |items| > 0 {
      var e := Notify(items, v).1;
      forall j | 0 <= j < |items|
        ensures UpdateScheduled(items[j].id) in e || ItemUpdate(items[j].id, Nothing) in e
      {
        var x := if items[j].debounce.Some? then UpdateScheduled(items[j].id) else ItemUpdate(items[j].id, Nothing);
        assert x in Asking(v)(items[j]).1;
        EachContains(items, Asking(v), j, x);
      }
      EachOnly(items, Asking(v), IsUpdate);
    }
  }

  lemma AskedSameIds(a: seq<Item>, b: seq<Item>, events: seq<Event>)
    requires Asked(a, events) && |a| == |b|
    requires forall j :: 0 <= j < |a| ==> a[j].id == b[j].id
    ensures Asked(b, events)
  {
    forall j | 0 <= j < |b| ensures UpdateScheduled(b[j].id) in events || ItemUpdate(b[j].id, Nothing) in events {
      assert a[j].id == b[j].id;
    }
  }

  /** A `#load` that acts marks the group loaded and resolves `loaded()`,
      emits `load`, lets exactly the members with a stashed changeset emit
      theirs, and asks every member for updates exactly when the group is
      initialised. */
  lemma LoadEffect(g: Group, v: Variant)
    requires !g.isLoaded && AllLoaded(g.items)
    ensures Load(g, v).0.isLoaded && Load(g, v).0.loadSettled && !Load(g, v).0.unloadSettled
    ensures GroupLoad in Load(g, v).1
    ensures forall id :: ItemLoad(id) in Load(g, v).1 <==> Stashed(g.items, id)
    ensures g.isInited ==> Asked(g.items, Load(g, v).1)
    ensures !g.isInited ==> forall e :: e in Load(g, v).1 ==> !IsUpdate(e)
  {
    var loaded := Each(g.items, LoadStep);
    var notified := if g.isInited then Notify(loaded.0, v).1 else [];
    var e := Load(g, v).1;
    LoadEvents(g, v);
    LoadNotifies(g, v);
    LoadEventsSplit(loaded.1, notified);
    assert forall id :: ItemLoad(id) in e <==> Stashed(g.items, id) by {
      LoadEachEvents(g.items);
    }
    if g.isInited {
      assert Asked(g.items, e) by {
        assert forall x :: x in notified ==> x in e;
      }
    } else {
      assert forall x :: x in e ==> !IsUpdate(x) by {
        EachOnly(g.items, LoadStep, x => !IsUpdate(x));
      }
    }
  }

  /** The events of an acting `#load`: the members' loads, the group's
      `load`, then the updates it asks for. */
  lemma LoadEvents(g: Group, v: Variant)
    requires !g.isLoaded && AllLoaded(g.items)
    ensures var loaded := Each(g.items, LoadStep);
      Load(g, v).1 == loaded.1 + [GroupLoad] + (if g.isInited then Notify(loaded.0, v).1 else [])
    ensures Load(g, v).0.isLoaded && Load(g, v).0.loadSettled && !Load(g, v).0.unloadSettled
  {
  }

  lemma LoadEventsSplit(a: seq<Event>, b: seq<Event>)
    requires forall e :: e in b ==> IsUpdate(e)
    ensures GroupLoad in a + [GroupLoad] + b
    ensures forall id :: ItemLoad(id) in a + [GroupLoad] + b <==> ItemLoad(id) in a
    ensures forall e :: e in a + [GroupLoad] + b && IsUpdate(e) ==> e in a || e in b
  {
  }

  /** The updates `#load` asks for come from the loaded members, which
      keep their ids. */
  lemma LoadNotifies(g: Group, v: Variant)
    ensures var loaded := Each(g.items, LoadStep).0;
      var notified := if g.isInited then Notify(loaded, v).1 else [];
      (forall e :: e in notified ==> IsUpdate(e)) && (g.isInited ==> Asked(g.items, notified))
  {
    var loaded := Each(g.items, LoadStep).0;
    NotifyEvents(loaded, v);
    if g.isInited {
      AskedSameIds(loaded, g.items, Notify(loaded, v).1);
    }
  }

  /** A `#load` that acts writes every binding member to the current
      target, the last member of each name winning, keeps the target's
      other fields and leaves the other targets alone. */
  lemma LoadBinds(g: Group, v: Variant, k: string)
    requires !g.isLoaded && AllLoaded(g.items) && g.target.Some?
    ensures g.target.value in Load(g, v).0.targets
    ensures var t := Load(g, v).0.targets[g.target.value];
      (k in t <==> k in TargetFields(g) || Named(g.items, false, k)) &&
      (!Named(g.items, false, k) && k in TargetFields(g) ==> t[k] == TargetFields(g)[k])
    ensures forall o :: o in g.targets && o != g.target.value ==> o in Load(g, v).0.targets && Load(g, v).0.targets[o] == g.targets[o]
  {
    assert Load(g, v).0.targets == g.targets[g.target.value := Bind(TargetFields(g), g.items, false)];
    BindKeys(TargetFields(g), g.items, false, k);
  }

  lemma LoadBindsLast(g: Group, v: Variant, i: int)
    requires !g.isLoaded && AllLoaded(g.items) && g.target.Some?
    requires 0 <= i < |g.items| && LastBinding(g.items, false, i)
    ensures g.target.value in Load(g, v).0.targets
    ensures var t := Load(g, v).0.targets[g.target.value]; g.items[i].name in t && t[g.items[i].name] == g.items[i].value
  {
    assert Load(g, v).0.targets == g.targets[g.target.value := Bind(TargetFields(g), g.items, false)];
    BindLast(TargetFields(g), g.items, false, i);
  }

  /** An `#init` that acts marks the group initialised, resolves
      `inited()`, lets every member emit `init`, ends with the group's
      `init`, and asks for updates exactly when the group is loaded. */
  lemma InitEffect(g: Group, v: Variant)
    requires !g.isInited && AllInited(g.items)
    ensures Init(g, v).0.isInited && Init(g, v).0.initSettled
    ensures forall j :: 0 <= j < |g.items| ==> ItemInit(g.items[j].id) in Init(g, v).1
    ensures |Init(g, v).1| > 0 && Init(g, v).1[|Init(g, v).1| - 1] == GroupInit
    ensures g.isLoaded ==> Asked(g.items, Init(g, v).1)
    ensures !g.isLoaded ==> forall e :: e in Init(g, v).1 ==> !IsUpdate(e)
  {
    var notified := if g.isLoaded then Notify(g.items, v) else (g.items, []);
    var inited := Each(notified.0, InitStep);
    var e := Init(g, v).1;
    assert e == notified.1 + inited.1 + [GroupInit];
    forall j | 0 <= j < |g.items| ensures ItemInit(g.items[j].id) in e {
      NotifyFrame(g.items, v);
      assert ItemInit(notified.0[j].id) in InitStep(notified.0[j]).1;
      EachContains(notified.0, InitStep, j, ItemInit(notified.0[j].id));
    }
    if g.isLoaded {
      assert Asked(g.items, e) by {
        NotifyEvents(g.items, v);
        assert forall x :: x in notified.1 ==> x in e;
      }
    } else {
      assert forall x :: x in e ==> !IsUpdate(x) by {
        EachOnly(notified.0, InitStep, x => !IsUpdate(x));
      }
    }
  }

  /** An `#unload` that acts marks the group unloaded, resolves
      `unloaded()` and renews `loaded()`, lets every member emit `unload`,
      emits the group's `unload` and always asks for updates. */
  lemma UnloadEffect(g: Group, v: Variant)
    requires g.isLoaded && NoneLoaded(g.items)
    ensures !Unload(g, v).0.isLoaded && Unload(g, v).0.unloadSettled && !Unload(g, v).0.loadSettled
    ensures GroupUnload in Unload(g, v).1
    ensures forall j :: 0 <= j < |g.items| ==> ItemUnload(g.items[j].id) in Unload(g, v).1
    ensures Asked(g.items, Unload(g, v).1)
  {
    var unloaded := Each(g.items, UnloadStep);
    var notified := Notify(unloaded.0, v);
    var e := Unload(g, v).1;
    assert e == unloaded.1 + [GroupUnload] + notified.1;
    forall j | 0 <= j < |g.items| ensures ItemUnload(g.items[j].id) in e {
      assert ItemUnload(g.items[j].id) in UnloadStep(g.items[j]).1;
      EachContains(g.items, UnloadStep, j, ItemUnload(g.items[j].id));
    }
    NotifyEvents(unloaded.0, v);
    AskedSameIds(unloaded.0, g.items, notified.1);
  }

  /** An `#unload` that acts removes exactly the binding members' names
      from the current target and leaves the other targets alone. */
  lemma UnloadUnbinds(g: Group, v: Variant, k: string)
    requires g.isLoaded && NoneLoaded(g.items) && g.target.Some?
    ensures g.target.value in Unload(g, v).0.targets
    ensures var t := Unload(g, v).0.targets[g.target.value];
      (k in t <==> k in TargetFields(g) && !Named(g.items, false, k)) &&
      (k in t ==> t[k] == TargetFields(g)[k])
    ensures forall o :: o in g.targets && o != g.target.value ==> o in Unload(g, v).0.targets && Unload(g, v).0.targets[o] == g.targets[o]
  {
    assert Unload(g, v).0.targets == g.targets[g.target.value := Unbind(TargetFields(g), g.items, false)];
    UnbindKeys(TargetFields(g), g.items, false, k);
  }

  // ---------------------------------------------------------------------
  // A member's subscription callback

  /** What the changeset does to the member that received it: with
      updates, a member of an unloaded group becomes loaded while a member
      of a loaded group keeps its state; without updates the member is not
      loaded. The member keeps its identity and initialisation, every other
      member keeps its state, and so does the group's initialisation. */
  lemma DeliverMember(g: Group, i: nat, u: Updated, updates: bool, v: Variant)
    requires i < |g.items|
    ensures var r := Deliver(g, i, u, updates, v).0;
      r.isInited == g.isInited &&
      r.items[i].id == g.items[i].id && r.items[i].name == g.items[i].name &&
      r.items[i].isInited == g.items[i].isInited &&
      (updates && !g.isLoaded ==> r.items[i].isLoaded) &&
      (updates && g.isLoaded ==> r.items[i].isLoaded == g.items[i].isLoaded) &&
      (!updates ==> !r.items[i].isLoaded)
    ensures var r := Deliver(g, i, u, updates, v).0;
      forall j :: 0 <= j < |g.items| && j != i ==> Kept(r.items[j], g.items[j])
  {
    var it := g.items[i];
    if updates && !g.isLoaded {
      DeliverLoading(g, i, u, v);
    } else if !updates && it.isLoaded {
      DeliverUnloading(g, i, u, v);
    } else {
      DeliverPlain(g, i, u, updates, v);
    }
  }

  /** The group after the callback, `r`, differs from `g` only in the
      loading of member `i`, which is now `loaded`, and in what the
      barriers leave alone. */
  predicate Delivered(g: Group, r: Group, i: nat, loaded: bool)
    requires i < |g.items|
  {
    |r.items| == |g.items| && r.isInited == g.isInited &&
    Kept(r.items[i], g.items[i].(isLoaded := loaded)) &&
    forall j :: 0 <= j < |g.items| && j != i ==> Kept(r.items[j], g.items[j])
  }

  lemma DeliverLoading(g: Group, i: nat, u: Updated, v: Variant)
    requires i < |g.items| && !g.isLoaded
    ensures Delivered(g, Deliver(g, i, u, true, v).0, i, true)
  {
    var it1 := g.items[i].(loadUpdated := if u.NoUpdated? then None else Some(u), isLoaded := true);
    assert Deliver(g, i, u, true, v).0 == Load(g.(items := g.items[i := it1]), v).0;
    DeliverThrough(g, i, it1, true, v);
  }

  lemma DeliverUnloading(g: Group, i: nat, u: Updated, v: Variant)
    requires i < |g.items| && g.items[i].isLoaded
    ensures Delivered(g, Deliver(g, i, u, false, v).0, i, false)
  {
    var it1 := g.items[i].(isLoaded := false);
    assert Deliver(g, i, u, false, v).0 == Unload(g.(items := g.items[i := it1]), v).0;
    DeliverThrough(g, i, it1, false, v);
  }

  /** Updates reaching a loaded group go to the member's handle, if it has
      one, and then to its `emitUpdate`; no member's loading changes and no
      barrier runs. Without updates, a member that is not loaded does
      nothing at all. */
  lemma DeliverPlain(g: Group, i: nat, u: Updated, updates: bool, v: Variant)
    requires i < |g.items| && (if updates then g.isLoaded else !g.items[i].isLoaded)
    ensures Delivered(g, Deliver(g, i, u, updates, v).0, i, g.items[i].isLoaded)
    ensures var it := g.items[i]; var r := Deliver(g, i, u, updates, v);
      (updates ==> r.0 == g.(items := g.items[i := EmitUpdate(it, u, v).0]) &&
                   r.1 == HandleCall(it, Some(u)) + EmitUpdate(it, u, v).1) &&
      (!updates ==> r == (g, []))
  {
  }

  /** A member changed in place, then a barrier run: the barrier keeps
      every member's state. */
  lemma DeliverThrough(g: Group, i: nat, it: Item, load: bool, v: Variant)
    requires i < |g.items|
    ensures var g1 := g.(items := g.items[i := it]);
      var r := if load then Load(g1, v).0 else Unload(g1, v).0;
      r.isInited == g.isInited && Kept(r.items[i], it) &&
      forall j :: 0 <= j < |g.items| && j != i ==> Kept(r.items[j], g.items[j])
  {
    var g1 := g.(items := g.items[i := it]);
    if load {
      LoadFrame(g1, v);
    } else {
      UnloadFrame(g1, v);
    }
  }

  /** The member's first call marks it initialised and changes no other
      member's state nor the group's loading. */
  lemma FirstCallMember(g: Group, i: nat, v: Variant)
    requires i < |g.items|
    ensures var r := FirstCall(g, i, v).0;
      r.isLoaded == g.isLoaded && r.items[i].isInited &&
      r.items[i].id == g.items[i].id && r.items[i].name == g.items[i].name &&
      r.items[i].isLoaded == g.items[i].isLoaded
    ensures var r := FirstCall(g, i, v).0;
      forall j :: 0 <= j < |g.items| && j != i ==> Kept(r.items[j], g.items[j])
  {
    var it := g.items[i];
    if !it.isInited {
      InitFrame(g.(items := g.items[i := it.(isInited := true)]), v);
    }
  }

  /** `#handleSubscription` leaves its member initialised; with updates a
      member of an unloaded group is loaded, without updates it is not; no
      other member's state changes. */
  lemma HandleMember(g: Group, i: nat, u: Updated, updates: bool, v: Variant)
    requires i < |g.items|
    ensures var r := HandleSubscription(g, i, u, updates, v).0;
      r.items[i].isInited && r.items[i].id == g.items[i].id &&
      (updates && !g.isLoaded ==> r.items[i].isLoaded) &&
      (updates && g.isLoaded ==> r.items[i].isLoaded == g.items[i].isLoaded) &&
      (!updates ==> !r.items[i].isLoaded)
    ensures var r := HandleSubscription(g, i, u, updates, v).0;
      forall j :: 0 <= j < |g.items| && j != i ==> Kept(r.items[j], g.items[j])
  {
    var g2 := Deliver(g, i, u, updates, v).0;
    DeliverMember(g, i, u, updates, v);
    FirstCallMember(g2, i, v);
    assert HandleSubscription(g, i, u, updates, v).0 == FirstCall(g2, i, v).0;
  }

  /** The last member to report updates to an unloaded group loads it. */
  lemma HandleLoadsGroup(g: Group, i: nat, u: Updated, v: Variant)
    requires i < |g.items| && !g.isLoaded
    requires forall j :: 0 <= j < |g.items| && j != i ==> g.items[j].isLoaded
    ensures HandleSubscription(g, i, u, true, v).0.isLoaded
    ensures GroupLoad in HandleSubscription(g, i, u, true, v).1
  {
    var it := g.items[i];
    var stash := if u.NoUpdated? then None else Some(u);
    var g1 := g.(items := g.items[i := it.(loadUpdated := stash, isLoaded := true)]);
    assert AllLoaded(g1.items);
    LoadEffect(g1, v);
    var g2 := Deliver(g, i, u, true, v).0;
    assert g2 == Load(g1, v).0;
    FirstCallMember(g2, i, v);
  }

  /** The last loaded member of a loaded group to lose its updates unloads
      the group. */
  lemma HandleUnloadsGroup(g: Group, i: nat, u: Updated, v: Variant)
    requires i < |g.items| && g.isLoaded && g.items[i].isLoaded
    requires forall j :: 0 <= j < |g.items| && j != i ==> !g.items[j].isLoaded
    ensures !HandleSubscription(g, i, u, false, v).0.isLoaded
    ensures GroupUnload in HandleSubscription(g, i, u, false, v).1
  {
    var it := g.items[i];
    var g1 := g.(items := g.items[i := it.(isLoaded := false)]);
    assert NoneLoaded(g1.items);
    UnloadEffect(g1, v);
    var g2 := Deliver(g, i, u, false, v).0;
    assert g2 == Unload(g1, v).0;
    FirstCallMember(g2, i, v);
  }

  /** The first call of the last uninitialised member initialises the
      group, which then emits `init`. */
  lemma HandleInitsGroup(g: Group, i: nat, u: Updated, updates: bool, v: Variant)
    requires i < |g.items| && !g.isInited && !g.items[i].isInited
    requires forall j :: 0 <= j < |g.items| && j != i ==> g.items[j].isInited
    ensures HandleSubscription(g, i, u, updates, v).0.isInited
    ensures GroupInit in HandleSubscription(g, i, u, updates, v).1
  {
    var g2 := Deliver(g, i, u, updates, v).0;
    DeliverMember(g, i, u, updates, v);
    var it := g2.items[i];
    var g3 := g2.(items := g2.items[i := it.(isInited := true)]);
    assert AllInited(g3.items) by {
      forall j | 0 <= j < |g3.items| ensures g3.items[j].isInited {
        if j != i {
          assert Kept(g2.items[j], g.items[j]);
        }
      }
    }
    InitEffect(g3, v);
    assert FirstCall(g2, i, v) == Init(g3, v);
  }

  // ---------------------------------------------------------------------
  // The invariant every operation keeps

  /** Under unique ids, `Position` finds the one member with the id. */
  lemma PositionOf(items: seq<Item>, id: nat, j: int)
    requires UniqueIds(items) && 0 <= j < |items| && items[j].id == id
    ensures Position(items, id) == j
  {
    var p := Position(items, id);
    assert p >= 0;
    assert items[p].id == id;
  }

  /** `Position` finds the first member with the id. */
  lemma {:induction false} PositionFirst(items: seq<Item>, id: nat, j: int)
    requires 0 <= j < |items| && items[j].id == id
    requires forall k :: 0 <= k < j ==> items[k].id != id
    ensures Position(items, id) == j
    decreases |items|
  {
    if j > 0 {
      PositionFirst(items[1..], id, j - 1);
    }
  }

  /** `Valid` reads only the members' ids, names and bindings, the named
      view and `nextId`. */
  lemma ValidSameIdentity(g: Group, r: Group)
    requires Valid(g) && |r.items| == |g.items| && r.named == g.named && r.nextId == g.nextId
    requires forall j :: 0 <= j < |g.items| ==>
      r.items[j].id == g.items[j].id && r.items[j].name == g.items[j].name && r.items[j].preventBind == g.items[j].preventBind
    ensures Valid(r)
  {
    forall n | n in r.named ensures Position(r.items, r.named[n]) >= 0 && r.items[Position(r.items, r.named[n])].name == n {
      var p := Position(g.items, g.named[n]);
      PositionOf(r.items, r.named[n], p);
    }
  }

  lemma ValidKept(g: Group, r: Group)
    requires Valid(g) && SameMembers(r.items, g.items) && r.named == g.named && r.nextId == g.nextId
    ensures Valid(r)
  {
    ValidSameIdentity(g, r);
  }

  /** The three barriers keep the invariant. */
  lemma ValidLoad(g: Group, v: Variant)
    requires Valid(g)
    ensures Valid(Load(g, v).0)
  {
    LoadFrame(g, v);
    ValidKept(g, Load(g, v).0);
  }

  lemma ValidInit(g: Group, v: Variant)
    requires Valid(g)
    ensures Valid(Init(g, v).0)
  {
    InitFrame(g, v);
    ValidKept(g, Init(g, v).0);
  }

  lemma ValidUnload(g: Group, v: Variant)
    requires Valid(g)
    ensures Valid(Unload(g, v).0)
  {
    UnloadFrame(g, v);
    ValidKept(g, Unload(g, v).0);
  }

  /** Changing one member's state but not its identity keeps the
      invariant. */
  lemma ValidUpdateMember(g: Group, i: nat, it: Item)
    requires Valid(g) && i < |g.items|
    requires it.id == g.items[i].id && it.name == g.items[i].name && it.preventBind == g.items[i].preventBind
    ensures Valid(g.(items := g.items[i := it]))
  {
    ValidSameIdentity(g, g.(items := g.items[i := it]));
  }

  /** The member callback keeps the invariant. */
  lemma ValidHandle(g: Group, i: nat, u: Updated, updates: bool, v: Variant)
    requires Valid(g) && i < |g.items|
    ensures Valid(HandleSubscription(g, i, u, updates, v).0)
  {
    ValidDeliver(g, i, u, updates, v);
    ValidFirstCall(Deliver(g, i, u, updates, v).0, i, v);
  }

  lemma ValidDeliver(g: Group, i: nat, u: Updated, updates: bool, v: Variant)
    requires Valid(g) && i < |g.items|
    ensures Valid(Deliver(g, i, u, updates, v).0)
  {
    var it := g.items[i];
    if updates && g.isLoaded {
      ValidUpdateMember(g, i, EmitUpdate(it, u, v).0);
    } else if updates {
      var it1 := it.(loadUpdated := if u.NoUpdated? then None else Some(u), isLoaded := true);
      ValidUpdateMember(g, i, it1);
      ValidLoad(g.(items := g.items[i := it1]), v);
    } else if it.isLoaded {
      ValidUpdateMember(g, i, it.(isLoaded := false));
      ValidUnload(g.(items := g.items[i := it.(isLoaded := false)]), v);
    }
  }

  lemma ValidFirstCall(g: Group, i: nat, v: Variant)
    requires Valid(g) && i < |g.items|
    ensures Valid(FirstCall(g, i, v).0)
  {
    var it := g.items[i];
    if !it.isInited {
      ValidUpdateMember(g, i, it.(isInited := true));
      ValidInit(g.(items := g.items[i := it.(isInited := true)]), v);
    }
  }

  /** A timer firing keeps the invariant. */
  lemma ValidFlush(g: Group, i: nat)
    requires Valid(g) && i < |g.items|
    ensures Valid(FlushAt(g, i).0)
  {
    ValidUpdateMember(g, i, Flush(g.items[i]).0);
  }

  /** An earlier window's timer firing keeps the invariant. */
  lemma ValidFlushOrphan(g: Group, i: nat, k: nat)
    requires Valid(g) && i < |g.items| && k < |g.items[i].orphans|
    ensures Valid(FlushOrphanAt(g, i, k).0)
  {
    ValidUpdateMember(g, i, FlushOrphan(g.items[i], k).0);
  }

  /** A member leaving keeps the invariant: its name leaves the named view
      and every other named entry still finds its member. */
  lemma ValidDetachAt(g: Group, i: nat, v: Variant)
    requires Valid(g) && i < |g.items|
    ensures Valid(DetachAt(g, i, v).g)
  {
    var o := DetachAt(g, i, v);
    if o.status.Ok? {
      var items := g.items[..i] + g.items[i + 1..];
      assert o.g.items == items;
      assert forall j :: 0 <= j < |items| ==> items[j] == g.items[if j < i then j else j + 1];
      forall n | n in o.g.named ensures Position(items, o.g.named[n]) >= 0 && items[Position(items, o.g.named[n])].name == n {
        var p := Position(g.items, g.named[n]);
        assert p != i;
        var q := if p < i then p else p - 1;
        assert items[q] == g.items[p];
        PositionOf(items, o.g.named[n], q);
      }
    }
  }

  /** An item that is not a member joining keeps the invariant, as long
      as its id is below `nextId` and it holds no `preventBind`. */
  lemma ValidAttachTo(g: Group, it: Item, v: Variant)
    requires Valid(g) && it.id < g.nextId && it.preventBind.None?
    requires forall j :: 0 <= j < |g.items| ==> g.items[j].id != it.id
    ensures Valid(AttachTo(g, it, v).g)
  {
    var o := AttachTo(g, it, v);
    var it1 := it.(loadSettled := false, initSettled := false, unloadSettled := false);
    if it.value.None? && CreatedKind(it.typ, v).None? {
      ValidAppend(g, o.g, it1);
    } else if it.value.Some? {
      ValidAppend(g, o.g, it1);
    } else {
      ValidAppend(g, o.g, it1.(value := Some(Value(g.nextValue, CreatedKind(it.typ, v), true))));
    }
  }

  lemma ValidAppend(g: Group, r: Group, x: Item)
    requires Valid(g) && x.id < r.nextId && g.nextId <= r.nextId && x.preventBind.None?
    requires forall j :: 0 <= j < |g.items| ==> g.items[j].id != x.id
    requires r.items == g.items + [x] && r.named == g.named[x.name := x.id]
    ensures Valid(r)
  {
    var items := r.items;
    forall n | n in r.named ensures Position(items, r.named[n]) >= 0 && items[Position(items, r.named[n])].name == n {
      if n == x.name {
        PositionOf(items, x.id, |g.items|);
      } else {
        var p := Position(g.items, g.named[n]);
        assert items[p] == g.items[p];
        PositionOf(items, g.named[n], p);
      }
    }
  }

  /** Creating a member keeps the invariant. */
  lemma ValidNewItem(g: Group, def: Definition, v: Variant)
    requires Valid(g)
    ensures Valid(NewItem(g, def, v).g)
  {
    var o := NewItem(g, def, v);
    ValidAppend(g, o.g, o.g.items[|g.items|]);
  }

  /** `define` keeps the invariant. */
  lemma ValidDefineAt(g: Group, i: nat, def: Definition, v: Variant)
    requires Valid(g) && i < |g.items|
    ensures Valid(DefineAt(g, i, def, v).g)
  {
    var it := g.items[i];
    if Unchanged(it, def) {
      ValidUpdateMember(g, i, ApplyOptions(it, def.debounce, def.preventBind));
    } else {
      var d := DetachAt(g, i, v);
      ValidDetachAt(g, i, v);
      if d.status.Ok? {
        DetachAtRemovesId(g, i, v);
        ValidAttachTo(d.g, Reconfigured(g, i, def), v);
        assert DefineAt(g, i, def, v).g == AttachTo(d.g, Reconfigured(g, i, def), v).g;
      }
    }
  }

  /** Once the member at `i` has left, no member has its id. */
  lemma DetachAtRemovesId(g: Group, i: nat, v: Variant)
    requires Valid(g) && i < |g.items| && DetachAt(g, i, v).status.Ok?
    ensures var d := DetachAt(g, i, v).g;
      d.nextId == g.nextId && forall j :: 0 <= j < |d.items| ==> d.items[j].id != g.items[i].id
  {
    var items := g.items[..i] + g.items[i + 1..];
    assert forall j :: 0 <= j < |items| ==> items[j] == g.items[if j < i then j else j + 1];
  }

  lemma ValidDetachName(g: Group, name: string, v: Variant)
    requires Valid(g)
    ensures Valid(DetachName(g, name, v).g)
  {
    if name in g.named && Position(g.items, g.named[name]) >= 0 {
      ValidDetachAt(g, Position(g.items, g.named[name]), v);
    }
  }

  lemma {:induction false} ValidDetachFrom(o: Outcome, names: seq<string>, v: Variant)
    requires Valid(o.g)
    ensures Valid(DetachFrom(o, names, v).g)
    decreases |names|
  {
    if names != [] && o.status.Ok? {
      var r := DetachName(o.g, names[0], v);
      ValidDetachName(o.g, names[0], v);
      ValidDetachFrom(Outcome(r.g, o.events + r.events, r.status), names[1..], v);
    }
  }

  /** The group's `detach` keeps the invariant. */
  lemma ValidDetach(g: Group, names: seq<string>, shouldUpdate: bool, v: Variant)
    requires Valid(g)
    ensures Valid(Detach(g, names, shouldUpdate, v).g)
  {
    var o := DetachFrom(Outcome(g, [], Ok), names, v);
    ValidDetachFrom(Outcome(g, [], Ok), names, v);
    if o.status.Ok? && shouldUpdate {
      ValidUnload(o.g, v);
      ValidLoad(Unload(o.g, v).0, v);
    }
  }

  lemma ValidSubscribeAt(g: Group, i: nat, feed: Value -> Feed, v: Variant)
    requires Valid(g) && i < |g.items|
    ensures Valid(SubscribeAt(g, i, feed, v).g)
  {
    var it := g.items[i];
    if it.value.Some? && !it.value.value.withSubscription {
      var val := it.value.value;
      ValidHandle(g, i, InitialOf(val, feed), feed(val).hasUpdates, v);
    }
  }

  /** What `subscribe()` does, by the member's value: without one it does
      nothing in the sources and throws in the JavaScript build; a
      subscribing container only subscribes; a plain `SubscriptionArray`
      throws in the JavaScript build; any other plain container runs the
      member's callback at once, which initialises the member, sets its
      loading from whether the container holds anything and leaves the
      other members alone. In the sources a plain `SubscriptionArray`
      reaching a loaded group hands the handle an empty changeset. */
  lemma SubscribeAtEffect(g: Group, i: nat, feed: Value -> Feed, v: Variant)
    requires i < |g.items|
    ensures var o := SubscribeAt(g, i, feed, v); var it := g.items[i];
      (it.value.None? ==> o.g == g && o.events == [] && (o.status.Ok? <==> v == Src)) &&
      (it.value.Some? && it.value.value.withSubscription ==> o == Outcome(g, [Subscribed(it.id)], Ok)) &&
      (it.value.Some? && !it.value.value.withSubscription && it.value.value.kind == Some(ArrayKind) && v == Lib ==>
         o == Outcome(g, [], Threw(TypeError)))
    ensures var o := SubscribeAt(g, i, feed, v); var it := g.items[i];
      it.value.Some? && !it.value.value.withSubscription && !(it.value.value.kind == Some(ArrayKind) && v == Lib) ==>
        var updates := feed(it.value.value).hasUpdates;
        o.status.Ok? && o.g.items[i].isInited && o.g.items[i].id == it.id &&
        (updates && !g.isLoaded ==> o.g.items[i].isLoaded) &&
        (!updates ==> !o.g.items[i].isLoaded) &&
        (forall j :: 0 <= j < |g.items| && j != i ==> Kept(o.g.items[j], g.items[j]))
    ensures var o := SubscribeAt(g, i, feed, v); var it := g.items[i]; var empty := ListUpdated([], [], []);
      it.value.Some? && !it.value.value.withSubscription && it.value.value.kind == Some(ArrayKind) && v == Src &&
      feed(it.value.value).hasUpdates && g.isLoaded ==>
        HandleCall(it, Some(empty)) + EmitUpdate(it, empty, v).1 <= o.events
  {
    var it := g.items[i];
    if it.value.Some? && !it.value.value.withSubscription && !(it.value.value.kind == Some(ArrayKind) && v == Lib) {
      var val := it.value.value;
      var u := InitialOf(val, feed);
      HandleMember(g, i, u, feed(val).hasUpdates, v);
      var (g2, e2) := Deliver(g, i, u, feed(val).hasUpdates, v);
      var (g3, e3) := FirstCall(g2, i, v);
      assert SubscribeAt(g, i, feed, v).events == e2 + e3;
    }
  }

  lemma {:induction false} ValidSubscribeFrom(o: Outcome, from: nat, to: nat, feed: Value -> Feed, v: Variant)
    requires Valid(o.g) && to <= |o.g.items|
    ensures Valid(SubscribeFrom(o, from, to, feed, v).g)
    decreases if from >= to then 0 else to - from
  {
    if from < to && o.status.Ok? {
      var s := SubscribeAt(o.g, from, feed, v);
      ValidSubscribeAt(o.g, from, feed, v);
      var o1 := Outcome(s.g, o.events + s.events, s.status);
      ValidSubscribeFrom(o1, from + 1, to, feed, v);
      assert SubscribeFrom(o, from, to, feed, v) == SubscribeFrom(o1, from + 1, to, feed, v);
    }
  }

  lemma {:induction false} ValidCreateFrom(o: Outcome, defs: seq<Unparsed>, v: Variant)
    requires Valid(o.g)
    ensures Valid(CreateFrom(o, defs, v).g)
    decreases |defs|
  {
    if defs != [] && o.status.Ok? {
      match Parse(defs[0], v)
      case Failed(e) =>
      case Parsed(def) =>
        var n := NewItem(o.g, def, v);
        ValidNewItem(o.g, def, v);
        ValidCreateFrom(Outcome(n.g, o.events + n.events, n.status), defs[1..], v);
    }
  }

  /** The group's `attach` keeps the invariant. */
  lemma ValidAttach(g: Group, defs: seq<Unparsed>, shouldReload: bool, immediately: bool, feed: Value -> Feed, v: Variant)
    requires Valid(g)
    ensures Valid(Attach(g, defs, shouldReload, immediately, feed, v).g)
  {
    var g0 := g.(isLoaded := g.isLoaded && !shouldReload, loadSettled := false, unloadSettled := false);
    assert Valid(g0);
    var c := CreateFrom(Outcome(g0, [], Ok), defs, v);
    ValidCreateFrom(Outcome(g0, [], Ok), defs, v);
    if c.status.Ok? && immediately {
      CreateCount(Outcome(g0, [], Ok), defs, v);
      ValidSubscribeFrom(c, |g.items|, |c.g.items|, feed, v);
    }
  }

  /** Every group the constructor builds satisfies the invariant. */
  lemma ValidConstruct(defs: seq<Unparsed>, target: Option<nat>, immediately: bool, feed: Value -> Feed, v: Variant)
    ensures Valid(Construct(defs, target, immediately, feed, v).g)
  {
    ValidAttach(EmptyGroup(target), defs, false, immediately, feed, v);
  }

  lemma {:induction false} ValidRedefineFrom(o: Outcome, defs: seq<Definition>, feed: Value -> Feed, v: Variant)
    requires Valid(o.g)
    ensures Valid(RedefineFrom(o, defs, feed, v).g)
    decreases |defs|
  {
    if defs != [] && o.status.Ok? {
      var r := RedefineOne(o.g, defs[0], feed, v);
      ValidRedefineOne(o.g, defs[0], feed, v);
      ValidRedefineFrom(Outcome(r.g, o.events + r.events, r.status), defs[1..], feed, v);
    }
  }

  lemma ValidRedefineOne(g: Group, d: Definition, feed: Value -> Feed, v: Variant)
    requires Valid(g)
    ensures Valid(RedefineOne(g, d, feed, v).g)
  {
    if d.name in g.named && Position(g.items, g.named[d.name]) >= 0 {
      var id := g.named[d.name];
      var i := Position(g.items, id);
      var f := DefineAt(g, i, d, v);
      ValidDefineAt(g, i, d, v);
      if f.status.Ok? && Position(f.g.items, id) >= 0 {
        ValidSubscribeAt(f.g, Position(f.g.items, id), feed, v);
      }
    }
  }

  /** The group's `redefine` keeps the invariant. */
  lemma ValidRedefine(g: Group, defs: seq<Unparsed>, feed: Value -> Feed, v: Variant)
    requires Valid(g)
    ensures Valid(Redefine(g, defs, feed, v).g)
  {
    match ParseAll(defs, v)
    case ParseFailed(e) =>
    case AllParsed(parsed) =>
      var (re, at, left) := Split(Names(g.items), parsed);
      ValidDetachFrom(Outcome(g.(isLoaded := false), [], Ok), left, v);
      var d := DetachFrom(Outcome(g.(isLoaded := false), [], Ok), left, v);
      if d.status.Ok? {
        ValidRedefineFrom(Outcome(d.g, [], Ok), re, feed, v);
        var r := RedefineFrom(Outcome(d.g, [], Ok), re, feed, v);
        if r.status.Ok? && at != [] {
          ValidAttach(r.g, AsObjects(at), false, true, feed, v);
        }
      }
  }

  /** Changing the target keeps the invariant. */
  lemma ValidApplyTarget(g: Group, target: Option<nat>)
    requires Valid(g)
    ensures Valid(ApplyTarget(g, target))
  {
  }

  // ---------------------------------------------------------------------
  // Event logs only grow

  /** Subscribing after earlier events appends to them. */
  lemma {:induction false} SubscribeFromLog(o: Outcome, log: seq<Event>, from: nat, to: nat, feed: Value -> Feed, v: Variant)
    requires to <= |o.g.items|
    ensures var r := SubscribeFrom(o, from, to, feed, v);
      SubscribeFrom(Outcome(o.g, log + o.events, o.status), from, to, feed, v) == Outcome(r.g, log + r.events, r.status)
    decreases if from >= to then 0 else to - from
  {
    if from < to && o.status.Ok? {
      var s := SubscribeAt(o.g, from, feed, v);
      SeqAssoc(log, o.events, s.events);
      SubscribeFromLog(Outcome(s.g, o.events + s.events, s.status), log, from + 1, to, feed, v);
    }
  }
}

=== FILE: group_spec.dfy ===
/** The reference semantics of a `SubscriptionGroup`: its state as a
    value and each operation as a function from the state before to the
    state after, the events it emits and whether it throws. */
module SubscriptionGroups {
  import opened Values
  import opened GroupDefinitions
  import opened GroupChangesets
  import opened GroupItems

  /** A group. `items` and `values` are its arrays in member order;
      `named` and `namedValues` are the same arrays' named properties
      (`items[name]` holds the id of the member last attached under that
      name). `targets` holds the fields the group wrote to each target
      object it was given; `target` is the current one. The `...Settled`
      flags say whether `loaded()`, `inited()` and `unloaded()` are
      resolved. `nextId` and `nextValue` number new members and the values
      they create. */
  datatype Group = Group(
    items: seq<Item>,
    named: map<string, nat>,
    values: seq<Option<Value>>,
    namedValues: map<string, Option<Value>>,
    target: Option<nat>,
    targets: map<nat, Fields>,
    isLoaded: bool,
    isInited: bool,
    loadSettled: bool,
    initSettled: bool,
    unloadSettled: bool,
    nextId: nat,
    nextValue: nat)

  datatype Status = Ok | Threw(error: ParseError)

  /** What an operation leaves: the group, the events in order, and whether
      it threw (the group is then as far as the operation got). */
  datatype Outcome = Outcome(g: Group, events: seq<Event>, status: Status)

  /** What a plain (not `*WithSubscription`) container reports when an item
      subscribes to it: `getAsInitialUpdated()` and whether `getAsUpdates()`
      is truthy. */
  datatype Feed = Feed(initial: Updated, hasUpdates: bool)

  /** A new group, before its constructor attaches its definitions. */
  function EmptyGroup(target: Option<nat>): (g: Group)
    ensures g.items == [] && !g.isLoaded && !g.isInited && g.target == target
  {
    Group([], map[], [], map[], target, map[], false, false, false, false, false, 0, 0)
  }

  /** The position of the member with an id, or -1. */
  function Position(items: seq<Item>, id: nat): (r: int)
    ensures -1 <= r < |items|
    ensures r >= 0 ==> items[r].id == id
    ensures r < 0 ==> forall j :: 0 <= j < |items| ==> items[j].id != id
    decreases |items|
  {
    if items == [] then -1
    else if items[0].id == id then 0
    else
      var r := Position(items[1..], id);
      if r < 0 then -1 else r + 1
  }

  predicate UniqueIds(items: seq<Item>) {
    forall a, b :: 0 <= a < b < |items| ==> items[a].id != items[b].id
  }

  /** What every reachable group satisfies: members have distinct ids
      below `nextId`, every named member is a member of that name, and no
      member holds `preventBind`. */
  predicate Valid(g: Group) {
    UniqueIds(g.items) &&
    (forall j :: 0 <= j < |g.items| ==> g.items[j].id < g.nextId) &&
    (forall n :: n in g.named ==> Position(g.items, g.named[n]) >= 0 && g.items[Position(g.items, g.named[n])].name == n) &&
    (forall j :: 0 <= j < |g.items| ==> g.items[j].preventBind.None?)
  }

  /** The fields written to the current target. */
  function TargetFields(g: Group): Fields {
    if g.target.Some? && g.target.value in g.targets then g.targets[g.target.value] else map[]
  }

  /** The current target's fields replaced. */
  function WithTarget(g: Group, f: Fields): Group
    requires g.target.Some?
  {
    g.(targets := g.targets[g.target.value := f])
  }

  /** Members keep their identity, name, value and binding: what the
      barrier steps never touch. */
  predicate Kept(a: Item, b: Item) {
    a.id == b.id && a.name == b.name && a.value == b.value &&
    a.preventBind == b.preventBind && a.isLoaded == b.isLoaded && a.isInited == b.isInited
  }

  predicate SameMembers(a: seq<Item>, b: seq<Item>) {
    |a| == |b| && forall j :: 0 <= j < |a| ==> Kept(a[j], b[j])
  }

  /** The group asking for updates: each member's `emitUpdate()`, or the
      group's own `emitUpdate()` when it has no members. */
  function Notify(items: seq<Item>, v: Variant): (r: (seq<Item>, seq<Event>))
    ensures |r.0| == |items|
  {
    if |items| > 0 then Each(items, Asking(v)) else (items, [GroupUpdate])
  }

  /** A member's `emitUpdate()` with nothing to pass. */
  function Asking(v: Variant): Item -> (Item, seq<Event>) {
    it => EmitUpdate(it, NoUpdated, v)
  }

  // ---------------------------------------------------------------------
  // The three barriers

  /** The current target, if any, with the binding members written to
      it. */
  function BindTarget(g: Group, loadedOnly: bool): (r: Group)
    ensures r == g.(targets := r.targets)
  {
    if g.target.Some? then WithTarget(g, Bind(TargetFields(g), g.items, loadedOnly)) else g
  }

  /** The current target, if any, with the binding members removed. */
  function UnbindTarget(g: Group, loadedOnly: bool): (r: Group)
    ensures r == g.(targets := r.targets)
  {
    if g.target.Some? then WithTarget(g, Unbind(TargetFields(g), g.items, loadedOnly)) else g
  }

  /** `#load`: once every member is loaded, the members are bound to the
      target, the group is loaded, every member runs its `#load`, the group
      emits `load`, asks for updates if it is already initialised, and
      `loaded()` resolves. */
  function Load(g: Group, v: Variant): (r: (Group, seq<Event>))
    ensures |r.0.items| == |g.items|
  {
    if !g.isLoaded && AllLoaded(g.items) then LoadActs(g, v) else (g, [])
  }

  function LoadActs(g: Group, v: Variant): (r: (Group, seq<Event>))
    ensures |r.0.items| == |g.items|
  {
    var loaded := Each(g.items, LoadStep);
    var notified := if g.isInited then Notify(loaded.0, v) else (loaded.0, []);
    (BindTarget(g, false).(isLoaded := true, items := notified.0, loadSettled := true, unloadSettled := false),
     loaded.1 + [GroupLoad] + notified.1)
  }

  /** `#init`: once every member is initialised, the group is, asks for
      updates if it is loaded, every member runs its `#init`, the group
      emits `init` and `inited()` resolves. */
  function Init(g: Group, v: Variant): (r: (Group, seq<Event>))
    ensures |r.0.items| == |g.items|
  {
    if !g.isInited && AllInited(g.items) then InitActs(g, v) else (g, [])
  }

  function InitActs(g: Group, v: Variant): (r: (Group, seq<Event>))
    ensures |r.0.items| == |g.items|
  {
    var notified := if g.isLoaded then Notify(g.items, v) else (g.items, []);
    var inited := Each(notified.0, InitStep);
    (g.(isInited := true, items := inited.0, initSettled := true), notified.1 + inited.1 + [GroupInit])
  }

  /** `#unload`: once no member is loaded, the members are unbound from
      the target, the group is unloaded, every member runs its `#unload`,
      the group emits `unload`, asks for updates, and `unloaded()`
      resolves. */
  function Unload(g: Group, v: Variant): (r: (Group, seq<Event>))
    ensures |r.0.items| == |g.items|
  {
    if g.isLoaded && NoneLoaded(g.items) then UnloadActs(g, v) else (g, [])
  }

  function UnloadActs(g: Group, v: Variant): (r: (Group, seq<Event>))
    ensures |r.0.items| == |g.items|
  {
    var unloaded := Each(g.items, UnloadStep);
    var notified := Notify(unloaded.0, v);
    (UnbindTarget(g, false).(isLoaded := false, items := notified.0, unloadSettled := true, loadSettled := false),
     unloaded.1 + [GroupUnload] + notified.1)
  }

  // ---------------------------------------------------------------------
  // A member's subscription callback

  /** The item's `#handleSubscription(_, updated, updates)` for the member
      at position `i`. With updates: a loaded group passes the changeset to
      the handle and to `emitUpdate`; otherwise the member stashes it, is
      loaded and tries the group's `#load`. Without: a loaded member is
      unloaded and tries the group's `#unload`. Either way, the first call
      initialises the member and tries the group's `#init`. */
  function HandleSubscription(g: Group, i: nat, u: Updated, updates: bool, v: Variant): (r: (Group, seq<Event>))
    requires i < |g.items|
    ensures |r.0.items| == |g.items|
  {
    var (g2, e2) := Deliver(g, i, u, updates, v);
    var (g3, e3) := FirstCall(g2, i, v);
    (g3, e2 + e3)
  }

  /** The first half of the callback: what it does with the changeset. The
      stash is the changeset itself, so an `undefined` one stashes
      nothing. */
  function Deliver(g: Group, i: nat, u: Updated, updates: bool, v: Variant): (r: (Group, seq<Event>))
    requires i < |g.items|
    ensures |r.0.items| == |g.items|
  {
    var it := g.items[i];
    if updates then
      if g.isLoaded then
        var (it1, e1) := EmitUpdate(it, u, v);
        (g.(items := g.items[i := it1]), HandleCall(it, Some(u)) + e1)
      else
        var stash := if u.NoUpdated? then None else Some(u);
        Load(g.(items := g.items[i := it.(loadUpdated := stash, isLoaded := true)]), v)
    else if it.isLoaded then Unload(g.(items := g.items[i := it.(isLoaded := false)]), v)
    else (g, [])
  }

  /** The second half: the member's first call initialises it and tries
      the group's `#init`. */
  function FirstCall(g: Group, i: nat, v: Variant): (r: (Group, seq<Event>))
    requires i < |g.items|
    ensures |r.0.items| == |g.items|
  {
    var it := g.items[i];
    if !it.isInited then Init(g.(items := g.items[i := it.(isInited := true)]), v)
    else (g, [])
  }

  /** A debounced member's timer firing. */
  function FlushAt(g: Group, i: nat): (r: (Group, seq<Event>))
    requires i < |g.items|
    ensures r.0 == g.(items := g.items[i := Flush(g.items[i]).0]) && r.1 == Flush(g.items[i]).1
  {
    (g.(items := g.items[i := Flush(g.items[i]).0]), Flush(g.items[i]).1)
  }

  /** The timer of the `k`-th earlier window of the member at position `i`
      firing. */
  function FlushOrphanAt(g: Group, i: nat, k: nat): (r: (Group, seq<Event>))
    requires i < |g.items| && k < |g.items[i].orphans|
    ensures r.0 == g.(items := g.items[i := FlushOrphan(g.items[i], k).0]) && r.1 == FlushOrphan(g.items[i], k).1
  {
    (g.(items := g.items[i := FlushOrphan(g.items[i], k).0]), FlushOrphan(g.items[i], k).1)
  }

  // ---------------------------------------------------------------------
  // Leaving the group

  /** The member at position `i` as `detach` leaves it. */
  function Detached(g: Group, i: nat): (r: Item)
    requires i < |g.items|
    ensures r.id == g.items[i].id && r.name == g.items[i].name && r.preventBind == g.items[i].preventBind
    ensures !r.isLoaded && r.unloadSettled && !r.loadSettled
  {
    UnloadStep(g.items[i].(isLoaded := false)).0
  }

  /** Whether `detach` throws before doing anything: in the sources it
      calls `unsubscribe` on a value that has none, in the JavaScript build
      it reads a property of a missing value. */
  predicate DetachThrows(it: Item, v: Variant) {
    if v == Src then it.value.Some? && !it.value.value.withSubscription
    else it.value.None?
  }

  /** The item's `detach()` for the member at position `i`: the value is
      unsubscribed, the member is unloaded and runs its `#unload`, and the
      value and the member leave both arrays and both named views (the
      named entries by name, whoever they point to). */
  function DetachAt(g: Group, i: nat, v: Variant): (o: Outcome)
    requires i < |g.items|
    ensures o.status.Ok? <==> !DetachThrows(g.items[i], v)
    ensures o.status.Ok? ==> o.g.items == g.items[..i] + g.items[i + 1..] && o.g.named == g.named - {g.items[i].name}
    ensures o.status.Ok? ==>
      o.g.values == RemoveOne(g.values, g.items[i].value) && o.g.namedValues == g.namedValues - {g.items[i].name}
    ensures !o.status.Ok? ==> o == Outcome(g, [], Threw(TypeError))
    ensures o.g.isInited == g.isInited && o.g.isLoaded == g.isLoaded && o.g.nextId == g.nextId
  {
    var it := g.items[i];
    if DetachThrows(it, v) then Outcome(g, [], Threw(TypeError))
    else
      var e0 := if it.value.Some? && it.value.value.withSubscription then [Unsubscribed(it.id)] else [];
      var e1 := UnloadStep(it.(isLoaded := false)).1;
      Outcome(g.(values := RemoveOne(g.values, it.value), namedValues := g.namedValues - {it.name},
                 items := g.items[..i] + g.items[i + 1..], named := g.named - {it.name}),
              e0 + e1, Ok)
  }

  /** `detach()` called again on a member that has left: nothing in the
      sources; the JavaScript build unsubscribes and unloads the member once
      more and then throws on the missing group. */
  function DetachAgain(it: Item, v: Variant): (o: (Item, seq<Event>, Status))
    ensures v == Src ==> o == (it, [], Ok)
    ensures v == Lib ==> o.2 == Threw(TypeError)
  {
    if v == Src then (it, [], Ok)
    else if it.value.None? then (it, [], Threw(TypeError))
    else
      var e0 := if it.value.value.withSubscription then [Unsubscribed(it.id)] else [];
      var (it1, e1) := UnloadStep(it.(isLoaded := false));
      (it1, e0 + e1, Threw(TypeError))
  }

  /** `this.items[name]?.detach()`. */
  function DetachName(g: Group, name: string, v: Variant): Outcome {
    if name in g.named && Position(g.items, g.named[name]) >= 0 then DetachAt(g, Position(g.items, g.named[name]), v)
    else Outcome(g, [], Ok)
  }

  /** Detaching the remaining names after `o`, stopping at a throw. */
  function DetachFrom(o: Outcome, names: seq<string>, v: Variant): Outcome
    decreases |names|
  {
    if names == [] || !o.status.Ok? then o
    else
      var r := DetachName(o.g, names[0], v);
      DetachFrom(Outcome(r.g, o.events + r.events, r.status), names[1..], v)
  }

  /** The group's `detach(names, shouldUpdate)`: each named member
      detaches; then, if asked, the group tries `#unload` and `#load`. */
  function Detach(g: Group, names: seq<string>, shouldUpdate: bool, v: Variant): Outcome {
    var o := DetachFrom(Outcome(g, [], Ok), names, v);
    if !o.status.Ok? || !shouldUpdate then o
    else
      var (g2, e) := Reload(o.g, v);
      Outcome(g2, o.events + e, Ok)
  }

  /** `#unload()` followed by `#load()`. */
  function Reload(g: Group, v: Variant): (r: (Group, seq<Event>)) {
    var (g1, e1) := Unload(g, v);
    var (g2, e2) := Load(g1, v);
    (g2, e1 + e2)
  }

  // ---------------------------------------------------------------------
  // Joining the group

  /** The value type `#attachTo` creates for a type name: the sources make
      anything but `"array"` and `"map"` an object; the JavaScript build
      knows only the three names. */
  function CreatedKind(typ: string, v: Variant): Option<Kind> {
    if typ == "array" then Some(ArrayKind)
    else if typ == "map" then Some(MapKind)
    else if typ == "object" || v == Src then Some(ObjectKind)
    else None
  }

  /** `#attachTo(group)` for an item that is not a member: it joins the
      member array and the named view, its promises are renewed, it keeps
      its value (taking over its callback) or gets a new subscribing one of
      its type, the value joins both value views, and `onBeforeInit` is
      called. The JavaScript build throws on an unknown type after the item
      has joined. */
  function AttachTo(g: Group, it: Item, v: Variant): (o: Outcome)
    ensures |o.g.items| == |g.items| + 1 && o.g.items == g.items + [o.g.items[|g.items|]]
    ensures o.g.named == g.named[it.name := it.id] && o.g.nextId == g.nextId
    ensures var x := o.g.items[|g.items|];
      x.id == it.id && x.name == it.name && x.preventBind == it.preventBind &&
      x.isLoaded == it.isLoaded && x.isInited == it.isInited && x.orphans == it.orphans
    ensures it.value.Some? ==> o.status.Ok? && o.g.items[|g.items|].value == it.value
    ensures it.value.None? && CreatedKind(it.typ, v).Some? ==>
      o.status.Ok? && o.g.items[|g.items|].value == Some(Value(g.nextValue, CreatedKind(it.typ, v), true))
    ensures it.value.None? && CreatedKind(it.typ, v).None? ==> o.status == Threw(TypeError)
  {
    var it1 := it.(loadSettled := false, initSettled := false, unloadSettled := false);
    if it.value.None? && CreatedKind(it.typ, v).None? then
      Outcome(g.(items := g.items + [it1], named := g.named[it.name := it.id]), [], Threw(TypeError))
    else
      var it2 := if it.value.Some? then it1 else it1.(value := Some(Value(g.nextValue, CreatedKind(it.typ, v), true)));
      var next := if it.value.Some? then g.nextValue else g.nextValue + 1;
      Outcome(g.(items := g.items + [it2], named := g.named[it.name := it.id],
                 values := g.values + [it2.value], namedValues := g.namedValues[it.name := it2.value],
                 nextValue := next),
              if it.onBeforeInit.Some? then [BeforeInit(it.id)] else [], Ok)
  }

  /** What `define` stores from a definition once the item is free: type
      (`"object"` by default), handle and `onBeforeInit`, then either the
      value or a publication name (the item's name by default) and
      parameters (none by default), then the options. */
  function Configure(it: Item, def: Definition): (r: Item)
    ensures r.id == it.id && r.name == it.name && r.isLoaded == it.isLoaded && r.isInited == it.isInited
    ensures r.typ == (if def.typ.Some? then def.typ.value else "object") && r.handle == def.handle
    ensures it.preventBind.None? ==> r.preventBind.None?
    ensures def.value.Some? ==> r.value == def.value && r.publicationName == it.publicationName && r.params == it.params
    ensures def.value.None? ==>
      r.value == it.value &&
      r.publicationName == Some(if def.publicationName.Some? then def.publicationName.value else it.name) &&
      r.params == Some(if def.params.Some? then def.params.value else [])
    ensures r.debounce == DebounceOf(def.debounce) && r.pending.Nothing?
    ensures r.orphans == it.orphans + (if it.scheduled then [it.pending] else [])
  {
    var s := Store(it, def);
    assert SameSetup(ApplyOptions(s, def.debounce, def.preventBind), s);
    ApplyOptions(s, def.debounce, def.preventBind)
  }

  /** What `define` stores before it applies the options. */
  function Store(it: Item, def: Definition): (r: Item)
    ensures r.id == it.id && r.name == it.name && r.isLoaded == it.isLoaded && r.isInited == it.isInited
    ensures r.typ == (if def.typ.Some? then def.typ.value else "object") && r.handle == def.handle
    ensures r.preventBind == it.preventBind
    ensures r.pending == it.pending && r.scheduled == it.scheduled && r.orphans == it.orphans
    ensures def.value.Some? ==> r.value == def.value && r.publicationName == it.publicationName && r.params == it.params
    ensures def.value.None? ==>
      r.value == it.value &&
      r.publicationName == Some(if def.publicationName.Some? then def.publicationName.value else it.name) &&
      r.params == Some(if def.params.Some? then def.params.value else [])
  {
    var it1 := it.(typ := if def.typ.Some? then def.typ.value else "object", handle := def.handle,
                   onBeforeInit := def.onBeforeInit);
    if def.value.Some? then it1.(value := def.value)
    else it1.(publicationName := Some(if def.publicationName.Some? then def.publicationName.value else it.name),
              params := Some(if def.params.Some? then def.params.value else []))
  }

  /** `define`'s test for a definition that changes nothing but options. */
  predicate Unchanged(it: Item, def: Definition) {
    (def.value.None? || it.value == def.value) &&
    it.typ == (if def.typ.Some? then def.typ.value else "object") &&
    it.publicationName == def.publicationName &&
    it.params == def.params &&
    it.handle == def.handle &&
    it.onBeforeInit == def.onBeforeInit
  }

  /** A new item before its first `define`. */
  function Fresh(id: nat, name: string): Item {
    Item(id, name, None, "object", None, None, None, None, None, None,
         false, false, None, Nothing, false, [], false, false, false)
  }

  /** `new SubscriptionGroupItem(definition, group)`: a fresh item is
      configured and attached. */
  function NewItem(g: Group, def: Definition, v: Variant): (o: Outcome)
    ensures |o.g.items| == |g.items| + 1 && o.g.items == g.items + [o.g.items[|g.items|]]
    ensures var x := o.g.items[|g.items|];
      x.id == g.nextId && x.name == def.name && !x.isLoaded && !x.isInited && x.preventBind.None?
    ensures o.g.nextId == g.nextId + 1 && o.g.named == g.named[def.name := g.nextId]
    ensures v == Src ==> o.status.Ok?
  {
    AttachTo(g.(nextId := g.nextId + 1), Configure(Fresh(g.nextId, def.name), def), v)
  }

  /** The item's `define(definition)` for the member at position `i`: a
      definition that only changes options re-applies them in place;
      otherwise the member detaches, forgets its value, publication name
      and parameters, is configured afresh and attaches again, as the last
      member. */
  function DefineAt(g: Group, i: nat, def: Definition, v: Variant): (o: Outcome)
    requires i < |g.items|
    ensures |o.g.items| == |g.items|
  {
    var it := g.items[i];
    if Unchanged(it, def) then
      Outcome(g.(items := g.items[i := ApplyOptions(it, def.debounce, def.preventBind)]), [], Ok)
    else
      var d := DetachAt(g, i, v);
      if !d.status.Ok? then d
      else
        var a := AttachTo(d.g, Reconfigured(g, i, def), v);
        Outcome(a.g, d.events + a.events, a.status)
  }

  /** The member at position `i` as `define` attaches it again: detached,
      without value, publication name or parameters, then configured from
      the definition. */
  function Reconfigured(g: Group, i: nat, def: Definition): (r: Item)
    requires i < |g.items|
    ensures r.id == g.items[i].id && r.name == g.items[i].name && !r.isLoaded
    ensures g.items[i].preventBind.None? ==> r.preventBind.None?
    ensures r.typ == (if def.typ.Some? then def.typ.value else "object") && r.value == def.value
    ensures var it := g.items[i]; r.orphans == it.orphans + (if it.scheduled then [it.pending] else [])
  {
    Configure(Detached(g, i).(value := None, publicationName := None, params := None), def)
  }

  /** The item's `subscribe()` for the member at position `i`: a
      subscribing value subscribes; a plain container passes what it holds
      straight to the member's callback. A plain `SubscriptionArray` reads
      its never-filled `sorted` field: an empty changeset in the sources,
      and in the JavaScript build, where the field is undefined, a
      `TypeError` before the callback is reached. */
  function SubscribeAt(g: Group, i: nat, feed: Value -> Feed, v: Variant): (o: Outcome)
    requires i < |g.items|
    ensures |o.g.items| == |g.items|
  {
    var it := g.items[i];
    match it.value
    case None => if v == Src then Outcome(g, [], Ok) else Outcome(g, [], Threw(TypeError))
    case Some(val) =>
      if val.withSubscription then Outcome(g, [Subscribed(it.id)], Ok)
      else if val.kind == Some(ArrayKind) && v == Lib then Outcome(g, [], Threw(TypeError))
      else
        var (g1, e1) := HandleSubscription(g, i, InitialOf(val, feed), feed(val).hasUpdates, v);
        Outcome(g1, e1, Ok)
  }

  /** `getAsInitialUpdated()` of a plain container, as far as the sources
      get: empty for a `SubscriptionArray`, whatever it holds, and what the
      container reports otherwise. */
  function InitialOf(val: Value, feed: Value -> Feed): (u: Updated)
    ensures val.kind == Some(ArrayKind) ==> u == ListUpdated([], [], [])
    ensures val.kind != Some(ArrayKind) ==> u == feed(val).initial
  {
    if val.kind == Some(ArrayKind) then ListUpdated([], [], []) else feed(val).initial
  }

  /** Creating the members for the remaining definitions after `o`,
      stopping at a throw. */
  function CreateFrom(o: Outcome, defs: seq<Unparsed>, v: Variant): (r: Outcome)
    ensures |o.g.items| <= |r.g.items| <= |o.g.items| + |defs|
    decreases |defs|
  {
    if defs == [] || !o.status.Ok? then o
    else
      match Parse(defs[0], v)
      case Failed(e) => Outcome(o.g, o.events, Threw(e))
      case Parsed(def) =>
        var n := NewItem(o.g, def, v);
        CreateFrom(Outcome(n.g, o.events + n.events, n.status), defs[1..], v)
  }

  /** Subscribing the members at positions `from` to `to`, stopping at a
      throw. */
  function SubscribeFrom(o: Outcome, from: nat, to: nat, feed: Value -> Feed, v: Variant): (r: Outcome)
    requires to <= |o.g.items|
    ensures |r.g.items| == |o.g.items|
    decreases if from >= to then 0 else to - from
  {
    if from >= to || !o.status.Ok? then o
    else
      var s := SubscribeAt(o.g, from, feed, v);
      SubscribeFrom(Outcome(s.g, o.events + s.events, s.status), from + 1, to, feed, v)
  }

  /** The group's `attach(definitions, shouldReload, immediately)`: the
      group may be marked unloaded, its resolved `loaded()` and
      `unloaded()` are renewed, a member is created for every definition,
      and then, if asked, each new member subscribes. */
  function Attach(g: Group, defs: seq<Unparsed>, shouldReload: bool, immediately: bool, feed: Value -> Feed, v: Variant): Outcome {
    var g0 := g.(isLoaded := g.isLoaded && !shouldReload, loadSettled := false, unloadSettled := false);
    CreateAndSubscribe(g0, defs, immediately, feed, v)
  }

  /** The body of `attach` once the flags are set: a member for every
      definition, then, if asked, a subscription for each new member. */
  function CreateAndSubscribe(g: Group, defs: seq<Unparsed>, immediately: bool, feed: Value -> Feed, v: Variant): Outcome {
    var c := CreateFrom(Outcome(g, [], Ok), defs, v);
    if !c.status.Ok? || !immediately then c
    else SubscribeFrom(c, |g.items|, |c.g.items|, feed, v)
  }

  lemma {:induction false} CreateCount(o: Outcome, defs: seq<Unparsed>, v: Variant)
    requires o.status.Ok?
    ensures var r := CreateFrom(o, defs, v); r.status.Ok? ==> |r.g.items| == |o.g.items| + |defs|
    decreases |defs|
  {
    if defs != [] {
      match Parse(defs[0], v)
      case Failed(e) =>
      case Parsed(def) =>
        var n := NewItem(o.g, def, v);
        if n.status.Ok? {
          CreateCount(Outcome(n.g, o.events + n.events, n.status), defs[1..], v);
        }
    }
  }

  /** The constructor: an empty group with its target, then `attach`
      without reload. */
  function Construct(defs: seq<Unparsed>, target: Option<nat>, immediately: bool, feed: Value -> Feed, v: Variant): Outcome {
    Attach(EmptyGroup(target), defs, false, immediately, feed, v)
  }

  // ---------------------------------------------------------------------
  // Redefining

  /** Parsing every definition, or the first failure. */
  function ParseAll(defs: seq<Unparsed>, v: Variant): (r: Parsing)
    ensures r.AllParsed? ==> |r.defs| == |defs| && forall j :: 0 <= j < |defs| ==> Parse(defs[j], v) == Parsed(r.defs[j])
    ensures r.ParseFailed? ==> exists j :: 0 <= j < |defs| && Parse(defs[j], v) == Failed(r.error)
    decreases |defs|
  {
    if defs == [] then AllParsed([])
    else
      match Parse(defs[0], v)
      case Failed(e) => ParseFailed(e)
      case Parsed(d) =>
        match ParseAll(defs[1..], v)
        case ParseFailed(e) => ParseFailed(e)
        case AllParsed(ds) => AllParsed([d] + ds)
  }

  datatype Parsing = AllParsed(defs: seq<Definition>) | ParseFailed(error: ParseError)

  /** The member names in order of first appearance: the keys of
      `new Map(items.map(item => [item.name, item]))`. */
  function Names(items: seq<Item>): (r: seq<string>)
    ensures NoDuplicates(r)
    ensures forall n :: n in r <==> exists j :: 0 <= j < |items| && items[j].name == n
    decreases |items|
  {
    if items == [] then []
    else
      var rest := Names(items[..|items| - 1]);
      var n := items[|items| - 1].name;
      if n in rest then rest
      else
        assert forall m :: m in rest + [n] <==> exists j :: 0 <= j < |items| && items[j].name == m by {
          forall m | m in rest ensures exists j :: 0 <= j < |items| && items[j].name == m {
            var j :| 0 <= j < |items| - 1 && items[..|items| - 1][j].name == m;
            assert items[j].name == m;
          }
          forall m | exists j :: 0 <= j < |items| && items[j].name == m ensures m in rest + [n] {
            var j :| 0 <= j < |items| && items[j].name == m;
            if j < |items| - 1 {
              assert items[..|items| - 1][j].name == m;
            }
          }
        }
        rest + [n]
  }

  /** The split `redefine` makes: definitions whose name is still among
      the current names (each name used once) are redefinitions, the others
      new members; the names left over are detached. */
  function Split(names: seq<string>, defs: seq<Definition>): (r: (seq<Definition>, seq<Definition>, seq<string>))
    ensures |r.0| + |r.1| == |defs|
    ensures forall n :: n in r.2 ==> n in names
    decreases |defs|
  {
    if defs == [] then ([], [], names)
    else
      var (re, at, left) := Split(names, defs[..|defs| - 1]);
      var d := defs[|defs| - 1];
      if d.name in left then (re + [d], at, RemoveOne(left, d.name))
      else (re, at + [d], left)
  }

  /** Redefining the members of the remaining definitions after `o`,
      stopping at a throw. */
  function RedefineFrom(o: Outcome, defs: seq<Definition>, feed: Value -> Feed, v: Variant): Outcome
    decreases |defs|
  {
    if defs == [] || !o.status.Ok? then o
    else
      var r := RedefineOne(o.g, defs[0], feed, v);
      RedefineFrom(Outcome(r.g, o.events + r.events, r.status), defs[1..], feed, v)
  }

  /** One redefinition: the member is looked up by name, defined, looked
      up again and subscribed; a name no longer in the named view, or a
      member that has left, throws. */
  function RedefineOne(g: Group, d: Definition, feed: Value -> Feed, v: Variant): Outcome {
    if d.name !in g.named || Position(g.items, g.named[d.name]) < 0 then Outcome(g, [], Threw(TypeError))
    else
      var id := g.named[d.name];
      DefineResubscribe(g, Position(g.items, id), id, d, feed, v)
  }

  /** The member at position `i`, with an id, is defined and subscribes
      again. */
  function DefineResubscribe(g: Group, i: nat, id: nat, d: Definition, feed: Value -> Feed, v: Variant): Outcome
    requires i < |g.items|
  {
    var f := DefineAt(g, i, d, v);
    if !f.status.Ok? then f
    else
      var s := Resubscribe(f.g, id, feed, v);
      Outcome(s.g, f.events + s.events, s.status)
  }

  /** The member with an id, looked up again, subscribes; a member that
      has left throws. */
  function Resubscribe(g: Group, id: nat, feed: Value -> Feed, v: Variant): Outcome {
    if Position(g.items, id) < 0 then Outcome(g, [], Threw(TypeError))
    else SubscribeAt(g, Position(g.items, id), feed, v)
  }

  /** The group's `redefine(definitions)`: every definition is parsed and
      sorted into redefinitions and new members, the group is marked
      unloaded, the members whose names were not mentioned detach (without
      the barriers), the others are redefined and subscribe, and the new
      ones are attached and subscribe. */
  function Redefine(g: Group, defs: seq<Unparsed>, feed: Value -> Feed, v: Variant): Outcome {
    match ParseAll(defs, v)
    case ParseFailed(e) => Outcome(g, [], Threw(e))
    case AllParsed(parsed) =>
      var (re, at, left) := Split(Names(g.items), parsed);
      var d := DetachFrom(Outcome(g.(isLoaded := false), [], Ok), left, v);
      if !d.status.Ok? then d
      else
        var r := RedefineAndAttach(d.g, re, at, feed, v);
        Outcome(r.g, d.events + r.events, r.status)
  }

  /** The second half of `redefine`: the mentioned members are redefined
      and subscribe, then the new ones are attached and subscribe. */
  function RedefineAndAttach(g: Group, re: seq<Definition>, at: seq<Definition>, feed: Value -> Feed, v: Variant): Outcome {
    var r := RedefineFrom(Outcome(g, [], Ok), re, feed, v);
    if !r.status.Ok? || at == [] then r
    else
      var a := Attach(r.g, AsObjects(at), false, true, feed, v);
      Outcome(a.g, r.events + a.events, a.status)
  }

  /** Parsed definitions handed back to `attach`, which parses them again
      as objects. */
  function AsObjects(defs: seq<Definition>): (r: seq<Unparsed>)
    ensures |r| == |defs| && forall j :: 0 <= j < |defs| ==> r[j] == Object(defs[j])
    decreases |defs|
  {
    if defs == [] then [] else [Object(defs[0])] + AsObjects(defs[1..])
  }

  // ---------------------------------------------------------------------
  // Changing the target

  /** The target part of the group's `applyOptions`: on a new target, the
      loaded binding members are removed from the old one and written to
      the new one. */
  function ApplyTarget(g: Group, target: Option<nat>): (r: Group)
    ensures r == g.(target := target, targets := r.targets)
  {
    if target == g.target then g
    else
      var unbound := if g.target.Some? then g.targets[g.target.value := Unbind(TargetFields(g), g.items, true)] else g.targets;
      var before := if target.Some? && target.value in unbound then unbound[target.value] else map[];
      var bound := if target.Some? then unbound[target.value := Bind(before, g.items, true)] else unbound;
      g.(target := target, targets := bound)
  }
}

=== FILE: sorting.dfy ===
/** The engine's `Array.prototype.sort(compare)`, which both containers call
    once at the end of a batch. It is stable (ECMAScript 2019 onwards); the
    model takes it to be a stable insertion sort. For a comparator that is
    not consistent the engine's order is implementation-defined, and the
    model's result is only one of the orders an engine may give. */
module Sorting {

  /** Adjacent elements are in comparator order: what the model's `sort`
      gives for any antisymmetric comparator, and what the engine promises
      for a consistent one. */
  ghost predicate AdjacentSorted<T>(s: seq<T>, cmp: (T, T) -> int) {
    forall i :: 0 <= i < |s| - 1 ==> cmp(s[i], s[i + 1]) <= 0
  }

  /** `compare(a, b) > 0` exactly when `compare(b, a) < 0`. */
  ghost predicate Antisymmetric<T(!new)>(cmp: (T, T) -> int) {
    forall a, b :: cmp(a, b) > 0 ==> cmp(b, a) < 0
  }

  /** Insert `x` before the first element it does not compare above. */
  function Insert<T>(x: T, s: seq<T>, cmp: (T, T) -> int): (r: seq<T>)
    ensures multiset(r) == multiset(s) + multiset{x}
    ensures |r| == |s| + 1
  {
    if s == [] then [x]
    else if cmp(x, s[0]) <= 0 then [x] + s
    else
      assert s == [s[0]] + s[1..];
      [s[0]] + Insert(x, s[1..], cmp)
  }

  /** The sorted copy; the containers assign it back in place. */
  function Sort<T>(s: seq<T>, cmp: (T, T) -> int): (r: seq<T>)
    ensures multiset(r) == multiset(s)
    ensures |r| == |s|
  {
    if s == [] then []
    else
      assert s == [s[0]] + s[1..];
      Insert(s[0], Sort(s[1..], cmp), cmp)
  }

  lemma {:induction false} InsertSorted<T(!new)>(x: T, s: seq<T>, cmp: (T, T) -> int)
    requires Antisymmetric(cmp)
    requires AdjacentSorted(s, cmp)
    ensures AdjacentSorted(Insert(x, s, cmp), cmp)
    ensures s != [] ==> Insert(x, s, cmp)[0] == x || Insert(x, s, cmp)[0] == s[0]
  {
    if s == [] || cmp(x, s[0]) <= 0 {
    } else {
      var tail := s[1..];
      assert AdjacentSorted(tail, cmp) by {
        forall i | 0 <= i < |tail| - 1 ensures cmp(tail[i], tail[i + 1]) <= 0 {
          assert tail[i] == s[i + 1] && tail[i + 1] == s[i + 2];
        }
      }
      InsertSorted(x, tail, cmp);
      var r := Insert(x, s, cmp);
      var rest := Insert(x, tail, cmp);
      assert r == [s[0]] + rest;
      assert cmp(s[0], rest[0]) <= 0 by {
        if tail == [] {
          assert rest[0] == x;
        } else if rest[0] == x {
        } else {
          assert rest[0] == s[1];
        }
      }
      forall i | 0 <= i < |r| - 1 ensures cmp(r[i], r[i + 1]) <= 0 {
        if i > 0 {
          assert r[i] == rest[i - 1] && r[i + 1] == rest[i];
        }
      }
    }
  }

  /** Whatever the comparator, as long as it is antisymmetric the result has
      every adjacent pair in order. */
  lemma {:induction false} SortSorted<T(!new)>(s: seq<T>, cmp: (T, T) -> int)
    requires Antisymmetric(cmp)
    ensures AdjacentSorted(Sort(s, cmp), cmp)
  {
    if s != [] {
      SortSorted(s[1..], cmp);
      InsertSorted(s[0], Sort(s[1..], cmp), cmp);
    }
  }

  /** Sorting a sequence that is already in order changes nothing. */
  lemma {:induction false} SortOfSorted<T>(s: seq<T>, cmp: (T, T) -> int)
    requires AdjacentSorted(s, cmp)
    ensures Sort(s, cmp) == s
  {
    if s != [] {
      var tail := s[1..];
      assert AdjacentSorted(tail, cmp) by {
        forall i | 0 <= i < |tail| - 1 ensures cmp(tail[i], tail[i + 1]) <= 0 {
          assert tail[i] == s[i + 1] && tail[i + 1] == s[i + 2];
        }
      }
      SortOfSorted(tail, cmp);
      assert s == [s[0]] + tail;
    }
  }

  /** Removing one element keeps the others' adjacent order when the
      comparator is a total preorder on them. */
  lemma RemoveKeepsSorted<T>(s: seq<T>, i: nat, cmp: (T, T) -> int)
    requires i < |s|
    requires AdjacentSorted(s, cmp)
    requires 0 < i < |s| - 1 ==> cmp(s[i - 1], s[i + 1]) <= 0
    ensures AdjacentSorted(s[..i] + s[i + 1..], cmp)
  {
    var r := s[..i] + s[i + 1..];
    forall j | 0 <= j < |r| - 1 ensures cmp(r[j], r[j + 1]) <= 0 {
      if j + 1 < i {
        assert r[j] == s[j] && r[j + 1] == s[j + 1];
      } else if j + 1 == i {
        assert r[j] == s[i - 1] && r[j + 1] == s[i + 1];
      } else {
        assert r[j] == s[j + 1] && r[j + 1] == s[j + 2];
      }
    }
  }
}

=== FILE: subscription_array.dfy ===
/** The ordered-list container (`SubscriptionArray`): a list of scalar items
    kept up to date by batches of `i` (initial), `a` (add) and `d` (delete)
    operations, optionally sorted ascending or descending.

    The reference semantics is given by `Step`, `RunOps` and `Apply` on a
    `State` value; the class `SubscriptionArray` applies a batch in place and
    is proved to end in the state `Apply` describes. */
module SubscriptionArrays {
  import opened Values
  import opened Sorting

  /** One operation of a batch. `Unrecognized` is an entry whose tag is none
      of `i`, `a`, `d`; `NullOp` is a `null` entry. `Initial.sort` is the
      optional third element, 0 when it is absent. */
  datatype Op = Initial(items: seq<int>, sort: int) | Add(item: int) | Delete(item: int) | Unrecognized | NullOp

  /** Which of the two module-level comparators is installed. */
  datatype Direction = Asc | Desc

  /** `ascSort`. */
  function AscSort(a: int, b: int): int { if a > b then 1 else if a < b then -1 else 0 }

  /** `descSort`. */
  function DescSort(a: int, b: int): int { if a > b then -1 else if a < b then 1 else 0 }

  function CompareFn(d: Direction): (int, int) -> int {
    if d == Asc then AscSort else DescSort
  }

  /** `ascSort` orders by `<=`, `descSort` by `>=`, and each is antisymmetric. */
  lemma ComparatorsOrder(d: Direction, a: int, b: int)
    ensures CompareFn(d)(a, b) <= 0 <==> Le(d, a, b)
    ensures CompareFn(d)(a, b) > 0 <==> CompareFn(d)(b, a) < 0
    ensures CompareFn(d)(a, b) == 0 <==> a == b
  {
  }

  /** The observable state of a list: its items, `sortDirection` and
      `sortCompareFunction` (`None` standing for `null`). */
  datatype State = State(items: seq<int>, sortDirection: int, comparator: Option<Direction>)

  /** A new list, and a list after `clear()`. */
  const Cleared := State([], 0, None)

  /** The changeset a batch reports: the affected items (`updated` itself),
      `added` and `deleted`. */
  datatype Updated = Updated(elems: seq<int>, added: seq<int>, deleted: seq<int>)

  const NoChanges := Updated([], [], [])

  /** The order a direction stands for: `<=` ascending, `>=` descending. */
  predicate Le(d: Direction, a: int, b: int) {
    if d == Asc then a <= b else a >= b
  }

  /** Every pair of items is in the order of the comparator. */
  ghost predicate SortedBy(s: seq<int>, d: Direction) {
    forall i, j :: 0 <= i < j < |s| ==> Le(d, s[i], s[j])
  }

  /** The invariant the list keeps between batches: direction and
      comparator agree, and a list with a comparator is in its order. */
  ghost predicate SortInvariant(st: State) {
    (st.sortDirection == 0 <==> st.comparator.None?) &&
    (st.sortDirection > 0 ==> st.comparator == Some(Asc)) &&
    (st.sortDirection < 0 ==> st.comparator == Some(Desc)) &&
    (st.comparator.Some? ==> SortedBy(st.items, st.comparator.value))
  }

  /** The loop state of `update`: the list, the `shouldSort` flag and the
      changeset collected so far. */
  datatype Acc = Acc(st: State, shouldSort: bool, updated: Updated)

  /** One pass of the `switch` in `update`. */
  function Step(acc: Acc, op: Op): Acc {
    match op
    case Initial(xs, sort) =>
      var st := if sort != 0 then State(xs, sort, Some(if sort > 0 then Asc else Desc)) else State(xs, 0, None);
      var u := acc.updated;
      Acc(st, acc.shouldSort || sort != 0, Updated(u.elems + xs, u.added + xs, u.deleted))
    case Add(x) =>
      if x in acc.st.items then acc
      else
        var u := acc.updated;
        Acc(acc.st.(items := acc.st.items + [x]), acc.shouldSort || acc.st.sortDirection != 0,
            Updated(u.elems + [x], u.added + [x], u.deleted))
    case Delete(x) =>
      if x in acc.st.items then
        Acc(acc.st.(items := RemoveOne(acc.st.items, x)), acc.shouldSort, acc.updated.(deleted := acc.updated.deleted + [x]))
      else acc
    case Unrecognized => acc.(st := Cleared)
    case NullOp => acc.(st := Cleared)
  }

  function RunOps(acc: Acc, ops: seq<Op>): Acc
    decreases |ops|
  {
    if ops == [] then acc else RunOps(Step(acc, ops[0]), ops[1..])
  }

  /** How `update` ends: it returns (after calling the handler), or, in the
      `lib/` build, the unguarded `sort(null)` throws a TypeError. */
  datatype Outcome = Returned(st: State, updated: Updated, marker: Marker<Op>) | Threw(st: State)

  /** The whole of `update(updates)`. */
  function Apply(st: State, batch: Option<seq<Op>>, v: Variant): Outcome {
    match batch
    case None => Returned(Cleared, NoChanges, HandlerArg(batch, NullOp, v))
    case Some(ops) =>
      var acc := RunOps(Acc(st, false, NoChanges), ops);
      if acc.shouldSort && acc.st.comparator.Some? then
        Returned(acc.st.(items := Sort(acc.st.items, CompareFn(acc.st.comparator.value))), acc.updated, HandlerArg(batch, NullOp, v))
      else if acc.shouldSort && v == Lib then Threw(acc.st)
      else Returned(acc.st, acc.updated, HandlerArg(batch, NullOp, v))
  }

  /** `getAsUpdates()`: a one-operation batch that rebuilds the list, or
      `null` for an empty unsorted list. */
  function UpdatesOf(st: State): (r: Option<seq<Op>>)
    ensures r.None? <==> st.items == [] && st.sortDirection == 0
    ensures r.Some? ==> r.value == [Initial(st.items, st.sortDirection)]
  {
    if |st.items| > 0 || st.sortDirection != 0 then Some([Initial(st.items, st.sortDirection)]) else None
  }

  // ---------------------------------------------------------------------
  // Properties of the reference semantics

  lemma {:induction false} AdjacentToPairwise(s: seq<int>, d: Direction)
    requires AdjacentSorted(s, CompareFn(d))
    ensures SortedBy(s, d)
  {
    if |s| == 2 {
      ComparatorsOrder(d, s[0], s[1]);
    } else if |s| > 2 {
      var tail := s[1..];
      assert AdjacentSorted(tail, CompareFn(d)) by {
        forall i | 0 <= i < |tail| - 1 ensures CompareFn(d)(tail[i], tail[i + 1]) <= 0 {
          assert tail[i] == s[i + 1] && tail[i + 1] == s[i + 2];
        }
      }
      AdjacentToPairwise(tail, d);
      forall i, j | 0 <= i < j < |s| ensures Le(d, s[i], s[j]) {
        if i > 0 {
          assert s[i] == tail[i - 1] && s[j] == tail[j - 1];
        } else {
          ComparatorsOrder(d, s[0], s[1]);
          if j > 1 {
            assert s[1] == tail[0] && s[j] == tail[j - 1];
          }
        }
      }
    }
  }

  /** The end-of-batch sort leaves the list in comparator order. */
  lemma SortEstablishesOrder(s: seq<int>, d: Direction)
    ensures SortedBy(Sort(s, CompareFn(d)), d)
    ensures multiset(Sort(s, CompareFn(d))) == multiset(s)
  {
    SortSorted(s, CompareFn(d));
    AdjacentToPairwise(Sort(s, CompareFn(d)), d);
  }

  lemma RemoveOneKeepsOrder(s: seq<int>, x: int, d: Direction)
    requires SortedBy(s, d)
    ensures SortedBy(RemoveOne(s, x), d)
  {
    if x in s {
      var i := IndexOf(s, x);
      assert RemoveOne(s, x) == s[..i] + s[i + 1..];
      DropKeepsOrder(s, i, d);
    }
  }

  lemma DropKeepsOrder(s: seq<int>, i: nat, d: Direction)
    requires SortedBy(s, d) && i < |s|
    ensures SortedBy(s[..i] + s[i + 1..], d)
  {
    var r := s[..i] + s[i + 1..];
    forall a, b | 0 <= a < b < |r| ensures Le(d, r[a], r[b]) {
      var a' := if a < i then a else a + 1;
      var b' := if b < i then b else b + 1;
      assert r[a] == s[a'] && r[b] == s[b'];
    }
  }

  /** What holds after every operation of a batch: the list agrees with its
      comparator unless a sort is already requested, and every affected item
      is also an added one. */
  ghost predicate LoopInvariant(acc: Acc) {
    (acc.st.sortDirection == 0 <==> acc.st.comparator.None?) &&
    (acc.st.sortDirection > 0 ==> acc.st.comparator == Some(Asc)) &&
    (acc.st.sortDirection < 0 ==> acc.st.comparator == Some(Desc)) &&
    (acc.st.comparator.Some? && !acc.shouldSort ==> SortedBy(acc.st.items, acc.st.comparator.value)) &&
    acc.updated.elems == acc.updated.added
  }

  lemma StepKeepsLoopInvariant(acc: Acc, op: Op)
    requires LoopInvariant(acc)
    ensures LoopInvariant(Step(acc, op))
  {
    if op.Delete? && op.item in acc.st.items && acc.st.comparator.Some? && !acc.shouldSort {
      RemoveOneKeepsOrder(acc.st.items, op.item, acc.st.comparator.value);
    }
  }

  lemma {:induction false} RunOpsKeepsLoopInvariant(acc: Acc, ops: seq<Op>)
    requires LoopInvariant(acc)
    ensures LoopInvariant(RunOps(acc, ops))
    decreases |ops|
  {
    if ops != [] {
      StepKeepsLoopInvariant(acc, ops[0]);
      RunOpsKeepsLoopInvariant(Step(acc, ops[0]), ops[1..]);
    }
  }

  /** After any batch, a list with a non-zero `sortDirection` is in the
      order of `ascSort`/`descSort`; the changeset's items are exactly its
      `added` items. */
  lemma ApplyKeepsSortInvariant(st: State, batch: Option<seq<Op>>, v: Variant)
    requires SortInvariant(st)
    ensures SortInvariant(Apply(st, batch, v).st)
    ensures Apply(st, batch, v).Returned? ==> Apply(st, batch, v).updated.elems == Apply(st, batch, v).updated.added
  {
    if batch.Some? {
      RunOpsKeepsLoopInvariant(Acc(st, false, NoChanges), batch.value);
      var acc := RunOps(Acc(st, false, NoChanges), batch.value);
      if acc.shouldSort && acc.st.comparator.Some? {
        SortEstablishesOrder(acc.st.items, acc.st.comparator.value);
      }
    }
  }

  /** The JavaScript build throws only when a sort was requested after a
      later operation dropped the comparator; the sources never throw. */
  lemma ThrowsOnlyInLib(st: State, batch: Option<seq<Op>>, v: Variant)
    ensures Apply(st, batch, v).Threw? <==>
      v == Lib && batch.Some? &&
      RunOps(Acc(st, false, NoChanges), batch.value).shouldSort &&
      RunOps(Acc(st, false, NoChanges), batch.value).st.comparator.None?
  {
  }

  /** `a` never introduces a duplicate, and reports the item as added
      exactly when it appended it. */
  lemma AddNeverDuplicates(acc: Acc, x: int)
    requires NoDuplicates(acc.st.items)
    ensures NoDuplicates(Step(acc, Add(x)).st.items)
    ensures x in Step(acc, Add(x)).st.items
    ensures Step(acc, Add(x)).updated.added == acc.updated.added + (if x in acc.st.items then [] else [x])
  {
    var r := Step(acc, Add(x)).st.items;
    if x !in acc.st.items {
      forall i, j | 0 <= i < j < |r| ensures r[i] != r[j] {
        if j == |r| - 1 {
          assert r[i] == acc.st.items[i];
        }
      }
    }
  }

  /** `d` removes exactly one occurrence, the first, and reports the item as
      deleted exactly when it was present. */
  lemma DeleteRemovesFirst(acc: Acc, x: int)
    ensures var r := Step(acc, Delete(x));
      (x in acc.st.items ==>
         var i := IndexOf(acc.st.items, x);
         r.st.items == acc.st.items[..i] + acc.st.items[i + 1..] &&
         multiset(r.st.items) == multiset(acc.st.items) - multiset{x}) &&
      (x !in acc.st.items ==> r.st.items == acc.st.items) &&
      r.updated.deleted == acc.updated.deleted + (if x in acc.st.items then [x] else [])
  {
  }

  /** An unrecognised or `null` entry empties the list and resets the sort
      without reporting deletions; the operations after it still apply. */
  lemma UnrecognizedClearsThenContinues(acc: Acc, x: int)
    ensures Step(acc, Unrecognized).st == Cleared
    ensures Step(acc, Unrecognized).updated == acc.updated
    ensures RunOps(acc, [NullOp, Add(x)]).st.items == [x]
  {
    var cleared := Step(acc, NullOp);
    assert [NullOp, Add(x)][1..] == [Add(x)];
    assert RunOps(acc, [NullOp, Add(x)]) == RunOps(cleared, [Add(x)]);
    assert RunOps(cleared, [Add(x)]) == RunOps(Step(cleared, Add(x)), []);
  }

  /** A `null` batch empties the list, reports nothing, and the handler is
      told `null` (the JavaScript build: `undefined`). */
  lemma NullBatchClears(st: State, v: Variant)
    ensures Apply(st, None, v) == Returned(Cleared, NoChanges, if v == Src then JsNull else JsUndefined)
  {
  }

  /** An empty batch leaves the list as it was, yet the handler is told
      `null`, just as for a `null` batch. */
  lemma EmptyBatchLooksLikeNull(st: State, v: Variant)
    ensures Apply(st, Some([]), v) == Returned(st, NoChanges, HandlerArg(None, NullOp, v))
  {
  }

  /** Replaying `getAsUpdates()` into a new list reproduces the contents and
      the sort direction. */
  lemma ReplayRestores(st: State, v: Variant)
    requires SortInvariant(st)
    ensures Apply(Cleared, UpdatesOf(st), v).st == st
  {
    var up := UpdatesOf(st);
    if up.Some? {
      var ops := up.value;
      assert RunOps(Acc(Cleared, false, NoChanges), ops) == Step(Acc(Cleared, false, NoChanges), ops[0]);
      if st.comparator.Some? {
        var d := st.comparator.value;
        forall i | 0 <= i < |st.items| - 1 ensures CompareFn(d)(st.items[i], st.items[i + 1]) <= 0 {
          ComparatorsOrder(d, st.items[i], st.items[i + 1]);
        }
        SortOfSorted(st.items, CompareFn(d));
      }
    }
  }

  /** Scenario: `[["i", [3, 1, 2], 1]]` into a new list. The list ends
      sorted, while the changeset lists the items in arrival order. */
  lemma InitialAscendingScenario(v: Variant)
    ensures Apply(Cleared, Some([Initial([3, 1, 2], 1)]), v)
         == Returned(State([1, 2, 3], 1, Some(Asc)), Updated([3, 1, 2], [3, 1, 2], []), Passed([Initial([3, 1, 2], 1)]))
  {
    var ops := [Initial([3, 1, 2], 1)];
    var acc := RunOps(Acc(Cleared, false, NoChanges), ops);
    assert acc == Step(Acc(Cleared, false, NoChanges), Initial([3, 1, 2], 1));
    assert acc == Acc(State([3, 1, 2], 1, Some(Asc)), true, Updated([3, 1, 2], [3, 1, 2], []));
    assert CompareFn(Asc) == AscSort;
    SortExample();
    assert HandlerArg(Some(ops), NullOp, v) == Passed(ops);
  }

  lemma SortExample()
    ensures Sort([3, 1, 2], AscSort) == [1, 2, 3]
  {
    var s := [3, 1, 2];
    assert s[1..] == [1, 2];
    assert [1, 2][1..] == [2];
    assert [2][1..] == [];
    assert Sort([2], AscSort) == Insert(2, [], AscSort) == [2];
    assert Sort([1, 2], AscSort) == Insert(1, [2], AscSort) == [1, 2];
    assert Insert(3, [2], AscSort) == [2] + Insert(3, [], AscSort) == [2, 3];
    assert Insert(3, [1, 2], AscSort) == [1] + Insert(3, [2], AscSort) == [1, 2, 3];
  }

  // ---------------------------------------------------------------------
  // The container

  /** One call of the update handler: `(array, updated, updates-or-null)`. */
  datatype HandlerCall = HandlerCall(updated: Updated, arg: Marker<Op>)

  datatype Status = Ok | ThrewTypeError

  class SubscriptionArray {
    var items: seq<int>
    var sortDirection: int
    var comparator: Option<Direction>
    /** The `sorted` field of the sources: initialised to `[]` and never
        assigned; the JavaScript build does not declare it. */
    const sorted: Option<seq<int>>
    const variant: Variant
    var hasHandler: bool
    ghost var calls: seq<HandlerCall>

    /** `SubscriptionArrayWithSubscription`: the subscription is a flag. */
    const withSubscription: bool
    var publicationName: string
    var params: seq<int>
    var subscribed: bool
    ghost var subscriptionsCreated: nat

    function Snapshot(): State reads this {
      State(items, sortDirection, comparator)
    }

    /** Everything `update` and `clear` leave alone. */
    ghost function Others(): (bool, seq<HandlerCall>, string, seq<int>, bool, nat) reads this {
      (hasHandler, calls, publicationName, params, subscribed, subscriptionsCreated)
    }

    ghost predicate Valid() reads this {
      SortInvariant(Snapshot()) && sorted == (if variant == Src then Some([]) else None)
    }

    /** `new SubscriptionArray(updates, onUpdate)`: an empty list, then the
        initial batch when one is given. */
    constructor (updates: Option<seq<Op>>, hasHandler: bool, variant: Variant)
      ensures Valid() && this.variant == variant && this.hasHandler == hasHandler && !withSubscription
      ensures updates.None? ==> Snapshot() == Cleared && calls == []
      ensures updates.Some? ==> var out := Apply(Cleared, updates, variant);
        Snapshot() == out.st &&
        calls == (if out.Returned? && hasHandler then [HandlerCall(out.updated, out.marker)] else [])
    {
      items, sortDirection, comparator := [], 0, None;
      sorted := if variant == Src then Some([]) else None;
      this.variant := variant;
      this.hasHandler := hasHandler;
      calls := [];
      withSubscription := false;
      publicationName, params, subscribed, subscriptionsCreated := "", [], false, 0;
      new;
      if updates.Some? {
        var _ := Update(updates);
      }
    }

    /** `new SubscriptionArrayWithSubscription(publicationName, params,
        onUpdate, immediately)`. */
    constructor WithSubscription(publicationName: string, params: seq<int>, immediately: bool, variant: Variant)
      ensures Valid() && Snapshot() == Cleared && calls == [] && hasHandler && withSubscription
      ensures this.variant == variant && this.publicationName == publicationName && this.params == params
      ensures subscribed == immediately && subscriptionsCreated == (if immediately then 1 else 0)
    {
      items, sortDirection, comparator := [], 0, None;
      sorted := if variant == Src then Some([]) else None;
      this.variant := variant;
      hasHandler := true;
      calls := [];
      withSubscription := true;
      this.publicationName, this.params := publicationName, params;
      subscribed, subscriptionsCreated := false, 0;
      new;
      if immediately {
        Subscribe();
      }
    }

    /** `clear()`. */
    method Clear()
      modifies this
      ensures Snapshot() == Cleared
      ensures calls == old(calls) && hasHandler == old(hasHandler)
      ensures publicationName == old(publicationName) && params == old(params)
      ensures subscribed == old(subscribed) && subscriptionsCreated == old(subscriptionsCreated)
    {
      items := [];
      sortDirection := 0;
      comparator := None;
    }

    /** One pass of the `switch` in `update`. */
    method ApplyOp(op: Op, shouldSort: bool, updated: Updated) returns (shouldSort': bool, updated': Updated)
      modifies this
      ensures Acc(Snapshot(), shouldSort', updated') == Step(Acc(old(Snapshot()), shouldSort, updated), op)
      ensures Others() == old(Others())
    {
      shouldSort', updated' := shouldSort, updated;
      match op {
        case Initial(xs, sort) =>
          if sort != 0 {
            sortDirection := sort;
            comparator := Some(if sort > 0 then Asc else Desc);
            shouldSort' := true;
          } else {
            sortDirection := 0;
            comparator := None;
          }
          var pushed := [];
          var j := 0;
          while j < |xs|
            invariant 0 <= j <= |xs|
            invariant pushed == xs[..j]
            invariant updated' == Updated(updated.elems + xs[..j], updated.added + xs[..j], updated.deleted)
          {
            pushed := pushed + [xs[j]];
            updated' := Updated(updated'.elems + [xs[j]], updated'.added + [xs[j]], updated'.deleted);
            assert xs[..j + 1] == xs[..j] + [xs[j]];
            j := j + 1;
          }
          assert xs[..|xs|] == xs;
          items := pushed;
        case Add(x) =>
          if x !in items {
            items := items + [x];
            if sortDirection != 0 {
              shouldSort' := true;
            }
            updated' := Updated(updated'.elems + [x], updated'.added + [x], updated'.deleted);
          }
        case Delete(x) =>
          if x in items {
            items := RemoveOne(items, x);
            updated' := updated'.(deleted := updated'.deleted + [x]);
          }
        case Unrecognized =>
          Clear();
        case NullOp =>
          Clear();
      }
    }

    /** `update(updates)`: apply the batch in place, sort once if asked, and
        call the handler exactly once. */
    method Update(batch: Option<seq<Op>>) returns (status: Status)
      modifies this
      ensures var out := Apply(old(Snapshot()), batch, variant);
        Snapshot() == out.st &&
        (status == ThrewTypeError <==> out.Threw?) &&
        calls == old(calls) + (if out.Returned? && hasHandler then [HandlerCall(out.updated, out.marker)] else [])
      ensures old(Valid()) ==> Valid()
      ensures hasHandler == old(hasHandler) && publicationName == old(publicationName) && params == old(params)
      ensures subscribed == old(subscribed) && subscriptionsCreated == old(subscriptionsCreated)
    {
      ghost var st0 := Snapshot();
      var updated := NoChanges;
      if batch.Some? {
        var ops := batch.value;
        var shouldSort := false;
        var i := 0;
        while i < |ops|
          invariant 0 <= i <= |ops|
          invariant RunOps(Acc(Snapshot(), shouldSort, updated), ops[i..]) == RunOps(Acc(st0, false, NoChanges), ops)
          invariant Others() == old(Others())
        {
          assert ops[i..] == [ops[i]] + ops[i + 1..];
          shouldSort, updated := ApplyOp(ops[i], shouldSort, updated);
          i := i + 1;
        }
        if shouldSort {
          if comparator.Some? {
            items := Sort(items, CompareFn(comparator.value));
          } else if variant == Lib {
            if SortInvariant(st0) {
              ApplyKeepsSortInvariant(st0, batch, variant);
            }
            return ThrewTypeError;
          }
        }
      } else {
        Clear();
      }
      if hasHandler {
        calls := calls + [HandlerCall(updated, HandlerArg(batch, NullOp, variant))];
      }
      if SortInvariant(st0) {
        ApplyKeepsSortInvariant(st0, batch, variant);
      }
      status := Ok;
    }

    /** `getAsUpdates()`. */
    function GetAsUpdates(): (r: Option<seq<Op>>)
      reads this
      ensures r.None? <==> items == [] && sortDirection == 0
      ensures r.Some? ==> r.value == [Initial(items, sortDirection)]
    {
      UpdatesOf(Snapshot())
    }

    /** `getAsInitialUpdated()`: a changeset built from `sorted`. In the
        sources that field is always empty, whatever the list holds; in the
        JavaScript build it is undefined and spreading it throws. */
    function GetAsInitialUpdated(): (r: Option<Updated>)
      reads this
      requires Valid()
      ensures variant == Src ==> r == Some(NoChanges)
      ensures variant == Lib ==> r.None?
    {
      match sorted
      case Some(s) => Some(Updated(s, s, []))
      case None => None
    }

    /** `subscribe()`: creates a subscription only when there is none. */
    method Subscribe()
      requires withSubscription
      modifies this
      ensures subscribed
      ensures subscriptionsCreated == old(subscriptionsCreated) + (if old(subscribed) then 0 else 1)
      ensures Snapshot() == old(Snapshot()) && calls == old(calls) && hasHandler == old(hasHandler)
      ensures publicationName == old(publicationName) && params == old(params)
    {
      if !subscribed {
        subscribed := true;
        subscriptionsCreated := subscriptionsCreated + 1;
      }
    }

    /** `unsubscribe()`: cancels the subscription if there is one. */
    method Unsubscribe()
      requires withSubscription
      modifies this
      ensures !subscribed
      ensures subscriptionsCreated == old(subscriptionsCreated)
      ensures Snapshot() == old(Snapshot()) && calls == old(calls) && hasHandler == old(hasHandler)
      ensures publicationName == old(publicationName) && params == old(params)
    {
      subscribed := false;
    }

    /** `renew(publicationName?, params?)`: only while subscribed, resubscribe
        with the new name and parameters; an array as first argument is taken
        as the parameters, and an empty name is ignored. */
    method Renew(first: RenewArg, newParams: Option<seq<int>>)
      requires withSubscription
      modifies this
      ensures subscribed == old(subscribed)
      ensures !old(subscribed) ==> publicationName == old(publicationName) && params == old(params) &&
                                   subscriptionsCreated == old(subscriptionsCreated)
      ensures old(subscribed) ==>
        subscriptionsCreated == old(subscriptionsCreated) + 1 &&
        publicationName == (if first.NameArg? && first.name != "" then first.name else old(publicationName)) &&
        params == (if first.ParamsArg? then first.params else if newParams.Some? then newParams.value else old(params))
      ensures Snapshot() == old(Snapshot()) && calls == old(calls) && hasHandler == old(hasHandler)
    {
      if subscribed {
        Unsubscribe();
        var p := newParams;
        match first {
          case NameArg(n) =>
            if n != "" {
              publicationName := n;
            }
          case ParamsArg(ps) =>
            p := Some(ps);
          case NoArg =>
        }
        if p.Some? {
          params := p.value;
        }
        Subscribe();
      }
    }
  }
}

=== FILE: subscription_map.dfy ===
/** The keyed collection (`SubscriptionMap`): a JavaScript `Map` from `_id`
    to item objects, kept up to date by batches of `i` (initial), `c`
    (create), `u` (update) and `d` (delete) operations. Beside the live map
    it keeps the last payload received per `_id` (the shadow), a `sorted`
    view of the item objects and, when a sort list is set, the comparator
    built from it.

    Item objects have identity: the `sorted` view and the changesets hold
    references, and an object can outlive its entry in the map. The model
    gives every item object a handle (a `nat`) into `store`, the heap of
    item objects ever created. */
module SubscriptionMaps {
  import opened Values
  import opened Sorting

  /** An item payload or item object: its `_id` and its other fields. */
  datatype Doc = Doc(id: string, fields: Record)

  /** One `key: direction` entry of a sort list, in the list's order. */
  datatype SortField = SortField(key: string, dir: int)

  /** The third element of a `c`/`u` operation: `true` (an atomic patch),
      the list of updated field names, or nothing. */
  datatype FieldsArg = Atomic | Fields(names: seq<string>) | NoFields

  /** One operation of a batch. `Create` and `Change` are `c` and `u`, which
      the collection treats alike. `Unrecognized` is an entry with any other
      tag, `NullOp` a `null` entry. */
  datatype Op =
    | Initial(docs: seq<Doc>, sortList: Option<seq<SortField>>)
    | Create(doc: Doc, arg: FieldsArg)
    | Change(doc: Doc, arg: FieldsArg)
    | Delete(id: string)
    | Unrecognized
    | NullOp

  // ---------------------------------------------------------------------
  // The comparator built from a sort list

  /** `x < y` on strings: the first differing character decides, and a
      proper prefix is less. */
  predicate StrLess(x: string, y: string)
    decreases |x|
  {
    if x == [] then y != []
    else if y == [] then false
    else if x[0] != y[0] then x[0] < y[0]
    else StrLess(x[1..], y[1..])
  }

  lemma {:induction false} StrLessAsymmetric(x: string, y: string)
    ensures StrLess(x, y) ==> !StrLess(y, x)
    decreases |x|
  {
    if x != [] && y != [] && x[0] == y[0] {
      StrLessAsymmetric(x[1..], y[1..]);
    }
  }

  /** `a.key > b.key` on two item objects: `_id` compares the ids as
      strings, any other key the field values; a field missing on either
      side is never greater (`undefined` compares false). */
  predicate Greater(key: string, a: Doc, b: Doc) {
    if key == "_id" then StrLess(b.id, a.id)
    else key in a.fields && key in b.fields && a.fields[key] > b.fields[key]
  }

  lemma GreaterAsymmetric(key: string, a: Doc, b: Doc)
    ensures Greater(key, a, b) ==> !Greater(key, b, a)
  {
    StrLessAsymmetric(b.id, a.id);
  }

  /** `a.key > b.key` and `a.key < b.key` are both false: the field is
      missing on one side, or the values are equal. */
  predicate Ties(f: SortField, a: Doc, b: Doc) {
    !Greater(f.key, a, b) && !Greater(f.key, b, a)
  }

  /** The comparator `createSortFunction(sortList)` (and `makeSort` in the
      JavaScript build) generates: the fields in list order, each ascending
      when its direction is positive and descending otherwise, the first
      field that does not tie deciding. */
  function CompareBy(list: seq<SortField>, a: Doc, b: Doc): (r: int)
    ensures -1 <= r <= 1
    ensures r == 0 <==> forall i :: 0 <= i < |list| ==> Ties(list[i], a, b)
  {
    if list == [] then 0
    else if !Ties(list[0], a, b) then
      var k := list[0].key;
      if list[0].dir > 0 then (if Greater(k, a, b) then 1 else -1)
      else (if Greater(k, b, a) then 1 else -1)
    else
      assert forall i :: 0 < i < |list| ==> list[i] == list[1..][i - 1];
      CompareBy(list[1..], a, b)
  }

  /** The first field on which the two items differ decides, ascending for
      a positive direction and descending otherwise. */
  lemma {:induction false} CompareByFirstDifference(list: seq<SortField>, a: Doc, b: Doc, i: nat)
    requires i < |list|
    requires forall j :: 0 <= j < i ==> Ties(list[j], a, b)
    requires !Ties(list[i], a, b)
    ensures var k := list[i].key;
      CompareBy(list, a, b) == (if list[i].dir > 0 then (if Greater(k, a, b) then 1 else -1)
                                else (if Greater(k, b, a) then 1 else -1))
  {
    if i > 0 {
      assert Ties(list[0], a, b);
      assert list[1..][i - 1] == list[i];
      CompareByFirstDifference(list[1..], a, b, i - 1);
    }
  }

  /** Swapping the items negates the comparison. */
  lemma {:induction false} CompareByAntisymmetric(list: seq<SortField>, a: Doc, b: Doc)
    ensures CompareBy(list, a, b) == -CompareBy(list, b, a)
  {
    if list != [] {
      if Ties(list[0], a, b) {
        CompareByAntisymmetric(list[1..], a, b);
      } else {
        GreaterAsymmetric(list[0].key, a, b);
      }
    }
  }

  lemma {:induction false} StrLessIrreflexive(x: string)
    ensures !StrLess(x, x)
    decreases |x|
  {
    if x != [] {
      StrLessIrreflexive(x[1..]);
    }
  }

  lemma {:induction false} StrLessTotal(x: string, y: string)
    ensures x == y || StrLess(x, y) || StrLess(y, x)
    decreases |x|
  {
    if x != [] && y != [] && x[0] == y[0] {
      StrLessTotal(x[1..], y[1..]);
      if x[1..] == y[1..] {
        assert x == [x[0]] + x[1..] && y == [y[0]] + y[1..];
      }
    }
  }

  lemma {:induction false} StrLessTransitive(x: string, y: string, z: string)
    ensures StrLess(x, y) && StrLess(y, z) ==> StrLess(x, z)
    decreases |x|
  {
    if x != [] && y != [] && z != [] && x[0] == y[0] && y[0] == z[0] {
      StrLessTransitive(x[1..], y[1..], z[1..]);
    }
  }

  /** The item holds every field the sort list names (`_id` it always
      holds). */
  predicate HoldsSortFields(list: seq<SortField>, d: Doc) {
    forall i :: 0 <= i < |list| ==> list[i].key == "_id" || list[i].key in d.fields
  }

  /** Between items holding the field, a tie is equality. */
  lemma TiesAreEqual(f: SortField, a: Doc, b: Doc)
    requires f.key == "_id" || (f.key in a.fields && f.key in b.fields)
    ensures Ties(f, a, b) <==> (if f.key == "_id" then a.id == b.id else a.fields[f.key] == b.fields[f.key])
  {
    StrLessTotal(a.id, b.id);
    StrLessIrreflexive(a.id);
  }

  lemma GreaterTransitive(key: string, a: Doc, b: Doc, c: Doc)
    ensures Greater(key, a, b) && Greater(key, b, c) ==> Greater(key, a, c)
  {
    StrLessTransitive(c.id, b.id, a.id);
  }

  /** Among items that hold every sort field the comparator is consistent:
      "not above" is transitive, so `sort` has a well-defined result. With
      a field missing on one side it is not (`MissingFieldInconsistent`). */
  lemma {:induction false} CompareByTransitive(list: seq<SortField>, a: Doc, b: Doc, c: Doc)
    requires HoldsSortFields(list, a) && HoldsSortFields(list, b) && HoldsSortFields(list, c)
    ensures CompareBy(list, a, b) <= 0 && CompareBy(list, b, c) <= 0 ==> CompareBy(list, a, c) <= 0
  {
    if list != [] {
      var f := list[0];
      var rest := list[1..];
      assert HoldsSortFields(rest, a) && HoldsSortFields(rest, b) && HoldsSortFields(rest, c) by {
        assert forall i :: 0 <= i < |rest| ==> rest[i] == list[i + 1];
      }
      assert f == list[0];
      TiesAreEqual(f, a, b);
      TiesAreEqual(f, b, c);
      TiesAreEqual(f, a, c);
      GreaterTransitive(f.key, a, b, c);
      GreaterTransitive(f.key, c, b, a);
      CompareByTransitive(rest, a, b, c);
      if CompareBy(list, a, b) <= 0 && CompareBy(list, b, c) <= 0 {
        var k := f.key;
        if Ties(f, a, b) && Ties(f, b, c) {
          assert Ties(f, a, c);
        } else if Ties(f, a, b) {
          assert Greater(k, a, c) == Greater(k, b, c) && Greater(k, c, a) == Greater(k, c, b);
        } else if Ties(f, b, c) {
          assert Greater(k, a, c) == Greater(k, a, b) && Greater(k, c, a) == Greater(k, b, a);
        } else {
          GreaterAsymmetric(k, a, b);
          GreaterAsymmetric(k, b, c);
          GreaterAsymmetric(k, a, c);
        }
      }
    }
  }

  /** A field missing on the middle item makes it tie with both others,
      although those two are ordered: the engine's order is then not
      determined by the comparator. */
  lemma MissingFieldInconsistent()
    ensures var list := [SortField("x", 1)];
      var a := Doc("a", map["x" := 1]); var b := Doc("b", map[]); var c := Doc("c", map["x" := 0]);
      CompareBy(list, a, b) == 0 && CompareBy(list, b, c) == 0 && CompareBy(list, a, c) == 1
  {
  }

  /** Two items that differ only in `_id` are ordered by it under a sort
      list whose first key is `_id`: the item objects carry their `_id`. */
  lemma IdDecides(dir: int, rest: seq<SortField>, a: Doc, b: Doc)
    requires StrLess(a.id, b.id)
    ensures CompareBy([SortField("_id", dir)] + rest, a, b) == (if dir > 0 then -1 else 1)
  {
    StrLessAsymmetric(a.id, b.id);
  }

  /** The characters JavaScript's `.` does not match: the line terminators. */
  predicate LineTerminator(c: char) {
    c == '\n' || c == '\r' || c == '\U{2028}' || c == '\U{2029}'
  }

  /** `key.replace(/\..+/, "")`: the first dot followed by a character
      other than a line terminator is removed together with the rest of
      its line; the text from the next line terminator on is kept. */
  function CutAtDot(key: string): (r: string)
    ensures |r| <= |key|
    ensures (forall i :: 0 <= i < |key| - 1 && key[i] == '.' ==> LineTerminator(key[i + 1])) ==> r == key
    ensures (forall i :: 0 <= i < |key| ==> !LineTerminator(key[i])) ==>
      r == key[..|r|] && (|r| < |key| ==> |r| < |key| - 1 && key[|r|] == '.') &&
      forall i :: 0 <= i < |r| && i < |key| - 1 ==> key[i] != '.'
  {
    if |key| < 2 then key
    else if key[0] == '.' && !LineTerminator(key[1]) then RestOfLine(key[1..])
    else [key[0]] + CutAtDot(key[1..])
  }

  /** What is left of `s` once `.+` has consumed its first line: the text
      from its first line terminator on, or nothing. */
  function RestOfLine(s: string): (r: string)
    ensures |r| <= |s| && r == s[|s| - |r|..]
    ensures r == [] || LineTerminator(r[0])
    ensures forall i :: 0 <= i < |s| - |r| ==> !LineTerminator(s[i])
  {
    if s == [] then []
    else if LineTerminator(s[0]) then s
    else RestOfLine(s[1..])
  }

  /** A dot followed by a line break does not start a match, so such a key
      is kept whole, and a line break ends what a match removes. */
  lemma CutAtDotStopsAtLineBreak()
    ensures CutAtDot("a.\nb") == "a.\nb"
    ensures CutAtDot("a.b\nc") == "a\nc"
  {
    assert CutAtDot("\nb") == "\nb";
    assert CutAtDot(".\nb") == ".\nb";
    assert RestOfLine("b\nc") == "\nc";
  }

  /** `[...new Set(s)]`, starting from the already collected `seen`: the
      distinct elements in order of first appearance. */
  function Distinct(seen: seq<string>, s: seq<string>): (r: seq<string>)
    requires NoDuplicates(seen)
    ensures NoDuplicates(r)
    ensures forall x :: x in r <==> x in seen || x in s
    decreases |s|
  {
    if s == [] then seen
    else
      var seen' := if s[0] in seen then seen else seen + [s[0]];
      Distinct(seen', s[1..])
  }

  /** `fieldsToSort`: the sort keys cut at their first dot, without
      repetitions. */
  function FieldsToSort(list: seq<SortField>): (r: seq<string>)
    ensures NoDuplicates(r)
    ensures forall x :: x in r <==> exists i :: 0 <= i < |list| && CutAtDot(list[i].key) == x
  {
    var cuts := seq(|list|, i requires 0 <= i < |list| => CutAtDot(list[i].key));
    assert forall x :: x in cuts <==> exists i :: 0 <= i < |list| && CutAtDot(list[i].key) == x by {
      forall x ensures x in cuts <==> exists i :: 0 <= i < |list| && CutAtDot(list[i].key) == x {
        if x in cuts {
          var i :| 0 <= i < |cuts| && cuts[i] == x;
          assert CutAtDot(list[i].key) == x;
        }
        if exists i :: 0 <= i < |list| && CutAtDot(list[i].key) == x {
          var i :| 0 <= i < |list| && CutAtDot(list[i].key) == x;
          assert cuts[i] == x;
        }
      }
    }
    Distinct([], cuts)
  }

  // ---------------------------------------------------------------------
  // State and operations

  /** The observable state of a collection.
      `entries`  the live map: `_id` to the handle of its item object;
      `store`    every item object created so far, by handle;
      `next`     the handle the next new item object gets;
      `shadow`   the private `updates` map: `_id` to its last payload;
      `sortList`, `fieldsToSort`, `sorted` as in the sources (the comparator
                 is a function of `sortList`, set and reset with it);
      `itemClass` whether `Item` was set to `SubscriptionMapItem`. */
  datatype State = State(
    entries: JsMap<nat>,
    store: map<nat, Doc>,
    next: nat,
    shadow: JsMap<Doc>,
    sortList: Option<seq<SortField>>,
    fieldsToSort: seq<string>,
    sorted: seq<nat>,
    itemClass: bool)

  /** A new collection with the given heap of item objects. */
  function Empty(store: map<nat, Doc>, next: nat): State {
    State(EmptyMap(), store, next, EmptyMap(), None, [], [], false)
  }

  /** The changeset of a batch: the affected item objects, the added ones,
      and the `_id`s deleted. */
  datatype Changes = Changes(elems: seq<nat>, added: seq<nat>, deleted: seq<string>)

  const NoChanges := Changes([], [], [])

  /** The loop state of `update`: the collection, `shouldSort` and the
      changeset so far. */
  datatype Acc = Acc(st: State, shouldSort: bool, updated: Changes)

  /** The fields of the item object behind a handle. */
  function FieldsAt(store: map<nat, Doc>, h: nat): Record {
    if h in store then store[h].fields else map[]
  }

  /** The item object behind a handle. */
  function DocAt(store: map<nat, Doc>, h: nat): Doc {
    if h in store then store[h] else Doc("", map[])
  }

  /** The comparator applied to item objects. */
  function HandleOrder(store: map<nat, Doc>, list: seq<SortField>): (nat, nat) -> int {
    (x: nat, y: nat) => CompareBy(list, DocAt(store, x), DocAt(store, y))
  }

  lemma HandleOrderAntisymmetric(store: map<nat, Doc>, list: seq<SortField>)
    ensures Antisymmetric(HandleOrder(store, list))
  {
    forall x: nat, y: nat ensures HandleOrder(store, list)(x, y) > 0 ==> HandleOrder(store, list)(y, x) < 0 {
      CompareByAntisymmetric(list, DocAt(store, x), DocAt(store, y));
    }
  }

  /** `clear()`: the map, the shadow, `sorted` and the sort settings are
      reset; the item objects themselves live on. */
  function ClearState(st: State): State {
    st.(entries := EmptyMap(), shadow := EmptyMap(), sorted := [], sortList := None, fieldsToSort := [])
  }

  /** The `Item` setter with `SubscriptionMapItem`: every entry, in map
      order, is replaced by a new item object holding a copy of the old
      one's fields. `sorted` is left as it was. */
  function SetItemClass(st: State): State {
    Rewrap(st.(itemClass := true), st.entries.keys)
  }

  function Rewrap(st: State, keys: seq<string>): State
    decreases |keys|
  {
    if keys == [] then st else Rewrap(RewrapEntry(st, keys[0]), keys[1..])
  }

  /** The entry under `k`, if any, gets a new item object with a copy of
      the old one's fields. */
  function RewrapEntry(st: State, k: string): State {
    if k in st.entries.vals then
      var old_h := st.entries.vals[k];
      var h := st.next;
      var copy := if old_h in st.store then st.store[old_h] else Doc(k, map[]);
      st.(store := st.store[h := copy], next := h + 1, entries := st.entries.Set(k, h))
    else st
  }

  /** An existing item object takes a payload. A plain object first loses
      the fields of the previous payload when `deletePrev`; a
      `SubscriptionMapItem` only ever assigns (`Object.assign`). */
  function Revise(st: State, h: nat, prev: Option<Doc>, d: Doc, deletePrev: bool): State {
    var fields := FieldsAt(st.store, h);
    var prevKeys := if prev.Some? then prev.value.fields.Keys else {};
    st.(store := st.store[h := Doc(d.id, if deletePrev then ReplaceFields(fields, prevKeys, d.fields) else fields + d.fields)])
  }

  /** Whether a `c`/`u` on an existing item can change the order: no field
      list, or a touched field (for an atomic patch: its keys, `_id`
      included) among `fieldsToSort`. */
  predicate TouchesSortFields(arg: FieldsArg, d: Doc, fieldsToSort: seq<string>) {
    match arg
    case Atomic => "_id" in fieldsToSort || exists k :: k in d.fields && k in fieldsToSort
    case Fields(names) => exists n :: n in names && n in fieldsToSort
    case NoFields => true
  }

  /** `c`/`u`: patch the existing item, or create a new one. */
  function Upsert(acc: Acc, d: Doc, arg: FieldsArg): Acc {
    var st := acc.st;
    if d.id in st.entries.vals then
      var h := st.entries.vals[d.id];
      var prev := if d.id in st.shadow.vals then Some(st.shadow.vals[d.id]) else None;
      var st1 := Revise(st, h, prev, d, !st.itemClass && !arg.Atomic?);
      var payload := if arg.Atomic? && prev.Some? then Doc(d.id, prev.value.fields + d.fields) else d;
      Acc(st1.(shadow := st1.shadow.Set(d.id, payload)),
          acc.shouldSort || (st.sortList.Some? && TouchesSortFields(arg, d, st.fieldsToSort)),
          acc.updated.(elems := acc.updated.elems + [h]))
    else
      var h := st.next;
      var st1 := st.(store := st.store[h := d], next := h + 1);
      Acc(st1.(entries := st1.entries.Set(d.id, h), sorted := st1.sorted + [h], shadow := st1.shadow.Set(d.id, d)),
          acc.shouldSort || st.sortList.Some?,
          Changes(acc.updated.elems + [h], acc.updated.added + [h], acc.updated.deleted))
  }

  /** `d`: drop a present item from the map, the shadow and `sorted`. */
  function Remove(acc: Acc, id: string): Acc {
    var st := acc.st;
    if id in st.entries.vals then
      var h := st.entries.vals[id];
      Acc(st.(entries := st.entries.Delete(id), shadow := st.shadow.Delete(id), sorted := RemoveOne(st.sorted, h)),
          acc.shouldSort, acc.updated.(deleted := acc.updated.deleted + [id]))
    else acc
  }

  /** `updatesMap`: the payloads of an `i` operation by `_id`. */
  function Collect(m: JsMap<Doc>, docs: seq<Doc>): JsMap<Doc>
    decreases |docs|
  {
    if docs == [] then m else Collect(m.Set(docs[0].id, docs[0]), docs[1..])
  }

  /** One existing entry during an `i` on a non-empty map: matched, it takes
      its new payload and leaves `pending`; unmatched, it is deleted. */
  function ReconcileOne(acc: Acc, k: string, pending: JsMap<Doc>): (Acc, JsMap<Doc>) {
    var st := acc.st;
    if k !in st.entries.vals then (acc, pending)
    else if k in pending.vals then
      var d := pending.vals[k];
      var h := st.entries.vals[k];
      var prev := if k in st.shadow.vals then Some(st.shadow.vals[k]) else None;
      var st1 := Revise(st, h, prev, d, !st.itemClass);
      (Acc(st1.(shadow := st1.shadow.Set(k, d)), acc.shouldSort, acc.updated.(elems := acc.updated.elems + [h])),
       pending.Delete(k))
    else
      (Acc(st.(entries := st.entries.Delete(k), shadow := st.shadow.Delete(k)), acc.shouldSort,
           acc.updated.(deleted := acc.updated.deleted + [k])),
       pending)
  }

  function Reconcile(acc: Acc, keys: seq<string>, pending: JsMap<Doc>): (Acc, JsMap<Doc>)
    decreases |keys|
  {
    if keys == [] then (acc, pending)
    else
      var r := ReconcileOne(acc, keys[0], pending);
      Reconcile(r.0, keys[1..], r.1)
  }

  /** A new item object for a payload, entered in the map and the shadow
      and listed as affected and added. */
  function AddOne(acc: Acc, k: string, d: Doc): Acc {
    var h := acc.st.next;
    var st1 := acc.st.(store := acc.st.store[h := d], next := h + 1);
    Acc(st1.(entries := st1.entries.Set(k, h), shadow := st1.shadow.Set(k, d)), acc.shouldSort,
        Changes(acc.updated.elems + [h], acc.updated.added + [h], acc.updated.deleted))
  }

  /** The payloads left in `pending` after reconciling become new items. */
  function AddPending(acc: Acc, keys: seq<string>, pending: JsMap<Doc>): Acc
    decreases |keys|
  {
    if keys == [] then acc
    else
      var acc1 := if keys[0] in pending.vals then AddOne(acc, keys[0], pending.vals[keys[0]]) else acc;
      AddPending(acc1, keys[1..], pending)
  }

  /** `i` on an empty map: every payload becomes a new item, appended to
      `sorted` as well. */
  function PushAll(acc: Acc, docs: seq<Doc>): Acc
    decreases |docs|
  {
    if docs == [] then acc else PushAll(PushOne(acc, docs[0]), docs[1..])
  }

  /** One payload of an `i` on an empty map: a new item, also appended to
      `sorted`. */
  function PushOne(acc: Acc, d: Doc): Acc {
    var acc1 := AddOne(acc, d.id, d);
    acc1.(st := acc1.st.(sorted := acc1.st.sorted + [acc.st.next]))
  }

  /** The two loops of an `i` on a non-empty map leave the sort settings,
      `shouldSort` and `sorted` as they were: deleted items stay in
      `sorted` and new ones are not appended to it. */
  lemma {:induction false} ReconcileKeepsSorted(acc: Acc, keys: seq<string>, pending: JsMap<Doc>)
    ensures var r := Reconcile(acc, keys, pending).0;
      r.st.sorted == acc.st.sorted && r.st.sortList == acc.st.sortList && r.st.fieldsToSort == acc.st.fieldsToSort &&
      r.st.itemClass == acc.st.itemClass && r.shouldSort == acc.shouldSort
    decreases |keys|
  {
    if keys != [] {
      var r := ReconcileOne(acc, keys[0], pending);
      ReconcileKeepsSorted(r.0, keys[1..], r.1);
    }
  }

  lemma {:induction false} AddPendingKeepsSorted(acc: Acc, keys: seq<string>, pending: JsMap<Doc>)
    ensures var r := AddPending(acc, keys, pending);
      r.st.sorted == acc.st.sorted && r.st.sortList == acc.st.sortList && r.st.fieldsToSort == acc.st.fieldsToSort &&
      r.st.itemClass == acc.st.itemClass && r.shouldSort == acc.shouldSort
    decreases |keys|
  {
    if keys != [] {
      var acc1 := if keys[0] in pending.vals then AddOne(acc, keys[0], pending.vals[keys[0]]) else acc;
      AddPendingKeepsSorted(acc1, keys[1..], pending);
    }
  }

  /** `array.map(newItem => this.get(newItem._id))`. */
  function HandlesOf(docs: seq<Doc>, vals: map<string, nat>): (r: seq<nat>)
    ensures forall h :: h in r ==> h in vals.Values
    decreases |docs|
  {
    if docs == [] then []
    else (if docs[0].id in vals then [vals[docs[0].id]] else []) + HandlesOf(docs[1..], vals)
  }

  /** `i`: install or reset the sort list, then rebuild the map from the
      payloads; `sorted` is rebuilt in payload order only when a sort list
      is set. */
  function InitialOp(acc: Acc, docs: seq<Doc>, sl: Option<seq<SortField>>): Acc {
    var st := acc.st.(sortList := sl, fieldsToSort := if sl.Some? then FieldsToSort(sl.value) else []);
    var acc1 := Acc(st, acc.shouldSort || sl.Some?, acc.updated);
    if |st.entries.keys| > 0 then
      var r := Reconcile(acc1, st.entries.keys, Collect(EmptyMap(), docs));
      var acc2 := AddPending(r.0, r.1.keys, r.1);
      if sl.Some? then acc2.(st := acc2.st.(sorted := HandlesOf(docs, acc2.st.entries.vals))) else acc2
    else PushAll(acc1, docs)
  }

  /** One pass of the `switch` in `update`. */
  function Step(acc: Acc, op: Op): Acc {
    match op
    case Initial(docs, sl) => InitialOp(acc, docs, sl)
    case Create(d, arg) => Upsert(acc, d, arg)
    case Change(d, arg) => Upsert(acc, d, arg)
    case Delete(id) => Remove(acc, id)
    case Unrecognized => acc.(st := ClearState(acc.st))
    case NullOp => acc.(st := ClearState(acc.st))
  }

  function RunOps(acc: Acc, ops: seq<Op>): Acc
    decreases |ops|
  {
    if ops == [] then acc else RunOps(Step(acc, ops[0]), ops[1..])
  }

  /** How `update` ends: it returns (after calling the handler), or, in the
      JavaScript build, `sorted.sort(null)` throws a TypeError. */
  datatype Outcome = Returned(st: State, updated: Changes, marker: Marker<Op>) | Threw(st: State)

  /** The whole of `update(updates)`: the operations in order, then at most
      one sort of `sorted`. */
  function Apply(st: State, batch: Option<seq<Op>>, v: Variant): Outcome {
    match batch
    case None => Returned(ClearState(st), NoChanges, HandlerArg(batch, NullOp, v))
    case Some(ops) =>
      var acc := RunOps(Acc(st, false, NoChanges), ops);
      if acc.shouldSort && acc.st.sortList.Some? then
        Returned(acc.st.(sorted := Sort(acc.st.sorted, HandleOrder(acc.st.store, acc.st.sortList.value))),
                 acc.updated, HandlerArg(batch, NullOp, v))
      else if acc.shouldSort && v == Lib then Threw(acc.st)
      else Returned(acc.st, acc.updated, HandlerArg(batch, NullOp, v))
  }

  /** `getAsUpdates()`: one `i` operation with the shadow payloads and the
      sort list, or `null` for an empty collection without a sort list. */
  function UpdatesOf(st: State): (r: Option<seq<Op>>)
    ensures r.None? <==> st.entries.keys == [] && st.sortList.None?
    ensures r.Some? ==> r.value == [Initial(st.shadow.Values(), st.sortList)]
  {
    if |st.entries.keys| > 0 || st.sortList.Some? then Some([Initial(st.shadow.Values(), st.sortList)]) else None
  }

  // ---------------------------------------------------------------------
  // The invariant every operation keeps

  /** The live map and the shadow hold the same `_id`s in the same order;
      each entry's item object and payload carry that `_id`; every item
      object `sorted` refers to exists; `fieldsToSort` belongs to the sort
      list. */
  ghost predicate Valid(st: State) {
    st.entries.Valid() && st.shadow.Valid() && st.entries.keys == st.shadow.keys &&
    (forall k :: k in st.entries.vals ==> st.entries.vals[k] in st.store && st.store[st.entries.vals[k]].id == k) &&
    (forall k :: k in st.shadow.vals ==> st.shadow.vals[k].id == k) &&
    (forall h :: h in st.store ==> h < st.next) &&
    (forall h :: h in st.sorted ==> h in st.store) &&
    st.fieldsToSort == (if st.sortList.Some? then FieldsToSort(st.sortList.value) else [])
  }

  /** A map of payloads keyed by their own `_id`. */
  ghost predicate KeyedById(m: JsMap<Doc>) {
    m.Valid() && forall k :: k in m.vals ==> m.vals[k].id == k
  }

  lemma CollectKeyedById(m: JsMap<Doc>, docs: seq<Doc>)
    requires KeyedById(m)
    ensures KeyedById(Collect(m, docs))
    decreases |docs|
  {
    if docs != [] {
      CollectKeyedById(m.Set(docs[0].id, docs[0]), docs[1..]);
    }
  }

  lemma ValidSetBoth(st: State, k: string, h: nat, d: Doc)
    requires Valid(st) && h in st.store && st.store[h].id == k && d.id == k
    ensures Valid(st.(entries := st.entries.Set(k, h), shadow := st.shadow.Set(k, d)))
  {
    assert k in st.entries.vals <==> k in st.shadow.vals;
  }

  lemma ValidDeleteBoth(st: State, k: string)
    requires Valid(st)
    ensures Valid(st.(entries := st.entries.Delete(k), shadow := st.shadow.Delete(k)))
  {
  }

  lemma ValidNewItem(st: State, d: Doc)
    requires Valid(st)
    ensures Valid(st.(store := st.store[st.next := d], next := st.next + 1))
    ensures st.next !in st.store
  {
  }

  lemma ValidRevise(st: State, h: nat, prev: Option<Doc>, d: Doc, deletePrev: bool)
    requires Valid(st) && h in st.store && st.store[h].id == d.id
    ensures Valid(Revise(st, h, prev, d, deletePrev))
    ensures Revise(st, h, prev, d, deletePrev).store.Keys == st.store.Keys
  {
  }

  lemma ValidAddOne(acc: Acc, k: string, d: Doc)
    requires Valid(acc.st) && d.id == k
    ensures Valid(AddOne(acc, k, d).st)
  {
    var h := acc.st.next;
    var st1 := acc.st.(store := acc.st.store[h := d], next := h + 1);
    ValidNewItem(acc.st, d);
    ValidSetBoth(st1, k, h, d);
  }

  lemma ValidSetShadow(st: State, k: string, d: Doc)
    requires Valid(st) && k in st.entries.vals && d.id == k
    ensures Valid(st.(shadow := st.shadow.Set(k, d)))
  {
    assert k in st.shadow.vals;
  }

  lemma ValidReconcileOne(acc: Acc, k: string, pending: JsMap<Doc>)
    requires Valid(acc.st) && KeyedById(pending)
    ensures Valid(ReconcileOne(acc, k, pending).0.st) && KeyedById(ReconcileOne(acc, k, pending).1)
  {
    var st := acc.st;
    if k in st.entries.vals {
      if k in pending.vals {
        var d := pending.vals[k];
        var h := st.entries.vals[k];
        var prev := if k in st.shadow.vals then Some(st.shadow.vals[k]) else None;
        ValidRevise(st, h, prev, d, !st.itemClass);
        var st1 := Revise(st, h, prev, d, !st.itemClass);
        ValidSetShadow(st1, k, d);
      } else {
        ValidDeleteBoth(st, k);
      }
    }
  }

  lemma {:induction false} ValidReconcile(acc: Acc, keys: seq<string>, pending: JsMap<Doc>)
    requires Valid(acc.st) && KeyedById(pending)
    ensures Valid(Reconcile(acc, keys, pending).0.st) && KeyedById(Reconcile(acc, keys, pending).1)
    decreases |keys|
  {
    if keys != [] {
      ValidReconcileOne(acc, keys[0], pending);
      var r := ReconcileOne(acc, keys[0], pending);
      ValidReconcile(r.0, keys[1..], r.1);
    }
  }

  lemma {:induction false} ValidAddPending(acc: Acc, keys: seq<string>, pending: JsMap<Doc>)
    requires Valid(acc.st) && KeyedById(pending)
    ensures Valid(AddPending(acc, keys, pending).st)
    decreases |keys|
  {
    if keys != [] {
      if keys[0] in pending.vals {
        ValidAddOne(acc, keys[0], pending.vals[keys[0]]);
      }
      var acc1 := if keys[0] in pending.vals then AddOne(acc, keys[0], pending.vals[keys[0]]) else acc;
      ValidAddPending(acc1, keys[1..], pending);
    }
  }

  lemma {:induction false} ValidPushAll(acc: Acc, docs: seq<Doc>)
    requires Valid(acc.st)
    ensures Valid(PushAll(acc, docs).st)
    decreases |docs|
  {
    if docs != [] {
      ValidAddOne(acc, docs[0].id, docs[0]);
      ValidPushAll(PushOne(acc, docs[0]), docs[1..]);
    }
  }

  lemma ValidInitialOp(acc: Acc, docs: seq<Doc>, sl: Option<seq<SortField>>)
    requires Valid(acc.st)
    ensures Valid(InitialOp(acc, docs, sl).st)
  {
    var st := acc.st.(sortList := sl, fieldsToSort := if sl.Some? then FieldsToSort(sl.value) else []);
    var acc1 := Acc(st, acc.shouldSort || sl.Some?, acc.updated);
    if |st.entries.keys| > 0 {
      CollectKeyedById(EmptyMap(), docs);
      ValidReconcile(acc1, st.entries.keys, Collect(EmptyMap(), docs));
      var r := Reconcile(acc1, st.entries.keys, Collect(EmptyMap(), docs));
      ValidAddPending(r.0, r.1.keys, r.1);
    } else {
      ValidPushAll(acc1, docs);
    }
  }

  lemma ValidUpsert(acc: Acc, d: Doc, arg: FieldsArg)
    requires Valid(acc.st)
    ensures Valid(Upsert(acc, d, arg).st)
  {
    var st := acc.st;
    if d.id in st.entries.vals {
      var h := st.entries.vals[d.id];
      var prev := if d.id in st.shadow.vals then Some(st.shadow.vals[d.id]) else None;
      ValidRevise(st, h, prev, d, !st.itemClass && !arg.Atomic?);
    } else {
      var h := st.next;
      ValidNewItem(st, d);
      var st1 := st.(store := st.store[h := d], next := h + 1);
      ValidSetBoth(st1, d.id, h, d);
    }
  }

  lemma StepKeepsValid(acc: Acc, op: Op)
    requires Valid(acc.st)
    ensures Valid(Step(acc, op).st)
  {
    match op
    case Initial(docs, sl) => ValidInitialOp(acc, docs, sl);
    case Create(d, arg) => ValidUpsert(acc, d, arg);
    case Change(d, arg) => ValidUpsert(acc, d, arg);
    case Delete(id) => ValidRemove(acc, id);
    case Unrecognized => ValidClear(acc.st);
    case NullOp => ValidClear(acc.st);
  }

  lemma ValidRemove(acc: Acc, id: string)
    requires Valid(acc.st)
    ensures Valid(Remove(acc, id).st)
  {
    var st := acc.st;
    if id in st.entries.vals {
      ValidDeleteBoth(st, id);
      var h := st.entries.vals[id];
      var s1 := RemoveOne(st.sorted, h);
      assert forall x :: x in s1 ==> x in st.sorted by {
        forall x | x in s1 ensures x in st.sorted {
          assert x in multiset(s1);
        }
      }
    }
  }

  lemma ValidClear(st: State)
    requires Valid(st)
    ensures Valid(ClearState(st))
  {
    var e: JsMap<nat> := EmptyMap();
    var es: JsMap<Doc> := EmptyMap();
    assert e.Valid() && es.Valid();
  }

  lemma {:induction false} RunOpsKeepsValid(acc: Acc, ops: seq<Op>)
    requires Valid(acc.st)
    ensures Valid(RunOps(acc, ops).st)
    decreases |ops|
  {
    if ops != [] {
      StepKeepsValid(acc, ops[0]);
      RunOpsKeepsValid(Step(acc, ops[0]), ops[1..]);
    }
  }

  /** After every `update`, and so after every `clear`, the live map and
      the shadow hold the same `_id`s in the same order, and `sorted` only
      refers to item objects that exist. */
  lemma ApplyKeepsValid(st: State, batch: Option<seq<Op>>, v: Variant)
    requires Valid(st)
    ensures Valid(Apply(st, batch, v).st)
    ensures Apply(st, batch, v).st.entries.keys == Apply(st, batch, v).st.shadow.keys
  {
    if batch.Some? {
      RunOpsKeepsValid(Acc(st, false, NoChanges), batch.value);
      var acc := RunOps(Acc(st, false, NoChanges), batch.value);
      if acc.shouldSort && acc.st.sortList.Some? {
        var s' := Sort(acc.st.sorted, HandleOrder(acc.st.store, acc.st.sortList.value));
        forall h | h in s' ensures h in acc.st.store {
          assert h in multiset(s');
        }
      }
    }
  }
}

=== FILE: subscription_map_class.dfy ===
/** The keyed collection as the object the sources define: `update` walks
    the batch and changes the map, the shadow, `sorted` and the sort
    settings in place. Every method is proved to leave the state the
    reference semantics of `SubscriptionMaps` computes. */
module SubscriptionMapContainer {
  import opened Values
  import opened Sorting
  import opened SubscriptionMaps

  /** One call of the update handler: `(map, updated, updates-or-null)`. */
  datatype HandlerCall = HandlerCall(updated: Changes, arg: Marker<Op>)

  datatype Status = Ok | ThrewTypeError

  class SubscriptionMap {
    var entries: JsMap<nat>
    var store: map<nat, Doc>
    var next: nat
    var shadow: JsMap<Doc>
    var sortList: Option<seq<SortField>>
    var fieldsToSort: seq<string>
    var sorted: seq<nat>
    var itemClass: bool
    const variant: Variant
    var hasHandler: bool
    ghost var calls: seq<HandlerCall>

    /** `SubscriptionMapWithSubscription`: the subscription is a flag. */
    const withSubscription: bool
    var publicationName: string
    var params: seq<int>
    var subscribed: bool
    ghost var subscriptionsCreated: nat

    function Snapshot(): State reads this {
      State(entries, store, next, shadow, sortList, fieldsToSort, sorted, itemClass)
    }

    /** Everything `update` and `clear` leave alone. */
    ghost function Others(): (bool, seq<HandlerCall>, string, seq<int>, bool, nat) reads this {
      (hasHandler, calls, publicationName, params, subscribed, subscriptionsCreated)
    }

    ghost predicate Valid() reads this {
      SubscriptionMaps.Valid(Snapshot())
    }

    /** `new SubscriptionMap(updates, onUpdate)`: an empty collection, then
        the initial batch when one is given. */
    constructor (updates: Option<seq<Op>>, hasHandler: bool, variant: Variant)
      ensures Valid() && this.variant == variant && this.hasHandler == hasHandler && !withSubscription
      ensures updates.None? ==> Snapshot() == Empty(map[], 0) && calls == []
      ensures updates.Some? ==> var out := Apply(Empty(map[], 0), updates, variant);
        Snapshot() == out.st &&
        calls == (if out.Returned? && hasHandler then [HandlerCall(out.updated, out.marker)] else [])
    {
      entries, store, next, shadow := EmptyMap(), map[], 0, EmptyMap();
      sortList, fieldsToSort, sorted, itemClass := None, [], [], false;
      this.variant := variant;
      this.hasHandler := hasHandler;
      calls := [];
      withSubscription := false;
      publicationName, params, subscribed, subscriptionsCreated := "", [], false, 0;
      new;
      if updates.Some? {
        var _ := Update(updates);
        if SubscriptionMaps.Valid(Empty(map[], 0)) {
          ApplyKeepsValid(Empty(map[], 0), updates, variant);
        }
      }
    }

    /** `new SubscriptionMapWithSubscription(publicationName, params,
        onUpdate, immediately)`. */
    constructor WithSubscription(publicationName: string, params: seq<int>, immediately: bool, variant: Variant)
      ensures Valid() && Snapshot() == Empty(map[], 0) && calls == [] && hasHandler && withSubscription
      ensures this.variant == variant && this.publicationName == publicationName && this.params == params
      ensures subscribed == immediately && subscriptionsCreated == (if immediately then 1 else 0)
    {
      entries, store, next, shadow := EmptyMap(), map[], 0, EmptyMap();
      sortList, fieldsToSort, sorted, itemClass := None, [], [], false;
      this.variant := variant;
      hasHandler := true;
      calls := [];
      withSubscription := true;
      this.publicationName, this.params := publicationName, params;
      subscribed, subscriptionsCreated := false, 0;
      new;
      if immediately {
        Subscribe();
      }
    }

    /** `clear()`. */
    method Clear()
      modifies this
      ensures Snapshot() == ClearState(old(Snapshot())) && Others() == old(Others())
    {
      entries, shadow, sorted, sortList, fieldsToSort := EmptyMap(), EmptyMap(), [], None, [];
    }

    /** `sort()`: sort `sorted` with the comparator of the sort list. The
        sources skip it when there is no comparator; the JavaScript build
        calls `sorted.sort(null)`, which throws. */
    method Sort() returns (status: Status)
      modifies this
      ensures status == ThrewTypeError <==> variant == Lib && sortList.None?
      ensures sortList.Some? ==>
        sorted == Sorting.Sort(old(sorted), HandleOrder(store, sortList.value)) &&
        AdjacentSorted(sorted, HandleOrder(store, sortList.value)) &&
        multiset(sorted) == multiset(old(sorted))
      ensures sortList.None? ==> sorted == old(sorted)
      ensures Snapshot() == old(Snapshot()).(sorted := sorted) && Others() == old(Others())
    {
      if sortList.Some? {
        var cmp := HandleOrder(store, sortList.value);
        HandleOrderAntisymmetric(store, sortList.value);
        SortSorted(sorted, cmp);
        sorted := Sorting.Sort(sorted, cmp);
        status := Ok;
      } else if variant == Lib {
        status := ThrewTypeError;
      } else {
        status := Ok;
      }
    }

    /** The `Item` setter with `SubscriptionMapItem`: rewrap every entry in
        a new item object. */
    method SetItemClass()
      modifies this
      ensures Snapshot() == SubscriptionMaps.SetItemClass(old(Snapshot())) && Others() == old(Others())
    {
      itemClass := true;
      ghost var st0 := Snapshot();
      var keys := entries.keys;
      var i := 0;
      while i < |keys|
        invariant 0 <= i <= |keys|
        invariant Rewrap(Snapshot(), keys[i..]) == Rewrap(st0, keys)
        invariant Others() == old(Others())
      {
        RewrapItem(keys[i]);
        i := i + 1;
      }
    }

    /** One pass of the setter's loop. */
    method RewrapItem(k: string)
      modifies this
      ensures Snapshot() == RewrapEntry(old(Snapshot()), k) && Others() == old(Others())
    {
      if k in entries.vals {
        var oldH := entries.vals[k];
        var copy := if oldH in store then store[oldH] else Doc(k, map[]);
        var h := next;
        store, next, entries := store[h := copy], h + 1, entries.Set(k, h);
      }
    }

    /** An existing item object takes a payload: a plain object given a
        non-atomic payload first loses the previous payload's fields. */
    method ReviseItem(h: nat, prev: Option<Doc>, d: Doc, deletePrev: bool)
      modifies this
      ensures Snapshot() == Revise(old(Snapshot()), h, prev, d, deletePrev) && Others() == old(Others())
    {
      var fields := if h in store then store[h].fields else map[];
      if deletePrev {
        var prevKeys := if prev.Some? then prev.value.fields.Keys else {};
        fields := ReplaceFields(fields, prevKeys, d.fields);
      } else {
        fields := fields + d.fields;
      }
      store := store[h := Doc(d.id, fields)];
    }

    /** A new item object holding a copy of the payload. */
    method NewItem(d: Doc) returns (h: nat)
      modifies this
      ensures h == old(next) && store == old(store)[h := d] && next == h + 1
      ensures entries == old(entries) && shadow == old(shadow) && sorted == old(sorted)
      ensures sortList == old(sortList) && fieldsToSort == old(fieldsToSort) && itemClass == old(itemClass)
      ensures Others() == old(Others())
    {
      h := next;
      store, next := store[h := d], h + 1;
    }

    /** `c`/`u`. */
    method UpsertItem(d: Doc, arg: FieldsArg, shouldSort: bool, updated: Changes) returns (shouldSort': bool, updated': Changes)
      modifies this
      ensures Acc(Snapshot(), shouldSort', updated') == Upsert(Acc(old(Snapshot()), shouldSort, updated), d, arg)
      ensures Others() == old(Others())
    {
      if d.id in entries.vals {
        shouldSort', updated' := PatchItem(d, arg, shouldSort, updated);
      } else {
        shouldSort', updated' := InsertItem(d, shouldSort, updated);
      }
    }

    /** `c`/`u` for an `_id` already in the map. */
    method PatchItem(d: Doc, arg: FieldsArg, shouldSort: bool, updated: Changes) returns (shouldSort': bool, updated': Changes)
      requires d.id in entries.vals
      modifies this
      ensures Acc(Snapshot(), shouldSort', updated') == Upsert(Acc(old(Snapshot()), shouldSort, updated), d, arg)
      ensures Others() == old(Others())
    {
      var h := entries.vals[d.id];
      var prev := if d.id in shadow.vals then Some(shadow.vals[d.id]) else None;
      var isAtomic := arg.Atomic?;
      shouldSort' := shouldSort || (sortList.Some? && TouchesSortFields(arg, d, fieldsToSort));
      ReviseItem(h, prev, d, !itemClass && !isAtomic);
      var payload := if isAtomic && prev.Some? then Doc(d.id, prev.value.fields + d.fields) else d;
      shadow := shadow.Set(d.id, payload);
      updated' := updated.(elems := updated.elems + [h]);
    }

    /** `c`/`u` for a new `_id`. */
    method InsertItem(d: Doc, shouldSort: bool, updated: Changes) returns (shouldSort': bool, updated': Changes)
      requires d.id !in entries.vals
      modifies this
      ensures Acc(Snapshot(), shouldSort', updated') == Upsert(Acc(old(Snapshot()), shouldSort, updated), d, NoFields)
      ensures Others() == old(Others())
    {
      var h := NewItem(d);
      entries, sorted, shadow := entries.Set(d.id, h), sorted + [h], shadow.Set(d.id, d);
      shouldSort' := shouldSort || sortList.Some?;
      updated' := Changes(updated.elems + [h], updated.added + [h], updated.deleted);
    }

    /** `d`. */
    method RemoveItem(id: string, ghost shouldSort: bool, updated: Changes) returns (updated': Changes)
      modifies this
      ensures Acc(Snapshot(), shouldSort, updated') == Remove(Acc(old(Snapshot()), shouldSort, updated), id)
      ensures Others() == old(Others())
    {
      updated' := updated;
      if id in entries.vals {
        var h := entries.vals[id];
        entries, shadow, sorted := entries.Delete(id), shadow.Delete(id), RemoveOne(sorted, h);
        updated' := updated.(deleted := updated.deleted + [id]);
      }
    }

    /** `updatesMap`: the payloads of an `i` operation by `_id`. */
    static method CollectPayloads(docs: seq<Doc>) returns (pending: JsMap<Doc>)
      ensures pending == Collect(EmptyMap(), docs)
    {
      pending := EmptyMap();
      var i := 0;
      while i < |docs|
        invariant 0 <= i <= |docs|
        invariant Collect(pending, docs[i..]) == Collect(EmptyMap(), docs)
      {
        assert docs[i..] == [docs[i]] + docs[i + 1..];
        pending := pending.Set(docs[i].id, docs[i]);
        i := i + 1;
      }
    }

    /** The first loop of an `i` on a non-empty map: each existing entry is
        updated from its payload, or deleted. */
    method ReconcileItems(pending: JsMap<Doc>, ghost shouldSort: bool, updated: Changes) returns (pending': JsMap<Doc>, updated': Changes)
      modifies this
      ensures (Acc(Snapshot(), shouldSort, updated'), pending') ==
              Reconcile(Acc(old(Snapshot()), shouldSort, updated), old(entries.keys), pending)
      ensures Others() == old(Others())
    {
      ghost var st0 := Snapshot();
      var keys := entries.keys;
      pending', updated' := pending, updated;
      var i := 0;
      while i < |keys|
        invariant 0 <= i <= |keys|
        invariant Reconcile(Acc(Snapshot(), shouldSort, updated'), keys[i..], pending') ==
                  Reconcile(Acc(st0, shouldSort, updated), keys, pending)
        invariant Others() == old(Others())
      {
        assert keys[i..] == [keys[i]] + keys[i + 1..];
        pending', updated' := ReconcileItem(keys[i], pending', shouldSort, updated');
        i := i + 1;
      }
    }

    /** One pass of the first loop of an `i` on a non-empty map. */
    method ReconcileItem(k: string, pending: JsMap<Doc>, ghost shouldSort: bool, updated: Changes)
      returns (pending': JsMap<Doc>, updated': Changes)
      modifies this
      ensures (Acc(Snapshot(), shouldSort, updated'), pending') ==
              ReconcileOne(Acc(old(Snapshot()), shouldSort, updated), k, pending)
      ensures Others() == old(Others())
    {
      pending', updated' := pending, updated;
      if k in entries.vals {
        var h := entries.vals[k];
        if k in pending.vals {
          var d := pending.vals[k];
          var prev := if k in shadow.vals then Some(shadow.vals[k]) else None;
          ReviseItem(h, prev, d, !itemClass);
          shadow := shadow.Set(k, d);
          updated' := updated.(elems := updated.elems + [h]);
          pending' := pending.Delete(k);
        } else {
          entries, shadow := entries.Delete(k), shadow.Delete(k);
          updated' := updated.(deleted := updated.deleted + [k]);
        }
      }
    }

    /** One new item object for a payload, in the map and the shadow. */
    method AddItem(k: string, d: Doc, ghost shouldSort: bool, updated: Changes) returns (h: nat, updated': Changes)
      modifies this
      ensures h == old(next)
      ensures Acc(Snapshot(), shouldSort, updated') == AddOne(Acc(old(Snapshot()), shouldSort, updated), k, d)
      ensures Others() == old(Others())
    {
      h := NewItem(d);
      entries, shadow := entries.Set(k, h), shadow.Set(k, d);
      updated' := Changes(updated.elems + [h], updated.added + [h], updated.deleted);
    }

    /** The second loop of an `i` on a non-empty map: the payloads left
        over become new items. */
    method AddPendingItems(pending: JsMap<Doc>, ghost shouldSort: bool, updated: Changes) returns (updated': Changes)
      modifies this
      ensures Acc(Snapshot(), shouldSort, updated') == AddPending(Acc(old(Snapshot()), shouldSort, updated), pending.keys, pending)
      ensures Others() == old(Others())
    {
      ghost var st0 := Snapshot();
      updated' := updated;
      var i := 0;
      while i < |pending.keys|
        invariant 0 <= i <= |pending.keys|
        invariant AddPending(Acc(Snapshot(), shouldSort, updated'), pending.keys[i..], pending) ==
                  AddPending(Acc(st0, shouldSort, updated), pending.keys, pending)
        invariant Others() == old(Others())
      {
        assert pending.keys[i..] == [pending.keys[i]] + pending.keys[i + 1..];
        var k := pending.keys[i];
        if k in pending.vals {
          var _, u := AddItem(k, pending.vals[k], shouldSort, updated');
          updated' := u;
        }
        i := i + 1;
      }
    }

    /** The loop of an `i` on an empty map: every payload becomes a new
        item, also appended to `sorted`. */
    method PushItems(docs: seq<Doc>, ghost shouldSort: bool, updated: Changes) returns (updated': Changes)
      modifies this
      ensures Acc(Snapshot(), shouldSort, updated') == PushAll(Acc(old(Snapshot()), shouldSort, updated), docs)
      ensures Others() == old(Others())
    {
      ghost var st0 := Snapshot();
      updated' := updated;
      var i := 0;
      while i < |docs|
        invariant 0 <= i <= |docs|
        invariant PushAll(Acc(Snapshot(), shouldSort, updated'), docs[i..]) == PushAll(Acc(st0, shouldSort, updated), docs)
        invariant Others() == old(Others())
      {
        assert docs[i..] == [docs[i]] + docs[i + 1..];
        ghost var acc := Acc(Snapshot(), shouldSort, updated');
        var h, u := AddItem(docs[i].id, docs[i], shouldSort, updated');
        ghost var added := Acc(Snapshot(), shouldSort, u);
        updated' := u;
        sorted := sorted + [h];
        assert Acc(Snapshot(), shouldSort, updated') == added.(st := added.st.(sorted := added.st.sorted + [h]));
        assert Acc(Snapshot(), shouldSort, updated') == PushOne(acc, docs[i]);
        i := i + 1;
      }
    }

    /** `array.map(newItem => this.get(newItem._id))`. */
    method ItemsOf(docs: seq<Doc>) returns (r: seq<nat>)
      ensures r == HandlesOf(docs, entries.vals)
    {
      r := [];
      var i := |docs|;
      while i > 0
        invariant 0 <= i <= |docs|
        invariant r == HandlesOf(docs[i..], entries.vals)
      {
        i := i - 1;
        assert docs[i..] == [docs[i]] + docs[i + 1..];
        r := (if docs[i].id in entries.vals then [entries.vals[docs[i].id]] else []) + r;
      }
    }

    /** `i`. */
    method InitialItems(docs: seq<Doc>, sl: Option<seq<SortField>>, shouldSort: bool, updated: Changes)
      returns (shouldSort': bool, updated': Changes)
      modifies this
      ensures Acc(Snapshot(), shouldSort', updated') == InitialOp(Acc(old(Snapshot()), shouldSort, updated), docs, sl)
      ensures Others() == old(Others())
    {
      if sl.Some? {
        sortList := sl;
        fieldsToSort := FieldsToSort(sl.value);
        shouldSort' := true;
      } else {
        sortList := None;
        fieldsToSort := [];
        shouldSort' := shouldSort;
      }
      ghost var acc1 := Acc(Snapshot(), shouldSort', updated);
      if |entries.keys| > 0 {
        var pending := CollectPayloads(docs);
        pending, updated' := ReconcileItems(pending, shouldSort', updated);
        ghost var r := Reconcile(acc1, acc1.st.entries.keys, Collect(EmptyMap(), docs));
        ReconcileKeepsSorted(acc1, acc1.st.entries.keys, Collect(EmptyMap(), docs));
        updated' := AddPendingItems(pending, shouldSort', updated');
        AddPendingKeepsSorted(r.0, r.1.keys, r.1);
        if sortList.Some? {
          sorted := ItemsOf(docs);
        }
      } else {
        updated' := PushItems(docs, shouldSort', updated);
      }
    }

    /** One pass of the `switch` in `update`. */
    method ApplyOp(op: Op, shouldSort: bool, updated: Changes) returns (shouldSort': bool, updated': Changes)
      modifies this
      ensures Acc(Snapshot(), shouldSort', updated') == Step(Acc(old(Snapshot()), shouldSort, updated), op)
      ensures Others() == old(Others())
    {
      shouldSort', updated' := shouldSort, updated;
      match op {
        case Initial(docs, sl) =>
          shouldSort', updated' := InitialItems(docs, sl, shouldSort, updated);
        case Create(d, arg) =>
          shouldSort', updated' := UpsertItem(d, arg, shouldSort, updated);
        case Change(d, arg) =>
          shouldSort', updated' := UpsertItem(d, arg, shouldSort, updated);
        case Delete(id) =>
          updated' := RemoveItem(id, shouldSort, updated);
        case Unrecognized =>
          Clear();
        case NullOp =>
          Clear();
      }
    }

    /** The loop of `update` over the operations of one batch. */
    method ApplyOps(ops: seq<Op>) returns (shouldSort: bool, updated: Changes)
      modifies this
      ensures Acc(Snapshot(), shouldSort, updated) == RunOps(Acc(old(Snapshot()), false, NoChanges), ops)
      ensures Others() == old(Others())
    {
      shouldSort, updated := false, NoChanges;
      var i := 0;
      while i < |ops|
        invariant 0 <= i <= |ops|
        invariant RunOps(Acc(Snapshot(), shouldSort, updated), ops[i..]) == RunOps(Acc(old(Snapshot()), false, NoChanges), ops)
        invariant Others() == old(Others())
      {
        assert ops[i..] == [ops[i]] + ops[i + 1..];
        shouldSort, updated := ApplyOp(ops[i], shouldSort, updated);
        i := i + 1;
      }
      assert ops[i..] == [];
    }

    /** `update(updates)`: apply the batch in place, sort once if asked, and
        call the handler exactly once. */
    method Update(batch: Option<seq<Op>>) returns (status: Status)
      modifies this
      ensures var out := Apply(old(Snapshot()), batch, variant);
        Snapshot() == out.st &&
        (status == ThrewTypeError <==> out.Threw?) &&
        calls == old(calls) + (if out.Returned? && hasHandler then [HandlerCall(out.updated, out.marker)] else [])
      ensures old(Valid()) ==> Valid()
      ensures hasHandler == old(hasHandler) && publicationName == old(publicationName) && params == old(params)
      ensures subscribed == old(subscribed) && subscriptionsCreated == old(subscriptionsCreated)
    {
      ghost var st0 := Snapshot();
      var updated := NoChanges;
      if batch.Some? {
        var shouldSort;
        shouldSort, updated := ApplyOps(batch.value);
        if shouldSort {
          status := Sort();
          if status == ThrewTypeError {
            if SubscriptionMaps.Valid(st0) {
              ApplyKeepsValid(st0, batch, variant);
            }
            return;
          }
        }
      } else {
        Clear();
      }
      if hasHandler {
        calls := calls + [HandlerCall(updated, HandlerArg(batch, NullOp, variant))];
      }
      if SubscriptionMaps.Valid(st0) {
        ApplyKeepsValid(st0, batch, variant);
      }
      status := Ok;
    }

    /** `getAsUpdates()`: `null` for an empty collection without a sort
        list, otherwise one `i` operation with the last payloads and the
        sort list. */
    function GetAsUpdates(): (r: Option<seq<Op>>)
      reads this
      ensures r.None? <==> entries.keys == [] && sortList.None?
      ensures r.Some? ==> r.value == [Initial(shadow.Values(), sortList)]
    {
      UpdatesOf(Snapshot())
    }

    /** `getAsInitialUpdated()`: a changeset listing every item of `sorted`
        as affected and added. */
    function GetAsInitialUpdated(): (r: Changes)
      reads this
      ensures r.elems == sorted && r.added == sorted && r.deleted == []
    {
      Changes(sorted, sorted, [])
    }

    /** `subscribe()`: creates a subscription only when there is none. */
    method Subscribe()
      requires withSubscription
      modifies this
      ensures subscribed
      ensures subscriptionsCreated == old(subscriptionsCreated) + (if old(subscribed) then 0 else 1)
      ensures Snapshot() == old(Snapshot()) && calls == old(calls) && hasHandler == old(hasHandler)
      ensures publicationName == old(publicationName) && params == old(params)
    {
      if !subscribed {
        subscribed := true;
        subscriptionsCreated := subscriptionsCreated + 1;
      }
    }

    /** `unsubscribe()`: cancels the subscription if there is one. */
    method Unsubscribe()
      requires withSubscription
      modifies this
      ensures !subscribed
      ensures subscriptionsCreated == old(subscriptionsCreated)
      ensures Snapshot() == old(Snapshot()) && calls == old(calls) && hasHandler == old(hasHandler)
      ensures publicationName == old(publicationName) && params == old(params)
    {
      subscribed := false;
    }

    /** `renew(publicationName?, params?)`: only while subscribed, resubscribe
        with the new name and parameters; an array as first argument is taken
        as the parameters, and an empty name is ignored. */
    method Renew(first: RenewArg, newParams: Option<seq<int>>)
      requires withSubscription
      modifies this
      ensures subscribed == old(subscribed)
      ensures !old(subscribed) ==> publicationName == old(publicationName) && params == old(params) &&
                                   subscriptionsCreated == old(subscriptionsCreated)
      ensures old(subscribed) ==>
        subscriptionsCreated == old(subscriptionsCreated) + 1 &&
        publicationName == (if first.NameArg? && first.name != "" then first.name else old(publicationName)) &&
        params == (if first.ParamsArg? then first.params else if newParams.Some? then newParams.value else old(params))
      ensures Snapshot() == old(Snapshot()) && calls == old(calls) && hasHandler == old(hasHandler)
    {
      if subscribed {
        Unsubscribe();
        var p := newParams;
        match first {
          case NameArg(n) =>
            if n != "" {
              publicationName := n;
            }
          case ParamsArg(ps) =>
            p := Some(ps);
          case NoArg =>
        }
        if p.Some? {
          params := p.value;
        }
        Subscribe();
      }
    }
  }
}

=== FILE: subscription_map_props.dfy ===
/** Properties of the keyed collection's reference semantics: what each
    operation does to the items and to the changeset, the payload mirror
    that plain item objects keep, the `getAsUpdates` round trip, and when
    the `sorted` view is rebuilt, sorted or left stale. */
module SubscriptionMapProperties {
  import opened Values
  import opened Sorting
  import opened SubscriptionMaps

  /** What the map holds, in iteration order: each `_id` with the fields of
      its item object. */
  ghost function Contents(st: State): (r: seq<Doc>)
    ensures |r| == |st.entries.keys|
  {
    seq(|st.entries.keys|, i requires 0 <= i < |st.entries.keys| =>
      var k := st.entries.keys[i];
      Doc(k, if k in st.entries.vals then FieldsAt(st.store, st.entries.vals[k]) else map[]))
  }

  /** Each item object holds exactly the fields of its last payload. Plain
      item objects keep this; `SubscriptionMapItem` objects need not, since
      they never delete a field. */
  ghost predicate Mirrors(st: State) {
    forall k :: k in st.entries.vals && k in st.shadow.vals ==> FieldsAt(st.store, st.entries.vals[k]) == st.shadow.vals[k].fields
  }

  // ---------------------------------------------------------------------
  // `c`/`u` and `d`

  /** `c`/`u` on a present `_id` patches the same item object in place. A
      plain object given a non-atomic payload first loses the previous
      payload's fields; an atomic patch, and any `SubscriptionMapItem`, only
      assigns. An atomic patch is merged into the stored payload, anything
      else replaces it. */
  lemma UpsertExisting(acc: Acc, d: Doc, arg: FieldsArg)
    requires Valid(acc.st) && d.id in acc.st.entries.vals
    ensures var st := acc.st; var r := Upsert(acc, d, arg).st;
      var h := st.entries.vals[d.id];
      var before := st.store[h].fields;
      var prev := st.shadow.vals[d.id];
      r.entries == st.entries && r.sorted == st.sorted && r.shadow.keys == st.shadow.keys &&
      r.store.Keys == st.store.Keys && r.store[h].id == d.id &&
      (forall g :: g in st.store && g != h ==> r.store[g] == st.store[g]) &&
      (!st.itemClass && !arg.Atomic? ==> r.store[h].fields == ReplaceFields(before, prev.fields.Keys, d.fields)) &&
      (st.itemClass || arg.Atomic? ==> r.store[h].fields == before + d.fields) &&
      r.shadow.vals[d.id] == (if arg.Atomic? then Doc(d.id, prev.fields + d.fields) else d) &&
      Upsert(acc, d, arg).updated == acc.updated.(elems := acc.updated.elems + [h])
  {
  }

  /** On a collection whose plain item objects mirror their payloads, a
      non-atomic `c`/`u` leaves the item with exactly the new payload's
      fields: the old fields it does not repeat are gone. */
  lemma NonAtomicPatchReplaces(acc: Acc, d: Doc, arg: FieldsArg)
    requires Valid(acc.st) && Mirrors(acc.st) && !acc.st.itemClass
    requires d.id in acc.st.entries.vals && !arg.Atomic?
    ensures Upsert(acc, d, arg).st.store[acc.st.entries.vals[d.id]].fields == d.fields
  {
    var h := acc.st.entries.vals[d.id];
    UpsertExisting(acc, d, arg);
    ReplaceFieldsOfShadowed(acc.st.store[h].fields, acc.st.shadow.vals[d.id].fields.Keys, d.fields);
  }

  /** `c`/`u` on an absent `_id` creates a new item object, appends it to
      the map, the shadow and `sorted`, and reports it as added. */
  lemma UpsertNew(acc: Acc, d: Doc, arg: FieldsArg)
    requires Valid(acc.st) && d.id !in acc.st.entries.vals
    ensures var st := acc.st; var r := Upsert(acc, d, arg);
      st.next !in st.store && r.st.store == st.store[st.next := d] &&
      r.st.entries.keys == st.entries.keys + [d.id] && r.st.entries.vals == st.entries.vals[d.id := st.next] &&
      r.st.shadow.vals == st.shadow.vals[d.id := d] &&
      r.st.sorted == st.sorted + [st.next] &&
      r.updated.elems == acc.updated.elems + [st.next] &&
      r.updated.added == acc.updated.added + [st.next] && r.updated.deleted == acc.updated.deleted &&
      r.shouldSort == (acc.shouldSort || st.sortList.Some?)
  {
  }

  /** `d` on a present `_id` removes it from the map, the shadow and
      `sorted` and reports the `_id`; on an absent one it changes nothing. */
  lemma RemoveEffect(acc: Acc, id: string)
    requires Valid(acc.st)
    ensures var r := Remove(acc, id);
      (id in acc.st.entries.vals ==>
         r.st.entries.vals == acc.st.entries.vals - {id} && r.st.shadow.vals == acc.st.shadow.vals - {id} &&
         id !in r.st.entries.keys &&
         r.st.sorted == RemoveOne(acc.st.sorted, acc.st.entries.vals[id]) &&
         r.updated.deleted == acc.updated.deleted + [id] && r.st.store == acc.st.store) &&
      (id !in acc.st.entries.vals ==> r == acc)
  {
  }

  /** A `null` batch empties the collection and resets the sort, reports
      nothing, and the handler is told `null` (the JavaScript build:
      `undefined`); a `null` or unrecognised entry clears the same way. */
  lemma NullBatchClears(st: State, v: Variant)
    ensures var r := Apply(st, None, v);
      r.Returned? && r.st.entries.keys == [] && r.st.shadow.keys == [] && r.st.sorted == [] &&
      r.st.sortList.None? && r.st.fieldsToSort == [] && r.updated == NoChanges &&
      r.marker == (if v == Src then JsNull else JsUndefined)
    ensures Step(Acc(st, false, NoChanges), Unrecognized).st == Apply(st, None, v).st
  {
  }

  // ---------------------------------------------------------------------
  // Plain item objects mirror their payloads

  lemma MirrorsReviseKey(st: State, k: string, d: Doc, prev: Option<Doc>, deletePrev: bool, payload: Doc)
    requires Valid(st) && Mirrors(st) && k in st.entries.vals && d.id == k && payload.id == k
    requires FieldsAt(Revise(st, st.entries.vals[k], prev, d, deletePrev).store, st.entries.vals[k]) == payload.fields
    ensures Mirrors(Revise(st, st.entries.vals[k], prev, d, deletePrev).(shadow := st.shadow.Set(k, payload)))
  {
    var h := st.entries.vals[k];
    var r := Revise(st, h, prev, d, deletePrev).(shadow := st.shadow.Set(k, payload));
    forall k' | k' in r.entries.vals && k' in r.shadow.vals
      ensures FieldsAt(r.store, r.entries.vals[k']) == r.shadow.vals[k'].fields
    {
      if k' != k {
        assert st.store[st.entries.vals[k']].id == k';
      }
    }
  }

  lemma MirrorsAddOne(acc: Acc, k: string, d: Doc)
    requires Valid(acc.st) && Mirrors(acc.st) && d.id == k
    ensures Mirrors(AddOne(acc, k, d).st)
  {
    var r := AddOne(acc, k, d).st;
    forall k' | k' in r.entries.vals && k' in r.shadow.vals
      ensures FieldsAt(r.store, r.entries.vals[k']) == r.shadow.vals[k'].fields
    {
      if k' != k {
        assert acc.st.entries.vals[k'] in acc.st.store;
      }
    }
  }

  lemma MirrorsReconcileOne(acc: Acc, k: string, pending: JsMap<Doc>)
    requires Valid(acc.st) && Mirrors(acc.st) && !acc.st.itemClass && KeyedById(pending)
    ensures Mirrors(ReconcileOne(acc, k, pending).0.st)
  {
    var st := acc.st;
    if k in st.entries.vals && k in pending.vals {
      var d := pending.vals[k];
      var h := st.entries.vals[k];
      var prev := Some(st.shadow.vals[k]);
      ReplaceFieldsOfShadowed(st.store[h].fields, st.shadow.vals[k].fields.Keys, d.fields);
      MirrorsReviseKey(st, k, d, prev, true, d);
    }
  }

  lemma {:induction false} MirrorsReconcile(acc: Acc, keys: seq<string>, pending: JsMap<Doc>)
    requires Valid(acc.st) && Mirrors(acc.st) && !acc.st.itemClass && KeyedById(pending)
    ensures Mirrors(Reconcile(acc, keys, pending).0.st) && !Reconcile(acc, keys, pending).0.st.itemClass
    decreases |keys|
  {
    if keys != [] {
      ValidReconcileOne(acc, keys[0], pending);
      MirrorsReconcileOne(acc, keys[0], pending);
      var r := ReconcileOne(acc, keys[0], pending);
      MirrorsReconcile(r.0, keys[1..], r.1);
    }
  }

  lemma {:induction false} MirrorsAddPending(acc: Acc, keys: seq<string>, pending: JsMap<Doc>)
    requires Valid(acc.st) && Mirrors(acc.st) && KeyedById(pending)
    ensures Mirrors(AddPending(acc, keys, pending).st)
    ensures AddPending(acc, keys, pending).st.itemClass == acc.st.itemClass
    decreases |keys|
  {
    if keys != [] {
      if keys[0] in pending.vals {
        ValidAddOne(acc, keys[0], pending.vals[keys[0]]);
        MirrorsAddOne(acc, keys[0], pending.vals[keys[0]]);
      }
      var acc1 := if keys[0] in pending.vals then AddOne(acc, keys[0], pending.vals[keys[0]]) else acc;
      MirrorsAddPending(acc1, keys[1..], pending);
    }
  }

  lemma {:induction false} MirrorsPushAll(acc: Acc, docs: seq<Doc>)
    requires Valid(acc.st) && Mirrors(acc.st)
    ensures Mirrors(PushAll(acc, docs).st)
    ensures PushAll(acc, docs).st.itemClass == acc.st.itemClass
    decreases |docs|
  {
    if docs != [] {
      ValidAddOne(acc, docs[0].id, docs[0]);
      MirrorsAddOne(acc, docs[0].id, docs[0]);
      MirrorsPushAll(PushOne(acc, docs[0]), docs[1..]);
    }
  }

  lemma MirrorsStep(acc: Acc, op: Op)
    requires Valid(acc.st) && Mirrors(acc.st) && !acc.st.itemClass
    ensures Mirrors(Step(acc, op).st) && !Step(acc, op).st.itemClass
  {
    match op
    case Initial(docs, sl) =>
      var st := acc.st.(sortList := sl, fieldsToSort := if sl.Some? then FieldsToSort(sl.value) else []);
      var acc1 := Acc(st, acc.shouldSort || sl.Some?, acc.updated);
      if |st.entries.keys| > 0 {
        CollectKeyedById(EmptyMap(), docs);
        var pending := Collect(EmptyMap(), docs);
        ValidReconcile(acc1, st.entries.keys, pending);
        MirrorsReconcile(acc1, st.entries.keys, pending);
        var r := Reconcile(acc1, st.entries.keys, pending);
        MirrorsAddPending(r.0, r.1.keys, r.1);
      } else {
        MirrorsPushAll(acc1, docs);
      }
    case Create(d, arg) => MirrorsUpsert(acc, d, arg);
    case Change(d, arg) => MirrorsUpsert(acc, d, arg);
    case Delete(id) =>
    case Unrecognized =>
    case NullOp =>
  }

  lemma MirrorsUpsert(acc: Acc, d: Doc, arg: FieldsArg)
    requires Valid(acc.st) && Mirrors(acc.st) && !acc.st.itemClass
    ensures Mirrors(Upsert(acc, d, arg).st)
  {
    var st := acc.st;
    if d.id in st.entries.vals {
      var h := st.entries.vals[d.id];
      var prev := st.shadow.vals[d.id];
      UpsertExisting(acc, d, arg);
      var payload := if arg.Atomic? then Doc(d.id, prev.fields + d.fields) else d;
      if !arg.Atomic? {
        ReplaceFieldsOfShadowed(st.store[h].fields, prev.fields.Keys, d.fields);
      }
      MirrorsReviseKey(st, d.id, d, Some(prev), !arg.Atomic?, payload);
    } else {
      var h := st.next;
      var st1 := st.(store := st.store[h := d], next := h + 1);
      var r := Upsert(acc, d, arg).st;
      forall k' | k' in r.entries.vals && k' in r.shadow.vals
        ensures FieldsAt(r.store, r.entries.vals[k']) == r.shadow.vals[k'].fields
      {
        if k' != d.id {
          assert st.entries.vals[k'] in st.store;
        }
      }
    }
  }

  lemma {:induction false} MirrorsRunOps(acc: Acc, ops: seq<Op>)
    requires Valid(acc.st) && Mirrors(acc.st) && !acc.st.itemClass
    ensures Mirrors(RunOps(acc, ops).st) && !RunOps(acc, ops).st.itemClass
    decreases |ops|
  {
    if ops != [] {
      StepKeepsValid(acc, ops[0]);
      MirrorsStep(acc, ops[0]);
      MirrorsRunOps(Step(acc, ops[0]), ops[1..]);
    }
  }

  /** While no item class is set, every item object holds exactly the
      fields of its last payload, whatever batches arrive. */
  lemma ApplyKeepsMirrors(st: State, batch: Option<seq<Op>>, v: Variant)
    requires Valid(st) && Mirrors(st) && !st.itemClass
    ensures Mirrors(Apply(st, batch, v).st)
  {
    if batch.Some? {
      MirrorsRunOps(Acc(st, false, NoChanges), batch.value);
    }
  }

  // ---------------------------------------------------------------------
  // The `Item` setter

  /** Two states whose maps hold the same `_id`s, in the same order, with
      item objects holding the same fields. */
  ghost predicate SameItems(a: State, b: State) {
    a.entries.keys == b.entries.keys && a.entries.vals.Keys == b.entries.vals.Keys &&
    forall k :: k in a.entries.vals ==> FieldsAt(a.store, a.entries.vals[k]) == FieldsAt(b.store, b.entries.vals[k])
  }

  lemma SameItemsContents(a: State, b: State)
    requires SameItems(a, b)
    ensures Contents(a) == Contents(b)
  {
  }

  /** One step of the `Item` setter: the entry under `k` gets a new item
      object with the old one's fields. */
  lemma RewrapOne(st: State, k: string)
    requires Valid(st) && k in st.entries.vals
    ensures var st1 := RewrapEntry(st, k);
      Valid(st1) && SameItems(st1, st) && st1.entries.vals[k] == st.next &&
      forall k' :: k' in st.entries.vals && k' != k ==> st1.entries.vals[k'] == st.entries.vals[k']
  {
    var st1 := RewrapEntry(st, k);
    assert st.entries.vals[k] in st.store;
    ValidNewItem(st, st.store[st.entries.vals[k]]);
    forall k' | k' in st1.entries.vals
      ensures FieldsAt(st1.store, st1.entries.vals[k']) == FieldsAt(st.store, st.entries.vals[k'])
    {
      assert st.entries.vals[k'] in st.store;
    }
  }

  lemma NoDuplicatesTail<T>(s: seq<T>)
    requires s != [] && NoDuplicates(s)
    ensures NoDuplicates(s[1..]) && s[0] !in s[1..]
  {
    forall i, j | 0 <= i < j < |s[1..]| ensures s[1..][i] != s[1..][j] {
      assert s[1..][i] == s[i + 1] && s[1..][j] == s[j + 1];
    }
    forall i | 0 <= i < |s[1..]| ensures s[1..][i] != s[0] {
      assert s[1..][i] == s[i + 1];
    }
  }

  lemma {:induction false} RewrapEffect(st: State, keys: seq<string>)
    requires Valid(st) && NoDuplicates(keys)
    requires forall k :: k in keys ==> k in st.entries.vals
    ensures var r := Rewrap(st, keys);
      Valid(r) && SameItems(r, st) && r.next >= st.next &&
      r.shadow == st.shadow && r.sorted == st.sorted && r.itemClass == st.itemClass && r.sortList == st.sortList &&
      (forall k :: k in keys ==> r.entries.vals[k] >= st.next) &&
      (forall k :: k in st.entries.vals && k !in keys ==> r.entries.vals[k] == st.entries.vals[k])
    decreases |keys|
  {
    if keys != [] {
      var k0 := keys[0];
      var st1 := RewrapEntry(st, k0);
      RewrapOne(st, k0);
      NoDuplicatesTail(keys);
      RewrapEffect(st1, keys[1..]);
      var r := Rewrap(st1, keys[1..]);
      assert SameItems(r, st) by {
        forall k | k in r.entries.vals
          ensures FieldsAt(r.store, r.entries.vals[k]) == FieldsAt(st.store, st.entries.vals[k])
        {
          assert FieldsAt(r.store, r.entries.vals[k]) == FieldsAt(st1.store, st1.entries.vals[k]);
        }
      }
      forall k | k in keys ensures r.entries.vals[k] >= st.next {
        if k != k0 {
          assert k in keys[1..];
        }
      }
    }
  }

  /** Setting `Item` to `SubscriptionMapItem` keeps the `_id`s, their order
      and every item's fields, and every entry gets a new item object. The
      `sorted` view is not rebuilt: afterwards it refers to none of the
      objects in the map. */
  lemma SetItemClassEffect(st: State)
    requires Valid(st)
    ensures var r := SetItemClass(st);
      Valid(r) && r.itemClass && Contents(r) == Contents(st) &&
      r.shadow == st.shadow && r.sorted == st.sorted && r.sortList == st.sortList &&
      (Mirrors(st) ==> Mirrors(r)) &&
      forall k :: k in r.entries.vals ==> r.entries.vals[k] !in r.sorted
  {
    var st0 := st.(itemClass := true);
    RewrapEffect(st0, st.entries.keys);
    var r := SetItemClass(st);
    SameItemsContents(r, st0);
    if Mirrors(st) {
      forall k | k in r.entries.vals && k in r.shadow.vals
        ensures FieldsAt(r.store, r.entries.vals[k]) == r.shadow.vals[k].fields
      {
      }
    }
  }

  // ---------------------------------------------------------------------
  // The `getAsUpdates` round trip

  /** Payloads with pairwise distinct `_id`s. */
  ghost predicate DistinctIds(docs: seq<Doc>) {
    forall i, j :: 0 <= i < j < |docs| ==> docs[i].id != docs[j].id
  }

  lemma ContentsAddOne(acc: Acc, d: Doc)
    requires Valid(acc.st) && d.id !in acc.st.entries.vals
    ensures Contents(AddOne(acc, d.id, d).st) == Contents(acc.st) + [d]
  {
    var st := acc.st;
    var r := AddOne(acc, d.id, d).st;
    var n := |st.entries.keys|;
    assert r.entries.keys == st.entries.keys + [d.id];
    var c, c0 := Contents(r), Contents(st);
    assert c[n] == d by {
      assert r.entries.keys[n] == d.id && r.entries.vals[d.id] == st.next;
    }
    forall i | 0 <= i < n ensures c[i] == c0[i] {
      var k := st.entries.keys[i];
      assert r.entries.keys[i] == k && k != d.id;
      assert st.entries.vals[k] in st.store;
    }
    assert c == c0 + [d];
  }

  lemma ContentsPushOne(acc: Acc, d: Doc)
    requires Valid(acc.st) && d.id !in acc.st.entries.vals
    ensures Valid(PushOne(acc, d).st)
    ensures Contents(PushOne(acc, d).st) == Contents(acc.st) + [d]
    ensures PushOne(acc, d).st.entries.vals.Keys == acc.st.entries.vals.Keys + {d.id}
    ensures PushOne(acc, d).st.sortList == acc.st.sortList
  {
    var a1 := AddOne(acc, d.id, d).st;
    var p := PushOne(acc, d).st;
    assert p == a1.(sorted := a1.sorted + [acc.st.next]);
    assert Valid(p) by {
      ValidAddOne(acc, d.id, d);
      assert acc.st.next in a1.store;
    }
    assert Contents(p) == Contents(acc.st) + [d] by {
      ContentsAddOne(acc, d);
      ContentsFrame(a1, p);
    }
  }

  /** `Contents` reads only the entries and the item objects. */
  lemma ContentsFrame(s1: State, s2: State)
    requires s1.entries == s2.entries && s1.store == s2.store
    ensures Contents(s1) == Contents(s2)
  {
  }

  /** `i` on an empty collection, with payloads of distinct `_id`s: the map
      holds exactly those payloads, in their order. */
  lemma {:induction false} PushAllContents(acc: Acc, docs: seq<Doc>)
    requires Valid(acc.st) && DistinctIds(docs)
    requires forall i :: 0 <= i < |docs| ==> docs[i].id !in acc.st.entries.vals
    ensures Contents(PushAll(acc, docs).st) == Contents(acc.st) + docs
    ensures PushAll(acc, docs).st.sortList == acc.st.sortList
    decreases |docs|
  {
    if docs != [] {
      var d := docs[0];
      var rest := docs[1..];
      ContentsPushOne(acc, d);
      var acc2 := PushOne(acc, d);
      assert DistinctIds(rest) by {
        forall i, j | 0 <= i < j < |rest| ensures rest[i].id != rest[j].id {
          assert rest[i] == docs[i + 1] && rest[j] == docs[j + 1];
        }
      }
      forall i | 0 <= i < |rest| ensures rest[i].id !in acc2.st.entries.vals {
        assert rest[i] == docs[i + 1];
        assert docs[0].id != docs[i + 1].id;
      }
      PushAllContents(acc2, rest);
      assert PushAll(acc, docs) == PushAll(acc2, rest);
      var c := Contents(acc.st);
      assert Contents(PushAll(acc, docs).st) == (c + [d]) + rest;
      assert (c + [d]) + rest == c + docs by {
        assert docs == [d] + rest;
        SeqAssoc(c, [d], rest);
      }
    }
  }

  /** With plain item objects, the shadow lists exactly what the map holds. */
  lemma ShadowIsContents(st: State)
    requires Valid(st) && Mirrors(st)
    ensures st.shadow.Values() == Contents(st)
    ensures DistinctIds(st.shadow.Values())
  {
    var docs := st.shadow.Values();
    forall i | 0 <= i < |docs| ensures docs[i] == Contents(st)[i] {
      var k := st.entries.keys[i];
      assert docs[i] == st.shadow.vals[k];
    }
    forall i, j | 0 <= i < j < |docs| ensures docs[i].id != docs[j].id {
      assert docs[i].id == st.entries.keys[i] && docs[j].id == st.entries.keys[j];
    }
  }

  lemma ContentsIgnoresSorted(st: State, s: seq<nat>)
    ensures Contents(st.(sorted := s)) == Contents(st)
  {
  }

  /** The `i` operation on a new collection is `PushAll` after installing
      the sort list. */
  lemma InitialOnEmpty(docs: seq<Doc>, sl: Option<seq<SortField>>)
    ensures var e1 := Empty(map[], 0).(sortList := sl, fieldsToSort := if sl.Some? then FieldsToSort(sl.value) else []);
      Valid(e1) && Contents(e1) == [] &&
      RunOps(Acc(Empty(map[], 0), false, NoChanges), [Initial(docs, sl)]) == PushAll(Acc(e1, sl.Some?, NoChanges), docs)
  {
    var acc0 := Acc(Empty(map[], 0), false, NoChanges);
    assert RunOps(acc0, [Initial(docs, sl)]) == RunOps(Step(acc0, Initial(docs, sl)), []);
  }

  /** An `i` operation with payloads of distinct `_id`s, applied to a new
      collection, leaves exactly those payloads and that sort list. */
  lemma InitialIntoEmpty(docs: seq<Doc>, sl: Option<seq<SortField>>, v: Variant)
    requires DistinctIds(docs)
    ensures var r := Apply(Empty(map[], 0), Some([Initial(docs, sl)]), v);
      r.Returned? && Contents(r.st) == docs && r.st.sortList == sl
  {
    var e1 := Empty(map[], 0).(sortList := sl, fieldsToSort := if sl.Some? then FieldsToSort(sl.value) else []);
    InitialOnEmpty(docs, sl);
    var acc := PushAll(Acc(e1, sl.Some?, NoChanges), docs);
    PushAllContents(Acc(e1, sl.Some?, NoChanges), docs);
    PushAllShouldSort(Acc(e1, sl.Some?, NoChanges), docs);
    if sl.Some? {
      ContentsIgnoresSorted(acc.st, Sort(acc.st.sorted, HandleOrder(acc.st.store, sl.value)));
    }
  }

  lemma {:induction false} PushAllShouldSort(acc: Acc, docs: seq<Doc>)
    ensures PushAll(acc, docs).shouldSort == acc.shouldSort
    decreases |docs|
  {
    if docs != [] {
      PushAllShouldSort(PushOne(acc, docs[0]), docs[1..]);
    }
  }

  /** With plain item objects, `getAsUpdates()` lists exactly what the map
      holds, and replaying it into a new collection rebuilds the same
      `_id`s, in the same order, with the same fields, and the same sort
      list. */
  lemma ReplayRestores(st: State, v: Variant)
    requires Valid(st) && Mirrors(st)
    ensures UpdatesOf(st).Some? ==> UpdatesOf(st).value[0].docs == Contents(st)
    ensures var r := Apply(Empty(map[], 0), UpdatesOf(st), v);
      r.Returned? && Contents(r.st) == Contents(st) && r.st.sortList == st.sortList
  {
    ShadowIsContents(st);
    if UpdatesOf(st).Some? {
      InitialIntoEmpty(st.shadow.Values(), st.sortList, v);
    }
  }

  // ---------------------------------------------------------------------
  // When `update` sorts

  /** Whether one operation asks for the end-of-batch sort: an `i` that
      carries a sort list, or, while a sort list is set, a `c`/`u` that
      creates an item or touches a field the list sorts on. */
  predicate RequestsSort(st: State, op: Op) {
    match op
    case Initial(_, sl) => sl.Some?
    case Create(d, arg) => st.sortList.Some? && (d.id !in st.entries.vals || TouchesSortFields(arg, d, st.fieldsToSort))
    case Change(d, arg) => st.sortList.Some? && (d.id !in st.entries.vals || TouchesSortFields(arg, d, st.fieldsToSort))
    case Delete(_) => false
    case Unrecognized => false
    case NullOp => false
  }

  /** `shouldSort` is only ever raised, and exactly by the operations that
      ask for a sort. */
  lemma SortRequested(acc: Acc, op: Op)
    ensures Step(acc, op).shouldSort == (acc.shouldSort || RequestsSort(acc.st, op))
  {
    match op
    case Initial(docs, sl) =>
      var st := acc.st.(sortList := sl, fieldsToSort := if sl.Some? then FieldsToSort(sl.value) else []);
      var acc1 := Acc(st, acc.shouldSort || sl.Some?, acc.updated);
      if |st.entries.keys| > 0 {
        var pending := Collect(EmptyMap(), docs);
        ReconcileKeepsSorted(acc1, st.entries.keys, pending);
        var r := Reconcile(acc1, st.entries.keys, pending);
        AddPendingKeepsSorted(r.0, r.1.keys, r.1);
      } else {
        PushAllShouldSort(acc1, docs);
      }
    case Create(d, arg) =>
    case Change(d, arg) =>
    case Delete(id) =>
    case Unrecognized =>
    case NullOp =>
  }

  /** A batch asks for the sort exactly when one of its operations does,
      judged on the state that operation meets. */
  lemma {:induction false} BatchRequestsSort(acc: Acc, ops: seq<Op>)
    ensures RunOps(acc, ops).shouldSort <==>
      acc.shouldSort || exists i :: 0 <= i < |ops| && RequestsSort(RunOps(acc, ops[..i]).st, ops[i])
    decreases |ops|
  {
    if ops != [] {
      SortRequested(acc, ops[0]);
      var acc1 := Step(acc, ops[0]);
      BatchRequestsSort(acc1, ops[1..]);
      assert RunOps(acc, ops[..0]) == acc;
      forall i | 1 <= i <= |ops| ensures RunOps(acc, ops[..i]) == RunOps(acc1, ops[1..][..i - 1]) {
        assert ops[..i][1..] == ops[1..][..i - 1];
      }
      if exists i :: 0 <= i < |ops[1..]| && RequestsSort(RunOps(acc1, ops[1..][..i]).st, ops[1..][i]) {
        var i :| 0 <= i < |ops[1..]| && RequestsSort(RunOps(acc1, ops[1..][..i]).st, ops[1..][i]);
        assert RequestsSort(RunOps(acc, ops[..i + 1]).st, ops[i + 1]);
      }
      if exists i :: 0 <= i < |ops| && RequestsSort(RunOps(acc, ops[..i]).st, ops[i]) {
        var i :| 0 <= i < |ops| && RequestsSort(RunOps(acc, ops[..i]).st, ops[i]);
        if i > 0 {
          assert RequestsSort(RunOps(acc1, ops[1..][..i - 1]).st, ops[1..][i - 1]);
        }
      }
    } else {
      assert RunOps(acc, ops) == acc;
    }
  }

  /** The sort runs once, after the last operation, and only if some
      operation asked for it. With a sort list in force then, `sorted` ends
      up in comparator order and holds the same item objects as before the
      sort; without one the sources leave `sorted` as it is, while the
      JavaScript build throws. */
  lemma ApplySortsAtEnd(st: State, ops: seq<Op>, v: Variant)
    ensures var acc := RunOps(Acc(st, false, NoChanges), ops); var out := Apply(st, Some(ops), v);
      (!acc.shouldSort ==> out == Returned(acc.st, acc.updated, HandlerArg(Some(ops), NullOp, v))) &&
      (acc.shouldSort && acc.st.sortList.Some? ==>
         out.Returned? && out.st == acc.st.(sorted := out.st.sorted) &&
         AdjacentSorted(out.st.sorted, HandleOrder(acc.st.store, acc.st.sortList.value)) &&
         multiset(out.st.sorted) == multiset(acc.st.sorted)) &&
      (acc.shouldSort && acc.st.sortList.None? ==>
         (v == Src ==> out == Returned(acc.st, acc.updated, HandlerArg(Some(ops), NullOp, v))) &&
         (v == Lib ==> out == Threw(acc.st)))
  {
    var acc := RunOps(Acc(st, false, NoChanges), ops);
    if acc.shouldSort && acc.st.sortList.Some? {
      HandleOrderAntisymmetric(acc.st.store, acc.st.sortList.value);
      SortSorted(acc.st.sorted, HandleOrder(acc.st.store, acc.st.sortList.value));
    }
  }

  /** Sorting by `_id` orders the item objects by their ids: an item
      created for "b" and then one for "a" end up as "a", "b". */
  lemma IdSortScenario()
    ensures var store := map[0 := Doc("b", map[]), 1 := Doc("a", map[])];
      var s: seq<nat> := [0, 1]; Sort(s, HandleOrder(store, [SortField("_id", 1)])) == [1, 0]
  {
    var store := map[0 := Doc("b", map[]), 1 := Doc("a", map[])];
    var cmp := HandleOrder(store, [SortField("_id", 1)]);
    assert StrLess("a", "b");
    assert cmp(0, 1) == 1;
    var s: seq<nat> := [0, 1];
    var t: seq<nat> := [1];
    assert s[1..] == t;
    assert Sort(t, cmp) == t;
  }

  /** In the JavaScript build an `i` with a sort list followed by one
      without, in the same batch, makes `update` throw. */
  lemma LibThrowsAfterSortListDropped(st: State, sl: seq<SortField>)
    ensures Apply(st, Some([Initial([], Some(sl)), Initial([], None)]), Lib).Threw?
    ensures Apply(st, Some([Initial([], Some(sl)), Initial([], None)]), Src).Returned?
  {
    var ops := [Initial([], Some(sl)), Initial([], None)];
    var acc0 := Acc(st, false, NoChanges);
    SortRequested(acc0, ops[0]);
    var acc1 := Step(acc0, ops[0]);
    SortRequested(acc1, ops[1]);
    var acc2 := Step(acc1, ops[1]);
    assert RunOps(acc0, ops) == RunOps(acc1, ops[1..]);
    assert ops[1..] == [Initial([], None)];
    assert RunOps(acc1, ops[1..]) == RunOps(acc2, []);
    assert acc2.st.sortList.None? by {
      var st1 := acc1.st.(sortList := None, fieldsToSort := []);
      var a := Acc(st1, acc1.shouldSort, acc1.updated);
      if |st1.entries.keys| > 0 {
        ReconcileKeepsSorted(a, st1.entries.keys, Collect(EmptyMap(), []));
        var r := Reconcile(a, st1.entries.keys, Collect(EmptyMap(), []));
        AddPendingKeepsSorted(r.0, r.1.keys, r.1);
      }
    }
  }

  /** On a non-empty map, an `i` without a sort list does not rebuild
      `sorted`: an item it deletes stays there and the item it adds is
      missing. Here the map holds `a`, and `i` with just `b` leaves `sorted`
      referring to `a`'s item object only. */
  lemma StaleSortedScenario()
    ensures var a := Doc("a", map[]); var b := Doc("b", map[]);
      var out := Apply(Empty(map[], 0), Some([Create(a, NoFields), Initial([b], None)]), Src);
      out.Returned? && out.st.entries.keys == ["b"] && out.st.entries.vals == map["b" := 1] &&
      out.st.sorted == [0] && out.updated.deleted == ["a"] && out.updated.added == [0, 1]
  {
    var a := Doc("a", map[]);
    var b := Doc("b", map[]);
    var ops := [Create(a, NoFields), Initial([b], None)];
    var acc0 := Acc(Empty(map[], 0), false, NoChanges);
    var acc1 := Acc(StaleS1(), false, Changes([0], [0], []));
    var acc2 := Acc(StaleS2(), false, Changes([0, 1], [0, 1], ["a"]));
    StaleCreate();
    StaleInitial();
    assert RunOps(acc0, ops) == RunOps(acc1, ops[1..]);
    assert ops[1..] == [Initial([b], None)];
    assert RunOps(acc1, ops[1..]) == RunOps(acc2, []);
  }

  function StaleS1(): State {
    State(JsMap(["a"], map["a" := 0]), map[0 := Doc("a", map[])], 1, JsMap(["a"], map["a" := Doc("a", map[])]),
          None, [], [0], false)
  }

  function StaleS2(): State {
    State(JsMap(["b"], map["b" := 1]), map[0 := Doc("a", map[]), 1 := Doc("b", map[])], 2,
          JsMap(["b"], map["b" := Doc("b", map[])]), None, [], [0], false)
  }

  lemma StaleCreate()
    ensures Step(Acc(Empty(map[], 0), false, NoChanges), Create(Doc("a", map[]), NoFields)) ==
            Acc(StaleS1(), false, Changes([0], [0], []))
  {
    var a := Doc("a", map[]);
    var e: JsMap<nat> := EmptyMap();
    var es: JsMap<Doc> := EmptyMap();
    assert "a" !in e.vals;
    assert e.Set("a", 0) == JsMap(["a"], map["a" := 0]);
    assert es.Set("a", a) == JsMap(["a"], map["a" := a]);
    assert Upsert(Acc(Empty(map[], 0), false, NoChanges), a, NoFields) == Acc(StaleS1(), false, Changes([0], [0], []));
  }

  /** Between the two halves of the `i`: `a` deleted, `b` still pending. */
  function StaleMid(): Acc {
    Acc(State(JsMap([], map[]), map[0 := Doc("a", map[])], 1, JsMap([], map[]), None, [], [0], false),
        false, Changes([0], [0], ["a"]))
  }

  lemma StaleDeletesA()
    ensures ReconcileOne(Acc(StaleS1(), false, Changes([0], [0], [])), "a", JsMap(["b"], map["b" := Doc("b", map[])])) ==
            (StaleMid(), JsMap(["b"], map["b" := Doc("b", map[])]))
  {
    assert "a" !in map["b" := Doc("b", map[])];
    assert IndexOf(["a"], "a") == 0;
    var e := JsMap(["a"], map["a" := 0]);
    assert e.Delete("a") == JsMap([], map[]) by {
      assert e.vals - {"a"} == map[];
    }
    var sh := JsMap(["a"], map["a" := Doc("a", map[])]);
    assert sh.Delete("a") == JsMap([], map[]) by {
      assert sh.vals - {"a"} == map[];
    }
    assert [] + ["a"] == ["a"];
  }

  lemma StaleAddsB()
    ensures AddOne(StaleMid(), "b", Doc("b", map[])) == Acc(StaleS2(), false, Changes([0, 1], [0, 1], ["a"]))
  {
    var e: JsMap<nat> := JsMap([], map[]);
    assert e.Set("b", 1) == JsMap(["b"], map["b" := 1]);
    var sh: JsMap<Doc> := JsMap([], map[]);
    assert sh.Set("b", Doc("b", map[])) == JsMap(["b"], map["b" := Doc("b", map[])]);
  }

  lemma StaleInitial()
    ensures Step(Acc(StaleS1(), false, Changes([0], [0], [])), Initial([Doc("b", map[])], None)) ==
            Acc(StaleS2(), false, Changes([0, 1], [0, 1], ["a"]))
  {
    var b := Doc("b", map[]);
    var acc1 := Acc(StaleS1(), false, Changes([0], [0], []));
    var es: JsMap<Doc> := EmptyMap();
    var pending := JsMap(["b"], map["b" := b]);
    assert Collect(es, [b]) == pending by {
      assert [b][1..] == [];
      assert es.Set("b", b) == pending;
    }
    StaleDeletesA();
    assert Reconcile(acc1, ["a"], pending) == (StaleMid(), pending);
    StaleAddsB();
    assert AddPending(StaleMid(), ["b"], pending) == AddPending(AddOne(StaleMid(), "b", b), [], pending);
  }

  // ---------------------------------------------------------------------
  // `i` on a non-empty map

  /** The `_id`s of a list of payloads. */
  ghost function IdsOf(docs: seq<Doc>): set<string> {
    set d | d in docs :: d.id
  }

  /** The keys, in order, that are not among `ids`. */
  function Unmatched(keys: seq<string>, ids: set<string>): (r: seq<string>)
    ensures forall k :: k in r <==> k in keys && k !in ids
    decreases |keys|
  {
    if keys == [] then []
    else (if keys[0] in ids then [] else [keys[0]]) + Unmatched(keys[1..], ids)
  }

  lemma {:induction false} UnmatchedAgrees(keys: seq<string>, a: set<string>, b: set<string>)
    requires forall k :: k in keys ==> (k in a <==> k in b)
    ensures Unmatched(keys, a) == Unmatched(keys, b)
    decreases |keys|
  {
    if keys != [] {
      UnmatchedAgrees(keys[1..], a, b);
    }
  }

  lemma {:induction false} CollectKeys(m: JsMap<Doc>, docs: seq<Doc>)
    ensures Collect(m, docs).vals.Keys == m.vals.Keys + IdsOf(docs)
    decreases |docs|
  {
    if docs != [] {
      CollectKeys(m.Set(docs[0].id, docs[0]), docs[1..]);
      assert IdsOf(docs) == {docs[0].id} + IdsOf(docs[1..]) by {
        assert docs == [docs[0]] + docs[1..];
      }
    }
  }

  /** The handles of the keys, in order, that are among `ids`. */
  function Matched(keys: seq<string>, ids: set<string>, vals: map<string, nat>): seq<nat>
    decreases |keys|
  {
    if keys == [] then []
    else (if keys[0] in ids && keys[0] in vals then [vals[keys[0]]] else []) + Matched(keys[1..], ids, vals)
  }

  lemma {:induction false} MatchedAgrees(keys: seq<string>, a: set<string>, b: set<string>, va: map<string, nat>, vb: map<string, nat>)
    requires forall k :: k in keys ==> (k in a <==> k in b) && (k in va <==> k in vb) && (k in va ==> va[k] == vb[k])
    ensures Matched(keys, a, va) == Matched(keys, b, vb)
    decreases |keys|
  {
    if keys != [] {
      MatchedAgrees(keys[1..], a, b, va, vb);
    }
  }

  /** The first loop lists every matched item object in the changeset, in
      map order. */
  lemma {:induction false} ReconcileElems(acc: Acc, keys: seq<string>, pending: JsMap<Doc>)
    requires NoDuplicates(keys)
    requires forall k :: k in keys ==> k in acc.st.entries.vals
    ensures Reconcile(acc, keys, pending).0.updated.elems ==
            acc.updated.elems + Matched(keys, pending.vals.Keys, acc.st.entries.vals)
    decreases |keys|
  {
    if keys != [] {
      var k0 := keys[0];
      var r1 := ReconcileOne(acc, k0, pending);
      ReconcileOneEffect(acc, k0, pending);
      NoDuplicatesTail(keys);
      assert forall k :: k in keys[1..] ==> k != k0 && k in keys by {
        assert keys == [k0] + keys[1..];
      }
      ReconcileElems(r1.0, keys[1..], r1.1);
      MatchedAgrees(keys[1..], r1.1.vals.Keys, pending.vals.Keys, r1.0.st.entries.vals, acc.st.entries.vals);
      assert Reconcile(acc, keys, pending) == Reconcile(r1.0, keys[1..], r1.1);
      var head := if k0 in pending.vals then [acc.st.entries.vals[k0]] else [];
      assert r1.0.updated.elems == acc.updated.elems + head;
      SeqAssoc(acc.updated.elems, head, Matched(keys[1..], pending.vals.Keys, acc.st.entries.vals));
    }
  }

  /** The second loop lists each new item object both in the changeset and
      as added, in the same order; all of them are new handles. */
  lemma {:induction false} AddPendingElems(acc: Acc, keys: seq<string>, pending: JsMap<Doc>)
    ensures var r := AddPending(acc, keys, pending); var n := |acc.updated.added|;
      |r.updated.added| >= n && r.updated.added[..n] == acc.updated.added &&
      r.updated.elems == acc.updated.elems + r.updated.added[n..] &&
      (forall i :: n <= i < |r.updated.added| ==> r.updated.added[i] >= acc.st.next)
    decreases |keys|
  {
    if keys != [] {
      var n := |acc.updated.added|;
      var acc1 := if keys[0] in pending.vals then AddOne(acc, keys[0], pending.vals[keys[0]]) else acc;
      AddPendingElems(acc1, keys[1..], pending);
      var r := AddPending(acc1, keys[1..], pending);
      assert r == AddPending(acc, keys, pending);
      if keys[0] in pending.vals {
        var h := acc.st.next;
        assert acc1.updated.added == acc.updated.added + [h] && acc1.updated.elems == acc.updated.elems + [h];
        assert acc1.st.next == h + 1;
        assert r.updated.added[..n] == acc1.updated.added[..n];
        assert r.updated.added[n] == h;
        assert r.updated.added[n..] == [h] + r.updated.added[n + 1..];
        SeqAssoc(acc.updated.elems, [h], r.updated.added[n + 1..]);
      }
    }
  }

  lemma ReconcileOneEffect(acc: Acc, k0: string, pending: JsMap<Doc>)
    requires k0 in acc.st.entries.vals
    ensures var r := ReconcileOne(acc, k0, pending);
      (forall k :: k in r.0.st.entries.vals <==> k in acc.st.entries.vals && (k != k0 || k0 in pending.vals)) &&
      (forall k :: k in r.1.vals <==> k in pending.vals && k != k0) &&
      (forall k :: k in r.0.st.entries.vals ==> r.0.st.entries.vals[k] == acc.st.entries.vals[k]) &&
      r.0.updated.deleted == acc.updated.deleted + (if k0 in pending.vals then [] else [k0]) &&
      r.0.updated.added == acc.updated.added && r.0.st.next == acc.st.next
  {
  }

  /** The first loop: every key is either matched (kept, with its item
      object, and dropped from `pending`) or unmatched (deleted and listed
      in `deleted`, in order). */
  lemma {:induction false} ReconcileEffect(acc: Acc, keys: seq<string>, pending: JsMap<Doc>)
    requires NoDuplicates(keys)
    requires forall k :: k in keys ==> k in acc.st.entries.vals
    ensures var r := Reconcile(acc, keys, pending);
      (forall k :: k in r.0.st.entries.vals <==> k in acc.st.entries.vals && (k !in keys || k in pending.vals)) &&
      (forall k :: k in r.1.vals <==> k in pending.vals && k !in keys) &&
      (forall k :: k in r.0.st.entries.vals ==> r.0.st.entries.vals[k] == acc.st.entries.vals[k]) &&
      r.0.updated.deleted == acc.updated.deleted + Unmatched(keys, pending.vals.Keys) &&
      r.0.updated.added == acc.updated.added && r.0.st.next == acc.st.next
    decreases |keys|
  {
    if keys != [] {
      var k0 := keys[0];
      var r1 := ReconcileOne(acc, k0, pending);
      ReconcileOneEffect(acc, k0, pending);
      NoDuplicatesTail(keys);
      ReconcileEffect(r1.0, keys[1..], r1.1);
      UnmatchedAgrees(keys[1..], r1.1.vals.Keys, pending.vals.Keys);
      assert Reconcile(acc, keys, pending) == Reconcile(r1.0, keys[1..], r1.1);
      assert forall k :: k in keys <==> k == k0 || k in keys[1..] by {
        assert keys == [k0] + keys[1..];
      }
      var head := if k0 in pending.vals then [] else [k0];
      assert Unmatched(keys, pending.vals.Keys) == head + Unmatched(keys[1..], pending.vals.Keys);
      SeqAssoc(acc.updated.deleted, head, Unmatched(keys[1..], pending.vals.Keys));
    }
  }

  lemma AddOneEffect(acc: Acc, k0: string, d: Doc)
    ensures var r := AddOne(acc, k0, d);
      r.st.entries.vals == acc.st.entries.vals[k0 := acc.st.next] && r.st.next == acc.st.next + 1 &&
      r.updated.added == acc.updated.added + [acc.st.next] && r.updated.deleted == acc.updated.deleted
  {
  }

  /** The second loop: every key left in `pending` gets a new item object,
      listed as added; the items already in the map keep theirs. */
  lemma {:induction false} AddPendingEffect(acc: Acc, keys: seq<string>, pending: JsMap<Doc>)
    requires NoDuplicates(keys)
    requires forall k :: k in keys ==> k !in acc.st.entries.vals
    ensures var r := AddPending(acc, keys, pending);
      (forall k :: k in r.st.entries.vals <==> k in acc.st.entries.vals || (k in keys && k in pending.vals)) &&
      (forall k :: k in acc.st.entries.vals ==> r.st.entries.vals[k] == acc.st.entries.vals[k]) &&
      (forall k :: k in r.st.entries.vals && k !in acc.st.entries.vals ==>
         r.st.entries.vals[k] >= acc.st.next && r.st.entries.vals[k] in r.updated.added) &&
      r.updated.deleted == acc.updated.deleted && r.st.next >= acc.st.next &&
      (forall h :: h in acc.updated.added ==> h in r.updated.added)
    decreases |keys|
  {
    if keys != [] {
      var k0 := keys[0];
      NoDuplicatesTail(keys);
      var acc1 := if k0 in pending.vals then AddOne(acc, k0, pending.vals[k0]) else acc;
      if k0 in pending.vals {
        AddOneEffect(acc, k0, pending.vals[k0]);
      }
      AddPendingEffect(acc1, keys[1..], pending);
      assert AddPending(acc, keys, pending) == AddPending(acc1, keys[1..], pending);
      assert forall k :: k in keys <==> k == k0 || k in keys[1..] by {
        assert keys == [k0] + keys[1..];
      }
    }
  }

  /** `i` on a non-empty map: afterwards the map holds exactly the `_id`s of
      the payloads. A matched `_id` keeps its item object; an old `_id`
      without a payload is deleted and listed in `deleted`, in map order; a
      new `_id` gets a new item object, listed as added. `sorted` is
      rebuilt in payload order only when the operation carries a sort
      list. */
  lemma InitialNonEmpty(acc: Acc, docs: seq<Doc>, sl: Option<seq<SortField>>)
    requires Valid(acc.st) && |acc.st.entries.keys| > 0
    ensures var r := InitialOp(acc, docs, sl); var vals := acc.st.entries.vals;
      r.st.entries.vals.Keys == IdsOf(docs) &&
      (forall k :: k in vals && k in r.st.entries.vals ==> r.st.entries.vals[k] == vals[k]) &&
      (forall k :: k in r.st.entries.vals && k !in vals ==>
         r.st.entries.vals[k] >= acc.st.next && r.st.entries.vals[k] in r.updated.added) &&
      r.updated.deleted == acc.updated.deleted + Unmatched(acc.st.entries.keys, IdsOf(docs)) &&
      (var n := |acc.updated.added|;
       |r.updated.added| >= n && r.updated.added[..n] == acc.updated.added &&
       r.updated.elems == acc.updated.elems + Matched(acc.st.entries.keys, IdsOf(docs), vals) + r.updated.added[n..] &&
       (forall i :: n <= i < |r.updated.added| ==> r.updated.added[i] >= acc.st.next)) &&
      r.st.sorted == (if sl.Some? then HandlesOf(docs, r.st.entries.vals) else acc.st.sorted) &&
      r.st.sortList == sl
  {
    var st := acc.st.(sortList := sl, fieldsToSort := if sl.Some? then FieldsToSort(sl.value) else []);
    var acc1 := Acc(st, acc.shouldSort || sl.Some?, acc.updated);
    assert Valid(st) by {
      assert st.entries == acc.st.entries && st.shadow == acc.st.shadow && st.store == acc.st.store;
    }
    InitialPasses(acc1, docs);
  }

  /** The two loops of an `i` on a non-empty map, before `sorted` is
      rebuilt. */
  lemma InitialPasses(acc: Acc, docs: seq<Doc>)
    requires Valid(acc.st) && |acc.st.entries.keys| > 0
    ensures var pending := Collect(EmptyMap(), docs);
      var r := Reconcile(acc, acc.st.entries.keys, pending);
      var fin := AddPending(r.0, r.1.keys, r.1); var vals := acc.st.entries.vals;
      fin.st.entries.vals.Keys == IdsOf(docs) &&
      (forall k :: k in vals && k in fin.st.entries.vals ==> fin.st.entries.vals[k] == vals[k]) &&
      (forall k :: k in fin.st.entries.vals && k !in vals ==>
         fin.st.entries.vals[k] >= acc.st.next && fin.st.entries.vals[k] in fin.updated.added) &&
      fin.updated.deleted == acc.updated.deleted + Unmatched(acc.st.entries.keys, IdsOf(docs)) &&
      (var n := |acc.updated.added|;
       |fin.updated.added| >= n && fin.updated.added[..n] == acc.updated.added &&
       fin.updated.elems == acc.updated.elems + Matched(acc.st.entries.keys, IdsOf(docs), vals) + fin.updated.added[n..] &&
       (forall i :: n <= i < |fin.updated.added| ==> fin.updated.added[i] >= acc.st.next)) &&
      fin.st.sorted == acc.st.sorted && fin.st.sortList == acc.st.sortList
  {
    var pending := Collect(EmptyMap(), docs);
    var r := Reconcile(acc, acc.st.entries.keys, pending);
    var fin := AddPending(r.0, r.1.keys, r.1); var vals := acc.st.entries.vals;
    assert fin.st.entries.vals.Keys == IdsOf(docs) &&
      (forall k :: k in vals && k in fin.st.entries.vals ==> fin.st.entries.vals[k] == vals[k]) &&
      (forall k :: k in fin.st.entries.vals && k !in vals ==>
         fin.st.entries.vals[k] >= acc.st.next && fin.st.entries.vals[k] in fin.updated.added) &&
      fin.updated.deleted == acc.updated.deleted + Unmatched(acc.st.entries.keys, IdsOf(docs))
    by {
      PassesEntries(acc, docs);
    }
    assert fin.st.sorted == acc.st.sorted && fin.st.sortList == acc.st.sortList by {
      ReconcileKeepsSorted(acc, acc.st.entries.keys, pending);
      AddPendingKeepsSorted(r.0, r.1.keys, r.1);
    }
    InitialElems(acc, docs);
  }

  /** The entries after both loops of an `i` on a non-empty map, and the
      `_id`s listed as deleted. */
  lemma PassesEntries(acc: Acc, docs: seq<Doc>)
    requires Valid(acc.st)
    ensures var pending := Collect(EmptyMap(), docs);
      var r := Reconcile(acc, acc.st.entries.keys, pending);
      var fin := AddPending(r.0, r.1.keys, r.1); var vals := acc.st.entries.vals;
      fin.st.entries.vals.Keys == IdsOf(docs) &&
      (forall k :: k in vals && k in fin.st.entries.vals ==> fin.st.entries.vals[k] == vals[k]) &&
      (forall k :: k in fin.st.entries.vals && k !in vals ==>
         fin.st.entries.vals[k] >= acc.st.next && fin.st.entries.vals[k] in fin.updated.added) &&
      fin.updated.deleted == acc.updated.deleted + Unmatched(acc.st.entries.keys, IdsOf(docs))
  {
    var pending := Collect(EmptyMap(), docs);
    var r := Reconcile(acc, acc.st.entries.keys, pending);
    var fin := AddPending(r.0, r.1.keys, r.1);
    InitialMatches(acc, docs);
    AddPendingEffect(r.0, r.1.keys, r.1);
    forall k ensures k in fin.st.entries.vals <==> k in IdsOf(docs) {
      assert k in r.1.keys <==> k in r.1.vals;
    }
  }

  /** The changeset of an `i` on a non-empty map: the matched item objects
      in map order, then the new ones, which are also the added ones. */
  lemma InitialElems(acc: Acc, docs: seq<Doc>)
    requires Valid(acc.st)
    ensures var pending := Collect(EmptyMap(), docs);
      var r := Reconcile(acc, acc.st.entries.keys, pending);
      var fin := AddPending(r.0, r.1.keys, r.1); var n := |acc.updated.added|;
      |fin.updated.added| >= n && fin.updated.added[..n] == acc.updated.added &&
      fin.updated.elems == acc.updated.elems + Matched(acc.st.entries.keys, IdsOf(docs), acc.st.entries.vals) + fin.updated.added[n..] &&
      (forall i :: n <= i < |fin.updated.added| ==> fin.updated.added[i] >= acc.st.next)
  {
    var pending := Collect(EmptyMap(), docs);
    var keys := acc.st.entries.keys;
    var r := Reconcile(acc, keys, pending);
    assert pending.vals.Keys == IdsOf(docs) by {
      CollectKeys(EmptyMap(), docs);
    }
    assert r.0.updated.elems == acc.updated.elems + Matched(keys, IdsOf(docs), acc.st.entries.vals) by {
      ReconcileElems(acc, keys, pending);
    }
    assert r.0.updated.added == acc.updated.added && r.0.st.next == acc.st.next by {
      ReconcileKeepsAdded(acc, keys, pending);
    }
    AddPendingElems(r.0, r.1.keys, r.1);
  }

  lemma {:induction false} ReconcileKeepsAdded(acc: Acc, keys: seq<string>, pending: JsMap<Doc>)
    ensures var r := Reconcile(acc, keys, pending).0;
      r.updated.added == acc.updated.added && r.st.next == acc.st.next
    decreases |keys|
  {
    if keys != [] {
      var r1 := ReconcileOne(acc, keys[0], pending);
      ReconcileKeepsAdded(r1.0, keys[1..], r1.1);
    }
  }

  /** The first loop of an `i` on a non-empty map, with the payloads
      collected by `_id`. */
  lemma InitialMatches(acc: Acc, docs: seq<Doc>)
    requires Valid(acc.st)
    ensures var r := Reconcile(acc, acc.st.entries.keys, Collect(EmptyMap(), docs)); var vals := acc.st.entries.vals;
      (forall k :: k in r.0.st.entries.vals <==> k in vals && k in IdsOf(docs)) &&
      (forall k :: k in r.1.vals <==> k in IdsOf(docs) && k !in vals) &&
      (forall k :: k in r.0.st.entries.vals ==> r.0.st.entries.vals[k] == vals[k]) &&
      r.0.updated.deleted == acc.updated.deleted + Unmatched(acc.st.entries.keys, IdsOf(docs)) &&
      r.0.updated.added == acc.updated.added && r.0.st.next == acc.st.next &&
      NoDuplicates(r.1.keys) && (forall k :: k in r.1.keys <==> k in r.1.vals) &&
      r.0.st.sorted == acc.st.sorted && r.0.st.sortList == acc.st.sortList
  {
    var pending := Collect(EmptyMap(), docs);
    CollectKeyedById(EmptyMap(), docs);
    CollectKeys(EmptyMap(), docs);
    assert pending.vals.Keys == IdsOf(docs);
    var keys := acc.st.entries.keys;
    ReconcileEffect(acc, keys, pending);
    ValidReconcile(acc, keys, pending);
    ReconcileKeepsSorted(acc, keys, pending);
  }

  // ---------------------------------------------------------------------
  // `i` on a non-empty map: order, payloads and fields

  /** The keys, in order, that are among `ids`. */
  function Among(keys: seq<string>, ids: set<string>): (r: seq<string>)
    ensures forall k :: k in r <==> k in keys && k in ids
    decreases |keys|
  {
    if keys == [] then []
    else (if keys[0] in ids then [keys[0]] else []) + Among(keys[1..], ids)
  }

  lemma {:induction false} AmongAgrees(keys: seq<string>, a: set<string>, b: set<string>)
    requires forall k :: k in keys ==> (k in a <==> k in b)
    ensures Among(keys, a) == Among(keys, b)
    decreases |keys|
  {
    if keys != [] {
      AmongAgrees(keys[1..], a, b);
    }
  }

  lemma {:induction false} UnmatchedNone(keys: seq<string>, ids: set<string>)
    requires forall k :: k in keys ==> k !in ids
    ensures Unmatched(keys, ids) == keys
    decreases |keys|
  {
    if keys != [] {
      UnmatchedNone(keys[1..], ids);
    }
  }

  lemma {:induction false} UnmatchedConcat(a: seq<string>, b: seq<string>, ids: set<string>)
    ensures Unmatched(a + b, ids) == Unmatched(a, ids) + Unmatched(b, ids)
    decreases |a|
  {
    if a != [] {
      var head := if a[0] in ids then [] else [a[0]];
      assert (a + b)[0] == a[0] && (a + b)[1..] == a[1..] + b;
      assert Unmatched(a + b, ids) == head + Unmatched(a[1..] + b, ids);
      UnmatchedConcat(a[1..], b, ids);
      SeqAssoc(head, Unmatched(a[1..], ids), Unmatched(b, ids));
    } else {
      assert a + b == b;
    }
  }

  lemma {:induction false} UnmatchedTwice(keys: seq<string>, a: set<string>, b: set<string>)
    ensures Unmatched(Unmatched(keys, a), b) == Unmatched(keys, a + b)
    decreases |keys|
  {
    if keys != [] {
      var head := if keys[0] in a then [] else [keys[0]];
      UnmatchedConcat(head, Unmatched(keys[1..], a), b);
      UnmatchedTwice(keys[1..], a, b);
    }
  }

  /** `map.delete(k)` on a valid map keeps the other keys in their order. */
  lemma DeleteKeepsOrder<V>(m: JsMap<V>, k: string)
    requires m.Valid()
    ensures m.Delete(k).keys == Unmatched(m.keys, {k})
  {
    if k in m.keys {
      var i := IndexOf(m.keys, k);
      var before, after := m.keys[..i], m.keys[i + 1..];
      assert m.keys == before + [k] + after;
      DeleteBetween(m, before, k, after);
      assert k !in before;
      assert k !in after by {
        forall j | i < j < |m.keys| ensures m.keys[j] != k {
          assert m.keys[j] != m.keys[i];
        }
      }
      UnmatchedNone(before, {k});
      UnmatchedNone(after, {k});
      assert Unmatched([k], {k}) == [];
      UnmatchedConcat(before + [k], after, {k});
      UnmatchedConcat(before, [k], {k});
      assert before + [] == before;
    } else {
      UnmatchedNone(m.keys, {k});
    }
  }

  /** One step of the first loop on a key of the map: a matched key leaves
      `pending`, an unmatched one leaves the map. */
  lemma ReconcileOneMaps(acc: Acc, k0: string, pending: JsMap<Doc>)
    requires k0 in acc.st.entries.vals
    ensures var r := ReconcileOne(acc, k0, pending);
      r.0.st.entries == (if k0 in pending.vals then acc.st.entries else acc.st.entries.Delete(k0)) &&
      r.1 == (if k0 in pending.vals then pending.Delete(k0) else pending)
  {
  }

  /** Collecting payloads never touches a key none of them carries. */
  lemma {:induction false} CollectKeepsOthers(m: JsMap<Doc>, docs: seq<Doc>, k: string)
    requires k in m.vals && k !in IdsOf(docs)
    ensures k in Collect(m, docs).vals && Collect(m, docs).vals[k] == m.vals[k]
    decreases |docs|
  {
    if docs != [] {
      assert docs[0] in docs;
      assert IdsOf(docs[1..]) <= IdsOf(docs) by {
        forall d | d in docs[1..] ensures d in docs {
        }
      }
      CollectKeepsOthers(m.Set(docs[0].id, docs[0]), docs[1..], k);
    }
  }

  /** In `updatesMap` the last payload carrying an `_id` wins. */
  lemma {:induction false} CollectLastWins(m: JsMap<Doc>, docs: seq<Doc>, j: nat)
    requires j < |docs| && forall i :: j < i < |docs| ==> docs[i].id != docs[j].id
    ensures docs[j].id in Collect(m, docs).vals && Collect(m, docs).vals[docs[j].id] == docs[j]
    decreases |docs|
  {
    var m1 := m.Set(docs[0].id, docs[0]);
    if j == 0 {
      assert docs[0].id !in IdsOf(docs[1..]) by {
        forall d | d in docs[1..] ensures d.id != docs[0].id {
          var i :| 0 <= i < |docs[1..]| && docs[1..][i] == d;
          assert docs[i + 1] == d;
        }
      }
      CollectKeepsOthers(m1, docs[1..], docs[0].id);
    } else {
      CollectLastWins(m1, docs[1..], j - 1);
      assert docs[1..][j - 1] == docs[j];
    }
  }

  /** The first loop keeps the matched keys where they were and closes the
      gaps left by the deleted ones. */
  lemma {:induction false} ReconcileOrder(acc: Acc, done: seq<string>, keys: seq<string>, pending: JsMap<Doc>)
    requires acc.st.entries.Valid() && acc.st.entries.keys == done + keys
    ensures Reconcile(acc, keys, pending).0.st.entries.keys == done + Among(keys, pending.vals.Keys)
    decreases |keys|
  {
    if keys != [] {
      var k0, rest := keys[0], keys[1..];
      var entries := acc.st.entries;
      assert entries.keys == done + [k0] + rest;
      assert k0 in entries.vals by {
        assert entries.keys[|done|] == k0;
      }
      assert k0 !in rest by {
        assert entries.keys[|done|] == k0;
        forall j | 0 <= j < |rest| ensures rest[j] != k0 {
          assert rest[j] == entries.keys[|done| + 1 + j];
        }
      }
      var r1 := ReconcileOne(acc, k0, pending);
      ReconcileOneMaps(acc, k0, pending);
      assert Reconcile(acc, keys, pending) == Reconcile(r1.0, rest, r1.1);
      if k0 in pending.vals {
        SeqAssoc(done, [k0], rest);
        ReconcileOrder(r1.0, done + [k0], rest, r1.1);
        AmongAgrees(rest, r1.1.vals.Keys, pending.vals.Keys);
        assert Among(keys, pending.vals.Keys) == [k0] + Among(rest, pending.vals.Keys);
        SeqAssoc(done, [k0], Among(rest, pending.vals.Keys));
      } else {
        DeleteBetween(entries, done, k0, rest);
        ReconcileOrder(r1.0, done, rest, r1.1);
        assert Among(keys, pending.vals.Keys) == Among(rest, pending.vals.Keys);
      }
    }
  }

  /** What the first loop leaves in `pending`: the payloads whose `_id` is
      not among the map's keys, in their own order and unchanged. */
  lemma KeySetCons(keys: seq<string>)
    requires keys != []
    ensures (set k | k in keys) == {keys[0]} + (set k | k in keys[1..])
  {
    assert keys == [keys[0]] + keys[1..];
  }

  /** One step of the first loop takes only the visited key out of
      `updatesMap`, and drops no other key of the map. */
  lemma ReconcileOneLeftover(acc: Acc, k0: string, pending: JsMap<Doc>)
    requires pending.Valid() && k0 in acc.st.entries.vals
    ensures var r := ReconcileOne(acc, k0, pending);
      r.1.Valid() && r.1.keys == Unmatched(pending.keys, {k0}) &&
      (forall k :: k in r.1.vals ==> k in pending.vals && r.1.vals[k] == pending.vals[k]) &&
      (forall k :: k != k0 && k in acc.st.entries.vals ==> k in r.0.st.entries.vals)
  {
    ReconcileOneMaps(acc, k0, pending);
    ReconcileOneEffect(acc, k0, pending);
    if k0 in pending.vals {
      DeleteKeepsOrder(pending, k0);
    } else {
      UnmatchedNone(pending.keys, {k0});
    }
  }

  lemma {:induction false} ReconcileLeftover(acc: Acc, keys: seq<string>, pending: JsMap<Doc>)
    requires pending.Valid() && NoDuplicates(keys)
    requires forall k :: k in keys ==> k in acc.st.entries.vals
    ensures var r := Reconcile(acc, keys, pending).1;
      r.keys == Unmatched(pending.keys, set k | k in keys) &&
      forall k :: k in r.vals ==> k in pending.vals && r.vals[k] == pending.vals[k]
    decreases |keys|
  {
    if keys == [] {
      assert (set k | k in keys) == {};
      UnmatchedNone(pending.keys, {});
    } else {
      var k0, rest := keys[0], keys[1..];
      var r1 := ReconcileOne(acc, k0, pending);
      assert keys == [k0] + rest;
      assert k0 !in rest by {
        assert keys[0] == k0;
      }
      NoDuplicatesTail(keys);
      ReconcileOneLeftover(acc, k0, pending);
      ReconcileLeftover(r1.0, rest, r1.1);
      assert Reconcile(acc, keys, pending).1 == Reconcile(r1.0, rest, r1.1).1;
      UnmatchedTwice(pending.keys, {k0}, (set k | k in rest));
      KeySetCons(keys);
    }
  }

  /** The second loop appends the new keys, in the order given. */
  lemma {:induction false} AddPendingOrder(acc: Acc, keys: seq<string>, pending: JsMap<Doc>)
    requires acc.st.entries.Valid() && NoDuplicates(keys)
    requires forall k :: k in keys ==> k in pending.vals && k !in acc.st.entries.vals
    ensures AddPending(acc, keys, pending).st.entries.keys == acc.st.entries.keys + keys
    decreases |keys|
  {
    if keys != [] {
      var k0 := keys[0];
      var acc1 := AddOne(acc, k0, pending.vals[k0]);
      assert acc1.st.entries.keys == acc.st.entries.keys + [k0] && acc1.st.entries.Valid() by {
        assert k0 in keys;
      }
      NoDuplicatesTail(keys);
      assert forall k :: k in keys[1..] ==> k != k0 && k in keys by {
        assert keys == [k0] + keys[1..];
      }
      AddPendingOrder(acc1, keys[1..], pending);
      SeqAssoc(acc.st.entries.keys, [k0], keys[1..]);
    }
  }

  /** The fields the item object under `k` holds once it has taken the
      payload `d` of an `i`: a plain object first loses the fields of the
      stored payload, a `SubscriptionMapItem` only assigns. */
  ghost function Took(st: State, k: string, d: Doc): Record
    requires k in st.entries.vals
  {
    var fields := FieldsAt(st.store, st.entries.vals[k]);
    if st.itemClass then fields + d.fields
    else ReplaceFields(fields, if k in st.shadow.vals then st.shadow.vals[k].fields.Keys else {}, d.fields)
  }

  /** Every entry's item object exists and carries the entry's `_id`, so
      different keys have different item objects. */
  ghost predicate Owned(st: State) {
    forall x :: x in st.entries.vals ==> st.entries.vals[x] in st.store && st.store[st.entries.vals[x]].id == x
  }

  lemma OwnedReconcileOne(acc: Acc, k0: string, pending: JsMap<Doc>)
    requires Owned(acc.st) && KeyedById(pending)
    ensures Owned(ReconcileOne(acc, k0, pending).0.st) && KeyedById(ReconcileOne(acc, k0, pending).1)
  {
  }

  /** One step of the first loop touches only the entry, payload and item
      object of its own key. */
  lemma ReconcileOneKeeps(acc: Acc, k0: string, pending: JsMap<Doc>, k: string)
    requires Owned(acc.st) && k0 in acc.st.entries.vals && k in acc.st.entries.vals && k != k0
    ensures var r := ReconcileOne(acc, k0, pending); var st := acc.st;
      r.0.st.itemClass == st.itemClass &&
      k in r.0.st.entries.vals && r.0.st.entries.vals[k] == st.entries.vals[k] &&
      (k in r.0.st.shadow.vals <==> k in st.shadow.vals) &&
      (k in st.shadow.vals ==> r.0.st.shadow.vals[k] == st.shadow.vals[k]) &&
      FieldsAt(r.0.st.store, st.entries.vals[k]) == FieldsAt(st.store, st.entries.vals[k]) &&
      (k in r.1.vals <==> k in pending.vals) && (k in pending.vals ==> r.1.vals[k] == pending.vals[k])
  {
    var st := acc.st;
    assert st.entries.vals[k] != st.entries.vals[k0] by {
      assert st.store[st.entries.vals[k]].id == k && st.store[st.entries.vals[k0]].id == k0;
    }
  }

  /** The first loop leaves alone a key it does not visit. */
  lemma {:induction false} ReconcileFrame(acc: Acc, keys: seq<string>, pending: JsMap<Doc>, k: string)
    requires Owned(acc.st) && KeyedById(pending) && NoDuplicates(keys)
    requires forall x :: x in keys ==> x in acc.st.entries.vals
    requires k in acc.st.entries.vals && k !in keys
    ensures var r := Reconcile(acc, keys, pending).0; var st := acc.st;
      k in r.st.entries.vals && r.st.entries.vals[k] == st.entries.vals[k] &&
      (k in r.st.shadow.vals <==> k in st.shadow.vals) &&
      (k in st.shadow.vals ==> r.st.shadow.vals[k] == st.shadow.vals[k]) &&
      FieldsAt(r.st.store, st.entries.vals[k]) == FieldsAt(st.store, st.entries.vals[k])
    decreases |keys|
  {
    if keys != [] {
      var k0, rest := keys[0], keys[1..];
      var r1 := ReconcileOne(acc, k0, pending);
      assert keys == [k0] + rest;
      assert k0 !in rest by {
        assert keys[0] == k0;
      }
      NoDuplicatesTail(keys);
      ReconcileOneKeeps(acc, k0, pending, k);
      ReconcileOneEffect(acc, k0, pending);
      OwnedReconcileOne(acc, k0, pending);
      ReconcileFrame(r1.0, rest, r1.1, k);
      assert Reconcile(acc, keys, pending) == Reconcile(r1.0, rest, r1.1);
    }
  }

  /** One step of the first loop on a matched key: the item object keeps
      its place and takes the payload, which is stored. */
  lemma ReconcileOneTakes(acc: Acc, k0: string, pending: JsMap<Doc>)
    requires k0 in acc.st.entries.vals && k0 in pending.vals
    ensures var r := ReconcileOne(acc, k0, pending).0; var st := acc.st;
      k0 in r.st.entries.vals && r.st.entries.vals[k0] == st.entries.vals[k0] &&
      k0 in r.st.shadow.vals && r.st.shadow.vals[k0] == pending.vals[k0] &&
      FieldsAt(r.st.store, st.entries.vals[k0]) == Took(st, k0, pending.vals[k0])
  {
  }

  /** The first loop: a matched key keeps its item object, which takes its
      payload, and the payload is stored. */
  lemma {:induction false} ReconcileFields(acc: Acc, keys: seq<string>, pending: JsMap<Doc>, k: string)
    requires Owned(acc.st) && KeyedById(pending) && NoDuplicates(keys)
    requires forall x :: x in keys ==> x in acc.st.entries.vals
    requires k in keys && k in pending.vals
    ensures var r := Reconcile(acc, keys, pending).0; var st := acc.st;
      k in r.st.entries.vals && r.st.entries.vals[k] == st.entries.vals[k] &&
      k in r.st.shadow.vals && r.st.shadow.vals[k] == pending.vals[k] &&
      FieldsAt(r.st.store, st.entries.vals[k]) == Took(st, k, pending.vals[k])
    decreases |keys|
  {
    var k0, rest := keys[0], keys[1..];
    var r1 := ReconcileOne(acc, k0, pending);
    assert keys == [k0] + rest;
    assert k0 !in rest by {
      assert keys[0] == k0;
    }
    NoDuplicatesTail(keys);
    ReconcileOneEffect(acc, k0, pending);
    OwnedReconcileOne(acc, k0, pending);
    assert Reconcile(acc, keys, pending) == Reconcile(r1.0, rest, r1.1);
    if k == k0 {
      ReconcileOneTakes(acc, k0, pending);
      ReconcileFrame(r1.0, rest, r1.1, k);
    } else {
      ReconcileOneKeeps(acc, k0, pending, k);
      ReconcileFields(r1.0, rest, r1.1, k);
    }
  }

  /** Every item object has a handle below `next`. */
  ghost predicate Allocated(st: State) {
    forall h :: h in st.store ==> h < st.next
  }

  /** One step of the second loop: the new item object takes a fresh
      handle, so the entries already in the map keep theirs untouched. */
  lemma AddOneKeeps(acc: Acc, k0: string, d: Doc)
    requires Owned(acc.st) && Allocated(acc.st) && d.id == k0 && k0 !in acc.st.entries.vals
    ensures var r := AddOne(acc, k0, d).st; var st := acc.st;
      Owned(r) && Allocated(r) && k0 in r.entries.vals && k0 in r.shadow.vals && r.shadow.vals[k0] == d &&
      FieldsAt(r.store, r.entries.vals[k0]) == d.fields &&
      forall k :: k in st.entries.vals ==>
        k in r.entries.vals && r.entries.vals[k] == st.entries.vals[k] &&
        (k in r.shadow.vals <==> k in st.shadow.vals) && (k in st.shadow.vals ==> r.shadow.vals[k] == st.shadow.vals[k]) &&
        FieldsAt(r.store, st.entries.vals[k]) == FieldsAt(st.store, st.entries.vals[k])
  {
  }

  /** The second loop: a key left in `pending` gets a new item object
      holding exactly its payload, and the payload is stored. */
  lemma {:induction false} AddPendingFields(acc: Acc, keys: seq<string>, pending: JsMap<Doc>, k: string)
    requires Owned(acc.st) && Allocated(acc.st) && KeyedById(pending) && NoDuplicates(keys)
    requires forall x :: x in keys ==> x !in acc.st.entries.vals
    requires k in keys && k in pending.vals
    ensures var r := AddPending(acc, keys, pending);
      k in r.st.entries.vals && k in r.st.shadow.vals && r.st.shadow.vals[k] == pending.vals[k] &&
      FieldsAt(r.st.store, r.st.entries.vals[k]) == pending.vals[k].fields
    decreases |keys|
  {
    var k0, rest := keys[0], keys[1..];
    assert keys == [k0] + rest;
    assert k0 !in rest by {
      assert keys[0] == k0;
    }
    NoDuplicatesTail(keys);
    var acc1 := if k0 in pending.vals then AddOne(acc, k0, pending.vals[k0]) else acc;
    if k0 in pending.vals {
      AddOneKeeps(acc, k0, pending.vals[k0]);
    }
    assert AddPending(acc, keys, pending) == AddPending(acc1, rest, pending);
    if k == k0 {
      AddPendingFrame(acc1, rest, pending, k);
    } else {
      AddPendingFields(acc1, rest, pending, k);
    }
  }

  /** The second loop leaves alone an entry already in the map. */
  lemma {:induction false} AddPendingFrame(acc: Acc, keys: seq<string>, pending: JsMap<Doc>, k: string)
    requires Owned(acc.st) && Allocated(acc.st) && KeyedById(pending)
    requires forall x :: x in keys ==> x !in acc.st.entries.vals
    requires k in acc.st.entries.vals && k !in keys && NoDuplicates(keys)
    ensures var r := AddPending(acc, keys, pending); var st := acc.st;
      k in r.st.entries.vals && r.st.entries.vals[k] == st.entries.vals[k] &&
      (k in r.st.shadow.vals <==> k in st.shadow.vals) && (k in st.shadow.vals ==> r.st.shadow.vals[k] == st.shadow.vals[k]) &&
      FieldsAt(r.st.store, st.entries.vals[k]) == FieldsAt(st.store, st.entries.vals[k])
    decreases |keys|
  {
    if keys != [] {
      var k0, rest := keys[0], keys[1..];
      assert keys == [k0] + rest;
      assert k0 !in rest by {
        assert keys[0] == k0;
      }
      NoDuplicatesTail(keys);
      var acc1 := if k0 in pending.vals then AddOne(acc, k0, pending.vals[k0]) else acc;
      if k0 in pending.vals {
        AddOneKeeps(acc, k0, pending.vals[k0]);
      }
      AddPendingFrame(acc1, rest, pending, k);
      assert AddPending(acc, keys, pending) == AddPending(acc1, rest, pending);
    }
  }

  /** The key order after the two loops: the matched keys in map order,
      then the new ones in the order of `updatesMap`. */
  lemma PassesOrder(acc: Acc, docs: seq<Doc>)
    requires Valid(acc.st)
    ensures var upd := Collect(EmptyMap(), docs); var r := Reconcile(acc, acc.st.entries.keys, upd);
      AddPending(r.0, r.1.keys, r.1).st.entries.keys ==
      Among(acc.st.entries.keys, IdsOf(docs)) + Unmatched(upd.keys, acc.st.entries.vals.Keys)
  {
    var upd := Collect(EmptyMap(), docs);
    var keys := acc.st.entries.keys;
    var r := Reconcile(acc, keys, upd);
    CollectKeyedById(EmptyMap(), docs);
    assert r.0.st.entries.Valid() && NoDuplicates(r.1.keys) &&
      forall k :: k in r.1.keys ==> k in r.1.vals && k !in r.0.st.entries.vals
    by {
      InitialMatches(acc, docs);
      ValidReconcile(acc, keys, upd);
    }
    assert r.1.keys == Unmatched(upd.keys, acc.st.entries.vals.Keys) by {
      ReconcileLeftover(acc, keys, upd);
      UnmatchedAgrees(upd.keys, (set k | k in keys), acc.st.entries.vals.Keys);
    }
    assert r.0.st.entries.keys == Among(keys, IdsOf(docs)) by {
      assert acc.st.entries.keys == [] + keys;
      ReconcileOrder(acc, [], keys, upd);
      CollectKeys(EmptyMap(), docs);
      AmongAgrees(keys, upd.vals.Keys, IdsOf(docs));
      assert [] + Among(keys, upd.vals.Keys) == Among(keys, upd.vals.Keys);
    }
    AddPendingOrder(r.0, r.1.keys, r.1);
  }

  /** What the two loops leave for one `_id` of the payloads: its payload
      is stored, a matched item object has taken it and a new one holds
      exactly it. */
  lemma PassesPayload(acc: Acc, docs: seq<Doc>, k: string)
    requires Valid(acc.st) && k in IdsOf(docs)
    ensures var upd := Collect(EmptyMap(), docs); var r := Reconcile(acc, acc.st.entries.keys, upd);
      var fin := AddPending(r.0, r.1.keys, r.1).st;
      k in upd.vals && k in fin.entries.vals && k in fin.shadow.vals && fin.shadow.vals[k] == upd.vals[k] &&
      (k in acc.st.entries.vals ==> FieldsAt(fin.store, fin.entries.vals[k]) == Took(acc.st, k, upd.vals[k])) &&
      (k !in acc.st.entries.vals ==> FieldsAt(fin.store, fin.entries.vals[k]) == upd.vals[k].fields)
  {
    var upd := Collect(EmptyMap(), docs);
    var keys := acc.st.entries.keys;
    var r := Reconcile(acc, keys, upd);
    CollectKeyedById(EmptyMap(), docs);
    CollectKeys(EmptyMap(), docs);
    InitialMatches(acc, docs);
    ValidReconcile(acc, keys, upd);
    assert Owned(acc.st) && Owned(r.0.st) && Allocated(r.0.st);
    if k in acc.st.entries.vals {
      ReconcileFields(acc, keys, upd, k);
      AddPendingFrame(r.0, r.1.keys, r.1, k);
    } else {
      ReconcileLeftover(acc, keys, upd);
      AddPendingFields(r.0, r.1.keys, r.1, k);
    }
  }

  /** `i` on a non-empty map, item by item: the matched keys stay in map
      order and the new ones follow in the order of `updatesMap` (the
      payloads collected by `_id`, the last payload for an `_id` winning);
      every `_id` stores its payload; a matched plain item object loses the
      fields of its previous payload and takes the new ones, a matched
      `SubscriptionMapItem` only assigns them, and a new item object holds
      exactly its payload. */
  lemma InitialContents(acc: Acc, docs: seq<Doc>, sl: Option<seq<SortField>>)
    requires Valid(acc.st) && |acc.st.entries.keys| > 0
    ensures var r := InitialOp(acc, docs, sl); var st := acc.st; var upd := Collect(EmptyMap(), docs);
      r.st.entries.keys == Among(st.entries.keys, IdsOf(docs)) + Unmatched(upd.keys, st.entries.vals.Keys) &&
      (forall k :: k in IdsOf(docs) ==>
         k in upd.vals && k in r.st.entries.vals && k in r.st.shadow.vals && r.st.shadow.vals[k] == upd.vals[k]) &&
      (forall k :: k in IdsOf(docs) && k in st.entries.vals && !st.itemClass ==>
         FieldsAt(r.st.store, r.st.entries.vals[k]) ==
         ReplaceFields(FieldsAt(st.store, st.entries.vals[k]), st.shadow.vals[k].fields.Keys, upd.vals[k].fields)) &&
      (forall k :: k in IdsOf(docs) && k in st.entries.vals && st.itemClass ==>
         FieldsAt(r.st.store, r.st.entries.vals[k]) == FieldsAt(st.store, st.entries.vals[k]) + upd.vals[k].fields) &&
      (forall k :: k in IdsOf(docs) && k !in st.entries.vals ==>
         FieldsAt(r.st.store, r.st.entries.vals[k]) == upd.vals[k].fields)
  {
    var s1 := acc.st.(sortList := sl, fieldsToSort := if sl.Some? then FieldsToSort(sl.value) else []);
    var acc1 := Acc(s1, acc.shouldSort || sl.Some?, acc.updated);
    assert Valid(s1) by {
      assert s1.entries == acc.st.entries && s1.shadow == acc.st.shadow && s1.store == acc.st.store;
    }
    var upd := Collect(EmptyMap(), docs);
    var r := Reconcile(acc1, s1.entries.keys, upd);
    var fin := AddPending(r.0, r.1.keys, r.1).st;
    var out := InitialOp(acc, docs, sl).st;
    assert out.entries == fin.entries && out.shadow == fin.shadow && out.store == fin.store;
    PassesOrder(acc1, docs);
    forall k | k in IdsOf(docs)
      ensures k in upd.vals && k in out.entries.vals && k in out.shadow.vals && out.shadow.vals[k] == upd.vals[k]
      ensures k in acc.st.entries.vals ==> FieldsAt(out.store, out.entries.vals[k]) == Took(acc.st, k, upd.vals[k])
      ensures k !in acc.st.entries.vals ==> FieldsAt(out.store, out.entries.vals[k]) == upd.vals[k].fields
    {
      PassesPayload(acc1, docs, k);
      if k in acc.st.entries.vals {
        assert Took(s1, k, upd.vals[k]) == Took(acc.st, k, upd.vals[k]);
      }
    }
  }
}

=== FILE: subscription_object.dfy ===
/** The record container (`SubscriptionObject`): an object whose own fields
    are replaced wholesale by each payload the publication sends. The
    previous payload is kept so that the next update can remove exactly its
    fields. */
module SubscriptionObjects {
  import opened Values

  /** The observable state: the object's own string-keyed fields and the
      last payload (`None` standing for `null`). */
  datatype State = State(fields: Record, shadow: Option<Record>)

  /** A new object, and one after `clear()`. */
  const Cleared := State(map[], None)

  /** The keys `for (key in prev)` visits: none for `null`. */
  function PayloadKeys(shadow: Option<Record>): (ks: set<string>)
    ensures shadow.None? ==> ks == {}
    ensures shadow.Some? ==> ks == shadow.value.Keys
  {
    if shadow.Some? then shadow.value.Keys else {}
  }

  /** `update(updates)`: a payload (any object, even an empty one, is truthy)
      replaces the previous payload's fields; `null` clears everything. */
  function Apply(st: State, batch: Option<Record>): State {
    match batch
    case None => Cleared
    case Some(u) => State(ReplaceFields(st.fields, PayloadKeys(st.shadow), u), Some(u))
  }

  /** The object holds exactly the fields of its last payload. */
  ghost predicate Mirrors(st: State) {
    st.fields == (if st.shadow.Some? then st.shadow.value else map[])
  }

  /** `getAsUpdates()`: a copy of the last payload, or `null`. */
  function UpdatesOf(st: State): (r: Option<Record>)
    ensures r.None? <==> st.shadow.None?
    ensures Mirrors(st) && r.Some? ==> r.value == st.fields
  {
    st.shadow
  }

  /** After any update of a mirroring object, it holds exactly the new
      payload: fields that the previous payload had and the new one lacks
      are gone. */
  lemma ApplyReplacesWholesale(st: State, batch: Option<Record>)
    requires Mirrors(st)
    ensures Mirrors(Apply(st, batch))
    ensures batch.Some? ==> Apply(st, batch).fields == batch.value
    ensures batch.None? ==> Apply(st, batch) == Cleared
  {
    if batch.Some? {
      ReplaceFieldsOfShadowed(st.fields, PayloadKeys(st.shadow), batch.value);
    }
  }

  /** A field the previous payload did not bring and the new one does not
      mention survives an update: only the previous payload's keys are
      deleted. */
  lemma ForeignFieldSurvives(st: State, u: Record, k: string)
    requires k in st.fields && k !in PayloadKeys(st.shadow) && k !in u
    ensures k in Apply(st, Some(u)).fields && Apply(st, Some(u)).fields[k] == st.fields[k]
  {
  }

  /** Applying the same payload twice leaves the object as applying it once. */
  lemma ApplyIdempotent(st: State, batch: Option<Record>)
    ensures Apply(Apply(st, batch), batch) == Apply(st, batch)
  {
    if batch.Some? {
      ReplaceFieldsIdempotent(st.fields, PayloadKeys(st.shadow), batch.value);
    }
  }

  /** Replaying `getAsUpdates()` into a new object reproduces the object. */
  lemma ReplayRestores(st: State)
    requires Mirrors(st)
    ensures Apply(Cleared, UpdatesOf(st)) == st
  {
  }

  /** An empty payload is not `null`: it empties the fields but the object
      stays loaded, so `getAsUpdates()` gives `{}` and `valueOf()` the
      object. */
  lemma EmptyPayloadStaysLoaded(st: State)
    ensures Apply(st, Some(map[])).shadow == Some(map[])
    ensures Mirrors(st) ==> Apply(st, Some(map[])).fields == map[]
  {
    if Mirrors(st) {
      ApplyReplacesWholesale(st, Some(map[]));
    }
  }

  /** One call of the update handler: `(object, object, payload-or-null)`,
      with the object's fields at the time of the call. */
  datatype HandlerCall = HandlerCall(fields: Record, arg: Option<Record>)

  class SubscriptionObject {
    var fields: Record
    var shadow: Option<Record>
    var hasHandler: bool
    ghost var calls: seq<HandlerCall>

    /** `SubscriptionObjectWithSubscription`: the subscription is a flag. */
    const withSubscription: bool
    var publicationName: string
    var params: seq<int>
    var subscribed: bool
    ghost var subscriptionsCreated: nat

    function Snapshot(): State reads this {
      State(fields, shadow)
    }

    /** `new SubscriptionObject(updates, onUpdate)`: the initial payload is
        applied only when it is given (a `null` one is skipped). */
    constructor (updates: Option<Record>, hasHandler: bool)
      ensures Mirrors(Snapshot()) && this.hasHandler == hasHandler && !withSubscription
      ensures Snapshot() == Apply(Cleared, updates)
      ensures calls == (if updates.Some? && hasHandler then [HandlerCall(updates.value, updates)] else [])
    {
      fields, shadow := map[], None;
      this.hasHandler := hasHandler;
      calls := [];
      withSubscription := false;
      publicationName, params, subscribed, subscriptionsCreated := "", [], false, 0;
      new;
      if updates.Some? {
        Update(updates);
        ApplyReplacesWholesale(Cleared, updates);
      }
    }

    /** `new SubscriptionObjectWithSubscription(publicationName, params,
        onUpdate, immediately)`. */
    constructor WithSubscription(publicationName: string, params: seq<int>, immediately: bool)
      ensures Snapshot() == Cleared && calls == [] && hasHandler && withSubscription
      ensures this.publicationName == publicationName && this.params == params
      ensures subscribed == immediately && subscriptionsCreated == (if immediately then 1 else 0)
    {
      fields, shadow := map[], None;
      hasHandler := true;
      calls := [];
      withSubscription := true;
      this.publicationName, this.params := publicationName, params;
      subscribed, subscriptionsCreated := false, 0;
      new;
      if immediately {
        Subscribe();
      }
    }

    /** `clear()`: every own field goes, and the payload is forgotten. */
    method Clear()
      modifies this
      ensures Snapshot() == Cleared
      ensures calls == old(calls) && hasHandler == old(hasHandler)
      ensures publicationName == old(publicationName) && params == old(params)
      ensures subscribed == old(subscribed) && subscriptionsCreated == old(subscriptionsCreated)
    {
      var keys := fields.Keys;
      while keys != {}
        invariant keys <= fields.Keys
        invariant fields.Keys == keys
        invariant calls == old(calls) && hasHandler == old(hasHandler)
        invariant publicationName == old(publicationName) && params == old(params)
        invariant subscribed == old(subscribed) && subscriptionsCreated == old(subscriptionsCreated)
        decreases keys
      {
        var k :| k in keys;
        fields := fields - {k};
        keys := keys - {k};
      }
      shadow := None;
    }

    /** `for (const key in prev) delete this[key]`. */
    method DeleteKeys(keys: set<string>)
      modifies this
      ensures fields == old(fields) - keys
      ensures shadow == old(shadow) && calls == old(calls) && hasHandler == old(hasHandler)
      ensures publicationName == old(publicationName) && params == old(params)
      ensures subscribed == old(subscribed) && subscriptionsCreated == old(subscriptionsCreated)
    {
      var left := keys;
      while left != {}
        invariant left <= keys
        invariant fields == old(fields) - (keys - left)
        invariant shadow == old(shadow) && calls == old(calls) && hasHandler == old(hasHandler)
        invariant publicationName == old(publicationName) && params == old(params)
        invariant subscribed == old(subscribed) && subscriptionsCreated == old(subscriptionsCreated)
        decreases left
      {
        var k :| k in left;
        fields := fields - {k};
        left := left - {k};
      }
    }

    /** `for (const key in updates) this[key] = updates[key]`. */
    method AssignFields(u: Record)
      modifies this
      ensures fields == old(fields) + u
      ensures shadow == old(shadow) && calls == old(calls) && hasHandler == old(hasHandler)
      ensures publicationName == old(publicationName) && params == old(params)
      ensures subscribed == old(subscribed) && subscriptionsCreated == old(subscriptionsCreated)
    {
      var left := u.Keys;
      while left != {}
        invariant left <= u.Keys
        invariant fields == old(fields) + map k | k in u.Keys - left :: u[k]
        invariant shadow == old(shadow) && calls == old(calls) && hasHandler == old(hasHandler)
        invariant publicationName == old(publicationName) && params == old(params)
        invariant subscribed == old(subscribed) && subscriptionsCreated == old(subscriptionsCreated)
        decreases left
      {
        var k :| k in left;
        fields := fields[k := u[k]];
        left := left - {k};
      }
      assert (map k | k in u.Keys - {} :: u[k]) == u;
    }

    /** `update(updates)`: delete the previous payload's keys, copy the new
        payload's fields in, remember it, then call the handler. */
    method Update(batch: Option<Record>)
      modifies this
      ensures Snapshot() == Apply(old(Snapshot()), batch)
      ensures calls == old(calls) + (if hasHandler then [HandlerCall(fields, shadow)] else [])
      ensures old(Mirrors(Snapshot())) ==> Mirrors(Snapshot())
      ensures hasHandler == old(hasHandler) && publicationName == old(publicationName) && params == old(params)
      ensures subscribed == old(subscribed) && subscriptionsCreated == old(subscriptionsCreated)
    {
      ghost var st0 := Snapshot();
      if batch.Some? {
        var u := batch.value;
        DeleteKeys(PayloadKeys(shadow));
        AssignFields(u);
        shadow := Some(u);
      } else {
        Clear();
      }
      if hasHandler {
        calls := calls + [HandlerCall(fields, shadow)];
      }
      if Mirrors(st0) {
        ApplyReplacesWholesale(st0, batch);
      }
    }

    /** `getAsUpdates()`. */
    function GetAsUpdates(): (r: Option<Record>)
      reads this
      ensures r.None? <==> shadow.None?
      ensures Mirrors(Snapshot()) && r.Some? ==> r.value == fields
    {
      UpdatesOf(Snapshot())
    }

    /** `valueOf()`, which `getAsInitialUpdated()` returns: the object itself
        once a payload arrived, `null` before. */
    function ValueOf(): (r: SubscriptionObject?)
      reads this
      ensures r == null <==> shadow.None?
      ensures r != null ==> r == this
    {
      if shadow.Some? then this else null
    }

    /** `subscribe()`: creates a subscription only when there is none. */
    method Subscribe()
      requires withSubscription
      modifies this
      ensures subscribed
      ensures subscriptionsCreated == old(subscriptionsCreated) + (if old(subscribed) then 0 else 1)
      ensures Snapshot() == old(Snapshot()) && calls == old(calls) && hasHandler == old(hasHandler)
      ensures publicationName == old(publicationName) && params == old(params)
    {
      if !subscribed {
        subscribed := true;
        subscriptionsCreated := subscriptionsCreated + 1;
      }
    }

    /** `unsubscribe()`: cancels the subscription if there is one. */
    method Unsubscribe()
      requires withSubscription
      modifies this
      ensures !subscribed
      ensures subscriptionsCreated == old(subscriptionsCreated)
      ensures Snapshot() == old(Snapshot()) && calls == old(calls) && hasHandler == old(hasHandler)
      ensures publicationName == old(publicationName) && params == old(params)
    {
      subscribed := false;
    }

    /** `renew(publicationName?, params?)`: only while subscribed, resubscribe
        with the new name and parameters; an array as first argument is taken
        as the parameters, and an empty name is ignored. */
    method Renew(first: RenewArg, newParams: Option<seq<int>>)
      requires withSubscription
      modifies this
      ensures subscribed == old(subscribed)
      ensures !old(subscribed) ==> publicationName == old(publicationName) && params == old(params) &&
                                   subscriptionsCreated == old(subscriptionsCreated)
      ensures old(subscribed) ==>
        subscriptionsCreated == old(subscriptionsCreated) + 1 &&
        publicationName == (if first.NameArg? && first.name != "" then first.name else old(publicationName)) &&
        params == (if first.ParamsArg? then first.params else if newParams.Some? then newParams.value else old(params))
      ensures Snapshot() == old(Snapshot()) && calls == old(calls) && hasHandler == old(hasHandler)
    {
      if subscribed {
        Unsubscribe();
        var p := newParams;
        match first {
          case NameArg(n) =>
            if n != "" {
              publicationName := n;
            }
          case ParamsArg(ps) =>
            p := Some(ps);
          case NoArg =>
        }
        if p.Some? {
          params := p.value;
        }
        Subscribe();
      }
    }
  }
}

=== FILE: values.dfy ===
/** Shared vocabulary of the client: optional values, the two builds of the
    library, the third argument handed to update handlers, records, and the
    insertion-ordered dictionary that JavaScript's `Map` is. */
module Values {

  datatype Option<T> = None | Some(value: T)

  /** The TypeScript sources (`src/`) and the JavaScript build of the same
      classes shipped in `lib/`, which differs from them in a few places. */
  datatype Variant = Src | Lib

  /** What a container hands its update handler as the third argument: the
      batch itself, or one of JavaScript's two falsy "nothing" values. */
  datatype Marker<Op> = Passed(ops: seq<Op>) | JsNull | JsUndefined {
    predicate Truthy() { Passed? }
  }

  /** The handler's third argument: the batch when its first entry is
      truthy (`updates?.[0] ? updates : null` in the sources), otherwise
      `null`; the JavaScript build writes `updates?.[0] && updates`, which
      gives `undefined` for a missing or empty batch. `nullOp` is the
      operation standing for a `null` entry. */
  function HandlerArg<Op(==)>(batch: Option<seq<Op>>, nullOp: Op, v: Variant): (m: Marker<Op>)
    ensures m.Truthy() <==> batch.Some? && |batch.value| > 0 && batch.value[0] != nullOp
    ensures m.Truthy() ==> m == Passed(batch.value)
    ensures v == Src && !m.Truthy() ==> m == JsNull
    ensures v == Lib && (batch.None? || batch.value == []) ==> m == JsUndefined
    ensures batch.Some? && |batch.value| > 0 && batch.value[0] == nullOp ==> m == JsNull
  {
    match batch
    case None => if v == Src then JsNull else JsUndefined
    case Some(ops) =>
      if ops == [] then (if v == Src then JsNull else JsUndefined)
      else if ops[0] == nullOp then JsNull
      else Passed(ops)
  }

  /** A field value; the client only ever compares and copies them. */
  type Val = int

  /** The enumerable string-keyed fields of a plain object. */
  type Record = map<string, Val>

  /** `for (key in prev) delete obj[key]; Object.assign(obj, next)`: the
      fields of `obj` afterwards. */
  function ReplaceFields(fields: Record, prevKeys: set<string>, next: Record): (r: Record)
    ensures r.Keys == (fields.Keys - prevKeys) + next.Keys
    ensures forall k :: k in next ==> r[k] == next[k]
  {
    (fields - prevKeys) + next
  }

  /** Replacing twice with the same payload leaves what replacing once left. */
  lemma ReplaceFieldsIdempotent(fields: Record, prevKeys: set<string>, next: Record)
    ensures ReplaceFields(ReplaceFields(fields, prevKeys, next), next.Keys, next)
         == ReplaceFields(fields, prevKeys, next)
  {
    var once := ReplaceFields(fields, prevKeys, next);
    var twice := ReplaceFields(once, next.Keys, next);
    assert twice.Keys == once.Keys;
    forall k | k in twice ensures twice[k] == once[k] {
      if k !in next {
        assert k in fields && k !in prevKeys;
      }
    }
  }

  /** When every field present came from the previous payload, a replace
      leaves exactly the new payload. */
  lemma ReplaceFieldsOfShadowed(fields: Record, prevKeys: set<string>, next: Record)
    requires fields.Keys <= prevKeys
    ensures ReplaceFields(fields, prevKeys, next) == next
  {
    assert (fields - prevKeys) == map[];
  }

  /** The first argument of a container's `renew`: absent, a publication
      name, or an array, which `renew` takes as the parameters. Parameters
      are modelled as integers. */
  datatype RenewArg = NoArg | NameArg(name: string) | ParamsArg(params: seq<int>)

  predicate NoDuplicates<T(==)>(s: seq<T>) {
    forall i, j :: 0 <= i < j < |s| ==> s[i] != s[j]
  }

  /** A JavaScript `Map` keyed by strings: its keys in insertion order and
      the value stored under each. */
  datatype JsMap<V> = JsMap(keys: seq<string>, vals: map<string, V>) {

    ghost predicate Valid() {
      NoDuplicates(keys) && (forall k :: k in vals <==> k in keys)
    }

    function Size(): nat { |keys| }

    /** `map.set(k, v)`: an existing key keeps its place, a new one goes last. */
    function Set(k: string, v: V): (r: JsMap<V>)
      ensures Valid() ==> r.Valid()
      ensures r.vals == vals[k := v]
      ensures k in vals ==> r.keys == keys
      ensures k !in vals ==> r.keys == keys + [k]
    {
      if k in vals then JsMap(keys, vals[k := v]) else JsMap(keys + [k], vals[k := v])
    }

    /** `map.delete(k)`: the key leaves both the order and the contents. */
    function Delete(k: string): (r: JsMap<V>)
      ensures Valid() ==> r.Valid()
      ensures r.vals == vals - {k}
      ensures Valid() ==> forall x :: x in r.keys <==> x in keys && x != k
      ensures Valid() && k !in vals ==> r == this
    {
      if k in keys then
        var i := IndexOf(keys, k);
        JsMap(keys[..i] + keys[i + 1..], vals - {k})
      else JsMap(keys, vals - {k})
    }

    /** `[...map.values()]`. */
    function Values(): (r: seq<V>)
      ensures Valid() ==> |r| == |keys| && forall i :: 0 <= i < |keys| ==> r[i] == vals[keys[i]]
    {
      ValuesOf(keys, vals)
    }
  }

  /** Deleting a key that sits between `before` and `after` closes the gap. */
  lemma DeleteBetween<V>(m: JsMap<V>, before: seq<string>, k: string, after: seq<string>)
    requires m.Valid() && m.keys == before + [k] + after
    ensures m.Delete(k).keys == before + after
  {
    assert m.keys[|before|] == k;
    var i := IndexOf(m.keys, k);
    assert i == |before|;
    assert m.keys[..i] == before && m.keys[i + 1..] == after;
  }

  /** The values stored under `ks`, in that order. */
  function ValuesOf<V>(ks: seq<string>, vals: map<string, V>): (r: seq<V>)
    ensures (forall k :: k in ks ==> k in vals) ==> |r| == |ks| && forall i :: 0 <= i < |ks| ==> r[i] == vals[ks[i]]
  {
    if ks == [] then []
    else if ks[0] in vals then [vals[ks[0]]] + ValuesOf(ks[1..], vals)
    else ValuesOf(ks[1..], vals)
  }

  function EmptyMap<V>(): (r: JsMap<V>)
    ensures r.Valid() && r.keys == [] && r.vals == map[]
  {
    JsMap([], map[])
  }

  function IndexOf<T(==)>(s: seq<T>, x: T): (i: nat)
    requires x in s
    ensures i < |s| && s[i] == x
    ensures forall j :: 0 <= j < i ==> s[j] != x
  {
    if s[0] == x then 0 else 1 + IndexOf(s[1..], x)
  }

  /** `removeOne(array, x)`: drop the first element equal to `x`, if any. */
  function RemoveOne<T(==)>(s: seq<T>, x: T): (r: seq<T>)
    ensures x in s ==> |r| == |s| - 1 && multiset(r) == multiset(s) - multiset{x}
    ensures x !in s ==> r == s
  {
    if x in s then
      var i := IndexOf(s, x);
      assert s == s[..i] + [x] + s[i + 1..];
      s[..i] + s[i + 1..]
    else s
  }

  lemma SeqAssoc<T>(a: seq<T>, b: seq<T>, c: seq<T>)
    ensures (a + b) + c == a + (b + c)
  {
  }
}
